=== FILE: README.md ===
# carrytome in Dafny

A model of the record keeping and text rules of carrytome, a Persian
web app that runs as a Telegram Mini App. Senders register cargo, and
travelers offer room on their flights. Every operation below is a pure
function. Browser storage is an abstract map from keys to stored text or
already-decoded values. The clock, fresh UUIDs, `JSON.parse`, user choices
(confirm answers, file pickers) and network answers are all parameters.

What is modelled, by module:

- **Wrappers, Text, Js, Lists, Numbers**: shared ground.
  - JavaScript values and objects, with `||`, `??`, `===` and loose `==`
    (section 7.2.14 of ECMA-262).
  - `trim` over the ECMAScript white-space set, and ASCII `toLowerCase`.
  - `indexOf`, `split`, and number-to-text.
  - A stable insertion sort, `filter`, `find` and `findIndex`.
  - Digit runs.
- **Cart**: the stored order list under `my_orders`.
  - Adding a duplicate route and date is refused.
  - Remove by id, shallow-merge update by id, clear.
  - Change events fire only on success.
- **OrderStore**: the mapping between cart records and display orders
  (`date`/`dateISO`, `status`/`statusText`, defaults). Also the lookup by
  id and adding a cargo order from a card.
- **TravelerListings**: the prepend-ordered listing store, where a new
  listing replaces one with the same route, date and time.
- **Airport**: airport-code extraction.
- **Trips**: the trip store (upsert by id, remove, add, status update, clear).
- **MyOrders**: the "my orders" view. Enrichment, the type filter and the
  search, the date sort, the order-card click.
- **RegisteredFlight and RegisteredCargo**:
  - the filter tabs;
  - marking an item as submitted from the saved trips;
  - the "submit once" toggles, which save a trip and add an order;
  - the click-handler guard.
- **FlightOrder**: the flight-order page's lookup (a trip before a cart
  order), `parseNumber` and the category keywords.
- **FlightSummary and OrderReview**:
  - the flight-card scraper, written over the card's texts;
  - the "accept" click and its routing on the identity check;
  - the review page's `textOrNull`/`setText`/`safeParseJson` and its
    flight-number precedence.
- **FlightFilter**: card price and category, the visibility predicate,
  reset, and the init guard.
- **RouteForm**: the route forms of the shared component and of the
  traveler and cargo pages.
  - Validation (all three copies), swap and popular routes.
  - Suggestion filling.
  - Save and load with session storage read before local storage.
  - The current route and clearing it.
- **CargoCategories and Sliders**: the category selection sets, the
  continue label, the search, the clamped stepper, and saving and loading
  the selection.
- **OrderSubmission**: the order form. Validation, order construction,
  type selection, the extra details, and the current date.
- **KycStatus, Kyc, KycFlow**: the identity check.
  - The legacy-key scan and the registration flag.
  - The document state machine, with the delayed completion as a second
    explicit step.
  - The document page's progress and submit gate.
  - The flight-ticket form.
  - Routing after a successful check.
- **TelegramUpload**: the browser upload client. Argument checks, the
  upload address, `initData` precedence, and reading the answer.
- **Server**: the upload relay.
  - The Telegram Mini App init-data check: the data-check string of
    "Validating data received via the Mini App" in the Telegram Bot API
    documentation. The HMAC itself is a parameter.
  - The choice between `sendPhoto` and `sendDocument`.
  - The order of the handler's status codes.

## Model

| member | source | states |
|---|---|---|
| KycStatus.Scan | js/utils/kyc-status.js:11-24 | the scan is true exactly when some key in the list holds `true`, `1` or `verified` in any letter case |
| KycStatus.IsRegistered | js/utils/kyc-status.js:3-24 | a storage error reads as not registered; otherwise registered exactly when one of the five keys (the current one and four older ones) holds a recognised value |
| KycStatus.SetRegistered | js/utils/kyc-status.js:26-32 | writes `"true"`/`"false"` under the current key only; a storage error leaves storage unchanged; every other key is left alone |
| KycStatus.SetThenIs | js/utils/kyc-status.js:11-32 | setting to true makes the traveler registered; setting to false leaves the traveler registered exactly when a legacy key still says so |
| KycStatus.LegacyKeyOutlivesReset | js/utils/kyc-status.js:3-32 | a concrete store with `kyc_verified = VERIFIED` still reads as registered after `setTravelerKycRegistered(false)` |
| Cart.GetOrders | js/components/cart.js:5-14 | a stored non-array JSON value is the error case; a stored array is returned as is; a missing, unparsable or falsy entry gives the empty cart |
| Cart.Stamp | js/components/cart.js:32-36 | the stored order keeps every field except `id` and `createdAt`; `id` is the order's own id when truthy, else the clock; `createdAt` is the ISO time |
| Cart.AddOrder | js/components/cart.js:28-59 | throws exactly on a non-array entry; returns `null` exactly when an order with the same from/to/date (`===`) is already stored; otherwise appends the stamped order, returns it and fires both update events; every non-adding path leaves storage as it was and fires nothing |
| Cart.RemoveOrder | js/components/cart.js:63-76 | returns true exactly when some stored order has the id; then no order with that id remains, every other order is kept, nothing is added, and both events fire; otherwise storage is untouched |
| Cart.UpdateOrder | js/components/cart.js:79-93 | returns true exactly when some stored order has the id; then the first such order (and only it) is merged with the updates and both events fire; otherwise storage is untouched |
| Cart.ClearCart | js/components/cart.js:96-101 | afterwards the cart reads as empty and both update events fire |
| Cart.AddKeepsNoDuplicates | js/components/cart.js:39-47 | if no two stored orders share a trip, none do after `addOrder` |
| Cart.AddTwiceStoresOnce | js/components/cart.js:39-47 | adding the same order again returns `null`, changes nothing and fires nothing |
| Cart.RemoveTwiceIsNoOp | js/components/cart.js:63-76 | a second removal of the same id returns false (or throws again) and leaves storage as the first left it |
| Cart.AddThenRemove | js/components/cart.js:28-76 | adding a new order with a fresh truthy id and then removing that id restores the cart that was there |
| Cart.RemoveFromItems | js/components/cart.js:63-76 | on a stored array, removal is the filter of orders without the id, reported true exactly when the filter dropped something |
| Cart.UpdateCanDuplicateTrips | js/components/cart.js:79-93 | a concrete cart without duplicate trips gets one through `updateOrder`, which has no duplicate check |
| Trips.LoadTrips | js/utils/storage.js:1-10 | a stored array is returned as is; a stored falsy or other non-array value is the error case for callers; a missing, unparsable or `null` entry gives the empty list |
| Trips.SaveTrips | js/utils/storage.js:13-22 | the saved list is what a later load returns, and the call reports success |
| Trips.NewTrip | js/utils/storage.js:40-44 | a new trip keeps every field except `id` and `createdAt`; `id` is its own when truthy, else the fresh UUID |
| Trips.SaveTrip | js/utils/storage.js:25-49 | an array replaces the whole list; a single trip is merged into the first stored trip with the same id (`===`) or else appended with id and timestamp; a list that is not an array throws and leaves storage as it was |
| Trips.RemoveTrip | js/utils/storage.js:52-65 | returns true exactly when some trip has the id; then the saved list is exactly the trips without that id, in their order, and is shorter; otherwise storage is untouched; a stored non-array throws |
| Trips.SubmittedTrip | js/utils/storage.js:71-77 | the added trip keeps the caller's fields and gets `status: submitted`, a `createdAt` and a `submittedDate` from two separate clock reads, and the caller's truthy id or the clock |
| Trips.AddTrip | js/utils/storage.js:68-84 | appends the submitted trip and returns it; throws, leaving storage unchanged, when the stored list is not an array |
| Trips.UpdateTripStatus | js/utils/storage.js:87-100 | returns true exactly when some trip has the id; then the first such trip alone gets the status and `updatedAt`, its other fields and every other trip unchanged; otherwise storage is untouched |
| Trips.ClearTrips | js/utils/storage.js:103-106 | afterwards the list reads as empty |
| Trips.SaveTripThenFind | js/utils/storage.js:25-49 | after saving a trip with a truthy id, a lookup by that id finds a trip carrying every field of the saved one (apart from `createdAt`) |
| Trips.SaveTripIdempotent | js/utils/storage.js:25-49 | saving the same trip (truthy id, no `createdAt`) a second time leaves storage as the first save left it |
| Trips.AddTripTwiceAppendsTwice | js/utils/storage.js:68-84 | `addTrip` has no duplicate check: adding the same trip twice lengthens the list by two |
| Trips.AddTripThenRemove | js/utils/storage.js:52-84 | removing a trip just added, by its stored id, succeeds and gives back the earlier trips when none of them had that id |
| OrderStore.ToDisplay | js/utils/order-store.js:7-22 | a display order has exactly the nine display properties; id, type, status colour, origin and destination are the stored values or their defaults (the clock, `sender`, `amber`, Tehran IKA, Dubai DXB), and the type is always truthy; date and status come from the stored `date`/`status` or their defaults; the action is the sender action exactly when the type is not `carrier`; the details always carry an item, the stored details' own item winning over the top-level one |
| OrderStore.ToCart | js/utils/order-store.js:41-51 | the stored order has only the nine stored properties; `dateISO`/`statusText` become `date`/`status` with defaults; id and type fall back to the clock and `sender`, status colour to `amber`, details to `{}`; route copied as is; the item comes from the details or the default |
| OrderStore.GetDynamicOrders | js/utils/order-store.js:25-34 | one display order per stored order, in order, each the display form of its stored order; `[]` when the stored value is not a list |
| OrderStore.AddDynamicOrder | js/utils/order-store.js:37-61 | throws exactly when the cart does; returns `null` exactly when a stored order has the same route and date as the converted order; otherwise the stored record (only stored properties plus `createdAt`) is appended |
| OrderStore.InitializeOrdersStore | js/utils/order-store.js:64-74 | a stored array is returned as is; a stored truthy non-array is handed on unchanged; anything else gives `[]` |
| OrderStore.DisplayMatchesStore | js/utils/order-store.js:25-74 | when the store holds a list, the page's list and the store's list correspond element by element through the display mapping; when it holds a non-array, the store hands it on while the page shows nothing |
| OrderStore.GetOrderById | js/utils/order-store.js:77-80 | throws exactly on a non-array entry; a found order is the first stored order whose id is loosely equal (`==`) to the one asked for; not found means no stored id is loosely equal |
| OrderStore.CargoOrder | js/utils/order-store.js:83-109 | the card's order is a `cargo` order dated today with the default status; route and item come from the card's texts, each falling back to its default when missing or empty |
| OrderStore.AddCargoFromCard | js/utils/order-store.js:83-117 | no card does nothing; otherwise the order goes to the cart, which throws exactly on a non-array entry, and a refused duplicate leaves storage alone |
| OrderStore.CargoCart | js/utils/order-store.js:41-51 | the stored form of a card's order has type `cargo`, today's date, the clock as id, and the card's route and item (also lines 101-109) |
| OrderStore.CargoFromCardStored | js/utils/order-store.js:83-117 | a card that is added ends up last in the cart as a `cargo` order dated today with the card's route and item; the date shown on the card is not what is stored |
| OrderStore.CargoFromCardTwice | js/utils/order-store.js:83-117 | the same card added twice (at different clock times) is stored once: the second call returns `null` and changes nothing |
| OrderStore.ToCartOfComplete | js/utils/order-store.js:41-51 | a display order whose identifying properties are all truthy keeps each of them, under the stored names |
| OrderStore.ToCartKeepsId | js/utils/order-store.js:42-45 | a truthy id and the route pass into the stored order unchanged |
| OrderStore.ToDisplayOfTruthy | js/utils/order-store.js:7-22 | a stored order whose properties are all truthy is displayed with those same values, under the display names |
| OrderStore.DisplayRoundTrip | js/utils/order-store.js:7-61 | adding a complete display order and reading the list back shows it last, with the same id, type, route, date, status and colour, and the carrier action exactly for a carrier |
| OrderStore.LastShown | js/utils/order-store.js:25-61 | after an add, the last displayed order is the display form of the stamped stored form of the added order |
| OrderStore.StampedDisplay | js/utils/order-store.js:7-51 | for a complete order, going to stored form, stamping and back to display form gives back each identifying property |
| OrderStore.FindAddedById | js/utils/order-store.js:37-80 | an order added with a positive whole-number id is found by `getOrderById` with the decimal text of that id, as it arrives from a link |
| Cart.AddSameTripStoresOnce | js/components/cart.js:39-47 | a second order with the same route and date as one just added is refused, whatever its other fields, and nothing changes |
| OrderSubmission.DetailValue | js/utils/order-submission.js:219 | an element's detail is its non-empty value, else its non-empty text, else its `data-value` attribute |
| OrderSubmission.CollectOtherDetails | js/utils/order-submission.js:214-224 | every collected detail has a non-empty key and a non-empty value |
| OrderSubmission.CollectOtherDetailsLastWins | js/utils/order-submission.js:214-224 | a key is collected exactly when some element with a non-empty key and value has it, and its value is that of the last such element |
| OrderSubmission.SelectedType | js/utils/order-submission.js:195-212 | a checked carrier radio wins, then a checked sender radio; otherwise the active tab's lower-cased text decides `carrier` exactly when it contains `رسانا` or `carrier`; the default is `sender` |
| OrderSubmission.Pad2 | js/utils/order-submission.js:229-230 | a number below 100 is written as exactly two digits that read back as the number |
| OrderSubmission.CurrentDate | js/utils/order-submission.js:226-232 | the date text is the year, a dash, two digits, a dash and two digits |
| OrderSubmission.CurrentDateRoundTrip | js/utils/order-submission.js:226-232 | reading the three digit groups of the date text back gives the year, the one-based month and the day |
| OrderSubmission.NewDetails | js/utils/order-submission.js:107-113 | the details hold weight, value, description and flight number with their defaults, and every collected detail, which overrides a default of the same name |
| OrderSubmission.NewOrder | js/utils/order-submission.js:98-115 | the new order has exactly the ten listed properties; id and `createdAt` come from the clock; each form field falls back to its default when empty; status is pending in amber |
| OrderSubmission.Submit | js/utils/order-submission.js:69-155 | a missing origin or destination warns and stores nothing; a non-array cart entry fails with the error notice; otherwise the order goes through `addOrder` and the success notice names the route and the page redirects, even when `addOrder` refused a duplicate |
| OrderSubmission.SubmitTwice | js/utils/order-submission.js:98-131 | submitting the same form twice stores one order, the second submit changes nothing and fires no event, and both show the success notice |
| OrderSubmission.StampedSameTrip | js/utils/order-submission.js:98-115 | the stored record of one submit has the same route and date as the order built by a later submit of the same form |
| OrderSubmission.InitOrderSubmission | js/utils/order-submission.js:8-66 | a second call does nothing; a first call counts as initialised exactly when the submit button is on the page; handlers are set up at most once per call |
| OrderSubmission.OrText | js/utils/order-submission.js:100-111 | a filled form field is kept; an empty or missing one gives the default |
| TravelerListings.ToObject | js/utils/traveler-listings.js:35-50 | the stored listing object carries the normalized route codes, date and time under their own names |
| TravelerListings.GetTravelerListings | js/utils/traveler-listings.js:3-12 | a stored array is returned as is; a missing, unparsable, `null` or non-array entry gives `[]` (also lines 26-29) |
| TravelerListings.CodeFor | js/utils/traveler-listings.js:40-41 | a truthy explicit code wins; otherwise the code extracted from the place text, or `''` |
| TravelerListings.Normalize | js/utils/traveler-listings.js:33-50 | the id is the listing's truthy id or the fresh UUID; each code is the explicit one or the extracted one and is either truthy or `''`; date and time are truthy or `null`; origin, destination, capacity label and image keep a truthy given value and otherwise take `''`, `''`, the default label and the default image; rating, completed deliveries and the verified flag keep any value that is not `null`/`undefined` and otherwise take the default rating, 0 and `true` |
| TravelerListings.DedupeKeyOfNormalized | js/utils/traveler-listings.js:52-55 | the duplicate key of a new listing equals the key its stored object gets, and does not depend on the UUID or the clock |
| TravelerListings.AddTravelerListing | js/utils/traveler-listings.js:31-62 | returns the normalized listing, which is stored first; the rest of the list is exactly the earlier listings with a different key, in their order; the list shrinks by exactly the number of same-key listings, plus one; the update event fires |
| TravelerListings.CountComplement | js/utils/traveler-listings.js:53-56 | a list splits into the listings with the key and those without it |
| TravelerListings.RepublishReplaces | js/utils/traveler-listings.js:31-62 | publishing the same listing again puts the new copy first in place of the old one and leaves the rest of the list as it was |
| TravelerListings.DefaultsKeepFalsy | js/utils/traveler-listings.js:45-49 | `??` keeps a rating or delivery count of 0 and `verified: false`, while `||` replaces an empty capacity label or image with its default |
| Airport.FirstMatch | js/utils/traveler-listings.js:20-22 | the match found is the leftmost one at or after the start; no match means none anywhere after the start |
| Airport.FindCode | js/utils/traveler-listings.js:18-24 | a code is three ASCII capitals; the leftmost parenthesised code wins; without one, the leftmost three-capital word (bounded by non-word characters, per `\b`) is taken; nothing is found exactly when neither form occurs |
| Airport.ExtractOrNull | js/utils/traveler-listings.js:18-24 | a value that is not a string gives `null`; a string gives what the code search finds |
| Airport.ExtractOrEmpty | js/utils/traveler-listings.js:40-41 | `''` exactly when no code is found, else the code |
| Airport.LabelCode | js/pages/flight-order.js:5-11 | a label `name (XYZ)` whose name has no parenthesis yields the code `XYZ` |
| Airport.BareCode | js/utils/traveler-listings.js:22-23 | a bare three-capital text is its own code |
| Airport.NoCodeInLongWord | js/utils/traveler-listings.js:22-23 | four capitals in a row are not a code, since `\b` must bound the three |
| FlightOrder.ParseNumber | js/pages/flight-order.js:13-18 | a number is returned as is; a value that is neither number nor string gives 0; a string gives a non-negative amount, and an all-digit string gives its decimal value |
| FlightOrder.DigitsRun | js/pages/flight-order.js:16-17 | the first run of digits and dots reads as a non-negative number, 0 when it is not a numeral; an all-digit run reads as its decimal value |
| FlightOrder.NoDigitsIsZero | js/pages/flight-order.js:16-17 | a text without any ASCII digit parses to 0 |
| FlightOrder.OnlyDotsNotNumeral | js/pages/flight-order.js:17 | a run of dots alone is not a numeral, so `Number(...) \|\| 0` gives 0 |
| FlightOrder.ParseNumberOfText | js/pages/flight-order.js:13-18 | parsing the decimal text of a whole number gives the number back |
| FlightOrder.ParseNumberIgnoresCommas | js/pages/flight-order.js:16 | a comma anywhere in the text does not change the parsed amount |
| FlightOrder.CategoryOf | js/pages/flight-order.js:139-144 | the category is electronics, documents or watch when the lower-cased cargo text contains the respective word, checked in that order, and other otherwise |
| FlightOrder.CategoryIgnoresCase | js/pages/flight-order.js:139-144 | lower-casing the cargo text first does not change its category |
| FlightOrder.CodeOrText | js/pages/flight-order.js:41-42 | the extracted airport code when there is one, else the text itself |
| FlightOrder.OrderCard | js/pages/flight-order.js:41-55 | the card built from a cart order keeps its id, shows codes (or the raw text) for the route, the first truthy date and cargo text, the weight parsed from a truthy `details.weight` and 0 without one, and the reward parsed from `value`, else `price`, else 0 |
| FlightOrder.Lookup | js/pages/flight-order.js:28-61 | no flight id shows nothing; a saved trip whose id or submitted id is loosely equal wins; failing that, the first cart order with a loosely equal id is shown as a card; failing that, nothing; a non-array entry read on the way throws |
| FlightOrder.TripShadowsOrder | js/pages/flight-order.js:33-37 | when a saved trip matches the id, the page shows a saved trip and never a cart order |
| FlightOrder.OrderCardCodes | js/pages/flight-order.js:41-54 | an order whose route reads `City (XYZ)` and whose value is a whole number is shown with the two codes and that reward, whatever its price |
| FlightOrder.CardOfLabels | js/pages/flight-order.js:41-44 | when codes are found in both route texts and the value is a non-empty text, the card shows the codes and the parsed value |
| FlightSummary.Codes | js/utils/flight-order-submission.js:12 | every match is three ASCII capitals, and there is a match exactly when the text has three capitals in a row |
| FlightSummary.CodesFrom | js/utils/flight-order-submission.js:12 | the global match list starts with the leftmost three capitals and goes on after them, without overlap |
| FlightSummary.Nth | js/utils/flight-order-submission.js:13-14 | `codes[n] \|\| null` for codes that are never empty: the n-th code when there is one |
| FlightSummary.CityParts | js/utils/flight-order-submission.js:17 | every part is non-empty and already trimmed; a route line without the separator gives at most one part |
| FlightSummary.Cities | js/utils/flight-order-submission.js:17-19 | cities are given exactly when there are at least two parts, both non-empty and trimmed, and never for a line without the separator |
| FlightSummary.CitiesOfTwo | js/utils/flight-order-submission.js:16-19 | a line with two non-blank places around a single separator gives those places, trimmed, as origin and destination city |
| FlightSummary.DateText | js/utils/flight-order-submission.js:21-24 | a badge gives a trimmed date text, which is the trimmed badge text when the icon name is not in it; no badge gives `null` |
| FlightSummary.Currency | js/utils/flight-order-submission.js:28 | `OMR` when the reward text contains it, else its first three-capital match, else `null`; a currency is always three capitals |
| FlightSummary.Extract | js/utils/flight-order-submission.js:7-43 | no card gives `null`; otherwise origin and destination codes are the first two matches in the heading, the cities come from the route line when it has two parts, the reward amount is the first run of digits, dots and commas, type, time and baggage are `null`, and an empty route line is `null` |
| FlightSummary.CodesAfterGap | js/utils/flight-order-submission.js:12 | text without capitals followed by a code has that code as its only match |
| FlightSummary.HeadingCodes | js/utils/flight-order-submission.js:12-14 | a heading `XYZ → ABC` with no other capitals between yields exactly the two codes, in order |
| FlightSummary.JsonText | js/utils/flight-order-submission.js:30-42 | a missing text is written as JSON `null`, a present one as a string |
| FlightSummary.ToObject | js/utils/flight-order-submission.js:30-42 | the stored summary is an object with no `flightNumber` property |
| FlightSummary.FieldOf | js/utils/flight-order-submission.js:30-42 | each property name reads the summary field of that name |
| FlightSummary.ToObjectField | js/utils/flight-order-submission.js:30-42 | every displayed property of the stored summary object is the JSON form of the summary's field |
| FlightSummary.TargetRoute | js/utils/flight-order-submission.js:64 | the click goes to the order review exactly when the traveler is registered, else to the greeting |
| FlightSummary.AcceptClick | js/utils/flight-order-submission.js:45-67 | a click without a flight id does nothing; otherwise the route follows the identity check status; unless storage fails, the session gets the flight id and, when the card is found, the summary text; other session entries are kept |
| FlightSummary.AcceptThenReview | js/utils/flight-order-submission.js:45-67 | after accepting a card, the review page shows every summary field of that card that is a non-blank text, trimmed, and keeps the placeholder for the others |
| FlightSummary.StoredSummary | js/pages/order-review-flow.js:23-31 | a stored summary that parses back to its object is what the review page reads |
| FlightSummary.ReviewShowsCodes | js/utils/flight-order-submission.js:12-13 | after accepting a card whose heading has a code, the review page shows its first code as the origin |
| FlightSummary.CodeTrimmed | js/utils/flight-order-submission.js:12 | a three-capital code is unchanged by trimming |
| FlightSummary.UnregisteredReachesReviewAfterChecks | js/utils/flight-order-submission.js:57-64 | an unregistered traveler is sent to the greeting, and the flight id stored on the way sends the finished identity check on to the order review |
| OrderReview.TextOrNull | js/pages/order-review-flow.js:1-5 | a text is returned exactly for a string that is not blank, and it is the trimmed string |
| OrderReview.TextOrNullIdempotent | js/pages/order-review-flow.js:1-5 | a text returned is non-empty and passes through again unchanged |
| OrderReview.SetText | js/pages/order-review-flow.js:7-12 | only the named element can change; a missing element or a value with no text leaves it; otherwise it shows the trimmed text |
| OrderReview.SafeParseJson | js/pages/order-review-flow.js:14-21 | a missing or blank text gives `null`; otherwise the parsed value, or `null` when parsing throws |
| OrderReview.Field | js/pages/order-review-flow.js:47-60 | a property is read exactly from an object that has it |
| OrderReview.SelectedSummary | js/pages/order-review-flow.js:23-31 | the summary is `null` or truthy; a storage error or a missing entry gives `null` |
| OrderReview.SelectedFlightNumber | js/pages/order-review-flow.js:33-39 | a flight number is read exactly when storage works and the entry is not blank, and it is the trimmed entry |
| OrderReview.SetAll | js/pages/order-review-flow.js:47-60 | a run of updates keeps the set of elements and leaves every element no update names as it was |
| OrderReview.SetAllEach | js/pages/order-review-flow.js:47-60 | with distinct element ids, each element ends up as its own update alone would leave it, so the order of the updates does not matter |
| OrderReview.Updates | js/pages/order-review-flow.js:47-60 | the eleven updates name the page's elements in order; each reads the summary property of its name, except the flight number, where a session value comes first |
| OrderReview.InitPage | js/pages/order-review-flow.js:41-61 | no page changes nothing; the page's elements are neither added nor removed |
| OrderReview.FlightNumberIndex | js/pages/order-review-flow.js:56-57 | the flight number element is the ninth update and only that one |
| OrderReview.SummaryIdsDistinct | js/pages/order-review-flow.js:47-60 | the page's element ids are pairwise different |
| OrderReview.ShowsSummaryField | js/pages/order-review-flow.js:45-60 | every summary element shows the trimmed stored property when it is a non-blank string, and keeps its placeholder otherwise |
| OrderReview.FlightNumberPrecedence | js/pages/order-review-flow.js:33-39 | a non-blank session flight number is shown whatever the summary says; without one the summary's flight number is shown under the same rule as the other fields (also lines 56-57) |
| OrderReview.SetAllNoText | js/pages/order-review-flow.js:7-12 | updates that carry no text leave the page as it is |
| OrderReview.EmptySessionKeepsPlaceholders | js/pages/order-review-flow.js:41-61 | with an empty session every placeholder stays |
| MyOrders.Enrich | js/pages/my-order.js:22-32 | a carrier or traveler order gains flight date (details date, else the display date, else a dash), flight time and capacity (else a dash) and keeps every other property; any other order is left as it is |
| MyOrders.EnrichIdempotent | js/pages/my-order.js:22-32 | enriching twice is enriching once |
| MyOrders.GetAllOrders | js/pages/my-order.js:16-39 | one order per display order of the store, in order, each enriched |
| MyOrders.TypeFilter | js/pages/my-order.js:93-102 | `all` or a tab not in the tab map keeps the list; a known tab keeps exactly the orders of that type, and nothing is added |
| MyOrders.SearchFilter | js/pages/my-order.js:104-110 | an empty query keeps the list; otherwise exactly the orders whose lower-cased route, action, type and description text contains the query are kept, and nothing is added |
| MyOrders.SortOrders | js/pages/my-order.js:41-47 | the sorted copy is a permutation of the list |
| MyOrders.SortOrdersOrdered | js/pages/my-order.js:41-47 | the sorted copy is in date order, latest first for `newest` and earliest first for any other choice |
| MyOrders.View | js/pages/my-order.js:86-115 | the list on screen never holds an order the store does not, and with tab `all` and no query it is every stored order |
| MyOrders.ViewContents | js/pages/my-order.js:86-115 | a stored order is on screen exactly when the tab and the search both let it through |
| MyOrders.ApplyFilter | js/pages/my-order.js:86-115 | the tab is remembered, sort and query kept, and the list is recomputed from the store, holding only stored orders |
| MyOrders.ChangeSort | js/pages/my-order.js:131-140 | a new sort order re-sorts the list on screen as it is: same orders, tab and query |
| MyOrders.Search | js/pages/my-order.js:145-153 | the query becomes the trimmed, lower-cased input and the current tab is applied again |
| MyOrders.OrdersUpdated | js/pages/my-order.js:69-72 | an update event or the refresh button re-applies the current tab, query and sort (also lines 158-169) |
| MyOrders.SearchFindsOrder | js/pages/my-order.js:104-110 | blanks around the typed text do not hide an order whose search text contains the trimmed, lower-cased input (also lines 149-151) |
| MyOrders.OrdersUpdatedStable | js/pages/my-order.js:69-72 | re-applying the tab to an unchanged store leaves the page as it is (also lines 86-115) |
| MyOrders.ClickOrder | js/pages/my-order.js:258-268 | no view opens exactly when no order's id is loosely equal to the card's id text; otherwise the first such order opens, in the flight view exactly when its type is `flight` |
| MyOrders.ClickFindsRendered | js/pages/my-order.js:225 | a card rendered for an order with a whole-number id opens an order with that id (also lines 258-268) |
| RegisteredFlight.ApplyTab | js/pages/registered-flight.js:40-47 | the reward and soonest tabs show every flight (a permutation); the light tab shows exactly the flights of at most 1 kg, from the data; any other tab shows the data as it is |
| RegisteredFlight.ApplyTabOrder | js/pages/registered-flight.js:43-45 | the reward tab is ordered by falling reward, the soonest tab by rising date, and the light tab keeps the data's order |
| RegisteredFlight.LightTabOnFlightData | js/pages/registered-flight.js:10-14 | on the three built-in flights the light tab shows the second and the third (also line 45) |
| RegisteredFlight.RewardTabOnFlightData | js/pages/registered-flight.js:10-14 | on the built-in flights the reward tab shows all three, the 240 reward first (also line 43) |
| RegisteredFlight.Render | js/pages/registered-flight.js:59-82 | reading the saved trips throws exactly when the list is not an array and some flight is on screen; otherwise every flight on screen is marked submitted exactly when a saved trip's id is loosely equal to its id, flights off screen keep their mark, and nothing else about a flight changes |
| RegisteredFlight.FlightObject | js/pages/registered-flight.js:10-14 | a flight's object carries its numeric id, its route codes, its cargo text, weight, reward value and submitted flag; the display-only properties are left out (also line 187) |
| RegisteredFlight.TripData | js/pages/registered-flight.js:187 | the saved trip has the flight's id, status `submitted` and the submitted id `<clock>-<flight id>` |
| RegisteredFlight.OrderFor | js/pages/registered-flight.js:190-203 | the cart order for a flight has id `flight-<id>`, the flight's route codes and type `flight` |
| RegisteredFlight.FindFlight | js/pages/registered-flight.js:176 | the flight found has an id loosely equal to the button's id text, and no flight is found exactly when none has |
| RegisteredFlight.Toggle | js/pages/registered-flight.js:175-207 | an unknown id or an already submitted flight changes nothing; otherwise the flight is marked submitted and, unless reading the trips throws, its trip is saved and its order added to the cart with the cart's events |
| RegisteredFlight.FindFlightAfterMark | js/pages/registered-flight.js:176-180 | marking the found flight as submitted does not change which flight the id finds |
| RegisteredFlight.ToggleTwiceIsNoOp | js/pages/registered-flight.js:179 | a second click on the same flight changes nothing and fires nothing |
| RegisteredFlight.SavedTripIsFound | js/pages/registered-flight.js:69 | after the trip is saved, some saved trip has an id loosely equal to the flight's id (also lines 187-188) |
| RegisteredFlight.ToggleThenRender | js/pages/registered-flight.js:59-82 | after the click, the next render shows the flight as submitted whenever the current tab shows it (also lines 175-207) |
| RegisteredFlight.RenderMarks | js/pages/registered-flight.js:66-69 | a saved trip with the flight's id marks the flight whenever it is on screen |
| RegisteredFlight.FlightOrderStored | js/pages/registered-flight.js:190-203 | when the cart accepts the flight's order, it is stored last with id `flight-<id>` and the flight's route, and both update events fire |
| RegisteredFlight.ToggleAddsFlightOrder | js/pages/registered-flight.js:188-203 | a first click on a flight, with a readable trip list and an order the cart accepts, leaves the cart as `addDynamicOrder` leaves it and fires both update events |
| RegisteredFlight.FindByRenderedId | js/pages/registered-flight.js:98 | with ids numbered from 1, the id text rendered on a flight's button finds that same flight (also lines 157 and 176) |
| RegisteredFlight.FlightDataCategories | js/pages/registered-flight.js:201 | the three built-in flights are filed under electronics, documents and watches (also lines 11-13 and 212-217) |
| RegisteredFlight.DocumentsCategory | js/pages/registered-flight.js:213-214 | the documents flight's cargo text has no laptop word and is filed under documents |
| RegisteredFlight.WatchCategory | js/pages/registered-flight.js:213-215 | the watch flight's cargo text has neither the laptop nor the documents word and is filed under watches |
| RegisteredFlight.LacksChar | js/pages/registered-flight.js:213 | a text missing one of a word's characters does not include the word |
| RegisteredCargo.ApplyTab | js/pages/registered-cargo.js:40-46 | the reward tab shows every cargo (a permutation); the light tab shows exactly the cargo of at most 1 kg, from the data; any other tab shows the data as it is |
| RegisteredCargo.ApplyTabOrder | js/pages/registered-cargo.js:43-44 | the reward tab is ordered by falling reward and the light tab keeps the data's order |
| RegisteredCargo.Merge | js/pages/registered-cargo.js:68-72 | a cargo becomes submitted exactly when it was or some saved trip matches it; the first matching trip's submitted id becomes its order id; nothing else about it changes |
| RegisteredCargo.RenderWith | js/pages/registered-cargo.js:58-75 | reading the saved trips throws exactly when the list is not an array and some cargo is on screen; otherwise each cargo on screen is merged with the saved trips and the others are kept |
| RegisteredCargo.RenderAsWritten | js/pages/registered-cargo.js:68 | with the match as written, a cargo on screen is marked exactly when it was or a trip has a submitted id strictly equal to its order id (both missing counts) or the cargo's id |
| RegisteredCargo.Render | js/pages/registered-cargo.js:58-75 | with the match as intended, a cargo on screen is marked exactly when it was or a trip's submitted id equals its own order id or a trip's id equals its id |
| RegisteredCargo.UntakenCargoMarked | js/pages/registered-cargo.js:68 | one saved trip that has no submitted id marks the first, never-taken cargo as submitted as written, and does not as intended |
| RegisteredCargo.MarkNeedsId | js/pages/registered-cargo.js:68-72 | as intended, a cargo without an order id that no saved trip names by id stays unsubmitted |
| RegisteredCargo.CargoObject | js/pages/registered-cargo.js:11-15 | a cargo's object carries its numeric id and its order id (also line 163) |
| RegisteredCargo.TripData | js/pages/registered-cargo.js:163 | the saved trip has the cargo's id, status `submitted` and the fresh id as its submitted id |
| RegisteredCargo.OrderFor | js/pages/registered-cargo.js:166-179 | the cart order has id `cargo-<fresh id>`, type `cargo` and the fixed Tehran to Dubai route |
| RegisteredCargo.FindCargo | js/pages/registered-cargo.js:150 | the cargo found has an id loosely equal to the button's id text, and none is found exactly when no cargo has |
| RegisteredCargo.Toggle | js/pages/registered-cargo.js:149-182 | an unknown id or a submitted cargo changes nothing; otherwise the cargo is marked submitted with the fresh id as order id and, unless reading the trips throws, its trip is saved and its order added to the cart with the cart's events; the page's delegated listener adding the card first is AddButtonClick |
| RegisteredCargo.FindCargoAfterMark | js/pages/registered-cargo.js:150-153 | marking the found cargo does not change which cargo the id finds |
| RegisteredCargo.CardStored | js/pages/registered-cargo.js:190 | the cart after the page listener's add: unchanged without a card, else still a list that keeps the old orders as a prefix and grows by at most one |
| RegisteredCargo.ToggleIgnoresCart | js/pages/registered-cargo.js:149-182 | the parcels and trips a toggle leaves do not depend on the cart |
| RegisteredCargo.ToggleExtendsCart | js/pages/registered-cargo.js:165-179 | a toggle on a cart list keeps the old orders as a prefix |
| RegisteredCargo.AddButtonClick | js/pages/registered-cargo.js:184-192 | one click adds the card's cargo order first and then toggles the parcel: parcels and trips are the toggle's, the events of both adds fire in that order, and the old cart stays a prefix |
| RegisteredCargo.ClickUnfold | js/pages/registered-cargo.js:184-192 | a click on a card is the card add followed by the toggle on the resulting cart |
| RegisteredCargo.TakenParcelClickStillStores | js/pages/registered-cargo.js:190 | the click handlers on an already taken parcel leave parcels and trips alone but still add the card's cargo order to the cart; the rendered button is disabled, so only the handlers are described |
| RegisteredCargo.TakenToggleUnchanged | js/pages/registered-cargo.js:151 | toggling a parcel that is already taken changes nothing and fires nothing |
| RegisteredCargo.FreshParcelClickStoresTwo | js/pages/registered-cargo.js:165-179 | clicking an untaken parcel stores two orders: the card's cargo order, then the parcel's order with the fresh id |
| RegisteredCargo.ToggleTwiceIsNoOp | js/pages/registered-cargo.js:151 | a second click on the same cargo changes nothing and fires nothing |
| RegisteredCargo.SavedTripIsFound | js/pages/registered-cargo.js:68 | after the trip is saved, some saved trip matches the cargo (also lines 163-164) |
| RegisteredCargo.RenderMarks | js/pages/registered-cargo.js:68-70 | a matching saved trip marks the cargo whenever it is on screen |
| RegisteredCargo.ToggleThenRender | js/pages/registered-cargo.js:58-75 | after the click, the next render shows the cargo as submitted whenever the current tab shows it (also lines 149-182) |
| RegisteredCargo.CargoOrderStored | js/pages/registered-cargo.js:166-179 | when the cart accepts the order it is stored last with id `cargo-<fresh id>` and the fixed route, and both update events fire |
| RegisteredCargo.FlightTripMarksCargo | js/pages/registered-cargo.js:68-71 | a trip saved for the flight with the same numeric id marks the cargo as submitted, with the flight's `<clock>-<id>` as order id |
| RegisteredCargo.CargoMergesIntoFlightTrip | js/pages/registered-cargo.js:163-164 | saving the cargo's trip over the flight's trip with the same id leaves one saved trip |
| RegisteredCargo.InitCargoActions | js/pages/registered-cargo.js:120-124 | the click listener is set up once: a second call changes nothing |
| RegisteredCargo.InitCargoActionsOnce | js/pages/registered-cargo.js:122-124 | calling the setup twice is the same as calling it once |
| CargoCategories.Without | js/pages/cargo-categories.js:83-84 | deleting an index keeps every other index and drops that one; a duplicate-free selection stays duplicate-free and loses exactly one entry when it held the index |
| CargoCategories.Toggle | js/pages/cargo-categories.js:83-97 | a click selects an unselected index and unselects a selected one, leaving every other index as it was; the size goes up or down by one |
| CargoCategories.WithoutLast | js/pages/cargo-categories.js:84 | deleting an index just added gives back the selection before it (also line 91) |
| CargoCategories.ToggleTwice | js/pages/cargo-categories.js:83-97 | two clicks on the same button restore the selection's contents, and restore it exactly when the index was not selected before |
| CargoCategories.ContinueLabel | js/pages/cargo-categories.js:59-68 | the continue button reads `ادامه` with no selection and `ادامه (n)` with n selected |
| CargoCategories.ContinueLabelInjective | js/pages/cargo-categories.js:65 | different selection sizes give different labels |
| CargoCategories.SearchShows | js/pages/cargo-categories.js:71-77 | a blank search shows every button, and a trimmed lower-case button text finds its button |
| CargoCategories.SearchView | js/pages/cargo-categories.js:71-77 | a button is shown exactly when the trimmed lower-case query is empty or occurs in its lower-case text |
| CargoCategories.FromArray | js/pages/cargo-categories.js:19 | adding a stored array to an empty set gives its indices, once each, in the order first seen; an array without repeats comes back as it is (also line 25) |
| CargoCategories.Loaded | js/pages/cargo-categories.js:20-31 | a stored array gives exactly its indices; a missing, unparsable or non-array entry gives an empty selection |
| CargoCategories.Load | js/pages/cargo-categories.js:22 | the session entry is used when it is there, else the local entry |
| CargoCategories.Save | js/pages/cargo-categories.js:33-42 | both storages receive the same selection as an array |
| CargoCategories.Marks | js/pages/cargo-categories.js:45-57 | exactly the selected buttons are marked on restore |
| CargoCategories.Open | js/pages/cargo-categories.js:104-106 | opening the page loads the saved selection, without repeats, and leaves storage as it is |
| CargoCategories.Click | js/pages/cargo-categories.js:80-101 | a click toggles the index, labels the continue button with the new size and saves the new selection in both storages |
| CargoCategories.ClickThenReopen | js/pages/cargo-categories.js:22-25 | reopening the page after a click loads exactly the selection the click left (also lines 33-37 and 83-100) |
| Kyc.CompletedCount | js/pages/kyc.js:28-30 | the count is at most the number of documents, is all of them exactly when every document is completed, and is zero exactly when none is |
| Kyc.ShareBounds | js/pages/kyc.js:33 | the completed share is at most 100 percent and is 100 exactly when every document counts |
| Kyc.ProgressPercent | js/pages/kyc.js:32-34 | the bar is between 5 and 100 percent, full exactly when every document is completed, and equal to the completed share whenever it is above 5 |
| Kyc.SubmitEnabled | js/pages/kyc.js:36-38 | submit opens exactly when every document is completed, which is exactly when the bar is full |
| Kyc.FindDoc | js/pages/kyc.js:44 | the first document with the id is found, and none exactly when no document has it |
| Kyc.CardClick | js/pages/kyc.js:43-49 | an unknown id throws; a completed or uploading document ignores the click; any other opens the sheet for that document |
| Kyc.SetStatus | js/pages/kyc.js:55-57 | the documents with the id get the new status, with the error cleared on completion, and every other document is unchanged (also lines 61-65) |
| Kyc.CancelOptions | js/pages/kyc.js:185 | cancel closes the sheet and keeps the documents and the chosen document |
| Kyc.CancelKeepsChoice | js/pages/kyc.js:43-58 | after a click and a cancel, starting an upload still uploads the clicked document (also line 185) |
| Kyc.StartUpload | js/pages/kyc.js:51-58 | with no chosen document nothing happens; otherwise the sheet closes and the chosen document is uploading |
| Kyc.FinishUploadAsWritten | js/pages/kyc.js:60-68 | as written, the timer completes whichever document is chosen when it fires and clears the choice |
| Kyc.SecondClickCompletesWrongDoc | js/pages/kyc.js:43-68 | clicking the selfie while the identity card uploads completes the selfie and leaves the card uploading for good, with clicks on it ignored and submit closed |
| Kyc.StartUploadFor | js/pages/kyc.js:51-58 | as `StartUpload`, and it hands the timer the document it started |
| Kyc.FinishUpload | js/pages/kyc.js:60-68 | corrected: the timer completes the document whose upload was started and clears the choice only when it is still that document |
| Kyc.UploadCompletesStartedDoc | js/pages/kyc.js:43-68 | corrected: whatever card is clicked in between, the uploaded document completes and every other document is untouched |
| Kyc.SecondClickCorrected | js/pages/kyc.js:43-68 | corrected, the same clicks complete the identity card and leave the selfie's sheet open |
| KycFlow.CompletedDocs | js/pages/kyc-flow.js:96 | the count is at most the number of required documents and is all of them exactly when each has a file |
| KycFlow.ProgressWidth | js/pages/kyc-flow.js:98 | the bar is between 5 and 100 percent, at least the completed share, and full exactly when every document has a file |
| KycFlow.CanSubmit | js/pages/kyc-flow.js:100-101 | submit opens exactly when every required document has a file, which is exactly when the bar is full |
| KycFlow.ChooseFile | js/pages/kyc-flow.js:135-141 | a picked file is kept for its document, replacing an earlier one; closing the picker changes nothing; other documents keep their files |
| KycFlow.ChooseFileCount | js/pages/kyc-flow.js:96 | picking again for a document with a file keeps the count; picking for a required document without one adds exactly one; any other id adds none (also line 138) |
| KycFlow.Requests | js/pages/kyc-flow.js:157-165 | one upload request per document with a file |
| KycFlow.UploadAll | js/pages/kyc-flow.js:157-165 | the uploads made are a prefix of the requests; all of them are made exactly when every upload succeeds, and otherwise the last one made is the one that failed |
| KycFlow.NextRoute | js/pages/kyc-flow.js:169-177 | the page goes to the order review exactly when a flight was chosen in the session, else to the flight list |
| KycFlow.SubmitDocs | js/pages/kyc-flow.js:148-182 | a closed button does nothing; otherwise the files are uploaded in order, and only when every upload succeeds is the traveler recorded as registered and the page moved on; the session is never changed |
| KycFlow.SubmitDocsRegisters | js/pages/kyc-flow.js:157-167 | after a submit the traveler is registered exactly when they already were or every upload succeeded, and a fully successful submit uploads each document once |
| KycFlow.SubmitFlightTicket | js/pages/kyc-flow.js:29-75 | without a flight number or a file nothing happens; otherwise the ticket is uploaded with the flight number in its caption and, on success only, the traveler is registered, the number kept in the session and the page moved on |
| KycFlow.FlightNumberKeepsRoute | js/pages/kyc-flow.js:57-70 | storing the flight number does not change where the form goes |
| TelegramUpload.StripTrailingSlashes | js/utils/telegram-upload.js:12 | the result is a prefix of the text that does not end in a slash, and only slashes were removed |
| TelegramUpload.Override | js/utils/telegram-upload.js:6-8 | the address override is the first global when it is truthy, else the second |
| TelegramUpload.ResolveUploadUrl | js/utils/telegram-upload.js:5-26 | the address always ends with the upload path; a non-blank string override is used trimmed, with the path added after its trailing slashes unless it is there; else port 8787 of this machine when the page is on port 5500 of it; else the same-origin path |
| TelegramUpload.BlankUrlHidesBase | js/utils/telegram-upload.js:6-9 | a blank but non-empty upload address hides a set base address, which an unset one would have let through (also line 25) |
| TelegramUpload.OverridePath | js/utils/telegram-upload.js:10-12 | an override naming the path is used as it is, trimmed; otherwise taking the path off the address gives back the override without its trailing slashes |
| TelegramUpload.InitDataSent | js/utils/telegram-upload.js:28-32 | an explicit `initData` is sent even when empty; else Telegram's when it is non-empty; else the empty text |
| TelegramUpload.BodyField | js/utils/telegram-upload.js:45-47 | a property is read only from a body that is a JSON object holding it |
| TelegramUpload.ErrorMessage | js/utils/telegram-upload.js:47 | the error message is the body's truthy `error`, else its truthy `description`, else `Upload failed (<status>)`, and is never falsy |
| TelegramUpload.Upload | js/utils/telegram-upload.js:1-51 | a missing file, then a missing or empty kind, fails before any request; otherwise exactly one request goes to the resolved address with the kind, the chosen `initData`, the caption only when non-empty and the file's name or `upload`; the call succeeds with the body exactly when the status is ok and the body's `ok` is truthy |
| TelegramUpload.OkStatusNeedsOkBody | js/utils/telegram-upload.js:45-48 | a status-200 answer whose body says `ok: false` without a reason fails with `Upload failed (200)` |
| Server.GetParam | server/index.js:34 | a parameter's first value is found exactly when some entry has the name, and it is one of that name's values (also line 53) |
| Server.DeleteParam | server/index.js:36 | deleting a name removes every entry with it and keeps every other entry |
| Server.DeleteKeepsOthers | server/index.js:36 | after deleting `hash`, every other parameter reads as before and `hash` reads as missing (also line 53) |
| Server.LexTotal | server/index.js:39 | any two names are ordered one way or the other by the comparison |
| Server.LexTransitive | server/index.js:39 | the name comparison is transitive |
| Server.LexAntisymmetric | server/index.js:39 | two names each ordered before the other are equal |
| Server.KeyLe | server/index.js:39 | the sort compares entries by name only |
| Server.KeyLeTotalPreorder | server/index.js:39 | the comparison the sort uses is a total preorder |
| Server.CheckEntries | server/index.js:36-39 | the signed entries are a permutation of the parameters without `hash` |
| Server.CheckEntriesSorted | server/index.js:38-39 | the signed entries are in name order |
| Server.DataCheckString | server/index.js:38-41 | no signed entries give the empty text; one entry gives its `name=value` line |
| Server.DataCheckLines | server/index.js:38-41 | read back line by line, the signed text is the `name=value` line of each entry other than `hash`, in name order, when no name or value holds a line break |
| Server.SortedUnique | server/index.js:38-39 | two name-sorted arrangements of the same entries with distinct names are the same sequence |
| Server.OrderIndependent | server/index.js:33-41 | with distinct names, the signed text does not depend on the order of the query's parameters |
| Server.DeleteIgnoresValue | server/index.js:36 | deleting `hash` forgets its value |
| Server.HashNotSigned | server/index.js:36-41 | changing the `hash` value does not change the signed text |
| Server.Verify | server/index.js:30-63 | missing init data or token, then a missing or empty hash, are rejected with their messages; a signature of another length makes the comparison throw; a different one of the same length is rejected; an equal one verifies, with the user parsed from the query |
| Server.VerifiedUser | server/index.js:53-59 | a verified user is the parsed `user` parameter, or `null` when it is missing, empty or not JSON |
| Server.PickSendMethod | server/index.js:65-68 | a photo is sent exactly when the MIME type starts with `image/`, else a document |
| Server.TextOr | server/index.js:75-77 | a form field is used when it is non-empty, else its default |
| Server.ResolveChat | server/index.js:79-86 | a configured target chat is used as it is; without one, the init data must verify (401 with its message otherwise, 500 when the check throws) and name a user with a truthy id (401 otherwise), and that id is the chat |
| Server.Field | server/index.js:83 | a property is read only from an object holding it |
| Server.Relay | server/index.js:104-113 | Telegram's answer is passed on as success with its `result` exactly when the status is ok and the body's `ok` is truthy; otherwise a 502 with Telegram's description or `Telegram API error (<status>)` |
| Server.CallFor | server/index.js:88-101 | the call to Telegram uses the chosen method, the field `photo` for photos and `document` otherwise, and the file's name or the field's name |
| Server.Handle | server/index.js:70-118 | no token gives 500, no file 400, both before anything is sent; with both, a call goes out exactly when the chat resolves, to that chat, carrying the kind-defaulted caption, and a refused signature gives the refusal answer; a call's answer is relayed, a failed call giving 500 |
| Server.TargetChatSkipsVerification | server/index.js:79-80 | with a target chat configured the init data is never read and the call goes to that chat |
| Server.UnverifiedNeverSends | server/index.js:80-84 | without a target chat, init data that does not verify is refused with 401 or 500 and nothing is sent to Telegram |
| Server.FieldDefaults | server/index.js:76-77 | with no kind and no caption, the caption sent is `upload` |
| Sliders.LoadLocal | js/components/sliders.js:13-20 | the category page's second loader reads the local entry only, giving its indices without repeats |
| Sliders.Click | js/components/sliders.js:33-48 | a click toggles the index, labels the continue button with the new size, and saves the selection to local storage only |
| Sliders.ClickSeenLocallyOnly | js/components/sliders.js:41 | this loader sees the click on the next visit, while the other loader keeps reading an existing session entry, which the click does not update (also js/pages/cargo-categories.js:22) |
| Sliders.SavedText | js/components/sliders.js:81 | the saved weight or value is the non-empty session entry, else the non-empty local entry, else none (also line 108) |
| Sliders.Minus | js/components/sliders.js:127-136 | minus lowers the value by one step but never below the minimum, and keeps the bounds |
| Sliders.Plus | js/components/sliders.js:139-148 | plus raises the value by one step but never above the maximum, and keeps the bounds |
| Sliders.PlusMinusInverse | js/components/sliders.js:127-148 | away from the bounds, minus undoes plus and plus undoes minus |
| Sliders.StepsStayInRange | js/components/sliders.js:129 | from a value within the bounds, with a non-negative step, both buttons stay within the bounds (also line 141) |
| Sliders.StoreValue | js/components/sliders.js:88-95 | moving a slider stores its text under its key in both storages and touches no other key (also lines 117-124) |
| Sliders.StoreThenLoad | js/components/sliders.js:81-92 | a non-empty value stored by moving the slider is what the next visit loads (also lines 108-121) |
| FlightFilter.CardPrice | js/components/flight-filter.js:260-264 | a card without a price element costs 0; a price text of ASCII digits is read as its decimal value |
| FlightFilter.NoAsciiDigitsIsZero | js/components/flight-filter.js:263 | a price text with no ASCII digit is read as 0, since `parseInt` of the empty text is `NaN` and falls back to 0 |
| FlightFilter.DigitsOnlySkips | js/components/flight-filter.js:263 | a character that is not an ASCII digit does not change the price read |
| FlightFilter.BadgeCategory | js/components/flight-filter.js:272-282 | a badge naming documents is `docs`, else one naming watches or electronics is `electronics`, else clothing is `clothes`, else valuables is `valuables`, else it names no category |
| FlightFilter.LastBadgeWins | js/components/flight-filter.js:266-283 | a card's category is that of its last badge naming one, and empty when none does |
| FlightFilter.CardCategoryValues | js/components/flight-filter.js:267-282 | a card's category is one of the five values the select offers |
| FlightFilter.SelectedPrice | js/components/flight-filter.js:250 | the price limit is the slider's value, or 200 without a slider |
| FlightFilter.SelectedCategory | js/components/flight-filter.js:251 | the category is the select's value, or none without a select |
| FlightFilter.ApplyFilters | js/components/flight-filter.js:242-305 | with no cards nothing changes; otherwise a card is shown exactly when its price is within the limit and its category matches a chosen category, and the no-results message shows exactly when no card is shown |
| FlightFilter.CountTrue | js/components/flight-filter.js:253 | the visible count is at most the number of cards and is zero exactly when none is shown (also line 292) |
| FlightFilter.ResetFilters | js/components/flight-filter.js:210-237 | reset sets the slider to 100 and the category to none where they exist, shows every card and removes the message |
| FlightFilter.ResetThenApply | js/components/flight-filter.js:210-237 | after a reset every card shows, and the next filtering keeps a card exactly when it costs at most 100 (also lines 242-297) |
| FlightFilter.ApplyFiltersIdempotent | js/components/flight-filter.js:242-305 | filtering twice with the same controls gives what filtering once gives |
| FlightFilter.Cleanup | js/components/flight-filter.js:411-417 | cleanup clears the guard, so the next setup runs again |
| RouteForm.CheckRoute | js/components/route-selection.js:491-517 | on the trimmed names, a route is missing a side exactly when one is empty, names the same place exactly when both are present and equal, and passes exactly when both have at least two characters and differ (also js/pages/traveler-route.js:466-483, js/pages/cargo-route.js:224-246) |
| RouteForm.CheckRouteSymmetric | js/components/route-selection.js:491-517 | the check gives the same answer with the sides exchanged |
| RouteForm.Swap | js/pages/traveler-route.js:96-106 | the swap exchanges the two raw values (also js/pages/cargo-route.js:79-89) |
| RouteForm.SwapProperties | js/components/route-selection.js:47-55 | two swaps restore the form and a swap keeps the route valid or invalid |
| RouteForm.KindOf | js/components/route-selection.js:449-464 | only the type `cargo` saves under the cargo keys; any other saves under the traveler keys |
| RouteForm.Put | js/components/route-selection.js:457-464 | the record goes under the kind's local and session keys and no other key changes |
| RouteForm.SaveRoute | js/components/route-selection.js:449-469 | the component saves the trimmed names with the current stamp under both keys of the kind |
| RouteForm.LoadEntry | js/components/route-selection.js:474-478 | the session entry is read when there is one, else the local entry |
| RouteForm.LoadInto | js/components/route-selection.js:471-489 | a missing or unparsable entry leaves the inputs as they are; a record fills each input whose saved name is non-empty |
| RouteForm.SaveThenLoad | js/components/route-selection.js:449-489 | a valid route saved by the component is what the next load puts in the inputs, trimmed |
| RouteForm.SaveKeepsOtherKind | js/components/route-selection.js:458-464 | saving one kind of route does not change what the other kind loads |
| RouteForm.CurrentRoute | js/components/route-selection.js:570-579 | the current route is the local record of the kind, and none when it is missing or does not parse (also js/pages/traveler-route.js:535-543, js/pages/cargo-route.js:418-426) |
| RouteForm.ClearRoute | js/components/route-selection.js:581-590 | clearing removes both keys of the kind and keeps every other local entry and every other session entry (also js/pages/traveler-route.js:546-550, js/pages/cargo-route.js:429-433) |
| RouteForm.ClearThenLoad | js/components/route-selection.js:471-489 | after clearing there is no current route and loading leaves the inputs as they are (also lines 570-590) |
| RouteForm.SuggestionText | js/components/route-selection.js:276-283 | a suggestion shows `airport (code)` when both are given, else its title (also js/pages/traveler-route.js:156-160) |
| RouteForm.SuggestionTarget | js/components/route-selection.js:288-309 | a focused input receives the suggestion; with no input focused, the origin when it is blank, else the destination when it is blank, else the user is asked; the cargo page tests blankness without trimming (also js/pages/traveler-route.js:163-182, js/pages/cargo-route.js:135-155) |
| RouteForm.Place | js/components/route-selection.js:290-305 | the text goes into the chosen input only |
| RouteForm.ComponentFill | js/components/route-selection.js:288-309 | on the inputs it is given, the component fills the target input; with both filled, the answer `1` picks the origin, `2` the destination and anything else neither (also lines 429-443); the page wires it to detached inputs, see Left out |
| RouteForm.ComponentSuggestion | js/components/route-selection.js:275-320 | a suggestion click fills as above, with the text `undefined` when the item has no title, and always saves the form |
| RouteForm.TwoSuggestionsFillForm | js/components/route-selection.js:298-305 | two suggestions with nothing focused fill an empty form's origin and then its destination |
| RouteForm.SavePage | js/pages/traveler-route.js:387-407 | the pages save the trimmed inputs, the state's timestamp and a fresh `savedAt` under both keys of their kind (also js/pages/cargo-route.js:292-312) |
| RouteForm.SavePageIgnoresData | js/pages/traveler-route.js:390-395 | the state's copy of the route never reaches storage: the inputs override it |
| RouteForm.OrText | js/pages/traveler-route.js:434 | the first value when it is a non-empty text, else the second |
| RouteForm.LoadPage | js/pages/traveler-route.js:409-446 | the inputs load as in the component; a record also becomes the state's route, with its timestamp or else its `savedAt` (also js/pages/cargo-route.js:314-350) |
| RouteForm.SavePageThenLoad | js/pages/traveler-route.js:387-446 | a valid saved page loads back as the trimmed route, with the state's timestamp when non-empty and the save's stamp otherwise |
| RouteForm.SwapPage | js/pages/traveler-route.js:96-112 | the page's swap exchanges the inputs, copies them into the state and saves (also js/pages/cargo-route.js:79-94) |
| RouteForm.SwapPageTwice | js/pages/traveler-route.js:96-112 | two swaps bring back the inputs and save the original route again |
| RouteForm.TravelerPopularPair | js/pages/traveler-route.js:114-129 | a button's data attributes are used when both are set; otherwise its first and last spans, trimmed, when it has two and both are non-blank; otherwise no route |
| RouteForm.TravelerPopular | js/pages/traveler-route.js:114-149 | with a route, the inputs and the state take it trimmed, are stamped and saved; without one nothing changes |
| RouteForm.CargoPopular | js/pages/cargo-route.js:96-126 | with at least two spans the inputs and the state take the first and last span, trimmed, are stamped and saved; with fewer nothing changes |
| RouteForm.ComponentPopular | js/components/route-selection.js:27-42 | with at least two spans the inputs take the first and last span, trimmed, and are saved as a cargo route; with fewer nothing changes |
| RouteForm.TravelerPopularThenLoad | js/pages/traveler-route.js:114-149 | a popular route taken and saved on the traveler page is what a later load of the page shows, stamp included |
| RouteForm.CargoPopularThenLoad | js/pages/cargo-route.js:96-126 | a popular route taken and saved on the cargo page is what a later load of the page shows, stamp included |
| RouteForm.ComponentPopularThenLoad | js/components/route-selection.js:27-42 | the component's popular route, once saved, is what the cargo inputs load |
| RouteForm.ComponentSwap | js/components/route-selection.js:45-56 | the component's swap exchanges the inputs and saves them as a cargo route |
| RouteForm.PlacePage | js/pages/traveler-route.js:163-186 | the text goes into the chosen input and the state's matching side, and the state is stamped |
| RouteForm.TravelerSuggestion | js/pages/traveler-route.js:151-207 | a suggestion without a title does nothing; otherwise its text goes to the target input, with the confirm dialog choosing origin or destination when both are filled, and the page saves |
| RouteForm.CargoSuggestion | js/pages/cargo-route.js:128-164 | a suggestion without a title does nothing; otherwise its title goes to the target input, none when both are filled, and the page saves |
| RouteForm.CargoSuggestionKeepsFilledForm | js/pages/cargo-route.js:151-155 | on the cargo page, with both inputs filled and none focused, a suggestion changes neither |
| RouteForm.BlankOriginDiffers | js/pages/cargo-route.js:143 | a blank but non-empty origin is kept by the cargo page and replaced by the traveler page (also js/pages/traveler-route.js:171) |
| RouteForm.Submit | js/pages/traveler-route.js:209-244 | an invalid route does nothing; a valid one copies the trimmed inputs into the state with a fresh stamp, saves, and goes to the flight-date page or the cargo list (also js/pages/cargo-route.js:166-182) |
| RouteForm.SubmitThenLoad | js/pages/traveler-route.js:209-244 | a submitted route loads back on any page state as the trimmed route with the submit's stamp (also lines 409-446) |
| Guards.Init | js/components/flight-filter.js:53-64 | with no page or the flag up nothing happens; otherwise the set-up runs once and the flag goes up (also js/pages/registered-cargo.js:122-124) |
| Guards.InitOnce | js/components/flight-filter.js:57-64 | however many calls come while the flag is never lowered, the set-up runs at most once, and the flag is up after any call that finds the page |
| Text.Trim | js/components/route-selection.js:492-493 | `trim()` removes exactly the leading and trailing ECMAScript white space: the result is a slice of the text that neither starts nor ends with white space, with only white space around it |
| Text.TrimEmptyIff | js/components/route-selection.js:495 | a trimmed text is empty exactly when the text is all white space |
| Text.TrimIdempotent | js/components/route-selection.js:451 | trimming a trimmed text changes nothing (also line 492) |
| Text.ToLower | js/pages/cargo-categories.js:72-74 | lower-casing keeps the length and maps each character on its own, as the category search does with the query and each button's text |
| Text.LowerIdempotent | js/pages/cargo-categories.js:72-75 | lower-casing twice is lower-casing once |
| Text.IndexOf | js/pages/cargo-categories.js:75 | the first place the query occurs, and none exactly when it occurs nowhere |
| Text.ContainsIff | js/pages/cargo-categories.js:75 | `includes` holds exactly when the query occurs somewhere in the text |
| Text.Split | js/utils/flight-order-submission.js:17 | a text without the separator splits into itself alone |
| Text.SplitJoin | js/utils/flight-order-submission.js:17 | joining the pieces of a split with the separator gives back the text |
| Text.JoinSplit | server/index.js:41 | splitting the join of pieces on a one-character separator none of them contains gives the pieces back |
| Text.SplitOnce | js/utils/flight-order-submission.js:17 | a text with one separator splits into the part before it and the part after it |
| Text.NatText | js/pages/registered-flight.js:98 | a number's decimal text is non-empty, all digits and without a leading zero (also line 157) |
| Text.NatTextRoundTrip | js/pages/registered-flight.js:157 | reading a number's decimal text gives back the number (also line 176) |
| Js.Or | js/utils/telegram-upload.js:47 | `x \|\| d` is `x` when it is truthy and `d` otherwise |
| Js.Coalesce | js/utils/telegram-upload.js:29 | `x ?? d` is `x` unless it is missing or `null` |
| Js.StrictEqSymmetric | js/pages/registered-cargo.js:68 | `===` gives the same answer with its sides exchanged |
| Js.StringToNumberDigits | js/pages/registered-flight.js:176 | a text of ASCII digits converts to the number it spells |
| Js.LooseEqProperties | js/pages/registered-flight.js:176 | `==` gives the same answer with its sides exchanged and holds whenever `===` does |
| Js.LooseEqIdText | js/pages/registered-flight.js:157 | a numeric id is loosely equal to its decimal text, as it comes back from a `data-` attribute (also line 176) |
| Lists.FindIndex | js/pages/registered-cargo.js:150 | the first index whose element passes, and -1 exactly when none does |
| Lists.Find | js/pages/registered-cargo.js:68 | `find` returns the first passing element, and nothing exactly when none passes (also line 150) |
| Lists.Filter | js/pages/registered-cargo.js:44 | `filter` keeps exactly the elements that pass, taken from the input |
| Lists.FilterSubseq | js/pages/registered-cargo.js:44 | `filter` keeps the order of the elements it keeps |
| Lists.FilterIdempotent | js/pages/my-order.js:101 | filtering twice with the same test is filtering once |
| Lists.SortBy | js/pages/registered-cargo.js:43 | sorting returns a permutation of its input |
| Lists.SortBySorted | js/pages/registered-cargo.js:43 | with a total preorder, the sorted result is in order |
| Lists.SortByKeyOrdered | js/pages/registered-flight.js:43-44 | sorting by a numeric key gives rising or falling keys |
| Numbers.DigitsOnly | js/components/flight-filter.js:263 | the digits kept are all ASCII digits, and a text of digits is kept whole |
| Numbers.DigitsNumber | js/components/flight-filter.js:263 | a text of digits reads as its decimal value |
| Numbers.FirstRun | js/pages/flight-order.js:13-17 | the run of matching characters that starts at the first matching character and extends as far as it can; none exactly when no character matches |
| Numbers.FirstIn | js/pages/flight-order.js:13-17 | the index of the first matching character, or the length when none matches |

## Left out

- DOM rendering, templating, modals, toasts, alerts and class toggles. The model keeps the values these pages show and the choices users make (confirm answers, focused input, picked files), passed in as inputs.
- Timers and debounce, MutationObserver, `pageshow` and listener registration. The delayed half of the document upload is a second explicit step. The debounced save on input change is the page's save operation.
- `fetch`, multer, FormData, FileReader, console logging, and the HMAC-SHA256 and `timingSafeEqual` computations. The HMAC is a function parameter. A hash of a length other than the computed one makes `timingSafeEqual` throw, and that shows up as the handler's crash answer (500).
- JSON text is not modelled. Storage holds decoded values, a marker for text that does not parse, and `JSON.parse` as a parameter.
- The clock, `Date.now`, `new Date()` and `crypto.randomUUID` are parameters. Date strings are not parsed: the date sort works on an integer key given for each order, so NaN placements of invalid dates are not modelled.
- Strings are sequences of characters. UTF-16 code units, Unicode case mapping and locale rules are not modelled:
  - `toLowerCase` is ASCII only;
  - the regex `\b` is an ASCII word boundary;
  - `localeCompare` is code-point order.
- `String(x)` of numbers and other non-string values (for example the chat id taken from the user record) is not modelled. Those values are passed as text.
- Lists.SortBy: proved a permutation and ordered by the comparator, but its stability (which JavaScript's `sort` guarantees) is not proved.
- Kyc.ProgressPercent: requires at least one document. The page always has two, and with none the source computes `NaN`.
- The slider fill percentage, which is display-only real arithmetic.
- KycFlow: storage errors on the session reads are not modelled, and its writes, including the registration write through KycStatus.SetRegistered, always succeed. In the source the registration write swallows a failure.
- Looking up an input element by id is not modelled. A missing listing record is read as the empty object.
- The DOM writes of the flight-order page, and the dispatch that shows it.
- The traveler greeting's navigation, the back buttons and page switching, apart from the route names the modelled operations return.
- `js/pages/cargo-order.js` and `js/utils/cargo-order-submission.js` are not part of this model. They scrape the DOM and call `addDynamicOrder`, and their find by `id`/`submittedId` is the lookup `FlightOrder.Lookup` models.
- `js/app.js`, `js/utils/dom.js`, `js/pages/order-review.js`, `js/pages/traveler-greet.js`, `js/pages/role-modal.js` and `js/pages/flight-kyc.js` are not part of this model. They only render and wire the pages. `js/app.js` imports slider functions that `js/components/sliders.js` does not export, and `js/pages/flight-kyc.js` imports a module that does not exist.
- There is no predicate that matches orders with listings by route: the sources only extract codes.
- `initMyOrderPage` adds a listener on every call, so no idempotence is claimed for it.
- Cross-tab storage races and upload progress. An upload is a success or a failure, given as input.
- Storage writes never fail in the model outside KycStatus.SetRegistered; KycFlow calls that write with a storage that does not fail. In the source a full or blocked storage throws on `setItem`:
  - Cart.AddOrder, Cart.RemoveOrder, Cart.UpdateOrder and Cart.ClearCart: the source logs the failed write and still fires `orders-updated` with the new list, so the event and the stored list can disagree;
  - TravelerListings.AddTravelerListing: the source's write is not guarded, so a failed write throws to the caller;
  - CargoCategories.Save and Sliders.StoreValue: a failed write is not modelled.
- Trips.SaveTrips: always returns true. The source returns false when the write throws.
- Js.Spread: a string spreads nothing here, where JavaScript spreads its characters under index keys. The model only spreads stored records, flights and parcels.
- MyOrders.TypeFilter: the source finds the tab's type through an object lookup, so a tab name that is an inherited property such as `constructor` hides every order. The model looks the tab up in the list of tab names.
- RouteForm.LoadEntry: the source falls back to the local entry whenever the raw session entry is falsy, so an empty session entry falls back too. A stored entry here is already decoded and cannot be empty text. Stored lists cannot hold array elements that are not objects either.
- TelegramUpload.Upload: the `post` parameter always answers, so a `fetch` that rejects (a network error caught by the same `catch`) is not modelled.
- Server.Handle: compares the length of the given hash with the computed one in characters, where `timingSafeEqual` compares UTF-8 bytes. The two agree for the hexadecimal text an honest client sends.
- Js.StringToNumber: reads only an optionally signed decimal numeral (or white space) as a number. Exponents (`1e3`), hexadecimal, binary and octal prefixes (`0x10`, `0b1`, `0o7`) and `Infinity`, which JavaScript's `Number` reads as numbers, are read as `NaN`. This affects the loose `==` id comparisons of OrderStore.GetOrderById, FlightOrder.Lookup, MyOrders.ClickOrder and the FindFlight/FindCargo lookups for such texts.
- RouteForm.ComponentFill: the component's handlers are modelled on the inputs they were given. In the source, `initRouteSelection` captures the two inputs (js/components/route-selection.js:14-17), wires the popular, swap and suggestion handlers to them, and then `setupInputHandlers` replaces each input by a clone (lines 323-330). From then on those handlers, ComponentSuggestion, ComponentPopular and ComponentSwap, read and write the detached originals, and a detached input is never `document.activeElement`, so the focus branches never apply. The visible inputs are only changed by typing, and the debounced save stores their values. The model describes the handlers as if they acted on the visible form.

## Findings

| source | as written | input that shows it | evidently intended | confidence | as-written member | corrected member |
|---|---|---|---|---|---|---|
| js/pages/registered-cargo.js:66-72 | a saved trip marks a cargo as submitted when `t.submittedId === cargo.orderId`, which also holds when both are `undefined` | one saved trip without a `submittedId` and the untaken cargo 1: render marks cargo 1 as submitted | only a trip whose `submittedId` is the cargo's order id, or whose id is the cargo's id, marks it | high, not executed | RegisteredCargo.UntakenCargoMarked | RegisteredCargo.MarkNeedsId |
| js/pages/kyc.js:52-68 | the delayed completion marks whichever document is active when the timer fires, and clears the choice | click the ID card, upload, then click the selfie within two seconds: the selfie is marked completed and the ID card stays uploading | the document whose upload started is the one completed | medium, not executed | Kyc.SecondClickCompletesWrongDoc | Kyc.UploadCompletesStartedDoc |

=== FILE: airport.dfy ===
/** Airport codes in free-text place labels such as `تهران (IKA)`: the
    first three capital letters in parentheses, otherwise the first
    standalone three-capital word. Word boundaries are those of a
    non-Unicode regular expression: a word character is an ASCII letter,
    digit or underscore, so Persian letters count as boundaries. */
module Airport {
  import opened Wrappers
  import opened Text
  import opened Js

  predicate IsWordChar(c: char) {
    ('a' <= c <= 'z') || ('A' <= c <= 'Z') || ('0' <= c <= '9') || c == '_'
  }

  predicate Upper3(s: string, i: nat) {
    i + 3 <= |s| && IsAsciiUpper(s[i]) && IsAsciiUpper(s[i + 1]) && IsAsciiUpper(s[i + 2])
  }

  /** `/\(([A-Z]{3})\)/` matches at `i`. */
  predicate ParenCodeAt(s: string, i: nat) {
    i + 5 <= |s| && s[i] == '(' && Upper3(s, i + 1) && s[i + 4] == ')'
  }

  /** `/\b[A-Z]{3}\b/` matches at `i`. */
  predicate WordCodeAt(s: string, i: nat) {
    Upper3(s, i)
    && (i == 0 || !IsWordChar(s[i - 1]))
    && (i + 3 == |s| || !IsWordChar(s[i + 3]))
  }

  /** The leftmost position at or after `from` where `at` holds: where a
      regular-expression search starting at `from` reports its match. */
  function FirstMatch(s: string, from: nat, at: (string, nat) -> bool): (r: Option<nat>)
    requires from <= |s|
    ensures r.Some? ==> from <= r.value < |s| && at(s, r.value)
    ensures r.Some? ==> forall j :: from <= j < r.value ==> !at(s, j)
    ensures r.None? ==> forall j :: from <= j < |s| ==> !at(s, j)
    decreases |s| - from
  {
    if from == |s| then None
    else if at(s, from) then Some(from)
    else FirstMatch(s, from + 1, at)
  }

  /** `i` is the leftmost position where `at` holds. */
  ghost predicate LeftmostAt(s: string, i: nat, at: (string, nat) -> bool) {
    i < |s| && at(s, i) && forall j :: 0 <= j < i ==> !at(s, j)
  }

  /** The code the two patterns find in a string, if any. */
  function FindCode(s: string): (r: Option<string>)
    ensures r.Some? ==> |r.value| == 3 && forall k :: 0 <= k < 3 ==> IsAsciiUpper(r.value[k])
    ensures (exists i :: 0 <= i < |s| && ParenCodeAt(s, i)) ==>
      (exists i: nat :: LeftmostAt(s, i, ParenCodeAt) && r == Some(s[i + 1..i + 4]))
    ensures (forall i :: 0 <= i < |s| ==> !ParenCodeAt(s, i)) && (exists i :: 0 <= i < |s| && WordCodeAt(s, i)) ==>
      (exists i: nat :: LeftmostAt(s, i, WordCodeAt) && r == Some(s[i..i + 3]))
    ensures r.None? <==> forall i :: 0 <= i < |s| ==> !ParenCodeAt(s, i) && !WordCodeAt(s, i)
  {
    match FirstMatch(s, 0, ParenCodeAt)
    case Some(i) =>
      assert LeftmostAt(s, i, ParenCodeAt);
      Some(s[i + 1..i + 4])
    case None =>
      match FirstMatch(s, 0, WordCodeAt)
      case Some(i) =>
        assert LeftmostAt(s, i, WordCodeAt);
        Some(s[i..i + 3])
      case None => None
  }

  /** `extractAirportCode` of the listing store: `null` for a non-string
      and when nothing matches. */
  function ExtractOrNull(text: Prop): (r: Option<string>)
    ensures !(text.Some? && text.value.Str?) ==> r.None?
    ensures text.Some? && text.value.Str? ==> r == FindCode(text.value.s)
  {
    match text
    case Some(Str(s)) => FindCode(s)
    case _ => None
  }

  /** `extractAirportCode` of the flight-order page: the same search, with
      `''` in place of `null`. */
  function ExtractOrEmpty(text: Prop): (r: string)
    ensures r == "" <==> ExtractOrNull(text).None?
    ensures ExtractOrNull(text).Some? ==> r == ExtractOrNull(text).value
  {
    match ExtractOrNull(text)
    case Some(c) => c
    case None => ""
  }

  /** A label written as `name (CODE)`, with no parenthesis in the name,
      gives back its code. */
  lemma {:induction false} LabelCode(name: string, code: string)
    requires |code| == 3 && forall k :: 0 <= k < 3 ==> IsAsciiUpper(code[k])
    requires forall k :: 0 <= k < |name| ==> name[k] != '('
    ensures ExtractOrNull(Some(Str(name + " (" + code + ")")))  == Some(code)
  {
    var s := name + " (" + code + ")";
    var i := |name| + 1;
    assert s[i] == '(' && s[i + 1..i + 4] == code && s[i + 4] == ')';
    assert ParenCodeAt(s, i);
    forall j | 0 <= j < i ensures !ParenCodeAt(s, j) {
      if j < |name| { assert s[j] == name[j]; } else { assert s[j] == ' '; }
    }
    var m := FirstMatch(s, 0, ParenCodeAt);
    assert m == Some(i);
  }

  /** A bare code is its own code. */
  lemma BareCode(code: string)
    requires |code| == 3 && forall k :: 0 <= k < 3 ==> IsAsciiUpper(code[k])
    ensures ExtractOrNull(Some(Str(code))) == Some(code)
  {
    assert WordCodeAt(code, 0);
    assert FirstMatch(code, 0, WordCodeAt) == Some(0);
    assert code[0..3] == code;
  }

  /** A word longer than three capitals holds no standalone code. */
  lemma NoCodeInLongWord()
    ensures ExtractOrNull(Some(Str("ABCD"))) == None
  {
    var s := "ABCD";
    assert !WordCodeAt(s, 0) && !WordCodeAt(s, 1);
    assert forall i :: 0 <= i < |s| ==> !ParenCodeAt(s, i) && !WordCodeAt(s, i);
  }
}

=== FILE: cargo_categories.dfy ===
/** The cargo-category page: buttons, numbered from 0, that the user
    selects and deselects, a search box that hides buttons whose text does
    not match, and a continue button that shows how many are selected. The
    selection is a set of button indices kept in insertion order, and it is
    stored as that array under `cargoCategories` in both storages. */
module CargoCategories {
  import opened Wrappers
  import opened Text
  import opened Js

  const CategoriesKey := "cargoCategories"
  const ContinueText := "ادامه"

  /** No index occurs twice. */
  predicate Distinct(s: seq<int>) {
    forall i, j :: 0 <= i < j < |s| ==> s[i] != s[j]
  }

  /** `set.delete(x)` on the insertion-ordered selection. */
  function Without(s: seq<int>, x: int): (r: seq<int>)
    ensures forall y :: y in r <==> y in s && y != x
    ensures x !in s ==> r == s
    ensures Distinct(s) ==> Distinct(r)
    ensures Distinct(s) && x in s ==> |r| == |s| - 1
  {
    if |s| == 0 then []
    else
      var rest := Without(s[1..], x);
      if s[0] == x then rest
      else
        assert Distinct(s) ==> s[0] !in s[1..];
        [s[0]] + rest
  }

  /** A click on button `i`: a selected index is deleted, any other one is
      added at the end. */
  function Toggle(sel: seq<int>, i: int): (r: seq<int>)
    ensures i in r <==> i !in sel
    ensures forall x :: x != i ==> (x in r <==> x in sel)
    ensures Distinct(sel) ==> Distinct(r)
    ensures Distinct(sel) ==> |r| == (if i in sel then |sel| - 1 else |sel| + 1)
  {
    if i in sel then Without(sel, i) else sel + [i]
  }

  /** Deleting an index just added gives back the selection before. */
  lemma {:induction false} WithoutLast(s: seq<int>, x: int)
    requires x !in s
    ensures Without(s + [x], x) == s
    decreases |s|
  {
    if |s| > 0 {
      WithoutLast(s[1..], x);
      assert (s + [x])[1..] == s[1..] + [x];
      assert [s[0]] + s[1..] == s;
    }
  }

  /** Two clicks on the same button select the same set; when the button
      was not selected the array itself is restored, and when it was, its
      index moves to the end. */
  lemma ToggleTwice(sel: seq<int>, i: int)
    requires Distinct(sel)
    ensures forall x :: x in Toggle(Toggle(sel, i), i) <==> x in sel
    ensures i !in sel ==> Toggle(Toggle(sel, i), i) == sel
    ensures i in sel ==> Toggle(Toggle(sel, i), i) == Without(sel, i) + [i]
  {
    if i !in sel {
      WithoutLast(sel, i);
    }
  }

  /** The continue button's text: `ادامه (n)` for a non-empty selection of
      `n` indices, `ادامه` for none. */
  function ContinueLabel(n: nat): (r: string)
    ensures n == 0 ==> r == ContinueText
    ensures n > 0 ==> r == ContinueText + " (" + NatText(n) + ")"
  {
    if n > 0 then ContinueText + " (" + NatText(n) + ")" else ContinueText
  }

  /** The label tells the count: different counts give different labels. */
  lemma ContinueLabelInjective(n: nat, m: nat)
    requires ContinueLabel(n) == ContinueLabel(m)
    ensures n == m
  {
    var p := ContinueText + " (";
    if n > 0 && m > 0 {
      var l := ContinueLabel(n);
      assert l == p + NatText(n) + ")";
      assert l[|p|..|l| - 1] == NatText(n);
      assert ContinueLabel(m)[|p|..|l| - 1] == NatText(m);
      NatTextRoundTrip(n);
      NatTextRoundTrip(m);
    }
  }

  /** The search box: the typed text is lower-cased and trimmed; a button
      stays visible when that is empty or occurs in its lower-cased text. */
  predicate ButtonVisible(buttonText: string, typed: string) {
    var q := Trim(ToLower(typed));
    q == "" || Contains(ToLower(buttonText), q)
  }

  /** Lower-casing leaves white space alone. */
  lemma LowerKeepsSpace(s: string)
    requires AllSpace(s)
    ensures AllSpace(ToLower(s))
  {
  }

  /** A blank search shows every button, and typing a button's own
      lower-case text keeps it visible. */
  lemma SearchShows(buttonText: string, typed: string)
    ensures AllSpace(typed) ==> ButtonVisible(buttonText, typed)
    ensures typed == ToLower(buttonText) && Trim(typed) == typed ==> ButtonVisible(buttonText, typed)
  {
    if AllSpace(typed) {
      LowerKeepsSpace(typed);
      TrimEmptyIff(ToLower(typed));
    }
    if typed == ToLower(buttonText) && Trim(typed) == typed {
      LowerIdempotent(buttonText);
      assert OccursAt(ToLower(buttonText), typed, 0);
    }
  }

  /** The visibility of every button for one search. */
  function SearchView(texts: seq<string>, typed: string): (r: seq<bool>)
    ensures |r| == |texts|
    ensures forall i :: 0 <= i < |texts| ==> (r[i] <==> ButtonVisible(texts[i], typed))
  {
    seq(|texts|, i requires 0 <= i < |texts| => ButtonVisible(texts[i], typed))
  }

  /** The selection a stored array yields: each index added to the set in
      turn, so repeats collapse onto their first place. */
  function FromArray(xs: seq<int>): (r: seq<int>)
    ensures Distinct(r)
    ensures forall x :: x in r <==> x in xs
    ensures Distinct(xs) ==> r == xs
    decreases |xs|
  {
    if |xs| == 0 then []
    else
      var init := xs[..|xs| - 1];
      var last := xs[|xs| - 1];
      assert xs == init + [last];
      var r := FromArray(init);
      if last in r then r
      else
        assert Distinct(xs) ==> last !in init;
        r + [last]
  }

  /** The selection a stored entry yields: an array gives its indices; a
      missing entry, text that does not parse, or a value that is not an
      array (on which `forEach` throws) gives none. */
  function Loaded(entry: Stored<int>): (r: seq<int>)
    ensures Distinct(r)
    ensures entry.Items? ==> forall x :: x in r <==> x in entry.items
    ensures !entry.Items? ==> r == []
  {
    match entry
    case Items(xs) => FromArray(xs)
    case _ => []
  }

  /** The key in both storages. An entry whose raw text is empty counts as
      `Absent`, as it does for the `||` that chooses between them. */
  datatype Store = Store(local: Stored<int>, session: Stored<int>)

  /** `loadSavedCategories()`: the session entry when there is one, else the
      local entry. */
  function Load(s: Store): (r: seq<int>)
    ensures !s.session.Absent? ==> r == Loaded(s.session)
    ensures s.session.Absent? ==> r == Loaded(s.local)
  {
    if !s.session.Absent? then Loaded(s.session) else Loaded(s.local)
  }

  /** `saveCategories()`: the selection, as an array, in both storages. */
  function Save(sel: seq<int>): (r: Store)
    ensures r.local == Items(sel) && r.session == Items(sel)
  {
    Store(Items(sel), Items(sel))
  }

  /** Which buttons `restoreUI` marks: exactly those whose index is
      selected. */
  function Marks(sel: seq<int>, buttons: nat): (r: seq<bool>)
    ensures |r| == buttons
    ensures forall i :: 0 <= i < buttons ==> (r[i] <==> i in sel)
  {
    seq(buttons, i requires 0 <= i < buttons => i in sel)
  }

  /** The page: the selection and the storage. */
  datatype Page = Page(selected: seq<int>, store: Store)

  /** Opening the page: the saved selection is loaded into an empty set. */
  function Open(s: Store): (r: Page)
    ensures Distinct(r.selected) && r.store == s
    ensures r.selected == Load(s)
  {
    Page(Load(s), s)
  }

  /** A click on button `i`: the selection is toggled, the label follows
      and the selection is saved. */
  function Click(p: Page, i: int): (r: (Page, string))
    ensures r.0.selected == Toggle(p.selected, i)
    ensures r.0.store == Save(r.0.selected)
    ensures r.1 == ContinueLabel(|r.0.selected|)
  {
    var sel := Toggle(p.selected, i);
    (Page(sel, Save(sel)), ContinueLabel(|sel|))
  }

  /** What is saved is what the next visit loads: after a click, reopening
      the page gives the same selection, whatever was stored before. */
  lemma ClickThenReopen(p: Page, i: int)
    requires Distinct(p.selected)
    ensures Open(Click(p, i).0.store).selected == Click(p, i).0.selected
  {
  }
}

=== FILE: cart.dfy ===
/** The order list kept in the browser's `localStorage` under `my_orders`
    (the cart component). Every operation reads the whole list, changes it,
    writes it back and announces the change with a `cart-updated` and an
    `orders-updated` event. An operation is a pure function from the stored
    entry to the new entry, what the call returns (or that it throws) and
    the events it dispatches. The clock is a parameter: `now` is
    `Date.now()` and `nowIso` is `new Date().toISOString()`. */
module Cart {
  import opened Wrappers
  import opened Js
  import opened Lists

  datatype Event = CartUpdated | OrdersUpdated

  /** The two events every successful change dispatches, in order. */
  const Notify: seq<Event> := [CartUpdated, OrdersUpdated]

  /** The entry after a call, what the call gave back, and the events it
      dispatched. */
  datatype Step<R> = Step(slot: Stored<Object>, result: Outcome<R>, events: seq<Event>)

  /** `getOrders()`: `JSON.parse(entry) || []`, with unparsable text read as
      the empty list. A truthy non-array value is passed on, and the array
      methods the callers apply to it throw. */
  function GetOrders(slot: Stored<Object>): (r: Reading<Object>)
    ensures r.NotAList? <==> slot.OtherJson?
    ensures slot.Items? ==> r == List(slot.items)
    ensures !slot.Items? && !slot.OtherJson? ==> r == List([])
  {
    match slot
    case Items(xs) => List(xs)
    case OtherJson => NotAList
    case _ => List([])
  }

  /** The duplicate test of `addOrder`: same origin, destination and date
      under `===`. */
  predicate SameTrip(a: Object, b: Object) {
    StrictEq(Get(a, "from"), Get(b, "from"))
    && StrictEq(Get(a, "to"), Get(b, "to"))
    && StrictEq(Get(a, "date"), Get(b, "date"))
  }

  /** The stored record for a new order: the order's own properties, an
      `id` (its own when truthy, else the clock) and a `createdAt` stamp. */
  function Stamp(order: Object, now: int, nowIso: string): (r: Object)
    ensures r.Keys == order.Keys + {"id", "createdAt"}
    ensures r["id"] == Or(Get(order, "id"), Num(now as real))
    ensures r["createdAt"] == Str(nowIso)
    ensures forall k :: k in order && k != "id" && k != "createdAt" ==> r[k] == order[k]
  {
    order["id" := Or(Get(order, "id"), Num(now as real))]["createdAt" := Str(nowIso)]
  }

  /** `addOrder(order)`: appends the stamped record unless a stored order
      has the same trip, in which case it returns `null` and writes
      nothing. */
  function AddOrder(slot: Stored<Object>, order: Object, now: int, nowIso: string): (r: Step<Option<Object>>)
    ensures r.result.Threw? <==> slot.OtherJson?
    ensures r.result == Returned(None) <==>
      GetOrders(slot).List? && exists i :: 0 <= i < |GetOrders(slot).items| && SameTrip(GetOrders(slot).items[i], order)
    ensures r.result.Returned? && r.result.value.Some? ==>
      r.result.value.value == Stamp(order, now, nowIso)
      && r.slot == Items(GetOrders(slot).items + [r.result.value.value])
      && r.events == Notify
    ensures !(r.result.Returned? && r.result.value.Some?) ==> r.slot == slot && r.events == []
  {
    match GetOrders(slot)
    case NotAList => Step(slot, Threw, [])
    case List(orders) =>
      if Any(orders, o => SameTrip(o, order)) then Step(slot, Returned(None), [])
      else
        var rec := Stamp(order, now, nowIso);
        Step(Items(orders + [rec]), Returned(Some(rec)), Notify)
  }

  /** `removeOrder(orderId)`: drops every order whose `id` is `orderId` and
      reports whether anything was dropped; nothing is written otherwise. */
  function RemoveOrder(slot: Stored<Object>, orderId: Prop): (r: Step<bool>)
    ensures r.result.Threw? <==> slot.OtherJson?
    ensures r.result == Returned(true) <==>
      GetOrders(slot).List?
      && exists i :: 0 <= i < |GetOrders(slot).items| && HasId(GetOrders(slot).items[i], orderId)
    ensures r.result == Returned(true) ==>
      var before := GetOrders(slot).items;
      r.slot.Items? && r.events == Notify
      && multiset(r.slot.items) <= multiset(before)
      && (forall i :: 0 <= i < |r.slot.items| ==> !HasId(r.slot.items[i], orderId))
      && (forall i :: 0 <= i < |before| && !HasId(before[i], orderId) ==> before[i] in r.slot.items)
    ensures r.result != Returned(true) ==> r.slot == slot && r.events == []
  {
    match GetOrders(slot)
    case NotAList => Step(slot, Threw, [])
    case List(orders) =>
      var kept := Filter(orders, o => !HasId(o, orderId));
      FilterShorterIff(orders, o => !HasId(o, orderId));
      if |kept| < |orders| then Step(Items(kept), Returned(true), Notify)
      else Step(slot, Returned(false), [])
  }

  /** `updateOrder(orderId, updates)`: merges `updates` into the first order
      whose `id` is `orderId`; every other order stays as it was. */
  function UpdateOrder(slot: Stored<Object>, orderId: Prop, updates: Object): (r: Step<bool>)
    ensures r.result.Threw? <==> slot.OtherJson?
    ensures r.result == Returned(true) <==>
      GetOrders(slot).List?
      && exists i :: 0 <= i < |GetOrders(slot).items| && HasId(GetOrders(slot).items[i], orderId)
    ensures r.result == Returned(true) ==>
      var before := GetOrders(slot).items;
      var k := FindIndex(before, o => HasId(o, orderId));
      0 <= k < |before|
      && (forall j :: 0 <= j < k ==> !HasId(before[j], orderId))
      && r.slot == Items(before[k := before[k] + updates])
      && r.events == Notify
    ensures r.result != Returned(true) ==> r.slot == slot && r.events == []
  {
    match GetOrders(slot)
    case NotAList => Step(slot, Threw, [])
    case List(orders) =>
      var k := FindIndex(orders, o => HasId(o, orderId));
      if k != -1 then Step(Items(orders[k := orders[k] + updates]), Returned(true), Notify)
      else Step(slot, Returned(false), [])
  }

  /** `clearCart()`: removes the entry and announces it. */
  function ClearCart(): (r: (Stored<Object>, seq<Event>))
    ensures GetOrders(r.0) == List([])
    ensures r.1 == Notify
  {
    (Absent, Notify)
  }

  /** No two stored orders share a trip: the invariant the duplicate test
      of `addOrder` is meant to keep. */
  ghost predicate NoDuplicateTrips(orders: seq<Object>) {
    forall i, j :: 0 <= i < j < |orders| ==> !SameTrip(orders[i], orders[j])
  }

  /** Adding keeps the list free of duplicate trips. */
  lemma {:induction false} AddKeepsNoDuplicates(slot: Stored<Object>, order: Object, now: int, nowIso: string)
    requires GetOrders(slot).List? && NoDuplicateTrips(GetOrders(slot).items)
    ensures var r := AddOrder(slot, order, now, nowIso);
      NoDuplicateTrips(GetOrders(r.slot).items)
  {
    var r := AddOrder(slot, order, now, nowIso);
    var before := GetOrders(slot).items;
    if r.result == Returned(None) {
    } else {
      var rec := Stamp(order, now, nowIso);
      var after := before + [rec];
      assert Get(rec, "from") == Get(order, "from");
      assert Get(rec, "to") == Get(order, "to");
      assert Get(rec, "date") == Get(order, "date");
      forall i, j | 0 <= i < j < |after| ensures !SameTrip(after[i], after[j]) {
        if j == |before| {
          assert after[i] == before[i];
          assert !SameTrip(before[i], order);
        } else {
          assert after[i] == before[i] && after[j] == before[j];
        }
      }
    }
  }

  /** Adding the same order twice stores it once: the second call finds
      the first record and returns `null`. Trip fields must be primitive,
      since an object is never `===` to another. */
  lemma AddTwiceStoresOnce(slot: Stored<Object>, order: Object, now: int, nowIso: string, now2: int, nowIso2: string)
    requires Primitive(Get(order, "from")) && Primitive(Get(order, "to")) && Primitive(Get(order, "date"))
    requires GetOrders(slot).List?
    ensures var r1 := AddOrder(slot, order, now, nowIso);
      var r2 := AddOrder(r1.slot, order, now2, nowIso2);
      r2.result == Returned(None) && r2.slot == r1.slot && r2.events == []
  {
    var r1 := AddOrder(slot, order, now, nowIso);
    var items := GetOrders(r1.slot).items;
    if r1.result == Returned(None) {
      var i :| 0 <= i < |GetOrders(slot).items| && SameTrip(GetOrders(slot).items[i], order);
      assert SameTrip(items[i], order);
    } else {
      var rec := Stamp(order, now, nowIso);
      assert items[|items| - 1] == rec;
      assert Get(rec, "from") == Get(order, "from");
      assert Get(rec, "to") == Get(order, "to");
      assert Get(rec, "date") == Get(order, "date");
      assert SameTrip(items[|items| - 1], order);
    }
  }

  /** An order for a trip just added is refused, whatever its other
      fields: the duplicate test compares route and date only. */
  lemma AddSameTripStoresOnce(slot: Stored<Object>, order: Object, order2: Object, now: int, nowIso: string, now2: int, nowIso2: string)
    requires Primitive(Get(order, "from")) && Primitive(Get(order, "to")) && Primitive(Get(order, "date"))
    requires Get(order2, "from") == Get(order, "from") && Get(order2, "to") == Get(order, "to")
    requires Get(order2, "date") == Get(order, "date")
    requires GetOrders(slot).List?
    ensures var r1 := AddOrder(slot, order, now, nowIso);
      var r2 := AddOrder(r1.slot, order2, now2, nowIso2);
      r2.result == Returned(None) && r2.slot == r1.slot && r2.events == []
  {
    var r1 := AddOrder(slot, order, now, nowIso);
    var items := GetOrders(r1.slot).items;
    if r1.result == Returned(None) {
      var i :| 0 <= i < |GetOrders(slot).items| && SameTrip(GetOrders(slot).items[i], order);
      assert SameTrip(items[i], order2);
    } else {
      var rec := Stamp(order, now, nowIso);
      assert items[|items| - 1] == rec;
      assert Get(rec, "from") == Get(order, "from");
      assert Get(rec, "to") == Get(order, "to");
      assert Get(rec, "date") == Get(order, "date");
      assert SameTrip(items[|items| - 1], order2);
    }
  }

  /** Removing an id twice: the second call finds nothing, returns `false`
      and leaves the entry alone. */
  lemma RemoveTwiceIsNoOp(slot: Stored<Object>, orderId: Prop)
    ensures var r1 := RemoveOrder(slot, orderId);
      var r2 := RemoveOrder(r1.slot, orderId);
      r2.result == (if slot.OtherJson? then Threw else Returned(false)) && r2.slot == r1.slot
  {
  }

  /** A record added with a primitive id can be removed by that id, and the
      removal takes away nothing else. */
  lemma {:induction false} AddThenRemove(slot: Stored<Object>, order: Object, now: int, nowIso: string)
    requires GetOrders(slot).List?
    requires IsTruthy(Get(order, "id")) && Primitive(Get(order, "id"))
    requires forall i :: 0 <= i < |GetOrders(slot).items| ==> !SameTrip(GetOrders(slot).items[i], order)
    requires forall i :: 0 <= i < |GetOrders(slot).items| ==> !HasId(GetOrders(slot).items[i], Get(order, "id"))
    ensures var r1 := AddOrder(slot, order, now, nowIso);
      var r2 := RemoveOrder(r1.slot, Get(order, "id"));
      r2.result == Returned(true) && r2.slot == Items(GetOrders(slot).items)
  {
    var before := GetOrders(slot).items;
    var r1 := AddOrder(slot, order, now, nowIso);
    var rec := Stamp(order, now, nowIso);
    var id := Get(order, "id");
    var p := o => !HasId(o, id);
    assert r1.slot == Items(before + [rec]);
    assert Get(rec, "id") == id;
    FilterConcat(before, [rec], p);
    FilterShorterIff(before, p);
    assert Filter([rec], p) == [];
    assert Filter(before + [rec], p) == before;
    RemoveFromItems(before + [rec], id);
  }

  /** `removeOrder` on a stored array: the orders without the id, when
      that drops any. */
  lemma RemoveFromItems(orders: seq<Object>, orderId: Prop)
    ensures var kept := Filter(orders, o => !HasId(o, orderId));
      RemoveOrder(Items(orders), orderId)
      == if |kept| < |orders| then Step(Items(kept), Returned(true), Notify) else Step(Items(orders), Returned(false), [])
  {
    assert GetOrders(Items(orders)) == List(orders);
  }

  /** Updating can create a duplicate trip: the duplicate test guards only
      `addOrder`, so `NoDuplicateTrips` is not an invariant of the store. */
  lemma UpdateCanDuplicateTrips()
    ensures var a := map["id" := Num(1.0), "from" := Str("THR"), "to" := Str("DXB"), "date" := Str("2024-05-01")];
      var b := map["id" := Num(2.0), "from" := Str("IST"), "to" := Str("DXB"), "date" := Str("2024-05-01")];
      var r := UpdateOrder(Items([a, b]), Some(Num(2.0)), map["from" := Str("THR")]);
      NoDuplicateTrips([a, b]) && r.result == Returned(true) && !NoDuplicateTrips(r.slot.items)
  {
    var a := map["id" := Num(1.0), "from" := Str("THR"), "to" := Str("DXB"), "date" := Str("2024-05-01")];
    var b := map["id" := Num(2.0), "from" := Str("IST"), "to" := Str("DXB"), "date" := Str("2024-05-01")];
    var r := UpdateOrder(Items([a, b]), Some(Num(2.0)), map["from" := Str("THR")]);
    assert !HasId(a, Some(Num(2.0)));
    assert HasId(b, Some(Num(2.0)));
    assert r.slot.items == [a, b + map["from" := Str("THR")]];
    assert SameTrip(r.slot.items[0], r.slot.items[1]);
  }
}

=== FILE: flight_filter.dfy ===
/** The price and category filter of the registered-flights page. Each
    flight card is read as the text of its price element (if it has one)
    and the texts of its badges; the filter shows a card when its price is
    within the slider's value and its category is the selected one. The
    slider and the category menu may be missing from the page. */
module FlightFilter {
  import opened Wrappers
  import opened Text
  import opened Numbers
  import Guards

  /** The price used when the page has no slider, and the one the reset
      button puts on it. */
  const NoSliderPrice := 200
  const ResetPrice := 100

  /** A flight card as the filter reads it. */
  datatype Card = Card(priceText: Option<string>, badges: seq<string>)

  /** A card's price: the number spelled by the ASCII digits of its price
      text, 0 when there is no price element or no digit. Persian digits
      are not ASCII digits and are skipped. */
  function CardPrice(c: Card): (r: nat)
    ensures c.priceText.None? ==> r == 0
    ensures c.priceText.Some? && |c.priceText.value| > 0 && AllDigits(c.priceText.value) ==> r == DigitsValue(c.priceText.value)
  {
    match c.priceText
    case None => 0
    case Some(t) => DigitsNumber(t)
  }

  /** A price text without any ASCII digit gives 0. */
  lemma {:induction false} NoAsciiDigitsIsZero(s: string)
    requires forall i :: 0 <= i < |s| ==> !IsAsciiDigit(s[i])
    ensures DigitsOnly(s) == "" && DigitsNumber(s) == 0
    decreases |s|
  {
    if |s| > 0 {
      NoAsciiDigitsIsZero(s[1..]);
    }
  }

  /** Letters and signs between the digits are dropped: the price of a text
      is the price of the same text without a character that is not an
      ASCII digit. */
  lemma {:induction false} DigitsOnlySkips(a: string, c: char, b: string)
    requires !IsAsciiDigit(c)
    ensures DigitsOnly(a + [c] + b) == DigitsOnly(a + b)
    ensures DigitsNumber(a + [c] + b) == DigitsNumber(a + b)
    decreases |a|
  {
    if |a| == 0 {
      assert a + [c] + b == [c] + b;
      assert ([c] + b)[1..] == b;
      assert a + b == b;
    } else {
      DigitsOnlySkips(a[1..], c, b);
      assert (a + [c] + b)[0] == a[0] && (a + [c] + b)[1..] == a[1..] + [c] + b;
      assert (a + b)[0] == a[0] && (a + b)[1..] == a[1..] + b;
    }
  }

  /** The category a single badge names, keywords checked in this order:
      documents, watch (filed under electronics), electronics, clothing,
      valuables. */
  function BadgeCategory(badge: string): (r: Option<string>)
    ensures r == Some("docs") <==> Contains(badge, "مدارک")
    ensures r == Some("electronics") <==>
      !Contains(badge, "مدارک") && (Contains(badge, "ساعت") || Contains(badge, "الکترونیک"))
    ensures r == Some("clothes") <==>
      !Contains(badge, "مدارک") && !Contains(badge, "ساعت") && !Contains(badge, "الکترونیک") && Contains(badge, "پوشاک")
    ensures r == Some("valuables") <==>
      !Contains(badge, "مدارک") && !Contains(badge, "ساعت") && !Contains(badge, "الکترونیک")
      && !Contains(badge, "پوشاک") && Contains(badge, "اشیاء قیمتی")
    ensures r.None? <==>
      !Contains(badge, "مدارک") && !Contains(badge, "ساعت") && !Contains(badge, "الکترونیک")
      && !Contains(badge, "پوشاک") && !Contains(badge, "اشیاء قیمتی")
  {
    if Contains(badge, "مدارک") then Some("docs")
    else if Contains(badge, "ساعت") then Some("electronics")
    else if Contains(badge, "الکترونیک") then Some("electronics")
    else if Contains(badge, "پوشاک") then Some("clothes")
    else if Contains(badge, "اشیاء قیمتی") then Some("valuables")
    else None
  }

  /** A card's category: every badge that names one overwrites the value
      so far, so the last such badge decides; none gives the empty text. */
  function CardCategory(badges: seq<string>): (r: string)
    decreases |badges|
  {
    if |badges| == 0 then ""
    else
      match BadgeCategory(badges[|badges| - 1])
      case Some(cat) => cat
      case None => CardCategory(badges[..|badges| - 1])
  }

  /** The last badge that names a category decides, and a card whose
      badges name none has the empty category. */
  lemma {:induction false} LastBadgeWins(badges: seq<string>)
    ensures (forall i :: 0 <= i < |badges| ==> BadgeCategory(badges[i]).None?) ==> CardCategory(badges) == ""
    ensures forall k :: 0 <= k < |badges| && BadgeCategory(badges[k]).Some?
                     && (forall j :: k < j < |badges| ==> BadgeCategory(badges[j]).None?)
                     ==> CardCategory(badges) == BadgeCategory(badges[k]).value
    decreases |badges|
  {
    if |badges| > 0 {
      var init := badges[..|badges| - 1];
      LastBadgeWins(init);
      assert forall i :: 0 <= i < |init| ==> init[i] == badges[i];
    }
  }

  /** The category texts the filter can give a card. */
  lemma {:induction false} CardCategoryValues(badges: seq<string>)
    ensures CardCategory(badges) in {"", "docs", "electronics", "clothes", "valuables"}
    decreases |badges|
  {
    if |badges| > 0 {
      CardCategoryValues(badges[..|badges| - 1]);
    }
  }

  /** Whether a card passes: its price is at most the selected price and
      the selected category is empty or the card's. */
  predicate Visible(c: Card, price: int, category: string) {
    CardPrice(c) <= price && (category == "" || CardCategory(c.badges) == category)
  }

  /** The filter's inputs: the slider's value and the category menu's
      value, each absent when the page lacks the control. */
  datatype Controls = Controls(slider: Option<int>, category: Option<string>)

  /** The price and category `applyFilters` uses: 200 and all categories
      for missing controls. */
  function SelectedPrice(ctl: Controls): (r: int)
    ensures ctl.slider.None? ==> r == NoSliderPrice
    ensures ctl.slider.Some? ==> r == ctl.slider.value
  {
    match ctl.slider
    case None => NoSliderPrice
    case Some(v) => v
  }

  function SelectedCategory(ctl: Controls): (r: string)
    ensures ctl.category.None? ==> r == ""
    ensures ctl.category.Some? ==> r == ctl.category.value
  {
    match ctl.category
    case None => ""
    case Some(v) => v
  }

  /** What the page shows: which cards are displayed and whether the
      "no results" message is up. */
  datatype View = View(shown: seq<bool>, noResults: bool)

  /** `applyFilters()`: with no cards nothing changes; otherwise each card
      is shown exactly when it passes, and the message is up exactly when
      no card passes. */
  function ApplyFilters(cards: seq<Card>, ctl: Controls, v: View): (r: View)
    ensures |cards| == 0 ==> r == v
    ensures |cards| > 0 ==>
      |r.shown| == |cards|
      && (forall i :: 0 <= i < |cards| ==> (r.shown[i] <==> Visible(cards[i], SelectedPrice(ctl), SelectedCategory(ctl))))
      && (r.noResults <==> forall i :: 0 <= i < |cards| ==> !r.shown[i])
  {
    if |cards| == 0 then v
    else
      var shown := seq(|cards|, i requires 0 <= i < |cards| => Visible(cards[i], SelectedPrice(ctl), SelectedCategory(ctl)));
      View(shown, CountTrue(shown) == 0)
  }

  /** The number of shown cards, `visibleCount`. */
  function CountTrue(s: seq<bool>): (n: nat)
    ensures n <= |s|
    ensures n == 0 <==> forall i :: 0 <= i < |s| ==> !s[i]
  {
    if |s| == 0 then 0 else (if s[0] then 1 else 0) + CountTrue(s[1..])
  }

  /** `resetFilters()`: the slider goes to 100 and the menu to every
      category, all cards are shown and the message is removed. */
  function ResetFilters(cards: seq<Card>, ctl: Controls): (r: (Controls, View))
    ensures r.0.slider == (if ctl.slider.Some? then Some(ResetPrice) else None)
    ensures r.0.category == (if ctl.category.Some? then Some("") else None)
    ensures |r.1.shown| == |cards| && (forall i :: 0 <= i < |cards| ==> r.1.shown[i]) && !r.1.noResults
  {
    (Controls(if ctl.slider.Some? then Some(ResetPrice) else None, if ctl.category.Some? then Some("") else None),
     View(seq(|cards|, _ => true), false))
  }

  /** After a reset, filtering again shows exactly the cards of price at
      most 100 when the page has a slider: the reset itself shows every
      card, so a card over 100 is shown until the next filter run. */
  lemma ResetThenApply(cards: seq<Card>, ctl: Controls, i: nat)
    requires i < |cards| && ctl.slider.Some?
    ensures var (ctl2, v2) := ResetFilters(cards, ctl);
      v2.shown[i] && (ApplyFilters(cards, ctl2, v2).shown[i] <==> CardPrice(cards[i]) <= ResetPrice)
  {
    var (ctl2, v2) := ResetFilters(cards, ctl);
    assert SelectedCategory(ctl2) == "";
  }

  /** Filtering twice with the same controls gives the same view. */
  lemma ApplyFiltersIdempotent(cards: seq<Card>, ctl: Controls, v: View)
    ensures ApplyFilters(cards, ctl, ApplyFilters(cards, ctl, v)) == ApplyFilters(cards, ctl, v)
  {
  }

  /** `cleanupFlightFiltering()` and the `pageshow` handler: the flag that
      `initFlightFiltering` (`Guards.Init`) checks is lowered, so that the
      next call sets the filter up again. */
  function Cleanup(g: Guards.Guard): (r: Guards.Guard)
    ensures !r.initialized && r.setups == g.setups
    ensures Guards.Init(r, true).setups == g.setups + 1
  {
    g.(initialized := false)
  }
}

=== FILE: flight_order.dfy ===
/** The flight-order page: what it shows for a flight id. A saved trip whose
    id or submission id matches is shown as it is; otherwise a cart order
    with that id is turned into a flight card, with airport codes, weight
    and reward read out of its free-text fields. */
module FlightOrder {
  import opened Wrappers
  import opened Text
  import opened Numbers
  import opened Js
  import opened Lists
  import Cart
  import Trips
  import Airport

  const DefaultCargo := "مرسوله"

  /** `parseNumber(value)`: a number is returned as it is, a string yields
      the first run of digits and dots once the commas are gone (0 when
      there is none or it is not a numeral), anything else 0. */
  function ParseNumber(value: Value): (r: real)
    ensures value.Num? ==> r == value.n
    ensures !value.Num? ==> r >= 0.0
    ensures !value.Num? && !value.Str? ==> r == 0.0
    ensures value.Str? && |value.s| > 0 && AllDigits(value.s) ==> r == DigitsValue(value.s) as real
  {
    match value
    case Num(n) => n
    case Str(s) =>
      var t := Remove(s, ',');
      assert AllDigits(s) ==> t == s;
      DigitsRun(t)
    case _ => 0.0
  }

  /** `Number(run) || 0` for the first digit-and-dot run of `t`. */
  function DigitsRun(t: string): (r: real)
    ensures r >= 0.0
    ensures |t| > 0 && AllDigits(t) ==> r == DigitsValue(t) as real
  {
    match FirstRun(t, IsDigitOrDot)
    case None => 0.0
    case Some(run) =>
      assert |t| > 0 && AllDigits(t) ==> RunLength(t, IsDigitOrDot) == |t| && t[..|t|] == t;
      match DecimalNumber(run)
      case None => 0.0
      case Some(x) => x
  }

  /** A string without a single ASCII digit parses as 0: the only runs it
      can hold are dots, which are not a numeral. */
  lemma NoDigitsIsZero(s: string)
    requires forall i :: 0 <= i < |s| ==> !IsAsciiDigit(s[i])
    ensures ParseNumber(Str(s)) == 0.0
  {
    var t := Remove(s, ',');
    assert forall i :: 0 <= i < |t| ==> !IsAsciiDigit(t[i]);
    match FirstRun(t, IsDigitOrDot)
    case None =>
    case Some(run) =>
      OnlyDotsNotNumeral(run);
  }

  /** A non-empty run of dots is `NaN`. */
  lemma OnlyDotsNotNumeral(run: string)
    requires |run| > 0 && forall i :: 0 <= i < |run| ==> run[i] == '.'
    ensures DecimalNumber(run).None?
  {
    assert run[0..1] == ".";
    assert OccursAt(run, ".", 0);
    assert IndexOf(run, ".") == Some(0);
    if |run| > 1 {
      assert !IsAsciiDigit(run[1..][0]);
    }
  }

  /** The text of a number reads back as that number. */
  lemma ParseNumberOfText(n: nat)
    ensures ParseNumber(Str(NatText(n))) == n as real
  {
    NatTextRoundTrip(n);
  }

  /** Commas are thousands separators: a comma anywhere in the text
      does not change the number read from it. */
  lemma ParseNumberIgnoresCommas(a: string, b: string)
    ensures ParseNumber(Str(a + "," + b)) == ParseNumber(Str(a + b))
  {
    var s1 := a + "," + b;
    var s2 := a + b;
    assert Remove(s1, ',') == Remove(s2, ',') by {
      RemoveAppend(a + ",", b, ',');
      RemoveAppend(a, ",", ',');
      RemoveAppend(a, b, ',');
      assert Remove(",", ',') == "" by {
        assert ","[1..] == "";
      }
    }
    assert ParseNumber(Str(s1)) == DigitsRun(Remove(s1, ','));
    assert ParseNumber(Str(s2)) == DigitsRun(Remove(s2, ','));
  }

  /** `extractCategoryFromCargo(cargo)`: the first keyword found in the
      lower-cased cargo text decides, laptop before documents before
      watch, and `سایر` (other) when none is found. */
  function CategoryOf(cargo: string): (r: string)
    ensures r == "الکترونیک" <==> Contains(ToLower(cargo), "لپ")
    ensures r == "مدارک" <==> !Contains(ToLower(cargo), "لپ") && Contains(ToLower(cargo), "مدارک")
    ensures r == "ساعت" <==>
      !Contains(ToLower(cargo), "لپ") && !Contains(ToLower(cargo), "مدارک") && Contains(ToLower(cargo), "ساعت")
    ensures r == "سایر" <==>
      !Contains(ToLower(cargo), "لپ") && !Contains(ToLower(cargo), "مدارک") && !Contains(ToLower(cargo), "ساعت")
  {
    var lower := ToLower(cargo);
    if Contains(lower, "لپ") then "الکترونیک"
    else if Contains(lower, "مدارک") then "مدارک"
    else if Contains(lower, "ساعت") then "ساعت"
    else "سایر"
  }

  /** The category does not depend on the case of the cargo text. */
  lemma CategoryIgnoresCase(cargo: string)
    ensures CategoryOf(ToLower(cargo)) == CategoryOf(cargo)
  {
    LowerIdempotent(cargo);
  }

  /** The flight card the page builds from a cart order. */
  datatype Card = Card(
    id: Prop, fromCode: Prop, toCode: Prop, date: Value, cargo: Value,
    weight: real, rewardValue: real)

  /** `extractAirportCode(text) || text`. */
  function CodeOrText(text: Prop): (r: Prop)
    ensures Airport.ExtractOrEmpty(text) != "" ==> r == Some(Str(Airport.ExtractOrEmpty(text)))
    ensures Airport.ExtractOrEmpty(text) == "" ==> r == text
  {
    var c := Airport.ExtractOrEmpty(text);
    if c != "" then Some(Str(c)) else text
  }

  /** The card for a cart order: codes from the place names, the date of
      the order or of its details, the first named item, and weight and
      reward parsed from the details, the reward preferring `value` to
      `price`; absent numbers are 0. */
  function OrderCard(o: Object): (c: Card)
    ensures c.id == Get(o, "id")
    ensures c.fromCode == CodeOrText(Get(o, "from")) && c.toCode == CodeOrText(Get(o, "to"))
    ensures c.date == Or(OrProp(Get(o, "date"), GetIn(o, "details", "date")), Str(""))
    ensures c.cargo == Or(OrProp(OrProp(GetIn(o, "details", "item"), Get(o, "item")), Get(o, "description")), Str(DefaultCargo))
    ensures IsTruthy(GetIn(o, "details", "weight")) ==> c.weight == ParseNumber(GetIn(o, "details", "weight").value)
    ensures !IsTruthy(GetIn(o, "details", "weight")) ==> c.weight == 0.0
    ensures IsTruthy(GetIn(o, "details", "value")) ==> c.rewardValue == ParseNumber(GetIn(o, "details", "value").value)
    ensures !IsTruthy(GetIn(o, "details", "value")) && IsTruthy(GetIn(o, "details", "price")) ==>
      c.rewardValue == ParseNumber(GetIn(o, "details", "price").value)
    ensures !IsTruthy(GetIn(o, "details", "value")) && !IsTruthy(GetIn(o, "details", "price")) ==> c.rewardValue == 0.0
  {
    var weight := ParseNumber(Or(GetIn(o, "details", "weight"), Str("")));
    var reward := ParseNumber(Or(OrProp(GetIn(o, "details", "value"), GetIn(o, "details", "price")), Str("")));
    NoDigitsIsZero("");
    Card(
      id := Get(o, "id"),
      fromCode := CodeOrText(Get(o, "from")),
      toCode := CodeOrText(Get(o, "to")),
      date := Or(OrProp(Get(o, "date"), GetIn(o, "details", "date")), Str("")),
      cargo := Or(OrProp(OrProp(GetIn(o, "details", "item"), Get(o, "item")), Get(o, "description")), Str(DefaultCargo)),
      weight := if weight != 0.0 then weight else 0.0,
      rewardValue := if reward != 0.0 then reward else 0.0)
  }

  /** What the page shows: a saved trip, a card built from a cart order, or
      nothing. */
  datatype Shown = SavedTrip(trip: Object) | FromOrder(card: Card)

  /** The trip test of the page: `id` or `submittedId` loosely equal to the
      requested id. */
  predicate TripMatches(t: Object, flightId: Prop) {
    LooseEq(Get(t, "id"), flightId) || LooseEq(Get(t, "submittedId"), flightId)
  }

  /** The `show-flight-order` handler: a falsy id does nothing; the saved
      trips are searched first and the cart orders only when no trip
      matches. A stored value that is not a list makes the search throw. */
  function Lookup(trips: Stored<Object>, orders: Stored<Object>, flightId: Prop): (r: Outcome<Option<Shown>>)
    ensures !IsTruthy(flightId) ==> r == Returned(None)
    ensures IsTruthy(flightId) && Trips.LoadTrips(trips).NotAList? ==> r.Threw?
    ensures IsTruthy(flightId) && Trips.LoadTrips(trips).List? ==>
      var ts := Trips.LoadTrips(trips).items;
      var k := FindIndex(ts, t => TripMatches(t, flightId));
      (k >= 0 ==> r == Returned(Some(SavedTrip(ts[k]))))
      && (k == -1 && Cart.GetOrders(orders).NotAList? ==> r.Threw?)
      && (k == -1 && Cart.GetOrders(orders).List? ==>
            var os := Cart.GetOrders(orders).items;
            var j := FindIndex(os, o => LooseEq(Get(o, "id"), flightId));
            (j >= 0 ==> r == Returned(Some(FromOrder(OrderCard(os[j])))))
            && (j == -1 ==> r == Returned(None)))
  {
    if !IsTruthy(flightId) then Returned(None)
    else match Trips.LoadTrips(trips)
      case NotAList => Threw
      case List(ts) =>
        match Find(ts, t => TripMatches(t, flightId))
        case Some(t) => Returned(Some(SavedTrip(t)))
        case None =>
          match Cart.GetOrders(orders)
          case NotAList => Threw
          case List(os) =>
            match Find(os, o => LooseEq(Get(o, "id"), flightId))
            case Some(o) => Returned(Some(FromOrder(OrderCard(o))))
            case None => Returned(None)
  }

  /** A saved trip shadows a cart order with the same id: when both exist,
      the trip is shown. */
  lemma TripShadowsOrder(trips: Stored<Object>, orders: Stored<Object>, flightId: Prop, t: Object)
    requires IsTruthy(flightId)
    requires Trips.LoadTrips(trips).List? && t in Trips.LoadTrips(trips).items && TripMatches(t, flightId)
    ensures Lookup(trips, orders, flightId).Returned?
    ensures Lookup(trips, orders, flightId).value.Some? && Lookup(trips, orders, flightId).value.value.SavedTrip?
  {
    var ts := Trips.LoadTrips(trips).items;
    var i :| 0 <= i < |ts| && ts[i] == t;
    assert (t => TripMatches(t, flightId))(ts[i]);
  }

  /** A cart order written as `name (CODE)` for both ends shows its codes,
      and its reward comes from `value` even when a price is also given. */
  lemma {:induction false} OrderCardCodes(name1: string, code1: string, name2: string, code2: string, value: nat, price: Value)
    requires |code1| == 3 && forall k :: 0 <= k < 3 ==> IsAsciiUpper(code1[k])
    requires |code2| == 3 && forall k :: 0 <= k < 3 ==> IsAsciiUpper(code2[k])
    requires forall k :: 0 <= k < |name1| ==> name1[k] != '('
    requires forall k :: 0 <= k < |name2| ==> name2[k] != '('
    requires value > 0
    ensures var o := map["from" := Str(name1 + " (" + code1 + ")"), "to" := Str(name2 + " (" + code2 + ")"),
                         "details" := Obj(map["value" := Str(NatText(value)), "price" := price])];
      var c := OrderCard(o);
      c.fromCode == Some(Str(code1)) && c.toCode == Some(Str(code2)) && c.rewardValue == value as real
  {
    var o := map["from" := Str(name1 + " (" + code1 + ")"), "to" := Str(name2 + " (" + code2 + ")"),
                  "details" := Obj(map["value" := Str(NatText(value)), "price" := price])];
    assert Get(o, "from") == Some(Str(name1 + " (" + code1 + ")"));
    assert Get(o, "to") == Some(Str(name2 + " (" + code2 + ")"));
    assert GetIn(o, "details", "value") == Some(Str(NatText(value)));
    Airport.LabelCode(name1, code1);
    Airport.LabelCode(name2, code2);
    CardOfLabels(o, code1, code2, NatText(value));
    ParseNumberOfText(value);
  }

  lemma CardOfLabels(o: Object, code1: string, code2: string, value: string)
    requires Airport.ExtractOrNull(Get(o, "from")) == Some(code1)
    requires Airport.ExtractOrNull(Get(o, "to")) == Some(code2)
    requires GetIn(o, "details", "value") == Some(Str(value)) && value != ""
    ensures var c := OrderCard(o);
      c.fromCode == Some(Str(code1)) && c.toCode == Some(Str(code2)) && c.rewardValue == ParseNumber(Str(value))
  {
  }
}

=== FILE: flight_summary.dfy ===
/** The "accept request" click on a registered-flight card: the card's
    texts are read into a flight summary, the flight id and the summary are
    kept in the session, and the traveler goes to the order review when
    identity checks are recorded as passed, else to the greeting that
    starts them. No order is created. A card is given by the texts the
    summary is read from; `JSON.stringify` is the parameter `stringify`. */
module FlightSummary {
  import opened Wrappers
  import opened Text
  import opened Lists
  import opened Numbers
  import opened Js
  import KycStatus
  import OrderReview
  import KycFlow

  /** Three upper-case ASCII letters start at `i`. */
  predicate UpperAt(s: string, i: int) {
    0 <= i && i + 3 <= |s| && IsAsciiUpper(s[i]) && IsAsciiUpper(s[i + 1]) && IsAsciiUpper(s[i + 2])
  }

  /** `s.match(/[A-Z]{3}/g) || []`: the matches scanning from the left,
      each starting where the previous one ended; no word boundary is
      required. */
  function Codes(s: string): (r: seq<string>)
    ensures forall j :: 0 <= j < |r| ==> |r[j]| == 3 && UpperAt(r[j], 0)
    ensures |r| > 0 <==> exists i :: UpperAt(s, i)
    decreases |s|
  {
    if |s| < 3 then []
    else if UpperAt(s, 0) then
      assert UpperAt(s[..3], 0);
      [s[..3]] + Codes(s[3..])
    else
      var r := Codes(s[1..]);
      assert forall i :: UpperAt(s[1..], i) <==> UpperAt(s, i + 1);
      assert forall i :: UpperAt(s, i) ==> i >= 1 && UpperAt(s[1..], i - 1);
      r
  }

  /** The matches start with the leftmost three capitals and continue after
      them; with none there is no match. */
  lemma {:induction false} CodesFrom(s: string, k: nat)
    requires UpperAt(s, k) && forall j :: 0 <= j < k ==> !UpperAt(s, j)
    ensures Codes(s) == [s[k..k + 3]] + Codes(s[k + 3..])
    decreases k
  {
    if k > 0 {
      assert !UpperAt(s, 0);
      assert forall j :: 0 <= j < k - 1 ==> !UpperAt(s[1..], j) by {
        forall j | 0 <= j < k - 1 ensures !UpperAt(s[1..], j) {
          assert !UpperAt(s, j + 1);
        }
      }
      CodesFrom(s[1..], k - 1);
      assert s[1..][k - 1..k + 2] == s[k..k + 3];
      assert s[1..][k + 2..] == s[k + 3..];
    }
  }

  /** `(codes[n] || null)`. */
  function Nth(codes: seq<string>, n: nat): (r: Option<string>)
    ensures r.Some? <==> n < |codes|
    ensures r.Some? ==> r.value == codes[n]
  {
    if n < |codes| then Some(codes[n]) else None
  }

  const CitySeparator := " به "

  predicate NonBlank(p: string) { p != "" }

  predicate Trimmed(p: string) { Trim(p) == p }

  /** The route line's pieces, trimmed. */
  function TrimmedPieces(routeLine: string): (r: seq<string>)
    ensures |r| == |Split(routeLine, CitySeparator)|
    ensures forall i :: 0 <= i < |r| ==> r[i] == Trim(Split(routeLine, CitySeparator)[i])
  {
    var pieces := Split(routeLine, CitySeparator);
    seq(|pieces|, i requires 0 <= i < |pieces| => Trim(pieces[i]))
  }

  /** `routeLine.split(' به ').map(trim).filter(Boolean)`. */
  function CityParts(routeLine: string): (r: seq<string>)
    ensures forall i :: 0 <= i < |r| ==> r[i] != "" && Trim(r[i]) == r[i]
    ensures IndexOf(routeLine, CitySeparator).None? ==> |r| <= 1
  {
    var trimmed := TrimmedPieces(routeLine);
    assert forall k :: 0 <= k < |trimmed| ==> Trimmed(trimmed[k]) by {
      forall k | 0 <= k < |trimmed| ensures Trimmed(trimmed[k]) {
        TrimIdempotent(Split(routeLine, CitySeparator)[k]);
      }
    }
    FilterPreserves(trimmed, NonBlank, Trimmed);
    Filter(trimmed, NonBlank)
  }

  /** The cities, read only when the line names at least two non-blank
      places: the first is the origin and the last the destination. */
  function Cities(routeLine: string): (r: Option<(string, string)>)
    ensures r.Some? <==> |CityParts(routeLine)| >= 2
    ensures r.Some? ==> r.value.0 != "" && Trim(r.value.0) == r.value.0 && r.value.1 != "" && Trim(r.value.1) == r.value.1
    ensures IndexOf(routeLine, CitySeparator).None? ==> r.None?
  {
    var parts := CityParts(routeLine);
    if |parts| >= 2 then Some((parts[0], parts[|parts| - 1])) else None
  }

  /** A line naming two non-blank places around a single separator gives
      those places, trimmed, as origin and destination. */
  lemma {:induction false} CitiesOfTwo(a: string, b: string)
    requires forall j :: OccursAt(a + CitySeparator + b, CitySeparator, j) ==> j == |a|
    requires Trim(a) != "" && Trim(b) != ""
    ensures Cities(a + CitySeparator + b) == Some((Trim(a), Trim(b)))
  {
    var line := a + CitySeparator + b;
    SplitOnce(a, b, CitySeparator);
    var ta, tb := Trim(a), Trim(b);
    assert TrimmedPieces(line) == [ta, tb];
    KeepBoth(ta, tb);
    assert CityParts(line) == Filter(TrimmedPieces(line), NonBlank);
  }

  lemma KeepBoth(x: string, y: string)
    requires x != "" && y != ""
    ensures Filter([x, y], NonBlank) == [x, y]
  {
    FilterUnfold([x, y], NonBlank);
    FilterUnfold([y], NonBlank);
    assert [x, y][1..] == [y];
  }

  /** The texts of a card: the heading with the airport codes, the line
      with the cities, the date badge when there is one, and the reward. A
      missing element reads as `None`. */
  datatype Card = Card(heading: Option<string>, routeLine: Option<string>, dateBadge: Option<string>, reward: Option<string>)

  /** The summary stored for the order review; `None` is `null`. */
  datatype Summary = Summary(
    originCode: Option<string>, originCity: Option<string>,
    destinationCode: Option<string>, destinationCity: Option<string>,
    flightType: Option<string>, date: Option<string>, time: Option<string>,
    baggage: Option<string>, rewardAmount: Option<string>,
    rewardCurrency: Option<string>, routeLine: Option<string>)

  /** `el?.textContent || ''`. */
  function TextOf(el: Option<string>): string {
    if el.Some? then el.value else ""
  }

  predicate IsAmountChar(c: char) { IsAsciiDigit(c) || c == '.' || c == ',' }

  /** The date badge's text with the icon name taken out, trimmed. */
  function DateText(badge: Option<string>): (r: Option<string>)
    ensures r.Some? <==> badge.Some?
    ensures r.Some? ==> Trim(r.value) == r.value
    ensures r.Some? && !Contains(badge.value, "calendar_today") ==> r.value == Trim(badge.value)
  {
    match badge
    case None => None
    case Some(t) =>
      TrimIdempotent(ReplaceFirst(t, "calendar_today", ""));
      Some(Trim(ReplaceFirst(t, "calendar_today", "")))
  }

  /** The reward currency: `OMR` whenever the text contains it, else the
      first three capitals, else `None`. */
  function Currency(reward: string): (r: Option<string>)
    ensures Contains(reward, "OMR") ==> r == Some("OMR")
    ensures !Contains(reward, "OMR") ==> r == Nth(Codes(reward), 0)
    ensures r.Some? ==> |r.value| == 3 && UpperAt(r.value, 0)
  {
    if Contains(reward, "OMR") then Some("OMR") else Nth(Codes(reward), 0)
  }

  /** `extractFlightSummary(btn)`: `None` when the button is in no card. */
  function Extract(card: Option<Card>): (r: Option<Summary>)
    ensures r.Some? <==> card.Some?
    ensures r.Some? ==> r.value.flightType.None? && r.value.time.None? && r.value.baggage.None?
    ensures r.Some? ==>
      var codes := Codes(TextOf(card.value.heading));
      r.value.originCode == Nth(codes, 0) && r.value.destinationCode == Nth(codes, 1)
    ensures r.Some? ==>
      var c := Cities(TextOf(card.value.routeLine));
      (c.None? ==> r.value.originCity.None? && r.value.destinationCity.None?)
      && (c.Some? ==> r.value.originCity == Some(c.value.0) && r.value.destinationCity == Some(c.value.1))
    ensures r.Some? ==>
      r.value.rewardAmount == FirstRun(TextOf(card.value.reward), IsAmountChar)
      && r.value.rewardCurrency == Currency(TextOf(card.value.reward))
    ensures r.Some? ==> r.value.date == DateText(card.value.dateBadge)
    ensures r.Some? ==> (r.value.routeLine.None? <==> TextOf(card.value.routeLine) == "")
  {
    match card
    case None => None
    case Some(c) =>
      var codes := Codes(TextOf(c.heading));
      var line := TextOf(c.routeLine);
      var cities := Cities(line);
      var reward := TextOf(c.reward);
      Some(Summary(
        Nth(codes, 0), if cities.Some? then Some(cities.value.0) else None,
        Nth(codes, 1), if cities.Some? then Some(cities.value.1) else None,
        None, DateText(c.dateBadge), None, None,
        FirstRun(reward, IsAmountChar), Currency(reward),
        if line == "" then None else Some(line)))
  }

  /** Text without capitals followed by one code matches just that code. */
  lemma {:induction false} CodesAfterGap(mid: string, b: string)
    requires UpperAt(b, 0) && |b| == 3
    requires forall j :: 0 <= j < |mid| ==> !IsAsciiUpper(mid[j])
    ensures Codes(mid + b) == [b]
  {
    var t := mid + b;
    assert UpperAt(t, |mid|) && t[|mid|..|mid| + 3] == b;
    assert forall j :: 0 <= j < |mid| ==> !UpperAt(t, j) by {
      forall j | 0 <= j < |mid| ensures !UpperAt(t, j) {
        assert t[j] == mid[j];
      }
    }
    CodesFrom(t, |mid|);
    assert t[|mid| + 3..] == [];
  }

  /** A heading that names its airports as `IKA → DXB` gives both codes. */
  lemma {:induction false} HeadingCodes(a: string, b: string, mid: string)
    requires UpperAt(a, 0) && |a| == 3 && UpperAt(b, 0) && |b| == 3
    requires forall j :: 0 <= j < |mid| ==> !IsAsciiUpper(mid[j])
    ensures Codes(a + mid + b) == [a, b]
  {
    var s := a + mid + b;
    assert UpperAt(s, 0) && s[0..3] == a;
    CodesFrom(s, 0);
    assert s[3..] == mid + b;
    CodesAfterGap(mid, b);
  }

  /** JSON text of a summary field: `null` or the string. */
  function JsonText(o: Option<string>): (v: Value)
    ensures o.None? <==> v == Null
    ensures o.Some? ==> v == Str(o.value)
  {
    if o.Some? then Str(o.value) else Null
  }

  /** The summary as the object `JSON.parse` gives back for its stored
      text. */
  function ToObject(s: Summary): (v: Value)
    ensures v.Obj? && "flightNumber" !in v.fields
  {
    Obj(map[
      "routeLine" := JsonText(s.routeLine),
      "flightType" := JsonText(s.flightType),
      "time" := JsonText(s.time),
      "baggage" := JsonText(s.baggage),
      "date" := JsonText(s.date),
      "rewardAmount" := JsonText(s.rewardAmount),
      "rewardCurrency" := JsonText(s.rewardCurrency),
      "originCity" := JsonText(s.originCity),
      "destinationCity" := JsonText(s.destinationCity),
      "originCode" := JsonText(s.originCode),
      "destinationCode" := JsonText(s.destinationCode)])
  }

  /** The summary's value for each key the review page reads. */
  function FieldOf(s: Summary, key: string): (r: Option<string>)
    ensures key == "originCode" ==> r == s.originCode
    ensures key == "destinationCode" ==> r == s.destinationCode
  {
    match key
    case "originCode" => s.originCode
    case "originCity" => s.originCity
    case "destinationCode" => s.destinationCode
    case "destinationCity" => s.destinationCity
    case "flightType" => s.flightType
    case "date" => s.date
    case "time" => s.time
    case "baggage" => s.baggage
    case "rewardAmount" => s.rewardAmount
    case "rewardCurrency" => s.rewardCurrency
    case _ => None
  }

  /** Reading a stored summary's property gives the field it was made from. */
  lemma ToObjectField(s: Summary, i: nat)
    requires i < |OrderReview.SummaryFields| && i != 8
    ensures var key := OrderReview.SummaryFields[i].1;
      OrderReview.Field(ToObject(s), key) == Some(JsonText(FieldOf(s, key)))
  {
  }

  /** The route after the click. */
  function TargetRoute(registered: bool): (r: string)
    ensures r == "order-review" <==> registered
    ensures r == "order-review" || r == "traveler-greet"
  {
    if registered then "order-review" else "traveler-greet"
  }

  /** What the click leaves: the session and the route taken. */
  datatype Accepted = Accepted(session: map<string, string>, route: string)

  /** The click handler. A button without a flight id does nothing. Else
      the id and, when the button is inside a card, the summary are stored
      (a storage error skips the storing), and the route follows the
      identity-check status read from local storage. */
  function AcceptClick(flightId: Option<string>, card: Option<Card>, session: map<string, string>, storageFails: bool,
                       local: map<string, string>, localFails: bool, stringify: Summary -> string): (r: Option<Accepted>)
    ensures r.None? <==> flightId.None? || flightId.value == ""
    ensures r.Some? ==> r.value.route == TargetRoute(KycStatus.IsRegistered(local, localFails))
    ensures r.Some? && storageFails ==> r.value.session == session
    ensures r.Some? && !storageFails ==>
      "selectedFlightId" in r.value.session && r.value.session["selectedFlightId"] == flightId.value
    ensures r.Some? && !storageFails && card.Some? ==>
      "selectedFlightSummary" in r.value.session && r.value.session["selectedFlightSummary"] == stringify(Extract(card).value)
    ensures r.Some? && !storageFails && card.None? ==> r.value.session == session["selectedFlightId" := flightId.value]
    ensures r.Some? ==> forall k :: k in session && k != "selectedFlightId" && k != "selectedFlightSummary" ==>
      k in r.value.session && r.value.session[k] == session[k]
  {
    if flightId.None? || flightId.value == "" then None
    else
      var s1 := if storageFails then session else session["selectedFlightId" := flightId.value];
      var s2 := if storageFails || card.None? then s1 else s1["selectedFlightSummary" := stringify(Extract(card).value)];
      Some(Accepted(s2, TargetRoute(KycStatus.IsRegistered(local, localFails))))
  }

  /** What the click stores is what the order review shows: each summary
      field the card gave a non-blank text appears on its element, the
      others keep their placeholders. This holds when `JSON.parse` reads back
      the object `JSON.stringify` wrote, which is non-blank text. */
  lemma AcceptThenReview(flightId: string, card: Card, session: map<string, string>,
                         local: map<string, string>, localFails: bool, stringify: Summary -> string,
                         parse: string -> Option<Value>, els: OrderReview.Elements, i: nat)
    requires flightId != ""
    requires forall s :: parse(stringify(s)) == Some(ToObject(s)) && Trim(stringify(s)) != ""
    requires i < |OrderReview.SummaryFields| && i != 8 && OrderReview.SummaryFields[i].0 in els
    ensures var a := AcceptClick(Some(flightId), Some(card), session, false, local, localFails, stringify).value;
      var key := OrderReview.SummaryFields[i].1;
      var f := FieldOf(Extract(Some(card)).value, key);
      var shown := OrderReview.InitPage(true, els, a.session, false, parse)[OrderReview.SummaryFields[i].0];
      shown == (if f.Some? && Trim(f.value) != "" then Trim(f.value) else els[OrderReview.SummaryFields[i].0])
  {
    var a := AcceptClick(Some(flightId), Some(card), session, false, local, localFails, stringify).value;
    var s := Extract(Some(card)).value;
    StoredSummary(a.session, s, stringify, parse);
    ToObjectField(s, i);
    OrderReview.ShowsSummaryField(els, a.session, false, parse, i);
  }

  /** A stored summary reads back as the object it was written from. */
  lemma StoredSummary(session: map<string, string>, s: Summary, stringify: Summary -> string, parse: string -> Option<Value>)
    requires parse(stringify(s)) == Some(ToObject(s)) && Trim(stringify(s)) != ""
    requires "selectedFlightSummary" in session && session["selectedFlightSummary"] == stringify(s)
    ensures OrderReview.SelectedSummary(session, false, parse) == ToObject(s)
  {
  }

  /** The codes in a card's heading are what the review page shows for
      them. */
  lemma {:induction false} ReviewShowsCodes(flightId: string, card: Card, session: map<string, string>,
                         local: map<string, string>, localFails: bool, stringify: Summary -> string,
                         parse: string -> Option<Value>, els: OrderReview.Elements)
    requires flightId != ""
    requires forall s :: parse(stringify(s)) == Some(ToObject(s)) && Trim(stringify(s)) != ""
    requires "order-review-origin-code" in els
    requires |Codes(TextOf(card.heading))| > 0
    ensures var a := AcceptClick(Some(flightId), Some(card), session, false, local, localFails, stringify).value;
      OrderReview.InitPage(true, els, a.session, false, parse)["order-review-origin-code"] == Codes(TextOf(card.heading))[0]
  {
    AcceptThenReview(flightId, card, session, local, localFails, stringify, parse, els, 0);
    var c := Codes(TextOf(card.heading))[0];
    assert FieldOf(Extract(Some(card)).value, "originCode") == Some(c);
    CodeTrimmed(c);
  }

  /** A code has no white space to trim. */
  lemma CodeTrimmed(c: string)
    requires |c| == 3 && UpperAt(c, 0)
    ensures Trim(c) == c
  {
    assert !IsJsSpace(c[0]) && !IsJsSpace(c[2]);
    TrimUnchanged(c);
  }

  /** A traveler without identity checks goes to the greeting; once the
      document step succeeds, the flight id the click stored sends it on to
      the order review. */
  lemma UnregisteredReachesReviewAfterChecks(flightId: string, card: Option<Card>, session: map<string, string>,
                                             local: map<string, string>, stringify: Summary -> string)
    requires flightId != "" && !KycStatus.IsRegistered(local, false)
    ensures var a := AcceptClick(Some(flightId), card, session, false, local, false, stringify).value;
      a.route == "traveler-greet" && KycFlow.NextRoute(a.session) == "order-review"
  {
  }
}

=== FILE: guards.dfy ===
/** The module-level "already initialised" flags with which several
    pages keep their set-up from running twice. `setups` counts how many
    times the set-up (listener registration) actually ran. */
module Guards {
  datatype Guard = Guard(initialized: bool, setups: nat)

  /** An initialiser behind a flag: when the page's element is missing, or
      the flag is up, nothing happens; otherwise the set-up runs once and
      the flag goes up. */
  function Init(g: Guard, pagePresent: bool): (r: Guard)
    ensures !pagePresent || g.initialized ==> r == g
    ensures pagePresent && !g.initialized ==> r.initialized && r.setups == g.setups + 1
  {
    if !pagePresent || g.initialized then g else Guard(true, g.setups + 1)
  }

  /** Several calls of the initialiser in a row. */
  function InitAll(g: Guard, present: seq<bool>): (r: Guard)
    decreases |present|
  {
    if |present| == 0 then g else InitAll(Init(g, present[0]), present[1..])
  }

  /** However often the initialiser runs while the flag is never lowered,
      the set-up runs at most once. */
  lemma {:induction false} InitOnce(g: Guard, present: seq<bool>)
    ensures InitAll(g, present).setups <= g.setups + (if g.initialized then 0 else 1)
    ensures g.initialized ==> InitAll(g, present) == g
    ensures (exists i :: 0 <= i < |present| && present[i]) ==> InitAll(g, present).initialized
    decreases |present|
  {
    if |present| > 0 {
      InitOnce(Init(g, present[0]), present[1..]);
      if !present[0] && exists i :: 0 <= i < |present| && present[i] {
        var i :| 0 <= i < |present| && present[i];
        assert present[1..][i - 1];
      }
    }
  }
}

=== FILE: js.dfy ===
/** The slice of JavaScript's value semantics that the stores and pages
    depend on: JSON values, truthiness, `||`, `??`, `===`, optional property
    access, object spread, and what a `localStorage` entry holds once it has
    gone through `JSON.parse`. */
module Js {
  import opened Wrappers
  import opened Text
  import opened Numbers

  /** A JSON value. Arrays nested inside records are not inspected by the
      application and are not modelled. An object is a finite map from
      property names to values; a missing name is `undefined`. */
  datatype Value =
    | Null
    | Bool(b: bool)
    | Num(n: real)
    | Str(s: string)
    | Obj(fields: map<string, Value>)

  type Object = map<string, Value>

  /** A property read: `None` is `undefined`. */
  type Prop = Option<Value>

  /** Truthiness of a defined value (`NaN` is not modelled). */
  predicate Truthy(v: Value) {
    match v
    case Null => false
    case Bool(b) => b
    case Num(n) => n != 0.0
    case Str(s) => s != ""
    case Obj(_) => true
  }

  /** Truthiness of a property read; `undefined` is falsy. */
  predicate IsTruthy(x: Prop) {
    x.Some? && Truthy(x.value)
  }

  /** `o.k`. */
  function Get(o: Object, k: string): Prop {
    if k in o then Some(o[k]) else None
  }

  /** `o?.k1?.k2`: the property of a nested object, `undefined` when the
      outer property is not an object. */
  function GetIn(o: Object, k1: string, k2: string): Prop {
    match Get(o, k1)
    case Some(Obj(m)) => Get(m, k2)
    case _ => None
  }

  /** `x || d`. */
  function Or(x: Prop, d: Value): (r: Value)
    ensures IsTruthy(x) ==> r == x.value
    ensures !IsTruthy(x) ==> r == d
  {
    if IsTruthy(x) then x.value else d
  }

  /** `x || y` where both sides may be `undefined`. */
  function OrProp(x: Prop, y: Prop): Prop {
    if IsTruthy(x) then x else y
  }

  /** `x ?? d`: only `null` and `undefined` fall back. */
  function Coalesce(x: Prop, d: Value): (r: Value)
    ensures x.Some? && x.value != Null ==> r == x.value
    ensures x.None? || x.value == Null ==> r == d
  {
    if x.Some? && x.value != Null then x.value else d
  }

  /** `a === b`. Objects compared here always come from different
      `JSON.parse` calls or literals, so they are never the same reference
      and never strictly equal. */
  predicate StrictEq(a: Prop, b: Prop) {
    match (a, b)
    case (Some(Obj(_)), _) => false
    case (_, Some(Obj(_))) => false
    case _ => a == b
  }

  /** `a === b` is symmetric. */
  lemma StrictEqSymmetric(a: Prop, b: Prop)
    ensures StrictEq(a, b) <==> StrictEq(b, a)
  {
  }

  /** `null` or `undefined`. */
  predicate Nullish(x: Prop) {
    x.None? || x.value == Null
  }

  /** `Number(s)` for a string, as far as the model reads it: surrounding
      white space is ignored, the empty string is 0, and a sign may precede
      a decimal numeral. Every other text is read as `NaN` (`None`),
      including texts JavaScript does read as numbers: exponents (`1e3`),
      `0x`/`0b`/`0o` prefixes and `Infinity`. */
  function StringToNumber(s: string): Option<real> {
    var t := Trim(s);
    if t == "" then Some(0.0)
    else if t[0] == '-' then
      match DecimalNumber(t[1..])
      case Some(v) => Some(-v)
      case None => None
    else if t[0] == '+' then DecimalNumber(t[1..])
    else DecimalNumber(t)
  }

  function Rank(v: Value): nat {
    if v.Bool? || v.Obj? then 1 else 0
  }

  /** `x == y` for two defined, non-null values, following the abstract
      equality comparison of section 7.2.14 of ECMA-262: booleans become
      numbers, objects become the string `"[object Object]"`, a string
      compared with a number becomes a number. */
  predicate LooseEqValues(x: Value, y: Value)
    decreases Rank(x) + Rank(y)
  {
    match (x, y)
    case (Num(m), Num(n)) => m == n
    case (Str(s), Str(t)) => s == t
    case (Bool(p), Bool(q)) => p == q
    case (Obj(_), Obj(_)) => false
    case (Num(m), Str(t)) => StringToNumber(t) == Some(m)
    case (Str(s), Num(n)) => StringToNumber(s) == Some(n)
    case (Bool(p), _) => LooseEqValues(Num(if p then 1.0 else 0.0), y)
    case (_, Bool(q)) => LooseEqValues(x, Num(if q then 1.0 else 0.0))
    case (Obj(_), _) => LooseEqValues(Str("[object Object]"), y)
    case (_, Obj(_)) => LooseEqValues(x, Str("[object Object]"))
    case _ => false
  }

  /** `a == b`: `null` and `undefined` equal each other and nothing else. */
  predicate LooseEq(a: Prop, b: Prop) {
    if Nullish(a) || Nullish(b) then Nullish(a) && Nullish(b)
    else LooseEqValues(a.value, b.value)
  }

  /** A plain string of digits converts to the number it spells. */
  lemma StringToNumberDigits(s: string)
    requires AllDigits(s) && |s| > 0
    ensures StringToNumber(s) == Some(DigitsValue(s) as real)
  {
    assert IsAsciiDigit(s[0]) && IsAsciiDigit(s[|s| - 1]);
    TrimUnchanged(s);
  }

  lemma {:induction false} LooseEqValuesSymmetric(x: Value, y: Value)
    ensures LooseEqValues(x, y) <==> LooseEqValues(y, x)
    decreases Rank(x) + Rank(y)
  {
    match (x, y)
    case (Bool(p), Bool(q)) =>
    case (Bool(p), _) => LooseEqValuesSymmetric(Num(if p then 1.0 else 0.0), y);
    case (_, Bool(q)) => LooseEqValuesSymmetric(x, Num(if q then 1.0 else 0.0));
    case (Obj(_), Obj(_)) =>
    case (Obj(_), _) => LooseEqValuesSymmetric(Str("[object Object]"), y);
    case (_, Obj(_)) => LooseEqValuesSymmetric(x, Str("[object Object]"));
    case _ =>
  }

  /** `==` is symmetric and is implied by `===`. */
  lemma LooseEqProperties(a: Prop, b: Prop)
    ensures LooseEq(a, b) <==> LooseEq(b, a)
    ensures StrictEq(a, b) ==> LooseEq(a, b)
  {
    if a.Some? && b.Some? {
      LooseEqValuesSymmetric(a.value, b.value);
    }
  }

  /** A numeric id is loosely equal to its decimal text, which is how ids
      read back from a query string find their records. */
  lemma LooseEqIdText(n: nat)
    ensures LooseEq(Some(Num(n as real)), Some(Str(NatText(n))))
  {
    var t := NatText(n);
    NatTextRoundTrip(n);
    StringToNumberDigits(t);
    assert StringToNumber(t) == Some(n as real);
    assert LooseEqValues(Num(n as real), Str(t));
  }

  /** `o.id === id`: the record test the stores remove, update and upsert
      by. */
  predicate HasId(o: Object, id: Prop) {
    StrictEq(Get(o, "id"), id)
  }

  /** The values `===` treats as equal to themselves. */
  predicate Primitive(x: Prop) {
    !(x.Some? && x.value.Obj?)
  }

  /** `...x` inside an object literal: an object contributes its own
      properties; `null`, `undefined`, booleans and numbers contribute
      nothing. A string here also contributes nothing, where JavaScript
      would spread its characters under index keys. */
  function Spread(x: Prop): Object {
    match x
    case Some(Obj(m)) => m
    case _ => map[]
  }

  /** A template-literal interpolation `${x}`; `numText` renders numbers. */
  function TemplateText(x: Prop, numText: real -> string): string {
    match x
    case None => "undefined"
    case Some(Null) => "null"
    case Some(Bool(b)) => if b then "true" else "false"
    case Some(Num(n)) => numText(n)
    case Some(Str(s)) => s
    case Some(Obj(_)) => "[object Object]"
  }

  /** A `localStorage` entry holding a list, as `JSON.parse` sees it: no
      entry, text that does not parse, the JSON `null`, another falsy JSON
      value (`false`, `0`, `""`), some other non-array JSON value, or an
      array. */
  datatype Stored<T> =
    | Absent
    | Unparsable
    | NullJson
    | FalsyJson
    | OtherJson
    | Items(items: seq<T>)

  /** What a store's loader hands to the code after it: a list, or a
      non-array value on which the array methods throw. */
  datatype Reading<T> = List(items: seq<T>) | NotAList

  /** A call that returns a value or throws. */
  datatype Outcome<R> = Returned(value: R) | Threw
}

=== FILE: kyc.dfy ===
/** The standalone identity-check page: a list of documents, each pending,
    in error, uploading or completed; a progress bar; a submit button that
    opens once every document is completed; and an upload sheet for the
    document the user last clicked. `processUpload` marks the document
    uploading at once and completes it two seconds later; the two halves
    are separate steps here, and anything may happen between them. */
module Kyc {
  import opened Wrappers
  import opened Js

  datatype Status = Pending | Failed | Uploading | Completed

  datatype Doc = Doc(id: string, status: Status, errorMessage: Option<string>)

  /** The documents the page starts with. */
  const InitialDocs: seq<Doc> := [
    Doc("id-card", Pending, None),
    Doc("selfie", Failed, Some("نور کم"))
  ]

  /** `completedCount()`. */
  function CompletedCount(docs: seq<Doc>): (n: nat)
    ensures n <= |docs|
    ensures n == |docs| <==> forall i :: 0 <= i < |docs| ==> docs[i].status == Completed
    ensures n == 0 <==> forall i :: 0 <= i < |docs| ==> docs[i].status != Completed
  {
    if |docs| == 0 then 0
    else
      var rest := CompletedCount(docs[1..]);
      assert forall i :: 1 <= i < |docs| ==> docs[i] == docs[1..][i - 1];
      (if docs[0].status == Completed then 1 else 0) + rest
  }

  /** The completed share of `n` documents in percent. */
  lemma {:induction false} ShareBounds(c: nat, n: nat)
    requires c <= n && n > 0
    ensures c as real * 100.0 / n as real <= 100.0
    ensures c as real * 100.0 / n as real == 100.0 <==> c == n
  {
    var s := c as real * 100.0 / n as real;
    assert s * n as real == c as real * 100.0;
    if s == 100.0 {
      assert 100.0 * n as real == c as real * 100.0;
    }
  }

  /** `progressPercent()`: the completed share in percent, but never below
      5. The page always has documents; with none the share would be
      `NaN`. */
  function ProgressPercent(docs: seq<Doc>): (r: real)
    requires |docs| > 0
    ensures 5.0 <= r <= 100.0
    ensures r == 100.0 <==> forall i :: 0 <= i < |docs| ==> docs[i].status == Completed
    ensures r >= CompletedCount(docs) as real * 100.0 / |docs| as real
    ensures r > 5.0 ==> r == CompletedCount(docs) as real * 100.0 / |docs| as real
  {
    ShareBounds(CompletedCount(docs), |docs|);
    var share := CompletedCount(docs) as real * 100.0 / |docs| as real;
    if share >= 5.0 then share else 5.0
  }

  /** `isSubmitEnabled()`: every document is completed. */
  function SubmitEnabled(docs: seq<Doc>): (r: bool)
    ensures r <==> forall i :: 0 <= i < |docs| ==> docs[i].status == Completed
    ensures |docs| > 0 ==> (r <==> ProgressPercent(docs) == 100.0)
  {
    CompletedCount(docs) == |docs|
  }

  /** The page's state: the documents, the document the sheet is for, and
      whether the sheet is open. */
  datatype Page = Page(docs: seq<Doc>, active: Option<string>, showOptions: bool)

  const Initial := Page(InitialDocs, None, false)

  /** Whether some document has this id. */
  predicate HasDoc(docs: seq<Doc>, id: string) {
    exists i :: 0 <= i < |docs| && docs[i].id == id
  }

  /** The first document with this id. */
  function FindDoc(docs: seq<Doc>, id: string): (r: Option<Doc>)
    ensures r.Some? <==> HasDoc(docs, id)
    ensures r.Some? ==> r.value.id == id && r.value in docs
    ensures r.Some? ==> exists i :: 0 <= i < |docs| && docs[i] == r.value && forall j :: 0 <= j < i ==> docs[j].id != id
  {
    if |docs| == 0 then None
    else if docs[0].id == id then Some(docs[0])
    else
      assert forall i :: 1 <= i < |docs| ==> docs[i] == docs[1..][i - 1];
      var r := FindDoc(docs[1..], id);
      if r.Some? then
        var k :| 0 <= k < |docs[1..]| && docs[1..][k] == r.value && forall j :: 0 <= j < k ==> docs[1..][j].id != id;
        assert docs[k + 1] == r.value;
        r
      else r
  }

  /** `handleCardClick(id)`: an unknown id throws (the code reads the status
      of `undefined`); a completed or uploading document ignores the click;
      any other opens the sheet for it. */
  function CardClick(p: Page, id: string): (r: Outcome<Page>)
    ensures !HasDoc(p.docs, id) <==> r.Threw?
    ensures HasDoc(p.docs, id) && FindDoc(p.docs, id).value.status in {Completed, Uploading} ==> r == Returned(p)
    ensures HasDoc(p.docs, id) && FindDoc(p.docs, id).value.status !in {Completed, Uploading} ==>
      r == Returned(p.(active := Some(id), showOptions := true))
  {
    match FindDoc(p.docs, id)
    case None => Threw
    case Some(d) =>
      if d.status == Completed || d.status == Uploading then Returned(p)
      else Returned(p.(active := Some(id), showOptions := true))
  }

  /** Every document with this id gets the status; completing one also
      clears its error message. The others are untouched. */
  function SetStatus(docs: seq<Doc>, id: Option<string>, s: Status): (r: seq<Doc>)
    ensures |r| == |docs|
    ensures forall i :: 0 <= i < |docs| && Some(docs[i].id) == id ==>
      r[i] == Doc(docs[i].id, s, if s == Completed then None else docs[i].errorMessage)
    ensures forall i :: 0 <= i < |docs| && Some(docs[i].id) != id ==> r[i] == docs[i]
  {
    seq(|docs|, i requires 0 <= i < |docs| =>
      if Some(docs[i].id) == id then Doc(docs[i].id, s, if s == Completed then None else docs[i].errorMessage)
      else docs[i])
  }

  /** The id the page treats as set: a non-empty one. */
  predicate Active(p: Page) {
    p.active.Some? && p.active.value != ""
  }

  /** The first half of `processUpload()`: with no document chosen nothing
      happens; otherwise the sheet closes and the chosen document is
      uploading. */
  function StartUpload(p: Page): (r: Page)
    ensures !Active(p) ==> r == p
    ensures Active(p) ==> r == Page(SetStatus(p.docs, p.active, Uploading), p.active, false)
  {
    if !Active(p) then p else Page(SetStatus(p.docs, p.active, Uploading), p.active, false)
  }

  /** The sheet's cancel button: the sheet closes, the chosen document
      stays chosen. */
  function CancelOptions(p: Page): (r: Page)
    ensures !r.showOptions
    ensures r.docs == p.docs && r.active == p.active
  {
    p.(showOptions := false)
  }

  /** Cancelling does not undo the card click: starting an upload afterwards
      still uploads the clicked document, as if the sheet had been used. */
  lemma CancelKeepsChoice(p: Page, id: string)
    requires HasDoc(p.docs, id) && id != ""
    requires FindDoc(p.docs, id).value.status !in {Completed, Uploading}
    ensures var p1 := CardClick(p, id);
      p1.Returned? && StartUpload(CancelOptions(p1.value)) == StartUpload(p1.value)
      && StartUpload(p1.value).docs == SetStatus(p.docs, Some(id), Uploading)
  {
  }

  /** The second half as written: two seconds later, the document that is
      chosen at that moment is completed and the choice is cleared. */
  function FinishUploadAsWritten(p: Page): (r: Page)
    ensures r.active.None? && r.showOptions == p.showOptions
    ensures r.docs == SetStatus(p.docs, p.active, Completed)
  {
    Page(SetStatus(p.docs, p.active, Completed), None, p.showOptions)
  }

  /** Clicking a second card while the first uploads makes the timer complete
      the second document, which was never uploaded, and leaves the first
      uploading for good: clicks on it are ignored and submit never opens. */
  lemma SecondClickCompletesWrongDoc()
    ensures var p1 := CardClick(Initial, "id-card");
      p1.Returned? &&
      var p2 := StartUpload(p1.value);
      var p3 := CardClick(p2, "selfie");
      p3.Returned? &&
      var p4 := FinishUploadAsWritten(p3.value);
      p4.docs[0].status == Uploading && p4.docs[1].status == Completed
      && CardClick(p4, "id-card") == Returned(p4)
      && !SubmitEnabled(p4.docs)
  {
    var p1 := CardClick(Initial, "id-card");
    assert FindDoc(InitialDocs, "id-card") == Some(InitialDocs[0]);
    var p2 := StartUpload(p1.value);
    assert p2.docs[1] == InitialDocs[1];
    assert FindDoc(p2.docs, "selfie") == Some(p2.docs[1]);
    var p3 := CardClick(p2, "selfie");
    var p4 := FinishUploadAsWritten(p3.value);
    assert FindDoc(p4.docs, "id-card") == Some(p4.docs[0]);
  }

  /** The corrected first half: as `StartUpload`, and it also hands the
      timer the id it started, which is what the timer completes. */
  function StartUploadFor(p: Page): (r: (Page, Option<string>))
    ensures r.0 == StartUpload(p)
    ensures r.1 == (if Active(p) then p.active else None)
  {
    (StartUpload(p), if Active(p) then p.active else None)
  }

  /** The corrected second half: the document whose upload was started is
      completed; the choice is cleared only when it is still that document,
      so a sheet opened meanwhile stays usable. */
  function FinishUpload(p: Page, started: Option<string>): (r: Page)
    ensures r.docs == SetStatus(p.docs, started, Completed)
    ensures r.showOptions == p.showOptions
    ensures r.active == (if p.active == started then None else p.active)
  {
    Page(SetStatus(p.docs, started, Completed), if p.active == started then None else p.active, p.showOptions)
  }

  /** With the corrected halves, a click in between does not matter: the
      uploaded document completes, the clicked one keeps its status and its
      sheet, and every other document is untouched. */
  lemma UploadCompletesStartedDoc(p: Page, other: string)
    requires Active(p) && HasDoc(p.docs, other) && Some(other) != p.active
    ensures var (p1, started) := StartUploadFor(p);
      var p2 := CardClick(p1, other);
      p2.Returned? &&
      var p3 := FinishUpload(p2.value, started);
      (forall i :: 0 <= i < |p.docs| && Some(p.docs[i].id) == p.active ==> p3.docs[i].status == Completed)
      && (forall i :: 0 <= i < |p.docs| && Some(p.docs[i].id) != p.active ==> p3.docs[i] == p.docs[i])
      && (p2.value.active != started ==> p3.active == p2.value.active && p3.showOptions == p2.value.showOptions)
  {
    var (p1, started) := StartUploadFor(p);
    var k :| 0 <= k < |p.docs| && p.docs[k].id == other;
    assert p1.docs[k].id == other;
    assert HasDoc(p1.docs, other);
  }

  /** The same click sequence as `SecondClickCompletesWrongDoc`, corrected:
      the identity card completes and the selfie's sheet stays open. */
  lemma SecondClickCorrected()
    ensures var p1 := CardClick(Initial, "id-card");
      p1.Returned? &&
      var (p2, started) := StartUploadFor(p1.value);
      var p3 := CardClick(p2, "selfie");
      p3.Returned? &&
      var p4 := FinishUpload(p3.value, started);
      p4.docs[0].status == Completed && p4.docs[1].status == Failed
      && p4.active == Some("selfie") && p4.showOptions
  {
    var p1 := CardClick(Initial, "id-card");
    assert FindDoc(InitialDocs, "id-card") == Some(InitialDocs[0]);
    var (p2, started) := StartUploadFor(p1.value);
    assert p2.docs[1] == InitialDocs[1];
    assert FindDoc(p2.docs, "selfie") == Some(p2.docs[1]);
  }
}

=== FILE: kyc_flow.dfy ===
/** The identity-check steps of the traveler flow: the flight-ticket form
    and the document page. A file is chosen per required document; the
    submit button opens once every one has a file; submitting uploads the
    files one by one and, only when every upload succeeds, records the
    traveler as registered and moves on. Upload results are inputs: `ok`
    says whether the upload of a kind succeeds. Storage errors on the
    session reads are not modelled. */
module KycFlow {
  import opened Wrappers
  import opened Text
  import KycStatus
  import Kyc

  datatype RequiredDoc = RequiredDoc(id: string, kind: string, caption: string)

  const RequiredDocs: seq<RequiredDoc> := [
    RequiredDoc("id-card", "kyc-id-card", "ID Card / Passport"),
    RequiredDoc("selfie", "kyc-selfie", "Selfie")
  ]

  /** The chosen files, by document id; a file is an opaque handle. */
  type Files = map<string, nat>

  /** How many required documents have a file. */
  function CompletedDocs(docs: seq<RequiredDoc>, files: Files): (n: nat)
    ensures n <= |docs|
    ensures n == |docs| <==> forall i :: 0 <= i < |docs| ==> docs[i].id in files
  {
    if |docs| == 0 then 0
    else
      assert forall i :: 1 <= i < |docs| ==> docs[i] == docs[1..][i - 1];
      (if docs[0].id in files then 1 else 0) + CompletedDocs(docs[1..], files)
  }

  /** The progress bar's width in percent: the completed share, but never
      below 5. */
  function ProgressWidth(completed: nat, required: nat): (r: real)
    requires completed <= required && required > 0
    ensures 5.0 <= r <= 100.0
    ensures r == 100.0 <==> completed == required
    ensures r >= completed as real * 100.0 / required as real
  {
    Kyc.ShareBounds(completed, required);
    var share := completed as real * 100.0 / required as real;
    if share >= 5.0 then share else 5.0
  }

  /** `updateUi`'s gate: submit is open exactly when every required
      document has a file. */
  function CanSubmit(files: Files): (r: bool)
    ensures r <==> forall i :: 0 <= i < |RequiredDocs| ==> RequiredDocs[i].id in files
    ensures r <==> ProgressWidth(CompletedDocs(RequiredDocs, files), |RequiredDocs|) == 100.0
  {
    CompletedDocs(RequiredDocs, files) == |RequiredDocs|
  }

  /** A file picked for a document replaces any earlier one; closing the
      picker without a file changes nothing. */
  function ChooseFile(files: Files, docId: string, file: Option<nat>): (r: Files)
    ensures file.None? ==> r == files
    ensures file.Some? ==> docId in r && r[docId] == file.value && r.Keys == files.Keys + {docId}
    ensures forall k :: k != docId ==> (k in r <==> k in files) && (k in files ==> r[k] == files[k])
  {
    match file
    case None => files
    case Some(f) => files[docId := f]
  }

  /** Choosing again for a document that has a file leaves the count as it
      is; choosing for one without a file adds exactly one. */
  lemma {:induction false} ChooseFileCount(docs: seq<RequiredDoc>, files: Files, docId: string, f: nat)
    requires forall i, j :: 0 <= i < j < |docs| ==> docs[i].id != docs[j].id
    ensures docId in files ==> CompletedDocs(docs, ChooseFile(files, docId, Some(f))) == CompletedDocs(docs, files)
    ensures docId !in files && (exists i :: 0 <= i < |docs| && docs[i].id == docId) ==>
      CompletedDocs(docs, ChooseFile(files, docId, Some(f))) == CompletedDocs(docs, files) + 1
    ensures docId !in files && (forall i :: 0 <= i < |docs| ==> docs[i].id != docId) ==>
      CompletedDocs(docs, ChooseFile(files, docId, Some(f))) == CompletedDocs(docs, files)
    decreases |docs|
  {
    if |docs| > 0 {
      ChooseFileCount(docs[1..], files, docId, f);
      assert forall i :: 1 <= i < |docs| ==> docs[i] == docs[1..][i - 1];
      if docId !in files && docs[0].id != docId && exists i :: 0 <= i < |docs| && docs[i].id == docId {
        var i :| 0 <= i < |docs| && docs[i].id == docId;
        assert docs[1..][i - 1].id == docId;
      }
    }
  }

  /** One upload request: the kind and the caption. */
  datatype Upload = Upload(kind: string, caption: string)

  /** The requests for every document that has a file, in order. */
  function Requests(docs: seq<RequiredDoc>, files: Files): (r: seq<Upload>)
    ensures |r| == CompletedDocs(docs, files)
    decreases |docs|
  {
    if |docs| == 0 then []
    else if docs[0].id in files then [Upload(docs[0].kind, docs[0].caption)] + Requests(docs[1..], files)
    else Requests(docs[1..], files)
  }

  /** The submit loop: each document with a file is uploaded in turn; the
      first failed upload stops the loop, so the requests made are a prefix
      of `Requests`, all of it when every upload succeeds. */
  function UploadAll(docs: seq<RequiredDoc>, files: Files, ok: string -> bool): (r: (seq<Upload>, bool))
    ensures r.0 <= Requests(docs, files)
    ensures r.1 <==> forall i :: 0 <= i < |docs| && docs[i].id in files ==> ok(docs[i].kind)
    ensures r.1 ==> r.0 == Requests(docs, files)
    ensures !r.1 ==> |r.0| > 0 && !ok(r.0[|r.0| - 1].kind)
    decreases |docs|
  {
    if |docs| == 0 then ([], true)
    else
      assert forall i :: 1 <= i < |docs| ==> docs[i] == docs[1..][i - 1];
      var d := docs[0];
      if d.id !in files then UploadAll(docs[1..], files, ok)
      else if !ok(d.kind) then ([Upload(d.kind, d.caption)], false)
      else
        var rest := UploadAll(docs[1..], files, ok);
        ([Upload(d.kind, d.caption)] + rest.0, rest.1)
  }

  /** Where a finished identity check goes: to the order review when a
      flight was picked earlier in the session, else to the flight list. */
  function NextRoute(session: map<string, string>): (r: string)
    ensures r == "order-review" <==> "selectedFlightId" in session && session["selectedFlightId"] != ""
    ensures r == "order-review" || r == "registered-flight"
  {
    if "selectedFlightId" in session && session["selectedFlightId"] != "" then "order-review" else "registered-flight"
  }

  /** What a submit leaves behind: the uploads made, local storage, session
      storage, and the route taken, if any. */
  datatype Outcome = Outcome(uploads: seq<Upload>, local: map<string, string>, session: map<string, string>, route: Option<string>)

  /** The document page's submit: a closed button does nothing; otherwise
      the files are uploaded and, when every upload succeeded, the traveler
      is recorded as registered and the page moves on. A failed upload
      leaves storage as it was and stays on the page. */
  function SubmitDocs(files: Files, ok: string -> bool, local: map<string, string>, session: map<string, string>): (r: Outcome)
    ensures !CanSubmit(files) ==> r == Outcome([], local, session, None)
    ensures CanSubmit(files) ==>
      r.uploads == UploadAll(RequiredDocs, files, ok).0 && r.session == session
      && (UploadAll(RequiredDocs, files, ok).1 ==>
            r.local == KycStatus.SetRegistered(local, true, false) && r.route == Some(NextRoute(session)))
      && (!UploadAll(RequiredDocs, files, ok).1 ==> r.local == local && r.route.None?)
  {
    if !CanSubmit(files) then Outcome([], local, session, None)
    else
      var (uploads, allOk) := UploadAll(RequiredDocs, files, ok);
      if allOk then Outcome(uploads, KycStatus.SetRegistered(local, true, false), session, Some(NextRoute(session)))
      else Outcome(uploads, local, session, None)
  }

  /** The traveler counts as registered after a submit exactly when it was
      already or every upload succeeded; a submit with every file uploads
      each document once. */
  lemma SubmitDocsRegisters(files: Files, ok: string -> bool, local: map<string, string>, session: map<string, string>)
    requires CanSubmit(files)
    ensures var r := SubmitDocs(files, ok, local, session);
      (KycStatus.IsRegistered(r.local, false) <==>
        KycStatus.IsRegistered(local, false) || forall i :: 0 <= i < |RequiredDocs| ==> ok(RequiredDocs[i].kind))
      && ((forall i :: 0 <= i < |RequiredDocs| ==> ok(RequiredDocs[i].kind)) ==> |r.uploads| == |RequiredDocs|)
  {
    KycStatus.SetThenIs(local, true);
  }

  /** The flight-ticket form: the trimmed flight number and at least one
      file are needed, or nothing happens. Then the ticket is uploaded with
      the flight number in its caption; on success the traveler is recorded
      as registered, the flight number is kept in the session, and the page
      moves on. */
  function SubmitFlightTicket(flightInput: Option<string>, fileCount: nat, ok: string -> bool,
                              local: map<string, string>, session: map<string, string>): (r: Outcome)
    ensures var fn := if flightInput.Some? then Trim(flightInput.value) else "";
      (fn == "" || fileCount == 0 ==> r == Outcome([], local, session, None))
      && (fn != "" && fileCount > 0 ==>
            r.uploads == [Upload("flight-kyc-ticket", "Flight: " + fn)]
            && (ok("flight-kyc-ticket") ==>
                  r.local == KycStatus.SetRegistered(local, true, false)
                  && r.session == session["selectedFlightNumber" := fn]
                  && r.route == Some(NextRoute(session)))
            && (!ok("flight-kyc-ticket") ==> r.local == local && r.session == session && r.route.None?))
  {
    var fn := if flightInput.Some? then Trim(flightInput.value) else "";
    if fn == "" || fileCount == 0 then Outcome([], local, session, None)
    else
      var up := [Upload("flight-kyc-ticket", "Flight: " + fn)];
      if ok("flight-kyc-ticket") then
        var s2 := session["selectedFlightNumber" := fn];
        Outcome(up, KycStatus.SetRegistered(local, true, false), s2, Some(NextRoute(s2)))
      else Outcome(up, local, session, None)
  }

  /** Storing the flight number does not change where the form goes. */
  lemma FlightNumberKeepsRoute(session: map<string, string>, fn: string)
    ensures NextRoute(session["selectedFlightNumber" := fn]) == NextRoute(session)
  {
  }
}

=== FILE: kyc_status.dfy ===
/** Whether the traveler has passed identity checks, as recorded in
    `localStorage`. The current key is `carrytomeKycRegistered`; older
    versions of the application used other keys, which are still read. A
    storage that throws on access is modelled by `fails`. */
module KycStatus {
  import opened Text

  const DefaultKey := "carrytomeKycRegistered"

  /** The keys read, in order; the current key comes first. */
  const LegacyKeys: seq<string> :=
    [DefaultKey, "kycRegistered", "kyc_verified", "travelerKycRegistered", "traveler_kyc_registered"]

  /** A stored text that counts as registered: `true`, `1`, or `verified`
      in any letter case. The empty text is skipped. */
  predicate Recognised(v: string) {
    v != "" && (v == "true" || v == "1" || ToLower(v) == "verified")
  }

  /** Whether `key` holds a recognised text. */
  predicate Holds(local: map<string, string>, key: string) {
    key in local && Recognised(local[key])
  }

  /** The loop of `isTravelerKycRegistered`: keys with no text, the empty
      text or an unrecognised text are passed over; the first recognised one
      answers yes. */
  function Scan(local: map<string, string>, keys: seq<string>): (r: bool)
    ensures r <==> exists i :: 0 <= i < |keys| && Holds(local, keys[i])
    decreases |keys|
  {
    if |keys| == 0 then false
    else if Holds(local, keys[0]) then true
    else
      assert forall i :: 1 <= i < |keys| ==> keys[i] == keys[1..][i - 1];
      Scan(local, keys[1..])
  }

  /** `isTravelerKycRegistered()`: some key holds a recognised text; a
      storage error answers no. */
  function IsRegistered(local: map<string, string>, fails: bool): (r: bool)
    ensures fails ==> !r
    ensures !fails ==> (r <==> exists i :: 0 <= i < |LegacyKeys| && Holds(local, LegacyKeys[i]))
  {
    !fails && Scan(local, LegacyKeys)
  }

  /** `setTravelerKycRegistered(b)`: `true` or `false` under the current key
      only; a storage error leaves everything as it was. */
  function SetRegistered(local: map<string, string>, b: bool, fails: bool): (r: map<string, string>)
    ensures fails ==> r == local
    ensures !fails ==> DefaultKey in r && r[DefaultKey] == (if b then "true" else "false")
    ensures forall k :: k != DefaultKey ==> (k in r <==> k in local) && (k in local ==> r[k] == local[k])
  {
    if fails then local else local[DefaultKey := if b then "true" else "false"]
  }

  /** Recording a pass makes the check answer yes; recording a failure
      answers no exactly when no older key still says yes. */
  lemma SetThenIs(local: map<string, string>, b: bool)
    ensures b ==> IsRegistered(SetRegistered(local, b, false), false)
    ensures !b ==> (IsRegistered(SetRegistered(local, b, false), false) <==>
                      exists i :: 1 <= i < |LegacyKeys| && Holds(local, LegacyKeys[i]))
  {
    var r := SetRegistered(local, b, false);
    if b {
      assert Holds(r, LegacyKeys[0]);
    } else {
      assert !Holds(r, LegacyKeys[0]);
      assert forall i :: 1 <= i < |LegacyKeys| ==> LegacyKeys[i] != DefaultKey;
      assert forall i :: 1 <= i < |LegacyKeys| ==> (Holds(r, LegacyKeys[i]) <==> Holds(local, LegacyKeys[i]));
    }
  }

  /** A legacy `VERIFIED` keeps the traveler registered after
      `setTravelerKycRegistered(false)`. */
  lemma LegacyKeyOutlivesReset()
    ensures var local := map["kyc_verified" := "VERIFIED"];
      IsRegistered(SetRegistered(local, false, false), false)
  {
    var local := map["kyc_verified" := "VERIFIED"];
    var r := SetRegistered(local, false, false);
    assert ToLower("VERIFIED") == "verified";
    assert Holds(r, LegacyKeys[2]);
  }
}

=== FILE: lists.dfy ===
/** The array methods the application calls — `some`, `find`,
    `findIndex`, `filter` and a stable `sort` with a comparator — as
    functions on sequences, each with the property that characterises it. */
module Lists {
  import opened Wrappers

  /** `s.some(p)`. */
  function Any<T>(s: seq<T>, p: T -> bool): (r: bool)
    ensures r <==> exists i :: 0 <= i < |s| && p(s[i])
  {
    if |s| == 0 then false
    else if p(s[0]) then true
    else
      var r := Any(s[1..], p);
      assert forall i :: 1 <= i < |s| ==> s[i] == s[1..][i - 1];
      r
  }

  /** `s.findIndex(p)`: the first index whose element satisfies `p`, or -1. */
  function FindIndex<T>(s: seq<T>, p: T -> bool): (r: int)
    ensures -1 <= r < |s|
    ensures r >= 0 ==> p(s[r]) && forall j :: 0 <= j < r ==> !p(s[j])
    ensures r == -1 <==> forall j :: 0 <= j < |s| ==> !p(s[j])
  {
    if |s| == 0 then -1
    else if p(s[0]) then 0
    else
      var k := FindIndex(s[1..], p);
      assert forall j :: 1 <= j < |s| ==> s[j] == s[1..][j - 1];
      if k == -1 then -1 else k + 1
  }

  /** `s.find(p)`: the first element that satisfies `p`. */
  function Find<T>(s: seq<T>, p: T -> bool): (r: Option<T>)
    ensures r.None? <==> forall j :: 0 <= j < |s| ==> !p(s[j])
    ensures r.Some? ==> r.value == s[FindIndex(s, p)]
  {
    var k := FindIndex(s, p);
    if k == -1 then None else Some(s[k])
  }

  /** `s.filter(p)`: the elements that satisfy `p`, in their original order. */
  function Filter<T>(s: seq<T>, p: T -> bool): (r: seq<T>)
    ensures |r| <= |s|
    ensures forall i :: 0 <= i < |r| ==> r[i] in s && p(r[i])
    ensures forall i :: 0 <= i < |s| && p(s[i]) ==> s[i] in r
    ensures multiset(r) <= multiset(s)
  {
    if |s| == 0 then []
    else
      var rest := Filter(s[1..], p);
      assert s == [s[0]] + s[1..];
      var r := if p(s[0]) then [s[0]] + rest else rest;
      assert forall i :: 0 <= i < |s| && p(s[i]) ==> s[i] in r by {
        forall i | 0 <= i < |s| && p(s[i]) ensures s[i] in r {
          if i > 0 { assert s[i] == s[1..][i - 1]; }
        }
      }
      r
  }

  /** Filtering distributes over concatenation, which together with
      `Filter([x], p)` pins down the order of the result. */
  lemma {:induction false} FilterConcat<T>(a: seq<T>, b: seq<T>, p: T -> bool)
    ensures Filter(a + b, p) == Filter(a, p) + Filter(b, p)
    decreases |a|
  {
    if |a| > 0 {
      var ab := a + b;
      assert ab[0] == a[0] && ab[1..] == a[1..] + b;
      FilterConcat(a[1..], b, p);
      if p(a[0]) {
        assert Filter(ab, p) == [a[0]] + Filter(ab[1..], p);
        assert Filter(a, p) == [a[0]] + Filter(a[1..], p);
      } else {
        assert Filter(ab, p) == Filter(ab[1..], p);
        assert Filter(a, p) == Filter(a[1..], p);
      }
    } else {
      assert a + b == b;
    }
  }

  /** `filter` keeps everything exactly when no element fails `p`, and
      otherwise shortens the list; this is what the "did anything get
      removed" checks of the stores compare. */
  lemma FilterShorterIff<T>(s: seq<T>, p: T -> bool)
    ensures |Filter(s, p)| < |s| <==> exists i :: 0 <= i < |s| && !p(s[i])
    ensures |Filter(s, p)| == |s| ==> Filter(s, p) == s
  {
    FilterShorterExists(s, p);
    FilterKeepsAll(s, p);
  }

  lemma {:induction false} FilterShorterExists<T>(s: seq<T>, p: T -> bool)
    ensures |Filter(s, p)| < |s| <==> exists i :: 0 <= i < |s| && !p(s[i])
    decreases |s|
  {
    if |s| > 0 {
      var tail := s[1..];
      FilterShorterExists(tail, p);
      FilterUnfold(s, p);
      if exists i :: 0 <= i < |s| && !p(s[i]) {
        var i :| 0 <= i < |s| && !p(s[i]);
        if i > 0 {
          assert !p(tail[i - 1]);
        }
      }
      if exists j :: 0 <= j < |tail| && !p(tail[j]) {
        var j :| 0 <= j < |tail| && !p(tail[j]);
        assert !p(s[j + 1]);
      }
    }
  }

  /** A filter that drops nothing returns the list itself. */
  lemma {:induction false} FilterKeepsAll<T>(s: seq<T>, p: T -> bool)
    ensures |Filter(s, p)| == |s| ==> Filter(s, p) == s
    decreases |s|
  {
    if |s| > 0 {
      var tail := s[1..];
      FilterKeepsAll(tail, p);
      FilterUnfold(s, p);
      if |Filter(s, p)| == |s| {
        assert p(s[0]) && Filter(tail, p) == tail;
        assert s == [s[0]] + tail;
      }
    }
  }

  /** A property every element has, every element of a filtered list has. */
  lemma {:induction false} FilterPreserves<T>(s: seq<T>, p: T -> bool, q: T -> bool)
    requires forall i :: 0 <= i < |s| ==> q(s[i])
    ensures forall i :: 0 <= i < |Filter(s, p)| ==> q(Filter(s, p)[i])
    decreases |s|
  {
    if |s| > 0 {
      var tail := s[1..];
      assert forall i :: 0 <= i < |tail| ==> tail[i] == s[i + 1];
      FilterPreserves(tail, p, q);
      FilterUnfold(s, p);
    }
  }

  /** An element put in front of a filtered list: it comes first, the rest
      pass the test and keep their original relative order, and every
      element of the original that passes is still there. */
  lemma PrependFiltered<T>(x: T, s: seq<T>, p: T -> bool)
    ensures var r := [x] + Filter(s, p);
      |r| >= 1 && r[0] == x && (forall i :: 1 <= i < |r| ==> p(r[i]))
      && (forall i :: 0 <= i < |s| && p(s[i]) ==> s[i] in r)
      && SubseqOf(r[1..], s)
  {
    var f := Filter(s, p);
    assert forall i :: 1 <= i < |f| + 1 ==> ([x] + f)[i] == f[i - 1];
    assert ([x] + f)[1..] == f;
    FilterSubseq(s, p);
  }

  /** One step of `Filter`. */
  lemma FilterUnfold<T>(s: seq<T>, p: T -> bool)
    requires |s| > 0
    ensures Filter(s, p) == if p(s[0]) then [s[0]] + Filter(s[1..], p) else Filter(s[1..], p)
  {
  }

  /** `r` is `s` with some elements left out: the elements of `r` appear in
      `s` in the same order. */
  ghost predicate SubseqOf<T>(r: seq<T>, s: seq<T>)
    decreases |s|
  {
    if |r| == 0 then true
    else if |s| == 0 then false
    else if r[0] == s[0] then SubseqOf(r[1..], s[1..])
    else SubseqOf(r, s[1..])
  }

  /** `filter` keeps the original order. */
  lemma {:induction false} FilterSubseq<T>(s: seq<T>, p: T -> bool)
    ensures SubseqOf(Filter(s, p), s)
    decreases |s|
  {
    if |s| > 0 {
      FilterSubseq(s[1..], p);
      var rest := Filter(s[1..], p);
      if p(s[0]) {
        assert ([s[0]] + rest)[1..] == rest;
      }
    }
  }

  /** How many elements of `s` satisfy `p`. */
  function Count<T>(s: seq<T>, p: T -> bool): (n: nat)
    ensures n <= |s|
  {
    if |s| == 0 then 0 else (if p(s[0]) then 1 else 0) + Count(s[1..], p)
  }

  /** `filter` keeps exactly the elements `Count` counts. */
  lemma {:induction false} FilterCount<T>(s: seq<T>, p: T -> bool)
    ensures |Filter(s, p)| == Count(s, p)
  {
    if |s| > 0 {
      FilterCount(s[1..], p);
    }
  }

  /** Filtering twice by the same test is filtering once. */
  lemma {:induction false} FilterIdempotent<T>(s: seq<T>, p: T -> bool)
    ensures Filter(Filter(s, p), p) == Filter(s, p)
  {
    if |s| > 0 {
      FilterIdempotent(s[1..], p);
      var rest := Filter(s[1..], p);
      if p(s[0]) {
        assert ([s[0]] + rest)[1..] == rest;
      }
    }
  }

  /** `le` is a total preorder: every two elements compare and comparison
      chains. Comparators of the form `key(a) <= key(b)` are. */
  ghost predicate TotalPreorder<T(!new)>(le: (T, T) -> bool) {
    (forall a, b :: le(a, b) || le(b, a))
    && (forall a, b, c :: le(a, b) && le(b, c) ==> le(a, c))
  }

  ghost predicate SortedBy<T>(s: seq<T>, le: (T, T) -> bool) {
    forall i, j :: 0 <= i < j < |s| ==> le(s[i], s[j])
  }

  /** Places `x` before the first element it may precede. */
  function Insert<T>(x: T, s: seq<T>, le: (T, T) -> bool): (r: seq<T>)
    ensures multiset(r) == multiset(s) + multiset{x}
  {
    if |s| == 0 || le(x, s[0]) then [x] + s
    else
      assert s == [s[0]] + s[1..];
      [s[0]] + Insert(x, s[1..], le)
  }

  /** `[...s].sort(cmp)`: a stable sort (ECMAScript requires `sort` to be
      stable since the 2019 edition), where `le(a, b)` means the comparator
      does not put `b` before `a`. The result is a permutation. */
  function SortBy<T>(s: seq<T>, le: (T, T) -> bool): (r: seq<T>)
    ensures multiset(r) == multiset(s)
  {
    if |s| == 0 then []
    else
      assert s == [s[0]] + s[1..];
      Insert(s[0], SortBy(s[1..], le), le)
  }

  lemma {:induction false} InsertSorted<T(!new)>(x: T, s: seq<T>, le: (T, T) -> bool)
    requires TotalPreorder(le) && SortedBy(s, le)
    ensures SortedBy(Insert(x, s, le), le)
    decreases |s|
  {
    if |s| == 0 || le(x, s[0]) {
    } else {
      InsertSorted(x, s[1..], le);
      var r := Insert(x, s[1..], le);
      assert multiset(r) == multiset(s[1..]) + multiset{x};
      forall k | 0 <= k < |r| ensures le(s[0], r[k]) {
        assert r[k] in multiset(r);
        if r[k] != x {
          assert r[k] in multiset(s[1..]);
          var m :| 0 <= m < |s[1..]| && s[1..][m] == r[k];
          assert s[m + 1] == r[k];
        }
      }
    }
  }

  /** The sort puts the elements in comparator order. */
  lemma {:induction false} SortBySorted<T(!new)>(s: seq<T>, le: (T, T) -> bool)
    requires TotalPreorder(le)
    ensures SortedBy(SortBy(s, le), le)
    decreases |s|
  {
    if |s| > 0 {
      SortBySorted(s[1..], le);
      InsertSorted(s[0], SortBy(s[1..], le), le);
    }
  }

  /** The comparator `(a, b) => key(a) - key(b)`, or `key(b) - key(a)` when
      `descending`, read as "`a` may stay before `b`". */
  function KeyOrder<T>(key: T -> int, descending: bool): (T, T) -> bool {
    (a, b) => if descending then key(a) >= key(b) else key(a) <= key(b)
  }

  /** Sorting by a numeric key gives a permutation ordered by that key. */
  lemma SortByKeyOrdered<T(!new)>(s: seq<T>, key: T -> int, descending: bool)
    ensures var r := SortBy(s, KeyOrder(key, descending));
      multiset(r) == multiset(s)
      && (descending ==> forall i, j :: 0 <= i < j < |r| ==> key(r[i]) >= key(r[j]))
      && (!descending ==> forall i, j :: 0 <= i < j < |r| ==> key(r[i]) <= key(r[j]))
  {
    var le := KeyOrder(key, descending);
    assert TotalPreorder(le);
    SortBySorted(s, le);
  }
}

=== FILE: my_orders.dfy ===
/** The "my orders" page: the stored orders in display form, carrier and
    traveler orders enriched with flight details, narrowed by a type tab
    and a search box, and sorted by date. The page keeps its tab, sort
    order, search query and the list on screen between events; each event
    is a pure transition of that state. `key` stands for `new Date(dateISO)`
    as a number of milliseconds (only valid dates are modelled) and
    `numText` renders numbers inside template strings. */
module MyOrders {
  import opened Wrappers
  import opened Text
  import opened Js
  import opened Lists
  import OrderStore

  const NoValue := "—"

  /** The tab labels that select a type; every other label shows all. */
  const TypeTabs: set<string> := {"sender", "carrier", "traveler", "flight"}

  predicate IsTravelType(o: Object) {
    Get(o, "type") == Some(Str("carrier")) || Get(o, "type") == Some(Str("traveler"))
  }

  /** The enrichment of `getAllOrders`: a carrier or traveler order gains
      its flight date (`details.flightDate`, else `dateISO`, else a dash),
      flight time and capacity (from `details`, else a dash); any other
      order passes through unchanged. */
  function Enrich(o: Object): (r: Object)
    ensures !IsTravelType(o) ==> r == o
    ensures IsTravelType(o) ==>
      r.Keys == o.Keys + {"flightDate", "flightTime", "travelerCapacity"}
      && r["flightDate"] == Or(OrProp(GetIn(o, "details", "flightDate"), Get(o, "dateISO")), Str(NoValue))
      && r["flightTime"] == Or(GetIn(o, "details", "flightTime"), Str(NoValue))
      && r["travelerCapacity"] == Or(GetIn(o, "details", "capacity"), Str(NoValue))
      && forall k :: k in o && k !in {"flightDate", "flightTime", "travelerCapacity"} ==> r[k] == o[k]
  {
    if IsTravelType(o) then
      o["flightDate" := Or(OrProp(GetIn(o, "details", "flightDate"), Get(o, "dateISO")), Str(NoValue))]
       ["flightTime" := Or(GetIn(o, "details", "flightTime"), Str(NoValue))]
       ["travelerCapacity" := Or(GetIn(o, "details", "capacity"), Str(NoValue))]
    else o
  }

  /** Enriching an enriched order changes nothing: the flight fields are
      computed from `details` and `dateISO`, which enrichment leaves alone. */
  lemma EnrichIdempotent(o: Object)
    ensures Enrich(Enrich(o)) == Enrich(o)
  {
    if IsTravelType(o) {
      var e := Enrich(o);
      assert Get(e, "type") == Get(o, "type");
      assert Get(e, "details") == Get(o, "details") && Get(e, "dateISO") == Get(o, "dateISO");
      assert GetIn(e, "details", "flightDate") == GetIn(o, "details", "flightDate");
    }
  }

  /** `getAllOrders()`: the display orders, each enriched. */
  function GetAllOrders(slot: Stored<Object>, now: int, today: string): (r: seq<Object>)
    ensures |r| == |OrderStore.GetDynamicOrders(slot, now, today)|
    ensures forall i :: 0 <= i < |r| ==> r[i] == Enrich(OrderStore.GetDynamicOrders(slot, now, today)[i])
  {
    var d := OrderStore.GetDynamicOrders(slot, now, today);
    seq(|d|, i requires 0 <= i < |d| => Enrich(d[i]))
  }

  /** The type tab: `all` and labels outside `TypeTabs` keep every order;
      a type label keeps exactly the orders of that type. */
  function TypeFilter(orders: seq<Object>, filter: string): (r: seq<Object>)
    ensures filter == "all" || filter !in TypeTabs ==> r == orders
    ensures filter != "all" && filter in TypeTabs ==>
      (forall i :: 0 <= i < |r| ==> r[i] in orders && Get(r[i], "type") == Some(Str(filter)))
      && (forall i :: 0 <= i < |orders| ==> (orders[i] in r <==> Get(orders[i], "type") == Some(Str(filter))))
    ensures multiset(r) <= multiset(orders)
  {
    if filter != "all" && filter in TypeTabs then Filter(orders, o => Get(o, "type") == Some(Str(filter)))
    else orders
  }

  /** The text an order is searched in: origin, destination, action, type
      and description (or nothing), space-separated and lower-cased. */
  function SearchText(o: Object, numText: real -> string): string {
    ToLower(
      TemplateText(Get(o, "from"), numText) + " " + TemplateText(Get(o, "to"), numText) + " "
      + TemplateText(Get(o, "action"), numText) + " " + TemplateText(Get(o, "type"), numText) + " "
      + TemplateText(Some(Or(Get(o, "description"), Str(""))), numText))
  }

  /** The search box: an empty query keeps every order; otherwise an order
      stays exactly when its search text contains the query. */
  function SearchFilter(orders: seq<Object>, query: string, numText: real -> string): (r: seq<Object>)
    ensures query == "" ==> r == orders
    ensures query != "" ==>
      (forall i :: 0 <= i < |r| ==> r[i] in orders && Contains(SearchText(r[i], numText), query))
      && (forall i :: 0 <= i < |orders| ==> (orders[i] in r <==> Contains(SearchText(orders[i], numText), query)))
    ensures multiset(r) <= multiset(orders)
  {
    if query != "" then Filter(orders, o => Contains(SearchText(o, numText), query))
    else orders
  }

  /** `sortOrders(list)`: a sorted copy, later dates first for `newest`
      and earlier dates first for every other choice. */
  function SortOrders(list: seq<Object>, sort: string, key: Object -> int): (r: seq<Object>)
    ensures multiset(r) == multiset(list)
  {
    SortBy(list, KeyOrder(key, sort == "newest"))
  }

  /** The sorted copy is ordered by date, newest first for `newest`. */
  lemma SortOrdersOrdered(list: seq<Object>, sort: string, key: Object -> int)
    ensures var r := SortOrders(list, sort, key);
      multiset(r) == multiset(list)
      && (sort == "newest" ==> forall i, j :: 0 <= i < j < |r| ==> key(r[i]) >= key(r[j]))
      && (sort != "newest" ==> forall i, j :: 0 <= i < j < |r| ==> key(r[i]) <= key(r[j]))
  {
    SortByKeyOrdered(list, key, sort == "newest");
  }

  /** The list `applyFilter` puts on screen: type tab, then search, then
      sort. It never holds an order the store does not. */
  function View(all: seq<Object>, filter: string, query: string, sort: string, key: Object -> int, numText: real -> string): (r: seq<Object>)
    ensures multiset(r) <= multiset(all)
    ensures filter == "all" && query == "" ==> multiset(r) == multiset(all)
  {
    SortOrders(SearchFilter(TypeFilter(all, filter), query, numText), sort, key)
  }

  /** The tab lets an order through: every order for `all` or an unknown
      tab, else only orders of that type. */
  predicate TabAdmits(o: Object, filter: string) {
    filter == "all" || filter !in TypeTabs || Get(o, "type") == Some(Str(filter))
  }

  /** The search lets an order through: every order for an empty query,
      else only orders whose search text contains it. */
  predicate SearchAdmits(o: Object, query: string, numText: real -> string) {
    query == "" || Contains(SearchText(o, numText), query)
  }

  /** A stored order is on screen exactly when both the tab and the search
      let it through; sorting loses none. */
  lemma ViewContents(all: seq<Object>, filter: string, query: string, sort: string, key: Object -> int, numText: real -> string)
    ensures var r := View(all, filter, query, sort, key, numText);
      forall i :: 0 <= i < |all| ==> (all[i] in r <==> TabAdmits(all[i], filter) && SearchAdmits(all[i], query, numText))
  {
    var t := TypeFilter(all, filter);
    var f := SearchFilter(t, query, numText);
    var r := View(all, filter, query, sort, key, numText);
    assert multiset(r) == multiset(f);
    forall i | 0 <= i < |all|
      ensures all[i] in r <==> TabAdmits(all[i], filter) && SearchAdmits(all[i], query, numText)
    {
      var x := all[i];
      assert x in r <==> x in multiset(f);
      assert x in t <==> TabAdmits(x, filter);
      if x in t {
        var j :| 0 <= j < |t| && t[j] == x;
        assert x in f <==> SearchAdmits(x, query, numText);
      } else {
        assert x !in multiset(t);
        assert multiset(f) <= multiset(t);
      }
    }
  }

  /** The page's state: the tab, the sort order, the search query (already
      trimmed and lower-cased) and the orders on screen. */
  datatype Page = Page(filter: string, sort: string, query: string, shown: seq<Object>)

  /** The state before any event. */
  const Initial := Page("all", "newest", "", [])

  /** `applyFilter(filter)`: remembers the tab and recomputes the list from
      the store. */
  function ApplyFilter(p: Page, filter: string, slot: Stored<Object>, now: int, today: string, key: Object -> int, numText: real -> string): (r: Page)
    ensures r.filter == filter && r.sort == p.sort && r.query == p.query
    ensures multiset(r.shown) <= multiset(GetAllOrders(slot, now, today))
  {
    p.(filter := filter, shown := View(GetAllOrders(slot, now, today), filter, p.query, p.sort, key, numText))
  }

  /** A change of the sort menu re-sorts the list on screen without reading
      the store or filtering again. */
  function ChangeSort(p: Page, sort: string, key: Object -> int): (r: Page)
    ensures r.filter == p.filter && r.query == p.query && r.sort == sort
    ensures multiset(r.shown) == multiset(p.shown)
  {
    p.(sort := sort, shown := SortOrders(p.shown, sort, key))
  }

  /** Typing in the search box: the query is trimmed and lower-cased, and
      the current tab is applied again. */
  function Search(p: Page, input: string, slot: Stored<Object>, now: int, today: string, key: Object -> int, numText: real -> string): (r: Page)
    ensures r.query == ToLower(Trim(input)) && r.filter == p.filter && r.sort == p.sort
  {
    ApplyFilter(p.(query := ToLower(Trim(input))), p.filter, slot, now, today, key, numText)
  }

  /** An `orders-updated` event (and the refresh button) re-applies the
      current tab to the store. */
  function OrdersUpdated(p: Page, slot: Stored<Object>, now: int, today: string, key: Object -> int, numText: real -> string): (r: Page)
    ensures r.filter == p.filter && r.sort == p.sort && r.query == p.query
  {
    ApplyFilter(p, p.filter, slot, now, today, key, numText)
  }

  /** Blanks around the typed text do not hide an order: when the trimmed,
      lower-cased input occurs in the order's search text, the search keeps
      the order. */
  lemma SearchFindsOrder(o: Object, input: string, numText: real -> string)
    requires Trim(input) != ""
    requires Contains(SearchText(o, numText), ToLower(Trim(input)))
    ensures ToLower(Trim(input)) != ""
    ensures SearchFilter([o], ToLower(Trim(input)), numText) == [o]
  {
    var q := ToLower(Trim(input));
    assert |q| == |Trim(input)|;
    var r := SearchFilter([o], q, numText);
    assert o in r;
    assert multiset(r) <= multiset([o]);
    assert |r| <= 1 by {
      assert |multiset(r)| <= |multiset([o])|;
    }
  }

  /** Re-applying the tab on an unchanged store changes nothing. */
  lemma OrdersUpdatedStable(p: Page, filter: string, slot: Stored<Object>, now: int, today: string, key: Object -> int, numText: real -> string)
    ensures var q := ApplyFilter(p, filter, slot, now, today, key, numText);
      OrdersUpdated(q, slot, now, today, key, numText) == q
  {
  }

  /** The detail view a click on an order card opens. */
  datatype Modal = FlightDetails(order: Object) | OrderDetails(order: Object)

  /** The click on an order card: the first order whose id is loosely equal
      to the card's `data-order-id` text opens the flight view when its type
      is `flight` and the order view otherwise; no such order, no view. */
  function ClickOrder(all: seq<Object>, cardId: string): (r: Option<Modal>)
    ensures r.None? <==> forall i :: 0 <= i < |all| ==> !LooseEq(Get(all[i], "id"), Some(Str(cardId)))
    ensures r.Some? ==>
      var k := FindIndex(all, o => LooseEq(Get(o, "id"), Some(Str(cardId))));
      0 <= k < |all| && r.value.order == all[k]
      && (r.value.FlightDetails? <==> Get(all[k], "type") == Some(Str("flight")))
  {
    match Find(all, o => LooseEq(Get(o, "id"), Some(Str(cardId))))
    case None => None
    case Some(o) => if StrictEq(Get(o, "type"), Some(Str("flight"))) then Some(FlightDetails(o)) else Some(OrderDetails(o))
  }

  /** A card rendered for an order with a whole-number id opens a view of
      an order with that id, loosely compared. */
  lemma ClickFindsRendered(all: seq<Object>, i: nat, n: nat)
    requires i < |all| && Get(all[i], "id") == Some(Num(n as real))
    ensures var r := ClickOrder(all, Text.NatText(n));
      r.Some? && LooseEq(Get(r.value.order, "id"), Some(Str(Text.NatText(n))))
  {
    LooseEqIdText(n);
  }
}

=== FILE: numbers.dfy ===
/** Decimal text to number, the way `Number(text)` reads the digit-and-dot
    strings the application extracts from prices and weights, and the
    regular-expression scans that pick those strings out. Exponents,
    hexadecimal and `Infinity` are not modelled. */
module Numbers {
  import opened Wrappers
  import opened Text

  function Pow10(n: nat): (r: nat)
    ensures r >= 1
  {
    if n == 0 then 1 else 10 * Pow10(n - 1)
  }

  predicate IsDigitOrDot(c: char) { IsAsciiDigit(c) || c == '.' }

  /** `Number(s)` for a string made of digits and dots: the decimal value
      when there is at least one digit and at most one dot, `NaN` (`None`)
      otherwise. */
  function DecimalNumber(s: string): (r: Option<real>)
    ensures AllDigits(s) && |s| > 0 ==> r == Some(DigitsValue(s) as real)
    ensures r.Some? ==> r.value >= 0.0
  {
    match IndexOf(s, ".")
    case None =>
      if |s| > 0 && AllDigits(s) then Some(DigitsValue(s) as real) else None
    case Some(i) =>
      assert s[i..i + 1][0] == s[i];
      var whole := s[..i];
      var frac := s[i + 1..];
      if |whole| + |frac| > 0 && AllDigits(whole) && AllDigits(frac) then
        Some(DigitsValue(whole) as real + DigitsValue(frac) as real / Pow10(|frac|) as real)
      else None
  }

  /** `Number` reads back the decimal text of a non-negative integer. */
  lemma NatTextNumber(n: nat)
    ensures DecimalNumber(NatText(n)) == Some(n as real)
  {
    NatTextRoundTrip(n);
  }

  /** `"a.b"` with digit strings `a` and `b` denotes `a + b / 10^|b|`. */
  lemma {:induction false} FractionNumber(a: string, b: string)
    requires AllDigits(a) && AllDigits(b) && |a| > 0
    ensures DecimalNumber(a + "." + b)
      == Some(DigitsValue(a) as real + DigitsValue(b) as real / Pow10(|b|) as real)
  {
    var s := a + "." + b;
    assert OccursAt(s, ".", |a|);
    forall j | 0 <= j < |a| ensures !OccursAt(s, ".", j) {
      assert s[j..j + 1][0] == a[j];
    }
    assert s[..|a|] == a && s[|a| + 1..] == b;
  }

  /** The index of the first character satisfying `inRun`, `|s|` when
      there is none. */
  function FirstIn(s: string, inRun: char -> bool): (k: nat)
    ensures k <= |s|
    ensures forall i :: 0 <= i < k ==> !inRun(s[i])
    ensures k < |s| ==> inRun(s[k])
    decreases |s|
  {
    if |s| == 0 || inRun(s[0]) then 0
    else
      assert forall i :: 1 <= i < |s| ==> s[i] == s[1..][i - 1];
      FirstIn(s[1..], inRun) + 1
  }

  /** The first maximal run of characters satisfying `inRun`, as the first
      match of a regular expression `/[...]+/` would return it: it starts at
      the leftmost such character and stops only at the end of the text or
      at a character outside the run. */
  function FirstRun(s: string, inRun: char -> bool): (r: Option<string>)
    ensures r.None? <==> forall i :: 0 <= i < |s| ==> !inRun(s[i])
    ensures r.Some? ==> |r.value| > 0 && forall i :: 0 <= i < |r.value| ==> inRun(r.value[i])
    ensures r.Some? ==>
      var k := FirstIn(s, inRun);
      OccursAt(s, r.value, k)
      && (k + |r.value| == |s| || !inRun(s[k + |r.value|]))
    decreases |s|
  {
    if |s| == 0 then None
    else if inRun(s[0]) then
      var n := RunLength(s, inRun);
      assert OccursAt(s, s[..n], 0);
      Some(s[..n])
    else
      var r := FirstRun(s[1..], inRun);
      assert forall i :: 1 <= i < |s| ==> s[i] == s[1..][i - 1];
      assert FirstIn(s, inRun) == FirstIn(s[1..], inRun) + 1;
      assert r.Some? ==> forall k :: OccursAt(s[1..], r.value, k) ==> OccursAt(s, r.value, k + 1);
      r
  }

  /** The length of the longest prefix of `s` all of whose characters
      satisfy `inRun`. */
  function RunLength(s: string, inRun: char -> bool): (n: nat)
    ensures n <= |s|
    ensures forall i :: 0 <= i < n ==> inRun(s[i])
    ensures n < |s| ==> !inRun(s[n])
    decreases |s|
  {
    if |s| > 0 && inRun(s[0]) then
      var m := RunLength(s[1..], inRun);
      assert forall i :: 1 <= i < m + 1 ==> s[i] == s[1..][i - 1];
      m + 1
    else 0
  }

  /** `s.replace(/[^\d]/g, '')`: the ASCII digits of `s` in order. */
  function DigitsOnly(s: string): (r: string)
    ensures AllDigits(r) && |r| <= |s|
    ensures AllDigits(s) ==> r == s
  {
    if |s| == 0 then ""
    else if IsAsciiDigit(s[0]) then [s[0]] + DigitsOnly(s[1..])
    else DigitsOnly(s[1..])
  }

  /** `parseInt(s.replace(/[^\d]/g, '')) || 0`: the number the digits of `s`
      spell, and 0 when there are none. */
  function DigitsNumber(s: string): (r: nat)
    ensures AllDigits(s) ==> r == DigitsValue(s)
  {
    var d := DigitsOnly(s);
    if |d| == 0 then 0 else DigitsValue(d)
  }
}

=== FILE: order_review.dfy ===
/** The order review page as filled in from the session: the flight summary
    that the "accept" click stored, and the flight number that the ticket
    form stored. Each display element keeps its placeholder text unless the
    value for it is a non-blank string. Elements are the map from element id
    to current text; an id missing from the map is an element missing from
    the page. `JSON.parse` is the parameter `parse`, `None` when it throws. */
module OrderReview {
  import opened Wrappers
  import opened Text
  import opened Js

  /** `textOrNull(value)`: the trimmed text of a string that is not blank,
      `None` for anything else. */
  function TextOrNull(v: Prop): (r: Option<string>)
    ensures r.Some? <==> v.Some? && v.value.Str? && Trim(v.value.s) != ""
    ensures r.Some? ==> r.value == Trim(v.value.s)
  {
    match v
    case Some(Str(s)) => if Trim(s) != "" then Some(Trim(s)) else None
    case _ => None
  }

  /** A text `textOrNull` returns passes through it again unchanged. */
  lemma TextOrNullIdempotent(v: Prop)
    ensures var r := TextOrNull(v);
      r.Some? ==> r.value != "" && TextOrNull(Some(Str(r.value))) == r
  {
    if v.Some? && v.value.Str? && Trim(v.value.s) != "" {
      TrimIdempotent(v.value.s);
    }
  }

  type Elements = map<string, string>

  /** `setText(el, value)`: a missing element or a value with no text leaves
      the page as it is; otherwise the element shows the trimmed text. */
  function SetText(els: Elements, id: string, v: Prop): (r: Elements)
    ensures r.Keys == els.Keys
    ensures forall k :: k in els && k != id ==> r[k] == els[k]
    ensures id in els ==> r[id] == (if TextOrNull(v).Some? then TextOrNull(v).value else els[id])
  {
    if id !in els then els
    else match TextOrNull(v)
      case None => els
      case Some(t) => els[id := t]
  }

  /** `safeParseJson(text)`: `null` for a missing or blank text and for text
      that does not parse, else the parsed value. */
  function SafeParseJson(text: Option<string>, parse: string -> Option<Value>): (r: Value)
    ensures text.None? || Trim(text.value) == "" ==> r == Null
    ensures text.Some? && Trim(text.value) != "" ==> r == parse(text.value).GetOr(Null)
  {
    match text
    case None => Null
    case Some(t) => if Trim(t) == "" then Null else parse(t).GetOr(Null)
  }

  /** `summary?.k` for any parsed value: only an object has properties the
      page reads. */
  function Field(v: Value, k: string): (r: Prop)
    ensures r.Some? ==> v.Obj? && k in v.fields && r.value == v.fields[k]
    ensures v.Obj? && k in v.fields ==> r.Some?
  {
    match v
    case Obj(m) => Get(m, k)
    case _ => None
  }

  /** `getSelectedFlightSummary()`: the parsed session entry when it is
      truthy, else `null`; a storage error also gives `null`. */
  function SelectedSummary(session: map<string, string>, fails: bool, parse: string -> Option<Value>): (r: Value)
    ensures r == Null || Truthy(r)
    ensures fails || "selectedFlightSummary" !in session ==> r == Null
  {
    if fails then Null
    else
      var v := SafeParseJson(if "selectedFlightSummary" in session then Some(session["selectedFlightSummary"]) else None, parse);
      if Truthy(v) then v else Null
  }

  /** `getSelectedFlightNumber()`: the trimmed session entry when it is not
      blank; a storage error gives `None`. */
  function SelectedFlightNumber(session: map<string, string>, fails: bool): (r: Option<string>)
    ensures r.Some? <==> !fails && "selectedFlightNumber" in session && Trim(session["selectedFlightNumber"]) != ""
    ensures r.Some? ==> r.value == Trim(session["selectedFlightNumber"])
  {
    if fails || "selectedFlightNumber" !in session then None
    else TextOrNull(Some(Str(session["selectedFlightNumber"])))
  }

  /** The summary fields the page shows, with the id of the element each
      goes to, in the order the page fills them in. */
  const SummaryFields: seq<(string, string)> := [
    ("order-review-origin-code", "originCode"),
    ("order-review-origin-city", "originCity"),
    ("order-review-destination-code", "destinationCode"),
    ("order-review-destination-city", "destinationCity"),
    ("order-review-flight-type", "flightType"),
    ("order-review-date", "date"),
    ("order-review-time", "time"),
    ("order-review-baggage", "baggage"),
    ("order-review-flight-number", "flightNumber"),
    ("order-review-reward-amount", "rewardAmount"),
    ("order-review-reward-currency", "rewardCurrency")
  ]

  const FlightNumberElement := "order-review-flight-number"

  /** Element ids that are pairwise different. */
  predicate DistinctIds(updates: seq<(string, Prop)>) {
    forall i, j :: 0 <= i < j < |updates| ==> updates[i].0 != updates[j].0
  }

  /** A run of `setText` calls, one after another. */
  function SetAll(els: Elements, updates: seq<(string, Prop)>): (r: Elements)
    ensures r.Keys == els.Keys
    ensures forall k :: k in els && (forall i :: 0 <= i < |updates| ==> updates[i].0 != k) ==> r[k] == els[k]
    decreases |updates|
  {
    if |updates| == 0 then els
    else
      assert forall i :: 1 <= i < |updates| ==> updates[i] == updates[1..][i - 1];
      SetAll(SetText(els, updates[0].0, updates[0].1), updates[1..])
  }

  /** When the element ids are different, each element ends up as its own
      call alone leaves it: the order of the calls does not matter. */
  lemma {:induction false} SetAllEach(els: Elements, updates: seq<(string, Prop)>, i: nat)
    requires DistinctIds(updates) && i < |updates| && updates[i].0 in els
    ensures SetAll(els, updates)[updates[i].0] == SetText(els, updates[i].0, updates[i].1)[updates[i].0]
    decreases |updates|
  {
    var rest := updates[1..];
    var e1 := SetText(els, updates[0].0, updates[0].1);
    assert forall j :: 1 <= j < |updates| ==> updates[j] == rest[j - 1];
    if i > 0 {
      SetAllEach(e1, rest, i - 1);
    } else {
      assert forall j :: 0 <= j < |rest| ==> rest[j].0 != updates[0].0;
    }
  }

  /** The value each element is given: the summary's property, except that
      the flight number from the session, when present, comes first. */
  function Updates(summary: Value, flightNumber: Option<string>): (r: seq<(string, Prop)>)
    ensures |r| == |SummaryFields|
    ensures forall i :: 0 <= i < |r| ==> r[i].0 == SummaryFields[i].0
    ensures forall i :: 0 <= i < |r| && r[i].0 != FlightNumberElement ==> r[i].1 == Field(summary, SummaryFields[i].1)
    ensures forall i :: 0 <= i < |r| && r[i].0 == FlightNumberElement ==>
      r[i].1 == (if flightNumber.Some? then Some(Str(flightNumber.value)) else Field(summary, "flightNumber"))
  {
    seq(|SummaryFields|, i requires 0 <= i < |SummaryFields| =>
      if SummaryFields[i].0 == FlightNumberElement && flightNumber.Some? then (SummaryFields[i].0, Some(Str(flightNumber.value)))
      else (SummaryFields[i].0, Field(summary, SummaryFields[i].1)))
  }

  /** `initOrderReviewPage()`: with no page nothing happens; otherwise each
      element gets its value, where there is one. */
  function InitPage(pagePresent: bool, els: Elements, session: map<string, string>, fails: bool,
                    parse: string -> Option<Value>): (r: Elements)
    ensures r.Keys == els.Keys
    ensures !pagePresent ==> r == els
  {
    if !pagePresent then els
    else SetAll(els, Updates(SelectedSummary(session, fails, parse), SelectedFlightNumber(session, fails)))
  }

  /** Index of the flight-number element in `SummaryFields`. */
  lemma FlightNumberIndex()
    ensures SummaryFields[8].0 == FlightNumberElement
    ensures forall i :: 0 <= i < |SummaryFields| && i != 8 ==> SummaryFields[i].0 != FlightNumberElement
  {
  }

  lemma SummaryIdsDistinct(u: seq<(string, Prop)>)
    requires |u| == |SummaryFields| && forall i :: 0 <= i < |u| ==> u[i].0 == SummaryFields[i].0
    ensures DistinctIds(u)
  {
  }

  /** Every displayed summary field shows the trimmed text of the stored
      summary's property when that is a non-blank string, and keeps its
      placeholder otherwise. */
  lemma ShowsSummaryField(els: Elements, session: map<string, string>, fails: bool,
                          parse: string -> Option<Value>, i: nat)
    requires i < |SummaryFields| && i != 8 && SummaryFields[i].0 in els
    ensures var shown := InitPage(true, els, session, fails, parse)[SummaryFields[i].0];
      var t := TextOrNull(Field(SelectedSummary(session, fails, parse), SummaryFields[i].1));
      shown == (if t.Some? then t.value else els[SummaryFields[i].0])
  {
    var u := Updates(SelectedSummary(session, fails, parse), SelectedFlightNumber(session, fails));
    SummaryIdsDistinct(u);
    FlightNumberIndex();
    SetAllEach(els, u, i);
  }

  /** A non-blank flight number in the session is what the page shows,
      whatever the summary says; without one, the summary's is shown. */
  lemma FlightNumberPrecedence(els: Elements, session: map<string, string>, fails: bool, parse: string -> Option<Value>)
    requires FlightNumberElement in els
    ensures var shown := InitPage(true, els, session, fails, parse)[FlightNumberElement];
      var n := SelectedFlightNumber(session, fails);
      var t := TextOrNull(Field(SelectedSummary(session, fails, parse), "flightNumber"));
      (n.Some? ==> shown == n.value)
      && (n.None? ==> shown == (if t.Some? then t.value else els[FlightNumberElement]))
  {
    var u := Updates(SelectedSummary(session, fails, parse), SelectedFlightNumber(session, fails));
    SummaryIdsDistinct(u);
    FlightNumberIndex();
    assert u[8].0 == FlightNumberElement;
    SetAllEach(els, u, 8);
    var n := SelectedFlightNumber(session, fails);
    if n.Some? {
      TrimIdempotent(session["selectedFlightNumber"]);
    }
  }

  /** Calls that carry no text leave the page as it is. */
  lemma {:induction false} SetAllNoText(els: Elements, updates: seq<(string, Prop)>)
    requires forall i :: 0 <= i < |updates| ==> TextOrNull(updates[i].1).None?
    ensures SetAll(els, updates) == els
    decreases |updates|
  {
    if |updates| > 0 {
      assert forall i :: 1 <= i < |updates| ==> updates[i] == updates[1..][i - 1];
      SetAllNoText(els, updates[1..]);
    }
  }

  /** A session with no summary and no flight number leaves every
      placeholder as it is. */
  lemma EmptySessionKeepsPlaceholders(els: Elements, parse: string -> Option<Value>)
    ensures InitPage(true, els, map[], false, parse) == els
  {
    var u := Updates(Null, None);
    assert forall i :: 0 <= i < |u| ==> u[i].1.None?;
    SetAllNoText(els, u);
  }
}

=== FILE: order_store.dfy ===
/** The mapping layer between the cart's stored orders and the records the
    "my orders" page displays. A stored order has `date`, `status` and a
    top-level `item`; a display order has `dateISO`, `statusText` and a
    derived `action`. `now` stands for `Date.now()` and `today` for the
    date part of `new Date().toISOString()`. */
module OrderStore {
  import opened Wrappers
  import opened Js
  import opened Lists
  import Cart

  const DefaultStatus := "در انتظار تایید"
  const DefaultItem := "مرسوله"
  const DefaultFrom := "تهران (IKA)"
  const DefaultTo := "دبی (DXB)"
  const CarrierAction := "حمل بار"
  const SenderAction := "سپردن مرسوله"

  /** The properties a display order has. */
  const DisplayKeys: set<string> :=
    {"id", "type", "dateISO", "statusText", "statusColor", "from", "to", "action", "details"}

  /** The properties `addDynamicOrder` keeps when it builds the stored order. */
  const CartKeys: set<string> :=
    {"id", "type", "from", "to", "date", "status", "statusColor", "item", "details"}

  /** `{..., k: p}` where `p` may be `undefined`: an undefined property is
      dropped when the record is written to storage. */
  function Put(o: Object, k: string, p: Prop): (r: Object)
    ensures Get(r, k) == p
    ensures forall j :: j != k ==> Get(r, j) == Get(o, j)
  {
    if p.Some? then o[k := p.value] else o - {k}
  }

  /** `mapCartOrderToDisplayOrder`: renames `date` to `dateISO` and `status`
      to `statusText`, fills defaults for the falsy properties, derives the
      action from the type and nests the item into the details. */
  function ToDisplay(c: Object, now: int, today: string): (d: Object)
    ensures d.Keys == DisplayKeys
    ensures d["id"] == Or(Get(c, "id"), Num(now as real))
    ensures d["type"] == Or(Get(c, "type"), Str("sender")) && Truthy(d["type"])
    ensures d["statusColor"] == Or(Get(c, "statusColor"), Str("amber"))
    ensures d["from"] == Or(Get(c, "from"), Str(DefaultFrom)) && d["to"] == Or(Get(c, "to"), Str(DefaultTo))
    ensures d["dateISO"] == Or(Get(c, "date"), Str(today))
    ensures d["statusText"] == Or(Get(c, "status"), Str(DefaultStatus))
    ensures d["action"] == Str(CarrierAction) <==> Get(c, "type") == Some(Str("carrier"))
    ensures d["action"] == Str(SenderAction) <==> Get(c, "type") != Some(Str("carrier"))
    ensures d["details"].Obj? && "item" in d["details"].fields
    ensures Get(d["details"].fields, "item")
      == (if Or(Get(c, "details"), Obj(map[])).Obj? && "item" in Or(Get(c, "details"), Obj(map[])).fields
          then Some(Or(Get(c, "details"), Obj(map[])).fields["item"])
          else Some(Or(Get(c, "item"), Str(DefaultItem))))
  {
    map[
      "id" := Or(Get(c, "id"), Num(now as real)),
      "type" := Or(Get(c, "type"), Str("sender")),
      "dateISO" := Or(Get(c, "date"), Str(today)),
      "statusText" := Or(Get(c, "status"), Str(DefaultStatus)),
      "statusColor" := Or(Get(c, "statusColor"), Str("amber")),
      "from" := Or(Get(c, "from"), Str(DefaultFrom)),
      "to" := Or(Get(c, "to"), Str(DefaultTo)),
      "action" := Str(if StrictEq(Get(c, "type"), Some(Str("carrier"))) then CarrierAction else SenderAction),
      "details" := Obj(map["item" := Or(Get(c, "item"), Str(DefaultItem))] + Spread(Some(Or(Get(c, "details"), Obj(map[])))))
    ]
  }

  /** The stored order `addDynamicOrder` builds from a display order. */
  function ToCart(o: Object, now: int, today: string): (c: Object)
    ensures c.Keys <= CartKeys
    ensures Get(c, "date") == Some(Or(Get(o, "dateISO"), Str(today)))
    ensures Get(c, "status") == Some(Or(Get(o, "statusText"), Str(DefaultStatus)))
    ensures Get(c, "from") == Get(o, "from") && Get(c, "to") == Get(o, "to")
    ensures Get(c, "id") == Some(Or(Get(o, "id"), Num(now as real))) && Get(c, "type") == Some(Or(Get(o, "type"), Str("sender")))
    ensures Get(c, "item") == Some(Or(GetIn(o, "details", "item"), Str(DefaultItem)))
    ensures Get(c, "statusColor") == Some(Or(Get(o, "statusColor"), Str("amber")))
    ensures Get(c, "details") == Some(Or(Get(o, "details"), Obj(map[])))
  {
    var base := map[
      "id" := Or(Get(o, "id"), Num(now as real)),
      "type" := Or(Get(o, "type"), Str("sender")),
      "date" := Or(Get(o, "dateISO"), Str(today)),
      "status" := Or(Get(o, "statusText"), Str(DefaultStatus)),
      "statusColor" := Or(Get(o, "statusColor"), Str("amber")),
      "item" := Or(GetIn(o, "details", "item"), Str(DefaultItem)),
      "details" := Or(Get(o, "details"), Obj(map[]))
    ];
    Put(Put(base, "from", Get(o, "from")), "to", Get(o, "to"))
  }

  /** `getDynamicOrders()`: every stored order in display form; `[]` when
      the stored value is not a list (the `map` call throws and the error is
      caught). */
  function GetDynamicOrders(slot: Stored<Object>, now: int, today: string): (r: seq<Object>)
    ensures Cart.GetOrders(slot).NotAList? ==> r == []
    ensures Cart.GetOrders(slot).List? ==> |r| == |Cart.GetOrders(slot).items|
    ensures Cart.GetOrders(slot).List? ==>
      forall i :: 0 <= i < |r| ==> r[i] == ToDisplay(Cart.GetOrders(slot).items[i], now, today)
    ensures forall i :: 0 <= i < |r| ==> r[i].Keys == DisplayKeys
  {
    match Cart.GetOrders(slot)
    case NotAList => []
    case List(xs) => seq(|xs|, i requires 0 <= i < |xs| => ToDisplay(xs[i], now, today))
  }

  /** `addDynamicOrder(order)`: stores the order through the cart and
      returns what the cart returned; a throw from the cart is passed on. */
  function AddDynamicOrder(slot: Stored<Object>, order: Object, now: int, nowIso: string, today: string): (r: Cart.Step<Option<Object>>)
    ensures r.result.Threw? <==> slot.OtherJson?
    ensures r.result == Returned(None) <==>
      Cart.GetOrders(slot).List?
      && (exists i :: 0 <= i < |Cart.GetOrders(slot).items|
            && Cart.SameTrip(Cart.GetOrders(slot).items[i], ToCart(order, now, today)))
    ensures r.result.Returned? && r.result.value.Some? ==>
      r.result.value.value.Keys <= CartKeys + {"createdAt"}
      && r.slot == Items(Cart.GetOrders(slot).items + [r.result.value.value])
  {
    Cart.AddOrder(slot, ToCart(order, now, today), now, nowIso)
  }

  /** `getOrderById(orderId)`: the first stored order whose id is loosely
      equal to `orderId`. */
  function GetOrderById(slot: Stored<Object>, orderId: Prop): (r: Outcome<Option<Object>>)
    ensures r.Threw? <==> slot.OtherJson?
    ensures r.Returned? && r.value.Some? ==>
      r.value.value in Cart.GetOrders(slot).items && LooseEq(Get(r.value.value, "id"), orderId)
    ensures r.Returned? && r.value.Some? ==>
      var xs := Cart.GetOrders(slot).items;
      exists i :: 0 <= i < |xs| && xs[i] == r.value.value && forall j :: 0 <= j < i ==> !LooseEq(Get(xs[j], "id"), orderId)
    ensures r.Returned? && r.value.None? ==>
      forall i :: 0 <= i < |Cart.GetOrders(slot).items| ==> !LooseEq(Get(Cart.GetOrders(slot).items[i], "id"), orderId)
  {
    match Cart.GetOrders(slot)
    case NotAList => Threw
    case List(xs) =>
      var found := Find(xs, o => LooseEq(Get(o, "id"), orderId));
      Returned(found)
  }

  /** `initializeOrdersStore()`: what `getOrders()` hands back, as it is.
      A stored array is the list of orders; a stored truthy non-array is
      passed on unchanged (`NotAList`), since reading its `length` does not
      throw; anything else is the empty list. */
  function InitializeOrdersStore(slot: Stored<Object>): (r: Reading<Object>)
    ensures r.NotAList? <==> slot.OtherJson?
    ensures slot.Items? ==> r == List(slot.items)
    ensures !slot.Items? && !slot.OtherJson? ==> r == List([])
  {
    Cart.GetOrders(slot)
  }

  /** The page's list and the store's list agree when the store holds a
      list: the display orders are the stored orders, one for one, in
      display form. When the store holds a non-array they part: the store
      hands the value on, while the page shows nothing. */
  lemma DisplayMatchesStore(slot: Stored<Object>, now: int, today: string)
    ensures var shown := GetDynamicOrders(slot, now, today);
      var stored := InitializeOrdersStore(slot);
      (stored.List? ==>
        |shown| == |stored.items| && forall i :: 0 <= i < |shown| ==> shown[i] == ToDisplay(stored.items[i], now, today))
      && (stored.NotAList? ==> shown == [])
  {
  }

  const CargoDefaultTo := "استانبول (IST)"

  /** The texts of a cargo card: its location spans in order, and the
      heading and the item span, `None` when missing. The card's date span
      is read but never used, so it is left out. */
  datatype Card = Card(locations: seq<string>, heading: Option<string>, itemSpan: Option<string>)

  /** An element's text, `undefined` when the element is missing. */
  function TextProp(t: Option<string>): Prop {
    if t.Some? then Some(Str(t.value)) else None
  }

  function Location(card: Card, i: nat): Prop {
    if i < |card.locations| then Some(Str(card.locations[i])) else None
  }

  /** The display order `addCargoFromCard` builds: a `cargo` order dated
      today with the card's route and item, each falling back to a default
      when its text is missing or empty. */
  function CargoOrder(card: Card, now: int, today: string): (o: Object)
    ensures Get(o, "type") == Some(Str("cargo")) && Get(o, "dateISO") == Some(Str(today))
    ensures Get(o, "statusText") == Some(Str(DefaultStatus)) && Get(o, "id") == Some(Num(now as real))
    ensures Get(o, "from") == Some(Or(Location(card, 0), Str(DefaultFrom)))
    ensures Get(o, "to") == Some(Or(Location(card, 1), Str(CargoDefaultTo)))
    ensures GetIn(o, "details", "item") == Some(Or(TextProp(card.heading), Or(TextProp(card.itemSpan), Str(DefaultItem))))
  {
    map[
      "id" := Num(now as real),
      "type" := Str("cargo"),
      "from" := Or(Location(card, 0), Str(DefaultFrom)),
      "to" := Or(Location(card, 1), Str(CargoDefaultTo)),
      "dateISO" := Str(today),
      "statusText" := Str(DefaultStatus),
      "details" := Obj(map["item" := Or(TextProp(card.heading), Or(TextProp(card.itemSpan), Str(DefaultItem)))])
    ]
  }

  /** `addCargoFromCard(card)`: nothing without a card; otherwise the
      card's order goes through `addDynamicOrder`. */
  function AddCargoFromCard(slot: Stored<Object>, card: Option<Card>, now: int, nowIso: string, today: string): (r: Option<Cart.Step<Option<Object>>>)
    ensures card.None? ==> r.None?
    ensures card.Some? ==> r.Some? && (r.value.result.Threw? <==> slot.OtherJson?)
    ensures card.Some? && r.value.result == Returned(None) ==> r.value.slot == slot
  {
    match card
    case None => None
    case Some(c) => Some(AddDynamicOrder(slot, CargoOrder(c, now, today), now, nowIso, today))
  }

  /** A display order whose identifying properties are all present and
      truthy. */
  ghost predicate Complete(o: Object) {
    IsTruthy(Get(o, "id")) && IsTruthy(Get(o, "type")) && IsTruthy(Get(o, "from"))
    && IsTruthy(Get(o, "to")) && IsTruthy(Get(o, "dateISO")) && IsTruthy(Get(o, "statusText"))
    && IsTruthy(Get(o, "statusColor"))
  }

  /** The stored form of a complete display order carries its fields under
      the stored names. */
  lemma ToCartOfComplete(order: Object, now: int, today: string)
    requires Complete(order)
    ensures var c := ToCart(order, now, today);
      Get(c, "id") == Some(order["id"]) && Get(c, "type") == Some(order["type"])
      && Get(c, "from") == Some(order["from"]) && Get(c, "to") == Some(order["to"])
      && Get(c, "date") == Some(order["dateISO"]) && Get(c, "status") == Some(order["statusText"])
      && Get(c, "statusColor") == Some(order["statusColor"])
  {
  }

  /** The stored form keeps a truthy id, and the route as given. */
  lemma ToCartKeepsId(order: Object, now: int, today: string)
    requires IsTruthy(Get(order, "id"))
    ensures var c := ToCart(order, now, today);
      Get(c, "id") == Get(order, "id") && Get(c, "from") == Get(order, "from") && Get(c, "to") == Get(order, "to")
  {
  }

  /** Stamping a stored order with a truthy id keeps every field it had. */
  lemma StampKeeps(c: Object, now: int, nowIso: string, k: string)
    requires IsTruthy(Get(c, "id")) && k != "createdAt"
    ensures Get(Cart.Stamp(c, now, nowIso), k) == Get(c, k)
  {
  }

  /** Displaying a stored order whose fields are truthy shows those fields. */
  lemma ToDisplayOfTruthy(c: Object, now: int, today: string)
    requires IsTruthy(Get(c, "id")) && IsTruthy(Get(c, "type")) && IsTruthy(Get(c, "from"))
    requires IsTruthy(Get(c, "to")) && IsTruthy(Get(c, "date")) && IsTruthy(Get(c, "status"))
    requires IsTruthy(Get(c, "statusColor"))
    ensures var d := ToDisplay(c, now, today);
      d["id"] == c["id"] && d["type"] == c["type"] && d["from"] == c["from"] && d["to"] == c["to"]
      && d["dateISO"] == c["date"] && d["statusText"] == c["status"] && d["statusColor"] == c["statusColor"]
  {
  }

  /** Adding a complete display order and reading the orders back shows it
      last, with the same id, type, route, date, status and colour, and with
      the action its type calls for. */
  lemma {:induction false} DisplayRoundTrip(slot: Stored<Object>, order: Object, now: int, nowIso: string, today: string, now2: int, today2: string)
    requires Complete(order)
    requires var r := AddDynamicOrder(slot, order, now, nowIso, today);
      r.result.Returned? && r.result.value.Some?
    ensures var r := AddDynamicOrder(slot, order, now, nowIso, today);
      var shown := GetDynamicOrders(r.slot, now2, today2);
      |shown| > 0
      && var d := shown[|shown| - 1];
      d["id"] == order["id"] && d["type"] == order["type"] && d["from"] == order["from"]
      && d["to"] == order["to"] && d["dateISO"] == order["dateISO"]
      && d["statusText"] == order["statusText"] && d["statusColor"] == order["statusColor"]
      && (d["action"] == Str(CarrierAction) <==> order["type"] == Str("carrier"))
  {
    var rec := Cart.Stamp(ToCart(order, now, today), now, nowIso);
    LastShown(slot, order, now, nowIso, today, now2, today2);
    StampedDisplay(order, now, nowIso, today, now2, today2);
  }

  /** After a successful add, the last order read back is the display form
      of the stamped stored order. */
  lemma LastShown(slot: Stored<Object>, order: Object, now: int, nowIso: string, today: string, now2: int, today2: string)
    requires var r := AddDynamicOrder(slot, order, now, nowIso, today);
      r.result.Returned? && r.result.value.Some?
    ensures var r := AddDynamicOrder(slot, order, now, nowIso, today);
      var shown := GetDynamicOrders(r.slot, now2, today2);
      |shown| > 0 && shown[|shown| - 1] == ToDisplay(Cart.Stamp(ToCart(order, now, today), now, nowIso), now2, today2)
  {
    var r := AddDynamicOrder(slot, order, now, nowIso, today);
    assert r.result.value.value == Cart.Stamp(ToCart(order, now, today), now, nowIso);
    ShownLast(Cart.GetOrders(slot).items, r.result.value.value, now2, today2);
  }

  /** Reading back a list with one more order at its end shows that order
      last. */
  lemma ShownLast(xs: seq<Object>, x: Object, now: int, today: string)
    ensures var shown := GetDynamicOrders(Items(xs + [x]), now, today);
      |shown| > 0 && shown[|shown| - 1] == ToDisplay(x, now, today)
  {
    assert Cart.GetOrders(Items(xs + [x])) == List(xs + [x]);
  }

  /** The display form of a complete display order, once stored and
      stamped, shows the order's own fields. */
  lemma StampedDisplay(order: Object, now: int, nowIso: string, today: string, now2: int, today2: string)
    requires Complete(order)
    ensures var d := ToDisplay(Cart.Stamp(ToCart(order, now, today), now, nowIso), now2, today2);
      d["id"] == order["id"] && d["type"] == order["type"] && d["from"] == order["from"]
      && d["to"] == order["to"] && d["dateISO"] == order["dateISO"]
      && d["statusText"] == order["statusText"] && d["statusColor"] == order["statusColor"]
      && (d["action"] == Str(CarrierAction) <==> order["type"] == Str("carrier"))
  {
    var c := ToCart(order, now, today);
    ToCartOfComplete(order, now, today);
    var rec := Cart.Stamp(c, now, nowIso);
    StampKeeps(c, now, nowIso, "id");
    StampKeeps(c, now, nowIso, "type");
    StampKeeps(c, now, nowIso, "from");
    StampKeeps(c, now, nowIso, "to");
    StampKeeps(c, now, nowIso, "date");
    StampKeeps(c, now, nowIso, "status");
    StampKeeps(c, now, nowIso, "statusColor");
    ToDisplayOfTruthy(rec, now2, today2);
  }

  /** An added order with a numeric id is found again by the decimal text of
      that id, as it arrives from a query string. */
  lemma {:induction false} FindAddedById(slot: Stored<Object>, order: Object, n: nat, now: int, nowIso: string, today: string)
    requires Get(order, "id") == Some(Num(n as real)) && n > 0
    requires var r := AddDynamicOrder(slot, order, now, nowIso, today);
      r.result.Returned? && r.result.value.Some?
    ensures var r := AddDynamicOrder(slot, order, now, nowIso, today);
      var found := GetOrderById(r.slot, Some(Str(Text.NatText(n))));
      found.Returned? && found.value.Some?
  {
    var c := ToCart(order, now, today);
    var r := Cart.AddOrder(slot, c, now, nowIso);
    assert AddDynamicOrder(slot, order, now, nowIso, today) == r;
    ToCartKeepsId(order, now, today);
    var rec := Cart.Stamp(c, now, nowIso);
    StampKeeps(c, now, nowIso, "id");
    var items := Cart.GetOrders(slot).items + [rec];
    assert r.slot == Items(items);
    var key := Some(Str(Text.NatText(n)));
    LooseEqIdText(n);
    assert items[|items| - 1] == rec;
    assert LooseEq(Get(items[|items| - 1], "id"), key);
  }

  /** The stored form of a card's order. */
  lemma CargoCart(card: Card, now: int, today: string)
    ensures var c := ToCart(CargoOrder(card, now, today), now, today);
      Get(c, "type") == Some(Str("cargo")) && Get(c, "date") == Some(Str(today))
      && Get(c, "id") == Some(Num(now as real))
      && Get(c, "from") == Some(Or(Location(card, 0), Str(DefaultFrom)))
      && Get(c, "to") == Some(Or(Location(card, 1), Str(CargoDefaultTo)))
      && Get(c, "item") == Some(Or(TextProp(card.heading), Or(TextProp(card.itemSpan), Str(DefaultItem))))
  {
  }

  /** A card added to the cart is stored as a `cargo` order dated today,
      with the card's route and item and the clock as its id. */
  lemma {:induction false} CargoFromCardStored(slot: Stored<Object>, card: Card, now: int, nowIso: string, today: string)
    requires var r := AddCargoFromCard(slot, Some(card), now, nowIso, today);
      r.value.result.Returned? && r.value.result.value.Some?
    ensures var r := AddCargoFromCard(slot, Some(card), now, nowIso, today).value;
      var rec := r.result.value.value;
      r.slot == Items(Cart.GetOrders(slot).items + [rec])
      && Get(rec, "type") == Some(Str("cargo")) && Get(rec, "date") == Some(Str(today))
      && Get(rec, "id") == Some(Num(now as real))
      && Get(rec, "from") == Some(Or(Location(card, 0), Str(DefaultFrom)))
      && Get(rec, "to") == Some(Or(Location(card, 1), Str(CargoDefaultTo)))
      && Get(rec, "item") == Some(Or(TextProp(card.heading), Or(TextProp(card.itemSpan), Str(DefaultItem))))
  {
    var c := ToCart(CargoOrder(card, now, today), now, today);
    CargoCart(card, now, today);
    var r := Cart.AddOrder(slot, c, now, nowIso);
    assert AddCargoFromCard(slot, Some(card), now, nowIso, today).value == r;
    var rec := Cart.Stamp(c, now, nowIso);
    assert r.result.value.value == rec;
    assert rec["id"] == Num(now as real);
  }

  /** The same card added twice is stored once: the second call finds the
      first order's route and date and returns `null`. */
  lemma {:induction false} CargoFromCardTwice(slot: Stored<Object>, card: Card, now: int, nowIso: string, today: string, now2: int, nowIso2: string)
    requires Cart.GetOrders(slot).List?
    ensures var r1 := AddCargoFromCard(slot, Some(card), now, nowIso, today).value;
      var r2 := AddCargoFromCard(r1.slot, Some(card), now2, nowIso2, today).value;
      r2.result == Returned(None) && r2.slot == r1.slot
  {
    var c1 := ToCart(CargoOrder(card, now, today), now, today);
    var c2 := ToCart(CargoOrder(card, now2, today), now2, today);
    CargoCart(card, now, today);
    CargoCart(card, now2, today);
    Cart.AddSameTripStoresOnce(slot, c1, c2, now, nowIso, now2, nowIso2);
    var r1 := Cart.AddOrder(slot, c1, now, nowIso);
    assert AddCargoFromCard(slot, Some(card), now, nowIso, today).value == r1;
    assert Cart.AddOrder(r1.slot, c2, now2, nowIso2) == AddCargoFromCard(r1.slot, Some(card), now2, nowIso2, today).value;
  }
}

=== FILE: order_submission.dfy ===
/** The order form's submit button: the form's values are collected, an
    order without origin or destination is refused, and any other becomes
    a new cart order with a pending status. The form is read as the
    values its fields hold (`None` for a field the page lacks); `now`,
    `nowIso` and the local date stand for the clock. */
module OrderSubmission {
  import opened Wrappers
  import opened Text
  import opened Js
  import Cart
  import OrderStore
  import Guards

  const PendingStatus := "در انتظار تایید"
  const PendingColor := "amber"
  const Unknown := "نامشخص"
  const MissingRouteText := "لطفا مبدا و مقصد را مشخص کنید"
  const FailureText := "خطا در ثبت سفارش. لطفا دوباره تلاش کنید."

  /** An element marked `data-detail`: its attribute, its `value` (absent on
      elements that are not form fields), its text and its `data-value`. */
  datatype DetailElement = DetailElement(key: string, value: Option<string>, text: string, dataValue: Option<string>)

  /** `el.value || el.textContent || el.getAttribute('data-value')`, with
      every falsy outcome written as the empty text. */
  function DetailValue(e: DetailElement): (r: string)
    ensures e.value.Some? && e.value.value != "" ==> r == e.value.value
    ensures !(e.value.Some? && e.value.value != "") && e.text != "" ==> r == e.text
    ensures !(e.value.Some? && e.value.value != "") && e.text == "" ==> r == (if e.dataValue.Some? then e.dataValue.value else "")
  {
    if e.value.Some? && e.value.value != "" then e.value.value
    else if e.text != "" then e.text
    else if e.dataValue.Some? then e.dataValue.value
    else ""
  }

  predicate Kept(e: DetailElement) {
    e.key != "" && DetailValue(e) != ""
  }

  /** `collectOtherDetails()`: the elements in document order, each with a
      non-empty key and value writing its value under its key, so a later
      element overwrites an earlier one with the same key. */
  function CollectOtherDetails(els: seq<DetailElement>): (r: map<string, string>)
    ensures forall k :: k in r ==> k != "" && r[k] != ""
    decreases |els|
  {
    if |els| == 0 then map[]
    else
      var r := CollectOtherDetails(els[..|els| - 1]);
      var e := els[|els| - 1];
      if Kept(e) then r[e.key := DetailValue(e)] else r
  }

  /** A key is collected exactly when some element with that key has a
      value, and the last such element's value is the one kept. */
  lemma {:induction false} CollectOtherDetailsLastWins(els: seq<DetailElement>)
    ensures forall i :: 0 <= i < |els| && Kept(els[i]) ==> els[i].key in CollectOtherDetails(els)
    ensures forall k :: k in CollectOtherDetails(els) ==> exists i :: 0 <= i < |els| && Kept(els[i]) && els[i].key == k
    ensures forall i :: 0 <= i < |els| && Kept(els[i])
                     && (forall j :: i < j < |els| && Kept(els[j]) ==> els[j].key != els[i].key)
                     ==> CollectOtherDetails(els)[els[i].key] == DetailValue(els[i])
    decreases |els|
  {
    if |els| > 0 {
      var init := els[..|els| - 1];
      CollectOtherDetailsLastWins(init);
      assert forall i :: 0 <= i < |init| ==> init[i] == els[i];
    }
  }

  /** The form's type: a checked carrier radio, else a checked sender radio,
      else the active tab's lower-cased text naming a carrier (رسانا,
      `carrier`) or a sender (سپارا, `sender`), else sender. */
  function SelectedType(carrierChecked: bool, senderChecked: bool, activeTab: Option<string>): (r: string)
    ensures r == "carrier" || r == "sender"
    ensures carrierChecked ==> r == "carrier"
    ensures !carrierChecked && senderChecked ==> r == "sender"
    ensures !carrierChecked && !senderChecked && activeTab.None? ==> r == "sender"
    ensures !carrierChecked && !senderChecked && activeTab.Some? ==>
      (r == "carrier" <==> Contains(ToLower(activeTab.value), "رسانا") || Contains(ToLower(activeTab.value), "carrier"))
  {
    if carrierChecked then "carrier"
    else if senderChecked then "sender"
    else match activeTab
      case None => "sender"
      case Some(t) =>
        var text := ToLower(t);
        if Contains(text, "رسانا") || Contains(text, "carrier") then "carrier"
        else "sender"
  }

  /** `String(n).padStart(2, '0')` for a number below 100. */
  function Pad2(n: nat): (r: string)
    requires n < 100
    ensures |r| == 2 && AllDigits(r) && DigitsValue(r) == n
  {
    NatTextRoundTrip(n);
    if n < 10 then
      assert DigitsValue("0") == 0;
      assert ("0" + NatText(n))[..1] == "0";
      "0" + NatText(n)
    else
      assert |NatText(n)| == 2 by {
        if |NatText(n)| > 2 { DigitsValueLower(NatText(n)); }
      }
      NatText(n)
  }

  /** A digit text of three or more characters without a leading zero is
      worth at least 100. */
  lemma {:induction false} DigitsValueLower(s: string)
    requires AllDigits(s) && |s| >= 3 && s[0] != '0'
    ensures DigitsValue(s) >= 100
    decreases |s|
  {
    var init := s[..|s| - 1];
    assert AllDigits(init) && init[0] == s[0];
    if |s| == 3 {
      assert DigitsValue(init[..1]) == s[0] as int - '0' as int;
    } else {
      DigitsValueLower(init);
    }
  }

  /** `getCurrentDate()`: `YYYY-MM-DD` from the local year, the month
      counted from 0 and the day of the month. */
  function CurrentDate(year: nat, month0: nat, day: nat): (r: string)
    requires month0 < 12 && 1 <= day <= 31
    ensures |r| == |NatText(year)| + 6
    ensures r[|NatText(year)|] == '-' && r[|NatText(year)| + 3] == '-'
  {
    NatText(year) + "-" + Pad2(month0 + 1) + "-" + Pad2(day)
  }

  /** The date text reads back as the date it was made from: the digits
      before the first dash are the year, the two after it the month
      counted from 1, and the last two the day. */
  lemma CurrentDateRoundTrip(year: nat, month0: nat, day: nat)
    requires month0 < 12 && 1 <= day <= 31
    ensures var r := CurrentDate(year, month0, day);
      var y := |NatText(year)|;
      AllDigits(r[..y]) && DigitsValue(r[..y]) == year
      && AllDigits(r[y + 1..y + 3]) && DigitsValue(r[y + 1..y + 3]) == month0 + 1
      && AllDigits(r[y + 4..]) && DigitsValue(r[y + 4..]) == day
  {
    var a := NatText(year);
    var b := Pad2(month0 + 1);
    var c := Pad2(day);
    var r := CurrentDate(year, month0, day);
    assert r == a + "-" + b + "-" + c;
    assert r[..|a|] == a;
    assert r[|a| + 1..|a| + 3] == b;
    assert r[|a| + 4..] == c;
    NatTextRoundTrip(year);
  }

  /** The form as `collectFormData()` reads it. */
  datatype FormData = FormData(
    from: Option<string>, to: Option<string>, date: Option<string>, item: Option<string>,
    weight: Option<string>, value: Option<string>, description: Option<string>, flightNumber: Option<string>,
    orderType: string, otherDetails: map<string, string>)

  predicate Filled(v: Option<string>) {
    v.Some? && v.value != ""
  }

  /** `v || d` on a field. */
  function OrText(v: Option<string>, d: string): (r: string)
    ensures Filled(v) ==> r == v.value
    ensures !Filled(v) ==> r == d
  {
    if Filled(v) then v.value else d
  }

  function StrMap(m: map<string, string>): (r: Object)
    ensures r.Keys == m.Keys
    ensures forall k :: k in m ==> r[k] == Str(m[k])
  {
    map k | k in m :: Str(m[k])
  }

  /** The `details` of a new order: weight and value (unknown when empty),
      description and flight number (empty when empty), then every collected
      detail, which overrides those four. */
  function NewDetails(fd: FormData): (r: Object)
    ensures r.Keys == {"weight", "value", "description", "flightNumber"} + fd.otherDetails.Keys
    ensures forall k :: k in fd.otherDetails ==> r[k] == Str(fd.otherDetails[k])
    ensures "weight" !in fd.otherDetails ==> r["weight"] == Str(OrText(fd.weight, Unknown))
    ensures "value" !in fd.otherDetails ==> r["value"] == Str(OrText(fd.value, Unknown))
    ensures "description" !in fd.otherDetails ==> r["description"] == Str(OrText(fd.description, ""))
    ensures "flightNumber" !in fd.otherDetails ==> r["flightNumber"] == Str(OrText(fd.flightNumber, ""))
  {
    map["weight" := Str(OrText(fd.weight, Unknown)), "value" := Str(OrText(fd.value, Unknown)),
        "description" := Str(OrText(fd.description, "")), "flightNumber" := Str(OrText(fd.flightNumber, ""))]
    + StrMap(fd.otherDetails)
  }

  /** The order object built for a complete form: the clock as id, the
      form's texts with their defaults, the fixed pending status and its
      colour, the details and a creation stamp. */
  function NewOrder(fd: FormData, now: int, nowIso: string, today: string): (r: Object)
    ensures r.Keys == {"id", "from", "to", "date", "item", "type", "status", "statusColor", "details", "createdAt"}
    ensures r["id"] == Num(now as real) && r["createdAt"] == Str(nowIso)
    ensures r["from"] == Str(OrText(fd.from, OrderStore.DefaultFrom)) && r["to"] == Str(OrText(fd.to, OrderStore.DefaultTo))
    ensures r["date"] == Str(OrText(fd.date, today))
    ensures r["item"] == Str(OrText(fd.item, OrderStore.DefaultItem))
    ensures r["type"] == Str(if fd.orderType != "" then fd.orderType else "sender")
    ensures r["status"] == Str(PendingStatus) && r["statusColor"] == Str(PendingColor)
    ensures r["details"] == Obj(NewDetails(fd))
  {
    map["id" := Num(now as real),
        "from" := Str(OrText(fd.from, OrderStore.DefaultFrom)),
        "to" := Str(OrText(fd.to, OrderStore.DefaultTo)),
        "date" := Str(OrText(fd.date, today)),
        "item" := Str(OrText(fd.item, OrderStore.DefaultItem)),
        "type" := Str(if fd.orderType != "" then fd.orderType else "sender"),
        "status" := Str(PendingStatus),
        "statusColor" := Str(PendingColor),
        "details" := Obj(NewDetails(fd)),
        "createdAt" := Str(nowIso)]
  }

  /** The notification a submit shows. */
  datatype Notice = Warning(text: string) | Success(text: string) | Failure(text: string)

  /** What a submit leaves behind: the cart entry, the events, the notice
      and whether the page moves on to the order list. */
  datatype Submission = Submission(slot: Stored<Object>, events: seq<Cart.Event>, notice: Notice, redirect: bool)

  /** `handleSubmitOrder`: a form without origin or destination warns and
      changes nothing; otherwise the new order goes to `addOrder`, and the
      success notice and the move to the order list follow whatever it
      returned, a refused duplicate included. A stored value that is not a
      list makes `addOrder` throw, which shows the failure notice. */
  function Submit(slot: Stored<Object>, fd: FormData, now: int, nowIso: string, today: string): (r: Submission)
    ensures !Filled(fd.from) || !Filled(fd.to) ==>
      r == Submission(slot, [], Warning(MissingRouteText), false)
    ensures Filled(fd.from) && Filled(fd.to) && slot.OtherJson? ==>
      r == Submission(slot, [], Failure(FailureText), false)
    ensures Filled(fd.from) && Filled(fd.to) && !slot.OtherJson? ==>
      var step := Cart.AddOrder(slot, NewOrder(fd, now, nowIso, today), now, nowIso);
      r.slot == step.slot && r.events == step.events && r.redirect
      && r.notice == Success("سفارش شما از " + fd.from.value + " به " + fd.to.value + " ثبت شد")
  {
    if !Filled(fd.from) || !Filled(fd.to) then Submission(slot, [], Warning(MissingRouteText), false)
    else
      var step := Cart.AddOrder(slot, NewOrder(fd, now, nowIso, today), now, nowIso);
      match step.result
      case Threw => Submission(slot, [], Failure(FailureText), false)
      case Returned(_) =>
        Submission(step.slot, step.events, Success("سفارش شما از " + fd.from.value + " به " + fd.to.value + " ثبت شد"), true)
  }

  /** Submitting the same form twice stores one order, yet both submits
      report success. */
  lemma SubmitTwice(slot: Stored<Object>, fd: FormData, now: int, nowIso: string, today: string, now2: int, nowIso2: string)
    requires Filled(fd.from) && Filled(fd.to) && !slot.OtherJson?
    requires Cart.GetOrders(slot).List? && forall i :: 0 <= i < |Cart.GetOrders(slot).items| ==>
      !Cart.SameTrip(Cart.GetOrders(slot).items[i], NewOrder(fd, now, nowIso, today))
    ensures var r1 := Submit(slot, fd, now, nowIso, today);
      var r2 := Submit(r1.slot, fd, now2, nowIso2, today);
      r1.slot.Items? && |r1.slot.items| == |Cart.GetOrders(slot).items| + 1
      && r2.slot == r1.slot && r2.events == [] && r1.notice.Success? && r2.notice.Success?
  {
    var o1 := NewOrder(fd, now, nowIso, today);
    var o2 := NewOrder(fd, now2, nowIso2, today);
    var r1 := Submit(slot, fd, now, nowIso, today);
    var rec := Cart.Stamp(o1, now, nowIso);
    var items := Cart.GetOrders(slot).items + [rec];
    assert r1.slot == Items(items);
    StampedSameTrip(fd, now, nowIso, today, now2, nowIso2);
    assert items[|items| - 1] == rec;
    var r2 := Submit(r1.slot, fd, now2, nowIso2, today);
    assert Cart.AddOrder(Items(items), o2, now2, nowIso2).result == Returned(None);
  }

  /** The stored record of a submitted form has the same trip as any later
      order built from the same form. */
  lemma StampedSameTrip(fd: FormData, now: int, nowIso: string, today: string, now2: int, nowIso2: string)
    ensures Cart.SameTrip(Cart.Stamp(NewOrder(fd, now, nowIso, today), now, nowIso), NewOrder(fd, now2, nowIso2, today))
  {
    var o1 := NewOrder(fd, now, nowIso, today);
    var rec := Cart.Stamp(o1, now, nowIso);
    var o2 := NewOrder(fd, now2, nowIso2, today);
    assert "from" in o1 && "to" in o1 && "date" in o1;
    assert rec["from"] == o1["from"] == o2["from"];
    assert rec["to"] == o1["to"] == o2["to"];
    assert rec["date"] == o1["date"] == o2["date"];
  }

  /** `initOrderSubmission()` on a ready page: the handler is set up once
      there is a submit button and the flag is down; without a button the
      flag stays down. */
  function InitOrderSubmission(g: Guards.Guard, buttonPresent: bool): (r: Guards.Guard)
    ensures g.initialized ==> r == g
    ensures !g.initialized ==> r.initialized == buttonPresent
    ensures r.setups <= g.setups + 1
  {
    Guards.Init(g, buttonPresent)
  }
}

=== FILE: registered_cargo.dfy ===
/** The registered-cargo page: a fixed list of parcels that the user can
    filter with tabs and take on. Taking a parcel saves it as a trip and
    puts a `cargo` order into the cart. On every render the page looks the
    parcels up in the saved trips and marks the ones it finds. Parcels and
    flights share the trip list and both are numbered from 1, so a saved
    flight and a parcel with the same number are taken for each other. */
module RegisteredCargo {
  import opened Wrappers
  import opened Text
  import opened Js
  import opened Lists
  import Cart
  import Trips
  import OrderStore
  import RegisteredFlight
  import Guards

  /** A parcel card's data; `orderId` is the submission id the page keeps
      for it, absent until one is known. The image only feeds the markup. */
  datatype Cargo = Cargo(
    id: nat, name: string, weight: real, category: string, reward: int, submitted: bool, orderId: Prop)

  const CargoData: seq<Cargo> := [
    Cargo(1, "لپ\U{200C}تاپ", 2.0, "الکترونیک", 210, false, None),
    Cargo(2, "مدارک", 0.5, "مدارک", 220, false, None),
    Cargo(3, "ساعت", 0.3, "ساعت", 240, false, None)
  ]

  /** Whether a tab shows a parcel: only the light-cargo tab leaves any
      out. */
  predicate ShownBy(tab: string, c: Cargo) {
    tab != RegisteredFlight.LightTab || c.weight <= 1.0
  }

  /** The `applyFilter` tabs: every parcel, a copy sorted by reward
      (largest first), or the parcels of at most 1 kg. */
  function ApplyTab(data: seq<Cargo>, tab: string): (r: seq<Cargo>)
    ensures tab == RegisteredFlight.RewardTab ==> multiset(r) == multiset(data)
    ensures tab == RegisteredFlight.LightTab ==>
      (forall i :: 0 <= i < |r| ==> r[i] in data && r[i].weight <= 1.0)
      && (forall i :: 0 <= i < |data| && data[i].weight <= 1.0 ==> data[i] in r)
    ensures tab != RegisteredFlight.RewardTab && tab != RegisteredFlight.LightTab ==> r == data
  {
    if tab == RegisteredFlight.RewardTab then SortBy(data, KeyOrder((c: Cargo) => c.reward, true))
    else if tab == RegisteredFlight.LightTab then Filter(data, (c: Cargo) => c.weight <= 1.0)
    else data
  }

  /** The reward tab lists rewards from largest to smallest; the light tab
      keeps the listed order. */
  lemma ApplyTabOrder(data: seq<Cargo>, tab: string)
    ensures tab == RegisteredFlight.RewardTab ==> forall i, j :: 0 <= i < j < |ApplyTab(data, tab)| ==>
      ApplyTab(data, tab)[i].reward >= ApplyTab(data, tab)[j].reward
    ensures tab == RegisteredFlight.LightTab ==> SubseqOf(ApplyTab(data, tab), data)
  {
    SortByKeyOrdered(data, (c: Cargo) => c.reward, true);
    FilterSubseq(data, (c: Cargo) => c.weight <= 1.0);
  }

  /** The trip test of `renderCargo` as written: the trip's submission id
      is `===` the parcel's order id, or its id is `===` the parcel's id.
      A parcel without an order id is `undefined` there, which is `===` the
      missing submission id of any trip saved without one. */
  predicate MatchesAsWritten(t: Object, c: Cargo) {
    StrictEq(Get(t, "submittedId"), c.orderId) || StrictEq(Get(t, "id"), Some(Num(c.id as real)))
  }

  /** The trip test as intended: the submission id counts only once the
      parcel has an order id. */
  predicate Matches(t: Object, c: Cargo) {
    (c.orderId.Some? && StrictEq(Get(t, "submittedId"), c.orderId)) || StrictEq(Get(t, "id"), Some(Num(c.id as real)))
  }

  /** The merge of one parcel with the saved trips: the first trip the test
      accepts marks the parcel submitted and hands it its submission id; a
      parcel no trip matches keeps its mark and id. */
  function Merge(c: Cargo, ts: seq<Object>, matches: (Object, Cargo) -> bool): (r: Cargo)
    ensures r.(submitted := c.submitted, orderId := c.orderId) == c
    ensures r.submitted <==> c.submitted || exists j :: 0 <= j < |ts| && matches(ts[j], c)
    ensures var k := FindIndex(ts, t => matches(t, c));
      (k >= 0 ==> r.orderId == Get(ts[k], "submittedId"))
      && (k == -1 ==> r == c)
  {
    match Find(ts, t => matches(t, c))
    case Some(t) => c.(submitted := true, orderId := Get(t, "submittedId"))
    case None => c
  }

  /** `renderCargo` with a given trip test: the parcels the tab shows are
      merged with the saved trips, the others are untouched. A stored trip
      value that is not a list makes the first lookup throw. */
  function RenderWith(data: seq<Cargo>, tab: string, trips: Stored<Object>, matches: (Object, Cargo) -> bool): (r: Outcome<seq<Cargo>>)
    ensures r.Threw? <==> Trips.LoadTrips(trips).NotAList? && exists i :: 0 <= i < |data| && ShownBy(tab, data[i])
    ensures r.Returned? ==> |r.value| == |data|
    ensures r.Returned? && Trips.LoadTrips(trips).List? ==> forall i :: 0 <= i < |data| ==>
      r.value[i] == (if ShownBy(tab, data[i]) then Merge(data[i], Trips.LoadTrips(trips).items, matches) else data[i])
    ensures r.Returned? && Trips.LoadTrips(trips).NotAList? ==> r.value == data
  {
    match Trips.LoadTrips(trips)
    case NotAList =>
      if Any(data, c => ShownBy(tab, c)) then Threw else Returned(data)
    case List(ts) =>
      Returned(seq(|data|, i requires 0 <= i < |data| =>
        if ShownBy(tab, data[i]) then Merge(data[i], ts, matches) else data[i]))
  }

  /** `renderCargo` as written. */
  function RenderAsWritten(data: seq<Cargo>, tab: string, trips: Stored<Object>): (r: Outcome<seq<Cargo>>)
    ensures r.Returned? ==> |r.value| == |data|
    ensures r.Returned? && Trips.LoadTrips(trips).List? ==> forall i :: 0 <= i < |data| && ShownBy(tab, data[i]) ==>
      (r.value[i].submitted <==>
         data[i].submitted || exists j :: 0 <= j < |Trips.LoadTrips(trips).items| && MatchesAsWritten(Trips.LoadTrips(trips).items[j], data[i]))
  {
    RenderWith(data, tab, trips, MatchesAsWritten)
  }

  /** `renderCargo` with the intended trip test, the one the rest of the
      model uses: a shown parcel ends up marked exactly when it was marked
      or a saved trip carries its id or its order id. */
  function Render(data: seq<Cargo>, tab: string, trips: Stored<Object>): (r: Outcome<seq<Cargo>>)
    ensures r.Returned? ==> |r.value| == |data|
    ensures r.Returned? && Trips.LoadTrips(trips).List? ==> forall i :: 0 <= i < |data| && ShownBy(tab, data[i]) ==>
      (r.value[i].submitted <==>
         data[i].submitted || exists j :: 0 <= j < |Trips.LoadTrips(trips).items| && Matches(Trips.LoadTrips(trips).items[j], data[i]))
  {
    RenderWith(data, tab, trips, Matches)
  }

  /** The as-written test marks a parcel nobody took: with one saved trip
      that has neither a submission id nor the parcel's id, the first
      render already marks every parcel submitted. The intended test
      leaves them all unmarked. */
  lemma UntakenCargoMarked()
    ensures var trips := Items([map["id" := Str("trip-1")]]);
      var asWritten := RenderAsWritten(CargoData, RegisteredFlight.AllTab, trips);
      var intended := Render(CargoData, RegisteredFlight.AllTab, trips);
      asWritten.Returned? && asWritten.value[0].submitted
      && intended.Returned? && !intended.value[0].submitted
  {
    var t: Object := map["id" := Str("trip-1")];
    assert MatchesAsWritten(t, CargoData[0]);
    assert !Matches(t, CargoData[0]);
  }

  /** With the intended test a parcel that has no order id is marked only
      by a trip carrying its id. */
  lemma MarkNeedsId(data: seq<Cargo>, tab: string, trips: Stored<Object>, i: nat)
    requires Trips.LoadTrips(trips).List? && i < |data| && ShownBy(tab, data[i])
    requires !data[i].submitted && data[i].orderId.None?
    requires forall j :: 0 <= j < |Trips.LoadTrips(trips).items| ==> !HasId(Trips.LoadTrips(trips).items[j], Some(Num(data[i].id as real)))
    ensures Render(data, tab, trips).Returned? && !Render(data, tab, trips).value[i].submitted
  {
  }

  /** The parcel as a trip property bag, `{...cargo}`, without the
      display-only image; an absent order id is no property. */
  function CargoObject(c: Cargo): (o: Object)
    ensures Get(o, "id") == Some(Num(c.id as real))
    ensures Get(o, "orderId") == c.orderId
  {
    var base := map[
      "name" := Str(c.name), "weight" := Num(c.weight), "category" := Str(c.category),
      "reward" := Num(c.reward as real), "submitted" := Bool(c.submitted)];
    var withOrder := if c.orderId.Some? then base["orderId" := c.orderId.value] else base;
    withOrder["id" := Num(c.id as real)]
  }

  /** The trip saved for a parcel: its properties, the submission stamp,
      the `submitted` status and the submission id. */
  function TripData(c: Cargo, uuid: string, nowIso: string): (t: Object)
    ensures Get(t, "id") == Some(Num(c.id as real))
    ensures Get(t, "status") == Some(Str("submitted"))
    ensures Get(t, "submittedId") == Some(Str(uuid))
  {
    CargoObject(c)["submittedDate" := Str(nowIso)]["status" := Str("submitted")]["submittedId" := Str(uuid)]
  }

  /** The display order put into the cart for a parcel: it always travels
      from Tehran to Dubai. */
  function OrderFor(c: Cargo, uuid: string, nowIso: string): (o: Object)
    ensures Get(o, "id") == Some(Str("cargo-" + uuid))
    ensures Get(o, "from") == Some(Str(OrderStore.DefaultFrom)) && Get(o, "to") == Some(Str(OrderStore.DefaultTo))
    ensures Get(o, "type") == Some(Str("cargo"))
  {
    map[
      "dateISO" := Str(nowIso), "statusText" := Str(RegisteredFlight.AvailableStatus), "statusColor" := Str("emerald"),
      "action" := Str(RegisteredFlight.AddAction), "description" := Str(c.name), "price" := Num(c.reward as real),
      "category" := Str(c.category),
      "details" := Obj(map["price" := Num(c.reward as real), "category" := Str(c.category), "description" := Str(c.name)])
    ]["type" := Str("cargo")]["from" := Str(OrderStore.DefaultFrom)]["to" := Str(OrderStore.DefaultTo)]["id" := Str("cargo-" + uuid)]
  }

  /** The parcel a button's `data-cargo-id` text names, by `==`. */
  function FindCargo(data: seq<Cargo>, cargoId: string): (k: int)
    ensures -1 <= k < |data|
    ensures k >= 0 ==> LooseEq(Some(Num(data[k].id as real)), Some(Str(cargoId)))
    ensures k == -1 <==> forall i :: 0 <= i < |data| ==> !LooseEq(Some(Num(data[i].id as real)), Some(Str(cargoId)))
  {
    FindIndex(data, (c: Cargo) => LooseEq(Some(Num(c.id as real)), Some(Str(cargoId))))
  }

  /** What a parcel's submission leaves behind: the parcels, the trips, the
      cart and the events fired. */
  datatype Toggled = Toggled(data: seq<Cargo>, trips: Stored<Object>, orders: Stored<Object>, events: seq<Cart.Event>)

  /** `toggleCargoSubmission(cargoId)`: nothing for an unknown or already
      marked parcel; otherwise the parcel is marked and given the fresh
      `uuid` as order id, saved as a trip and added to the cart. A trip
      value that is not a list makes the save throw after the mark. */
  function Toggle(data: seq<Cargo>, cargoId: string, trips: Stored<Object>, orders: Stored<Object>,
                  now: nat, nowIso: string, today: string, uuid: string): (r: Toggled)
    ensures var k := FindCargo(data, cargoId);
      k == -1 || data[k].submitted ==> r == Toggled(data, trips, orders, [])
    ensures var k := FindCargo(data, cargoId);
      k >= 0 && !data[k].submitted ==>
        var c := data[k].(submitted := true, orderId := Some(Str(uuid)));
        r.data == data[k := c]
        && (Trips.LoadTrips(trips).NotAList? ==> r.trips == trips && r.orders == orders && r.events == [])
        && (Trips.LoadTrips(trips).List? ==>
              var add := OrderStore.AddDynamicOrder(orders, OrderFor(c, uuid, nowIso), now, nowIso, today);
              r.trips == Trips.SaveTrip(trips, Trips.One(TripData(c, uuid, nowIso)), uuid, nowIso).slot
              && r.orders == add.slot && r.events == add.events)
  {
    var k := FindCargo(data, cargoId);
    if k == -1 || data[k].submitted then Toggled(data, trips, orders, [])
    else
      var c := data[k].(submitted := true, orderId := Some(Str(uuid)));
      var save := Trips.SaveTrip(trips, Trips.One(TripData(c, uuid, nowIso)), uuid, nowIso);
      if save.result.Threw? then Toggled(data[k := c], trips, orders, [])
      else
        var add := OrderStore.AddDynamicOrder(orders, OrderFor(c, uuid, nowIso), now, nowIso, today);
        Toggled(data[k := c], save.slot, add.slot, add.events)
  }

  /** The cart after the page's own listener stored the card's order; a
      throw leaves it as it was. */
  function CardStored(orders: Stored<Object>, card: Option<OrderStore.Card>, now: nat, nowIso: string, today: string): (r: Stored<Object>)
    ensures card.None? ==> r == orders
    ensures card.Some? && Cart.GetOrders(orders).List? ==> Cart.GetOrders(r).List?
    ensures card.Some? && Cart.GetOrders(orders).List? ==>
      Cart.GetOrders(orders).items <= Cart.GetOrders(r).items
      && |Cart.GetOrders(r).items| <= |Cart.GetOrders(orders).items| + 1
  {
    match OrderStore.AddCargoFromCard(orders, card, now, nowIso, today)
    case None => orders
    case Some(step) => step.slot
  }

  /** The parcels and trips a submission leaves do not depend on the
      cart. */
  lemma ToggleIgnoresCart(data: seq<Cargo>, cargoId: string, trips: Stored<Object>, o1: Stored<Object>, o2: Stored<Object>,
                          now: nat, nowIso: string, today: string, uuid: string)
    ensures var t1 := Toggle(data, cargoId, trips, o1, now, nowIso, today, uuid);
      var t2 := Toggle(data, cargoId, trips, o2, now, nowIso, today, uuid);
      t1.data == t2.data && t1.trips == t2.trips
  {
  }

  /** A submission only ever appends to a cart that holds a list. */
  lemma ToggleExtendsCart(data: seq<Cargo>, cargoId: string, trips: Stored<Object>, orders: Stored<Object>,
                          now: nat, nowIso: string, today: string, uuid: string)
    requires Cart.GetOrders(orders).List?
    ensures var t := Toggle(data, cargoId, trips, orders, now, nowIso, today, uuid);
      Cart.GetOrders(t.orders).List? && Cart.GetOrders(orders).items <= Cart.GetOrders(t.orders).items
  {
    var k := FindCargo(data, cargoId);
    var t := Toggle(data, cargoId, trips, orders, now, nowIso, today, uuid);
    if k >= 0 && !data[k].submitted && Trips.LoadTrips(trips).List? {
      var c := data[k].(submitted := true, orderId := Some(Str(uuid)));
      var add := Cart.AddOrder(orders, OrderStore.ToCart(OrderFor(c, uuid, nowIso), now, today), now, nowIso);
      assert t.orders == add.slot;
      if add.result.Returned? && add.result.value.Some? {
        assert add.slot == Items(Cart.GetOrders(orders).items + [add.result.value.value]);
      } else {
        assert add.slot == orders;
      }
    } else {
      assert t.orders == orders;
    }
  }

  /** A click on a parcel's add button. Two listeners answer it as it
      bubbles: first the page's own, which stores the card as a cart order
      of its own (`addCargoFromCard`), then the document's, which runs
      `toggleCargoSubmission` on the cart the first one left. A throw in the
      first listener does not stop the second. */
  function AddButtonClick(data: seq<Cargo>, cargoId: string, card: Option<OrderStore.Card>, trips: Stored<Object>,
                          orders: Stored<Object>, now: nat, nowIso: string, today: string, uuid: string): (r: Toggled)
    ensures var t := Toggle(data, cargoId, trips, orders, now, nowIso, today, uuid);
      r.data == t.data && r.trips == t.trips
    ensures card.None? ==> r == Toggle(data, cargoId, trips, orders, now, nowIso, today, uuid)
    ensures card.Some? && Cart.GetOrders(orders).List? ==>
      Cart.GetOrders(r.orders).List? && Cart.GetOrders(orders).items <= Cart.GetOrders(r.orders).items
  {
    var first := OrderStore.AddCargoFromCard(orders, card, now, nowIso, today);
    var mid := CardStored(orders, card, now, nowIso, today);
    var t := Toggle(data, cargoId, trips, mid, now, nowIso, today, uuid);
    ToggleIgnoresCart(data, cargoId, trips, orders, mid, now, nowIso, today, uuid);
    assert card.Some? && Cart.GetOrders(orders).List? ==>
      Cart.GetOrders(t.orders).List? && Cart.GetOrders(orders).items <= Cart.GetOrders(t.orders).items by {
      if card.Some? && Cart.GetOrders(orders).List? {
        ToggleExtendsCart(data, cargoId, trips, mid, now, nowIso, today, uuid);
      }
    }
    var events := if first.Some? then first.value.events else [];
    Toggled(t.data, t.trips, t.orders, events + t.events)
  }

  /** The click handlers on a parcel that is already taken still store an
      order: the parcels and the trips stay as they are, and the cart gains
      the card's order, unless it has one for the same route and date. This
      describes the handlers only: the page renders a taken parcel's button
      disabled, so a user's click does not reach them. */
  lemma TakenParcelClickStillStores(data: seq<Cargo>, cargoId: string, card: OrderStore.Card, trips: Stored<Object>,
                                    orders: Stored<Object>, now: nat, nowIso: string, today: string, uuid: string)
    requires var k := FindCargo(data, cargoId); k >= 0 && data[k].submitted
    requires Cart.GetOrders(orders).List?
    ensures var r := AddButtonClick(data, cargoId, Some(card), trips, orders, now, nowIso, today, uuid);
      var add := OrderStore.AddCargoFromCard(orders, Some(card), now, nowIso, today).value;
      r.data == data && r.trips == trips && r.orders == add.slot && r.events == add.events
      && (add.result.value.Some? ==>
            |Cart.GetOrders(r.orders).items| == |Cart.GetOrders(orders).items| + 1
            && Get(add.result.value.value, "type") == Some(Str("cargo")))
  {
    var add := OrderStore.AddCargoFromCard(orders, Some(card), now, nowIso, today).value;
    TakenToggleUnchanged(data, cargoId, trips, add.slot, now, nowIso, today, uuid);
    ClickUnfold(data, cargoId, card, trips, orders, now, nowIso, today, uuid);
    assert add.events + [] == add.events;
    if add.result.value.Some? {
      OrderStore.CargoFromCardStored(orders, card, now, nowIso, today);
    }
  }

  /** Toggling a parcel that is already taken changes nothing and fires
      nothing. */
  lemma TakenToggleUnchanged(data: seq<Cargo>, cargoId: string, trips: Stored<Object>, orders: Stored<Object>,
                             now: nat, nowIso: string, today: string, uuid: string)
    requires var k := FindCargo(data, cargoId); k >= 0 && data[k].submitted
    ensures Toggle(data, cargoId, trips, orders, now, nowIso, today, uuid) == Toggled(data, trips, orders, [])
  {
  }

  /** One step of `AddButtonClick` for a card that is there. */
  lemma ClickUnfold(data: seq<Cargo>, cargoId: string, card: OrderStore.Card, trips: Stored<Object>,
                    orders: Stored<Object>, now: nat, nowIso: string, today: string, uuid: string)
    ensures var add := OrderStore.AddCargoFromCard(orders, Some(card), now, nowIso, today).value;
      var t := Toggle(data, cargoId, trips, add.slot, now, nowIso, today, uuid);
      AddButtonClick(data, cargoId, Some(card), trips, orders, now, nowIso, today, uuid)
        == Toggled(t.data, t.trips, t.orders, add.events + t.events)
  {
  }

  /** A click that takes a fresh parcel, on a cart without either order's
      route and date, stores two orders: the card's first, then the
      parcel's `cargo-<uuid>` order. */
  lemma {:induction false} FreshParcelClickStoresTwo(data: seq<Cargo>, cargoId: string, card: OrderStore.Card, trips: Stored<Object>,
                                    orders: Stored<Object>, now: nat, nowIso: string, today: string, uuid: string)
    requires var k := FindCargo(data, cargoId); k >= 0 && !data[k].submitted
    requires Trips.LoadTrips(trips).List? && Cart.GetOrders(orders).List?
    requires OrderStore.AddCargoFromCard(orders, Some(card), now, nowIso, today).value.result.value.Some?
    requires var k := FindCargo(data, cargoId);
      var c := data[k].(submitted := true, orderId := Some(Str(uuid)));
      var mid := OrderStore.AddCargoFromCard(orders, Some(card), now, nowIso, today).value.slot;
      OrderStore.AddDynamicOrder(mid, OrderFor(c, uuid, nowIso), now, nowIso, today).result.value.Some?
    ensures var r := AddButtonClick(data, cargoId, Some(card), trips, orders, now, nowIso, today, uuid);
      var before := Cart.GetOrders(orders).items;
      var after := Cart.GetOrders(r.orders).items;
      |after| == |before| + 2
      && Get(after[|before|], "type") == Some(Str("cargo")) && Get(after[|before|], "id") == Some(Num(now as real))
      && Get(after[|before| + 1], "id") == Some(Str("cargo-" + uuid))
  {
    var k := FindCargo(data, cargoId);
    var c := data[k].(submitted := true, orderId := Some(Str(uuid)));
    var first := OrderStore.AddCargoFromCard(orders, Some(card), now, nowIso, today).value;
    OrderStore.CargoFromCardStored(orders, card, now, nowIso, today);
    var mid := first.slot;
    assert CardStored(orders, Some(card), now, nowIso, today) == mid;
    var before := Cart.GetOrders(orders).items;
    assert Cart.GetOrders(mid).items == before + [first.result.value.value];
    CargoOrderStored(mid, c, uuid, now, nowIso, today);
    var add := OrderStore.AddDynamicOrder(mid, OrderFor(c, uuid, nowIso), now, nowIso, today);
    var t := Toggle(data, cargoId, trips, mid, now, nowIso, today, uuid);
    assert t.orders == add.slot;
    assert Cart.GetOrders(add.slot).items == before + [first.result.value.value] + [add.result.value.value];
  }

  /** Marking the found parcel does not change which parcel the same
      button text finds. */
  lemma FindCargoAfterMark(data: seq<Cargo>, cargoId: string, uuid: string)
    requires FindCargo(data, cargoId) >= 0
    ensures var k := FindCargo(data, cargoId);
      FindCargo(data[k := data[k].(submitted := true, orderId := Some(Str(uuid)))], cargoId) == k
  {
    var k := FindCargo(data, cargoId);
    var d := data[k := data[k].(submitted := true, orderId := Some(Str(uuid)))];
    assert forall i :: 0 <= i < |data| ==> d[i].id == data[i].id;
  }

  /** A second click on the same parcel does nothing. */
  lemma ToggleTwiceIsNoOp(data: seq<Cargo>, cargoId: string, trips: Stored<Object>, orders: Stored<Object>,
                          now: nat, nowIso: string, today: string, uuid: string, now2: nat, nowIso2: string, uuid2: string)
    ensures var r1 := Toggle(data, cargoId, trips, orders, now, nowIso, today, uuid);
      Toggle(r1.data, cargoId, r1.trips, r1.orders, now2, nowIso2, today, uuid2)
        == Toggled(r1.data, r1.trips, r1.orders, [])
  {
    var k := FindCargo(data, cargoId);
    if k >= 0 && !data[k].submitted {
      FindCargoAfterMark(data, cargoId, uuid);
    }
  }

  /** Saving a parcel's trip leaves a trip the intended test accepts for
      the marked parcel: it carries the parcel's id. */
  lemma {:induction false} SavedTripIsFound(trips: Stored<Object>, c: Cargo, uuid: string, nowIso: string) returns (j: nat)
    requires Trips.LoadTrips(trips).List? && c.id > 0
    ensures var after := Trips.LoadTrips(Trips.SaveTrip(trips, Trips.One(TripData(c, uuid, nowIso)), uuid, nowIso).slot).items;
      j < |after| && Matches(after[j], c)
  {
    var trip := TripData(c, uuid, nowIso);
    Trips.SaveTripThenFind(trips, trip, uuid, nowIso);
    var after := Trips.LoadTrips(Trips.SaveTrip(trips, Trips.One(trip), uuid, nowIso).slot).items;
    j := FindIndex(after, t => HasId(t, Get(trip, "id")));
    assert HasId(after[j], Some(Num(c.id as real)));
  }

  /** A shown parcel with a matching saved trip is rendered as submitted. */
  lemma RenderMarks(data: seq<Cargo>, tab: string, trips: Stored<Object>, k: nat, j: nat)
    requires Trips.LoadTrips(trips).List? && k < |data|
    requires j < |Trips.LoadTrips(trips).items| && Matches(Trips.LoadTrips(trips).items[j], data[k])
    ensures Render(data, tab, trips).Returned?
    ensures ShownBy(tab, data[k]) ==> Render(data, tab, trips).value[k].submitted
  {
  }

  /** After a parcel is taken, the next render marks it submitted under
      every tab that shows it. */
  lemma ToggleThenRender(data: seq<Cargo>, cargoId: string, trips: Stored<Object>, orders: Stored<Object>,
                         now: nat, nowIso: string, today: string, uuid: string, tab: string)
    requires Trips.LoadTrips(trips).List?
    requires var k := FindCargo(data, cargoId); k >= 0 && !data[k].submitted && data[k].id > 0
    ensures var k := FindCargo(data, cargoId);
      var r := Toggle(data, cargoId, trips, orders, now, nowIso, today, uuid);
      var shown := Render(r.data, tab, r.trips);
      shown.Returned? && (ShownBy(tab, data[k]) ==> shown.value[k].submitted)
  {
    var k := FindCargo(data, cargoId);
    var c := data[k].(submitted := true, orderId := Some(Str(uuid)));
    var r := Toggle(data, cargoId, trips, orders, now, nowIso, today, uuid);
    var saved := Trips.SaveTrip(trips, Trips.One(TripData(c, uuid, nowIso)), uuid, nowIso).slot;
    assert r.data == data[k := c] && r.trips == saved;
    var j := SavedTripIsFound(trips, c, uuid, nowIso);
    RenderMarks(data[k := c], tab, saved, k, j);
  }

  /** The cart order stored for a parcel: the last record, under the id
      `cargo-<uuid>`, from Tehran to Dubai. */
  lemma {:induction false} CargoOrderStored(orders: Stored<Object>, c: Cargo, uuid: string, now: nat, nowIso: string, today: string)
    requires OrderStore.AddDynamicOrder(orders, OrderFor(c, uuid, nowIso), now, nowIso, today).result.Returned?
    requires OrderStore.AddDynamicOrder(orders, OrderFor(c, uuid, nowIso), now, nowIso, today).result.value.Some?
    ensures var add := OrderStore.AddDynamicOrder(orders, OrderFor(c, uuid, nowIso), now, nowIso, today);
      add.slot.Items? && |add.slot.items| > 0
      && var last := add.slot.items[|add.slot.items| - 1];
      Get(last, "id") == Some(Str("cargo-" + uuid))
      && Get(last, "from") == Some(Str(OrderStore.DefaultFrom)) && Get(last, "to") == Some(Str(OrderStore.DefaultTo))
      && add.events == Cart.Notify
  {
    var o := OrderFor(c, uuid, nowIso);
    var rec := OrderStore.ToCart(o, now, today);
    OrderStore.ToCartKeepsId(o, now, today);
    OrderStore.StampKeeps(rec, now, nowIso, "id");
    OrderStore.StampKeeps(rec, now, nowIso, "from");
    OrderStore.StampKeeps(rec, now, nowIso, "to");
  }

  /** A saved flight marks the parcel with the same number: the id test
      cannot tell a flight's trip from a parcel's, and the parcel takes the
      flight's submission id as its own. */
  lemma FlightTripMarksCargo(data: seq<Cargo>, tab: string, k: nat, f: RegisteredFlight.Flight, now: nat, nowIso: string)
    requires k < |data| && data[k].id == f.id && ShownBy(tab, data[k])
    ensures var shown := Render(data, tab, Items([RegisteredFlight.TripData(f, now, nowIso)]));
      shown.Returned? && shown.value[k].submitted
      && shown.value[k].orderId == Some(Str(NatText(now) + "-" + NatText(f.id)))
  {
    var t := RegisteredFlight.TripData(f, now, nowIso);
    assert Matches(t, data[k]);
    assert FindIndex([t], u => Matches(u, data[k])) == 0;
  }

  /** Taking a parcel after the flight with the same number was added
      merges the parcel into the flight's trip instead of adding one. */
  lemma CargoMergesIntoFlightTrip(f: RegisteredFlight.Flight, c: Cargo, now: nat, nowIso: string, uuid: string, nowIso2: string)
    requires c.id == f.id
    ensures var flightTrip := RegisteredFlight.TripData(f, now, nowIso);
      var r := Trips.SaveTrip(Items([flightTrip]), Trips.One(TripData(c, uuid, nowIso2)), uuid, nowIso2);
      r.slot.Items? && |r.slot.items| == 1
  {
    var flightTrip := RegisteredFlight.TripData(f, now, nowIso);
    var trip := TripData(c, uuid, nowIso2);
    assert HasId(flightTrip, Get(trip, "id"));
  }

  /** `initCargoActions()`: the click listener is registered on the first
      call only; later calls find the flag up and return. */
  function InitCargoActions(g: Guards.Guard): (r: Guards.Guard)
    ensures r.initialized
    ensures g.initialized ==> r == g
    ensures !g.initialized ==> r.setups == g.setups + 1
  {
    Guards.Init(g, true)
  }

  /** Calling it again changes nothing. */
  lemma InitCargoActionsOnce(g: Guards.Guard)
    ensures InitCargoActions(InitCargoActions(g)) == InitCargoActions(g)
  {
  }
}

=== FILE: registered_flight.dfy ===
/** The registered-flights page: a fixed list of flights that the user can
    filter with tabs and add to their trips. Adding a flight saves it as a
    trip and puts a `flight` order into the cart, once. The page's objects
    are shared between the fixed list and the list on screen, so the
    submitted marks the page sets are marks on the fixed list; the list on
    screen is always the current tab applied to it. `now`, `nowIso`,
    `today` and `uuid` stand for the clock and `crypto.randomUUID()`. */
module RegisteredFlight {
  import opened Wrappers
  import opened Text
  import opened Js
  import opened Lists
  import Cart
  import Trips
  import OrderStore
  import FlightOrder

  const AllTab := "همه"
  const RewardTab := "بیشترین پاداش"
  const SoonestTab := "نزدیک\U{200C}ترین زمان"
  const LightTab := "بارهای سبک"
  const AvailableStatus := "در دسترس"
  const AddAction := "افزودن به سفارش\U{200C}ها"

  /** A flight card's data. Images, times and icons only feed the markup
      and are not modelled. */
  datatype Flight = Flight(
    id: nat, fromCode: string, toCode: string, route: string, date: string, cargo: string,
    reward: string, weight: real, rewardValue: int, dateValue: int, submitted: bool)

  const FlightData: seq<Flight> := [
    Flight(1, "THR", "DXB", "تهران به دبی", "۱۲ مهر", "لپ\U{200C}تاپ (۲ کیلوگرم)", "۲۱۰ OMR", 2.0, 210, 12, false),
    Flight(2, "IST", "LHR", "تهران به مسقط", "۱۵ مهر", "مدارک (۰.۵ کیلوگرم)", "۲۲۰ OMR", 0.5, 220, 15, false),
    Flight(3, "DXB", "JFK", "مسقط به تهران", "۱۸ مهر", "ساعت (۰.۳ کیلوگرم)", "۲۴۰ OMR", 0.3, 240, 18, false)
  ]

  /** Whether a tab shows a flight at all: only the light-cargo tab leaves
      flights out. */
  predicate ShownBy(tab: string, f: Flight) {
    tab != LightTab || f.weight <= 1.0
  }

  /** The `applyFilter` tabs: every flight as listed, a copy sorted by
      reward (largest first) or by date (soonest first), or the flights
      carrying at most 1 kg. Unknown labels show every flight. */
  function ApplyTab(data: seq<Flight>, tab: string): (r: seq<Flight>)
    ensures tab == RewardTab || tab == SoonestTab ==> multiset(r) == multiset(data)
    ensures tab == LightTab ==>
      (forall i :: 0 <= i < |r| ==> r[i] in data && r[i].weight <= 1.0)
      && (forall i :: 0 <= i < |data| && data[i].weight <= 1.0 ==> data[i] in r)
    ensures tab != RewardTab && tab != SoonestTab && tab != LightTab ==> r == data
  {
    if tab == RewardTab then SortBy(data, KeyOrder((f: Flight) => f.rewardValue, true))
    else if tab == SoonestTab then SortBy(data, KeyOrder((f: Flight) => f.dateValue, false))
    else if tab == LightTab then Filter(data, (f: Flight) => f.weight <= 1.0)
    else data
  }

  /** The order the tabs promise: rewards never increase down the list,
      dates never decrease, and the light tab keeps the listed order. */
  lemma ApplyTabOrder(data: seq<Flight>, tab: string)
    ensures tab == RewardTab ==> forall i, j :: 0 <= i < j < |ApplyTab(data, tab)| ==>
      ApplyTab(data, tab)[i].rewardValue >= ApplyTab(data, tab)[j].rewardValue
    ensures tab == SoonestTab ==> forall i, j :: 0 <= i < j < |ApplyTab(data, tab)| ==>
      ApplyTab(data, tab)[i].dateValue <= ApplyTab(data, tab)[j].dateValue
    ensures tab == LightTab ==> SubseqOf(ApplyTab(data, tab), data)
  {
    SortByKeyOrdered(data, (f: Flight) => f.rewardValue, true);
    SortByKeyOrdered(data, (f: Flight) => f.dateValue, false);
    FilterSubseq(data, (f: Flight) => f.weight <= 1.0);
  }

  /** On the fixed data the light tab shows flights 2 and 3, in that
      order. */
  lemma LightTabOnFlightData()
    ensures ApplyTab(FlightData, LightTab) == [FlightData[1], FlightData[2]]
  {
  }

  /** On the fixed data the reward tab puts flight 3 first. */
  lemma RewardTabOnFlightData()
    ensures |ApplyTab(FlightData, RewardTab)| == 3 && ApplyTab(FlightData, RewardTab)[0].rewardValue == 240
  {
    var r := ApplyTab(FlightData, RewardTab);
    ApplyTabOrder(FlightData, RewardTab);
    assert |r| == |multiset(FlightData)|;
    assert FlightData[2] in multiset(r);
    var k :| 0 <= k < |r| && r[k] == FlightData[2];
    assert r[0] in multiset(FlightData);
    if k > 0 {
      assert r[0].rewardValue >= r[k].rewardValue;
    }
  }

  /** `trip.id == flight.id`: a saved trip for the flight. */
  predicate SavedAs(t: Object, id: nat) {
    LooseEq(Get(t, "id"), Some(Num(id as real)))
  }

  /** `renderFlights`: every flight the tab shows is marked submitted
      exactly when a saved trip has its id; the flights the tab hides keep
      their marks. A stored trip value that is not a list makes the first
      test throw, so nothing is marked. */
  function Render(data: seq<Flight>, tab: string, trips: Stored<Object>): (r: Outcome<seq<Flight>>)
    ensures r.Threw? <==> Trips.LoadTrips(trips).NotAList? && exists i :: 0 <= i < |data| && ShownBy(tab, data[i])
    ensures r.Returned? ==> |r.value| == |data|
    ensures r.Returned? ==> forall i :: 0 <= i < |data| ==>
      r.value[i].(submitted := data[i].submitted) == data[i]
      && (ShownBy(tab, data[i]) ==>
            (r.value[i].submitted <==> exists j :: 0 <= j < |Trips.LoadTrips(trips).items| && SavedAs(Trips.LoadTrips(trips).items[j], data[i].id)))
      && (!ShownBy(tab, data[i]) ==> r.value[i] == data[i])
  {
    match Trips.LoadTrips(trips)
    case NotAList =>
      if Any(data, f => ShownBy(tab, f)) then Threw else Returned(data)
    case List(ts) =>
      Returned(seq(|data|, i requires 0 <= i < |data| =>
        if ShownBy(tab, data[i]) then data[i].(submitted := Any(ts, t => SavedAs(t, data[i].id))) else data[i]))
  }

  /** The flight as a trip property bag, `{...flight}`, restricted to the
      properties the model keeps: the display-only times, icon, image, alt
      text and verified badge are not part of it. */
  function FlightObject(f: Flight): (o: Object)
    ensures Get(o, "id") == Some(Num(f.id as real))
    ensures Get(o, "fromCode") == Some(Str(f.fromCode)) && Get(o, "toCode") == Some(Str(f.toCode))
    ensures Get(o, "cargo") == Some(Str(f.cargo)) && Get(o, "submitted") == Some(Bool(f.submitted))
    ensures Get(o, "rewardValue") == Some(Num(f.rewardValue as real)) && Get(o, "weight") == Some(Num(f.weight))
  {
    map[
      "route" := Str(f.route), "date" := Str(f.date), "cargo" := Str(f.cargo), "reward" := Str(f.reward),
      "weight" := Num(f.weight), "rewardValue" := Num(f.rewardValue as real), "dateValue" := Num(f.dateValue as real),
      "submitted" := Bool(f.submitted)
    ]["fromCode" := Str(f.fromCode)]["toCode" := Str(f.toCode)]["id" := Num(f.id as real)]
  }

  /** The trip saved for a flight: its properties, the submission stamp,
      the `submitted` status and a submission id made of the clock and the
      flight id. */
  function TripData(f: Flight, now: nat, nowIso: string): (t: Object)
    ensures Get(t, "id") == Some(Num(f.id as real))
    ensures Get(t, "status") == Some(Str("submitted"))
    ensures Get(t, "submittedId") == Some(Str(NatText(now) + "-" + NatText(f.id)))
  {
    FlightObject(f)["submittedDate" := Str(nowIso)]["status" := Str("submitted")]
      ["submittedId" := Str(NatText(now) + "-" + NatText(f.id))]
  }

  /** The display order put into the cart for a flight. */
  function OrderFor(f: Flight, nowIso: string): (o: Object)
    ensures Get(o, "id") == Some(Str("flight-" + NatText(f.id)))
    ensures Get(o, "from") == Some(Str(f.fromCode)) && Get(o, "to") == Some(Str(f.toCode))
    ensures Get(o, "type") == Some(Str("flight"))
  {
    var category := Str(FlightOrder.CategoryOf(f.cargo));
    map[
      "dateISO" := Str(nowIso), "statusText" := Str(AvailableStatus), "statusColor" := Str("emerald"),
      "action" := Str(AddAction), "description" := Str(f.route), "price" := Num(f.rewardValue as real),
      "category" := category,
      "details" := Obj(map["price" := Str(f.reward), "category" := category, "description" := Str(f.cargo)])
    ]["type" := Str("flight")]["from" := Str(f.fromCode)]["to" := Str(f.toCode)]["id" := Str("flight-" + NatText(f.id))]
  }

  /** What a click on a flight's add button leaves behind: the flights, the
      trip entry, the cart entry and the cart's events. */
  datatype Toggled = Toggled(data: seq<Flight>, trips: Stored<Object>, orders: Stored<Object>, events: seq<Cart.Event>)

  /** The flight a button's `data-flight-id` text names, by `==`. */
  function FindFlight(data: seq<Flight>, flightId: string): (k: int)
    ensures -1 <= k < |data|
    ensures k >= 0 ==> LooseEq(Some(Num(data[k].id as real)), Some(Str(flightId)))
    ensures k == -1 <==> forall i :: 0 <= i < |data| ==> !LooseEq(Some(Num(data[i].id as real)), Some(Str(flightId)))
  {
    FindIndex(data, (f: Flight) => LooseEq(Some(Num(f.id as real)), Some(Str(flightId))))
  }

  /** `toggleFlightSubmission(flightId)`: nothing for an unknown or already
      submitted flight; otherwise the flight is marked, saved once as a trip
      and added once to the cart. A trip value that is not a list makes the
      save throw after the mark, and the cart is not reached. */
  function Toggle(data: seq<Flight>, flightId: string, trips: Stored<Object>, orders: Stored<Object>,
                  now: nat, nowIso: string, today: string, uuid: string): (r: Toggled)
    ensures var k := FindFlight(data, flightId);
      k == -1 || data[k].submitted ==> r == Toggled(data, trips, orders, [])
    ensures var k := FindFlight(data, flightId);
      k >= 0 && !data[k].submitted ==>
        var f := data[k].(submitted := true);
        r.data == data[k := f]
        && (Trips.LoadTrips(trips).NotAList? ==> r.trips == trips && r.orders == orders && r.events == [])
        && (Trips.LoadTrips(trips).List? ==>
              var add := OrderStore.AddDynamicOrder(orders, OrderFor(f, nowIso), now, nowIso, today);
              r.trips == Trips.SaveTrip(trips, Trips.One(TripData(f, now, nowIso)), uuid, nowIso).slot
              && r.orders == add.slot && r.events == add.events)
  {
    var k := FindFlight(data, flightId);
    if k == -1 || data[k].submitted then Toggled(data, trips, orders, [])
    else
      var f := data[k].(submitted := true);
      var save := Trips.SaveTrip(trips, Trips.One(TripData(f, now, nowIso)), uuid, nowIso);
      if save.result.Threw? then Toggled(data[k := f], trips, orders, [])
      else
        var add := OrderStore.AddDynamicOrder(orders, OrderFor(f, nowIso), now, nowIso, today);
        Toggled(data[k := f], save.slot, add.slot, add.events)
  }

  /** Marking the found flight does not change which flight the same
      button text finds: the test reads only the id. */
  lemma FindFlightAfterMark(data: seq<Flight>, flightId: string)
    requires FindFlight(data, flightId) >= 0
    ensures var k := FindFlight(data, flightId);
      FindFlight(data[k := data[k].(submitted := true)], flightId) == k
  {
    var k := FindFlight(data, flightId);
    var d := data[k := data[k].(submitted := true)];
    assert forall i :: 0 <= i < |data| ==> d[i].id == data[i].id;
  }

  /** A second click on the same flight does nothing. */
  lemma ToggleTwiceIsNoOp(data: seq<Flight>, flightId: string, trips: Stored<Object>, orders: Stored<Object>,
                          now: nat, nowIso: string, today: string, uuid: string, now2: nat, nowIso2: string, uuid2: string)
    ensures var r1 := Toggle(data, flightId, trips, orders, now, nowIso, today, uuid);
      Toggle(r1.data, flightId, r1.trips, r1.orders, now2, nowIso2, today, uuid2)
        == Toggled(r1.data, r1.trips, r1.orders, [])
  {
    var k := FindFlight(data, flightId);
    if k >= 0 && !data[k].submitted {
      FindFlightAfterMark(data, flightId);
    }
  }

  /** Saving a flight's trip leaves a trip in the list that `renderFlights`
      recognises as that flight's. */
  lemma {:induction false} SavedTripIsFound(trips: Stored<Object>, f: Flight, now: nat, nowIso: string, uuid: string) returns (j: nat)
    requires Trips.LoadTrips(trips).List? && f.id > 0
    ensures var after := Trips.LoadTrips(Trips.SaveTrip(trips, Trips.One(TripData(f, now, nowIso)), uuid, nowIso).slot).items;
      j < |after| && SavedAs(after[j], f.id)
  {
    var trip := TripData(f, now, nowIso);
    var id := Some(Num(f.id as real));
    Trips.SaveTripThenFind(trips, trip, uuid, nowIso);
    var after := Trips.LoadTrips(Trips.SaveTrip(trips, Trips.One(trip), uuid, nowIso).slot).items;
    j := FindIndex(after, t => HasId(t, Get(trip, "id")));
    assert HasId(after[j], id);
    LooseEqProperties(Get(after[j], "id"), id);
    assert SavedAs(after[j], f.id);
  }

  /** After a flight is added, the next render marks it submitted under
      every tab that shows it. */
  lemma ToggleThenRender(data: seq<Flight>, flightId: string, trips: Stored<Object>, orders: Stored<Object>,
                         now: nat, nowIso: string, today: string, uuid: string, tab: string)
    requires Trips.LoadTrips(trips).List?
    requires var k := FindFlight(data, flightId); k >= 0 && !data[k].submitted && data[k].id > 0
    ensures var k := FindFlight(data, flightId);
      var r := Toggle(data, flightId, trips, orders, now, nowIso, today, uuid);
      var shown := Render(r.data, tab, r.trips);
      shown.Returned? && (ShownBy(tab, data[k]) ==> shown.value[k].submitted)
  {
    var k := FindFlight(data, flightId);
    var f := data[k].(submitted := true);
    var r := Toggle(data, flightId, trips, orders, now, nowIso, today, uuid);
    var saved := Trips.SaveTrip(trips, Trips.One(TripData(f, now, nowIso)), uuid, nowIso).slot;
    assert r.data == data[k := f] && r.trips == saved;
    var j := SavedTripIsFound(trips, f, now, nowIso, uuid);
    RenderMarks(data[k := f], tab, saved, k, j);
  }

  /** A shown flight with a saved trip is rendered as submitted. */
  lemma RenderMarks(data: seq<Flight>, tab: string, trips: Stored<Object>, k: nat, j: nat)
    requires Trips.LoadTrips(trips).List? && k < |data|
    requires j < |Trips.LoadTrips(trips).items| && SavedAs(Trips.LoadTrips(trips).items[j], data[k].id)
    ensures Render(data, tab, trips).Returned?
    ensures ShownBy(tab, data[k]) ==> Render(data, tab, trips).value[k].submitted
  {
  }

  /** The cart order stored for a flight: the last record, under the id
      `flight-<id>` and with the flight's airport codes as its route. */
  lemma {:induction false} FlightOrderStored(orders: Stored<Object>, f: Flight, now: nat, nowIso: string, today: string)
    requires OrderStore.AddDynamicOrder(orders, OrderFor(f, nowIso), now, nowIso, today).result.Returned?
    requires OrderStore.AddDynamicOrder(orders, OrderFor(f, nowIso), now, nowIso, today).result.value.Some?
    ensures var add := OrderStore.AddDynamicOrder(orders, OrderFor(f, nowIso), now, nowIso, today);
      add.slot.Items? && |add.slot.items| > 0
      && var last := add.slot.items[|add.slot.items| - 1];
      Get(last, "id") == Some(Str("flight-" + NatText(f.id)))
      && Get(last, "from") == Some(Str(f.fromCode)) && Get(last, "to") == Some(Str(f.toCode))
      && add.events == Cart.Notify
  {
    var o := OrderFor(f, nowIso);
    var c := OrderStore.ToCart(o, now, today);
    OrderStore.ToCartKeepsId(o, now, today);
    OrderStore.StampKeeps(c, now, nowIso, "id");
    OrderStore.StampKeeps(c, now, nowIso, "from");
    OrderStore.StampKeeps(c, now, nowIso, "to");
  }

  /** Adding a flight whose trip is new to the cart stores its order last
      and announces the change. */
  lemma ToggleAddsFlightOrder(data: seq<Flight>, flightId: string, trips: Stored<Object>, orders: Stored<Object>,
                              now: nat, nowIso: string, today: string, uuid: string)
    requires Trips.LoadTrips(trips).List?
    requires var k := FindFlight(data, flightId); k >= 0 && !data[k].submitted
    requires var k := FindFlight(data, flightId);
      var add := OrderStore.AddDynamicOrder(orders, OrderFor(data[k].(submitted := true), nowIso), now, nowIso, today);
      add.result.Returned? && add.result.value.Some?
    ensures var k := FindFlight(data, flightId);
      var r := Toggle(data, flightId, trips, orders, now, nowIso, today, uuid);
      var add := OrderStore.AddDynamicOrder(orders, OrderFor(data[k].(submitted := true), nowIso), now, nowIso, today);
      r.orders == add.slot && r.events == Cart.Notify
  {
    var k := FindFlight(data, flightId);
    FlightOrderStored(orders, data[k].(submitted := true), now, nowIso, today);
  }

  /** The button text of a rendered flight is its id's decimal text, and
      that text finds the flight again. */
  lemma FindByRenderedId(data: seq<Flight>, k: nat)
    requires k < |data|
    requires forall i :: 0 <= i < |data| ==> data[i].id == i + 1
    ensures FindFlight(data, NatText(data[k].id)) == k
  {
    var t := NatText(data[k].id);
    LooseEqIdText(data[k].id);
    forall i | 0 <= i < k ensures !LooseEq(Some(Num(data[i].id as real)), Some(Str(t))) {
      NatTextRoundTrip(data[k].id);
      StringToNumberDigits(t);
    }
  }

  /** The three fixed flights fall in the three named categories. */
  lemma FlightDataCategories()
    ensures FlightOrder.CategoryOf(FlightData[0].cargo) == "الکترونیک"
    ensures FlightOrder.CategoryOf(FlightData[1].cargo) == "مدارک"
    ensures FlightOrder.CategoryOf(FlightData[2].cargo) == "ساعت"
  {
    var lower := ToLower(FlightData[0].cargo);
    assert lower == FlightData[0].cargo;
    assert OccursAt(lower, "لپ", 0);
    DocumentsCategory(FlightData[1].cargo);
    WatchCategory(FlightData[2].cargo);
  }

  /** The second flight's cargo names documents and no laptop. */
  lemma DocumentsCategory(cargo: string)
    requires cargo == "مدارک (۰.۵ کیلوگرم)"
    ensures FlightOrder.CategoryOf(cargo) == "مدارک"
  {
    assert ToLower(cargo) == cargo;
    assert forall j :: 0 <= j < |cargo| ==> cargo[j] != 'پ';
    LacksChar(cargo, "لپ", 1);
    assert OccursAt(cargo, "مدارک", 0);
  }

  /** The third flight's cargo names a watch, and neither a laptop nor
      documents. */
  lemma WatchCategory(cargo: string)
    requires cargo == "ساعت (۰.۳ کیلوگرم)"
    ensures FlightOrder.CategoryOf(cargo) == "ساعت"
  {
    assert ToLower(cargo) == cargo;
    assert forall j :: 0 <= j < |cargo| ==> cargo[j] != 'پ' && cargo[j] != 'د';
    LacksChar(cargo, "لپ", 1);
    LacksChar(cargo, "مدارک", 1);
    assert OccursAt(cargo, "ساعت", 0);
  }

  /** A text without one of a word's letters does not contain the word. */
  lemma LacksChar(s: string, q: string, i: nat)
    requires i < |q| && forall j :: 0 <= j < |s| ==> s[j] != q[i]
    ensures !Contains(s, q)
  {
    forall j | OccursAt(s, q, j) ensures s[j + i] == q[i] {
      assert s[j..j + |q|][i] == s[j + i];
    }
    ContainsIff(s, q);
  }
}

=== FILE: route_form.dfy ===
/** The route forms: an origin and a destination typed, swapped, filled
    from a suggestion or a popular-route button, checked and saved. Three
    files implement them: the shared route-selection component, the
    traveler-route page and the cargo-route page. They check a route
    the same way and differ in how suggestions fill the inputs and in what
    they save. Storage holds decoded records (or an unparsable entry) under
    the keys of each kind; `nowIso` is the clock. */
module RouteForm {
  import opened Wrappers
  import opened Text

  /** Why a route is rejected, in the order the checks run. */
  datatype Check = Ok | Missing | Same | TooShort

  /** `validateRoute(origin, destination)`: on the trimmed values, an empty
      one is missing, equal ones are the same place, and a one-character
      name is too short. All three copies check in this order. */
  function CheckRoute(origin: string, destination: string): (r: Check)
    ensures r == Missing <==> Trim(origin) == "" || Trim(destination) == ""
    ensures r == Same <==> Trim(origin) != "" && Trim(destination) != "" && Trim(origin) == Trim(destination)
    ensures r == Ok <==>
      |Trim(origin)| >= 2 && |Trim(destination)| >= 2 && Trim(origin) != Trim(destination)
  {
    var o := Trim(origin);
    var d := Trim(destination);
    if o == "" || d == "" then Missing
    else if o == d then Same
    else if |o| < 2 || |d| < 2 then TooShort
    else Ok
  }

  predicate ValidRoute(origin: string, destination: string) {
    CheckRoute(origin, destination) == Ok
  }

  /** The check does not depend on which side a name is on. */
  lemma CheckRouteSymmetric(origin: string, destination: string)
    ensures CheckRoute(destination, origin) == CheckRoute(origin, destination)
  {
  }

  /** The inputs' raw values. */
  datatype Form = Form(origin: string, destination: string)

  /** The swap button: the two values change places untrimmed. */
  function Swap(f: Form): (r: Form)
    ensures r.origin == f.destination && r.destination == f.origin
  {
    Form(f.destination, f.origin)
  }

  /** Two swaps restore the form, and a swap keeps its validity. */
  lemma SwapProperties(f: Form)
    ensures Swap(Swap(f)) == f
    ensures ValidRoute(Swap(f).origin, Swap(f).destination) <==> ValidRoute(f.origin, f.destination)
  {
    CheckRouteSymmetric(f.origin, f.destination);
  }

  /** The two kinds of route and their storage keys. */
  datatype Kind = CargoRoute | TravelerRoute

  /** The route-selection component's `type` argument: `cargo` or anything
      else, which means traveler. */
  function KindOf(kind: string): (k: Kind)
    ensures k == CargoRoute <==> kind == "cargo"
  {
    if kind == "cargo" then CargoRoute else TravelerRoute
  }

  function LocalKey(k: Kind): string {
    match k
    case CargoRoute => "cargoRoute"
    case TravelerRoute => "travelerRoute"
  }

  function SessionKey(k: Kind): string {
    match k
    case CargoRoute => "currentCargoRoute"
    case TravelerRoute => "currentTravelerRoute"
  }

  /** A saved route: the decoded record, or text that does not parse. The
      component stamps `timestamp`; the pages copy their state's
      `timestamp` and stamp `savedAt`. */
  datatype Saved = Record(origin: string, destination: string, timestamp: Option<string>, savedAt: Option<string>) | Corrupt

  /** `localStorage` and `sessionStorage`. */
  datatype Store = Store(local: map<string, Saved>, session: map<string, Saved>)

  /** Writes the same record under both keys of a kind. */
  function Put(s: Store, k: Kind, rec: Saved): (r: Store)
    ensures LocalKey(k) in r.local && r.local[LocalKey(k)] == rec
    ensures SessionKey(k) in r.session && r.session[SessionKey(k)] == rec
    ensures forall key :: key != LocalKey(k) ==> (key in r.local <==> key in s.local) && (key in s.local ==> r.local[key] == s.local[key])
    ensures forall key :: key != SessionKey(k) ==> (key in r.session <==> key in s.session) && (key in s.session ==> r.session[key] == s.session[key])
  {
    Store(s.local[LocalKey(k) := rec], s.session[SessionKey(k) := rec])
  }

  /** The component's `saveRouteData(origin, destination, type)`: the
      trimmed values and a timestamp, under both keys of the kind. */
  function SaveRoute(s: Store, origin: string, destination: string, kind: string, nowIso: string): (r: Store)
    ensures var rec := Record(Trim(origin), Trim(destination), Some(nowIso), None);
      LocalKey(KindOf(kind)) in r.local && r.local[LocalKey(KindOf(kind))] == rec
      && SessionKey(KindOf(kind)) in r.session && r.session[SessionKey(KindOf(kind))] == rec
  {
    Put(s, KindOf(kind), Record(Trim(origin), Trim(destination), Some(nowIso), None))
  }

  /** The entry a load reads: the session key's when it has one, else the
      local key's. An unparsable session entry still wins and makes the
      load fail. */
  function LoadEntry(s: Store, k: Kind): (r: Option<Saved>)
    ensures SessionKey(k) in s.session ==> r == Some(s.session[SessionKey(k)])
    ensures SessionKey(k) !in s.session && LocalKey(k) in s.local ==> r == Some(s.local[LocalKey(k)])
    ensures SessionKey(k) !in s.session && LocalKey(k) !in s.local ==> r == None
  {
    if SessionKey(k) in s.session then Some(s.session[SessionKey(k)])
    else if LocalKey(k) in s.local then Some(s.local[LocalKey(k)])
    else None
  }

  /** `loadSavedRouteData` / `loadSavedRoute` on the inputs: a non-empty
      saved origin or destination replaces the input's value; an empty one,
      a missing entry or an unparsable one leaves the input alone. */
  function LoadInto(f: Form, s: Store, k: Kind): (r: Form)
    ensures LoadEntry(s, k).None? || LoadEntry(s, k) == Some(Corrupt) ==> r == f
    ensures LoadEntry(s, k).Some? && LoadEntry(s, k).value.Record? ==>
      var rec := LoadEntry(s, k).value;
      r.origin == (if rec.origin != "" then rec.origin else f.origin)
      && r.destination == (if rec.destination != "" then rec.destination else f.destination)
  {
    match LoadEntry(s, k)
    case Some(Record(o, d, _, _)) =>
      Form(if o != "" then o else f.origin, if d != "" then d else f.destination)
    case _ => f
  }

  /** Saving a valid route and loading it again gives the trimmed values,
      whatever the inputs held before. */
  lemma SaveThenLoad(s: Store, f: Form, g: Form, kind: string, nowIso: string)
    requires ValidRoute(f.origin, f.destination)
    ensures LoadInto(g, SaveRoute(s, f.origin, f.destination, kind, nowIso), KindOf(kind)) == Form(Trim(f.origin), Trim(f.destination))
  {
  }

  /** Saving one kind leaves the other kind's entries alone. */
  lemma SaveKeepsOtherKind(s: Store, origin: string, destination: string, kind: string, nowIso: string, other: Kind)
    requires other != KindOf(kind)
    ensures LoadEntry(SaveRoute(s, origin, destination, kind, nowIso), other) == LoadEntry(s, other)
  {
    var k := KindOf(kind);
    assert LocalKey(other) != LocalKey(k) && SessionKey(other) != SessionKey(k) by {
      if other == CargoRoute {
        assert LocalKey(other)[0] != LocalKey(k)[0];
        assert |SessionKey(other)| != |SessionKey(k)|;
      } else {
        assert LocalKey(other)[0] != LocalKey(k)[0];
        assert |SessionKey(other)| != |SessionKey(k)|;
      }
    }
  }

  /** `getCurrentRoute(type)`: the local entry only, `null` when it is
      missing or does not parse. */
  function CurrentRoute(s: Store, k: Kind): (r: Option<Saved>)
    ensures r.Some? ==> LocalKey(k) in s.local && r.value == s.local[LocalKey(k)] && r.value.Record?
    ensures r.None? ==> LocalKey(k) !in s.local || s.local[LocalKey(k)] == Corrupt
  {
    if LocalKey(k) in s.local && s.local[LocalKey(k)].Record? then Some(s.local[LocalKey(k)]) else None
  }

  /** `clearRouteData(type)`: removes both keys of the kind. */
  function ClearRoute(s: Store, k: Kind): (r: Store)
    ensures LocalKey(k) !in r.local && SessionKey(k) !in r.session
    ensures forall key :: key != LocalKey(k) ==> (key in r.local <==> key in s.local) && (key in s.local ==> r.local[key] == s.local[key])
    ensures forall key :: key != SessionKey(k) ==> (key in r.session <==> key in s.session) && (key in s.session ==> r.session[key] == s.session[key])
  {
    Store(s.local - {LocalKey(k)}, s.session - {SessionKey(k)})
  }

  /** After clearing, nothing is current and a load leaves the inputs as
      they are. */
  lemma ClearThenLoad(s: Store, k: Kind, f: Form)
    ensures CurrentRoute(ClearRoute(s, k), k).None?
    ensures LoadInto(f, ClearRoute(s, k), k) == f
  {
  }

  /** A suggestion's text: `airport (code)` when the item names both, else
      its title, which may be missing (`undefined`). */
  function SuggestionText(title: Option<string>, airport: string, code: string): (r: Option<string>)
    ensures airport != "" && code != "" ==> r == Some(airport + " (" + code + ")")
    ensures airport == "" || code == "" ==> r == title
  {
    if airport != "" && code != "" then Some(airport + " (" + code + ")") else title
  }

  /** Which input has the keyboard focus. */
  datatype Focus = OnOrigin | OnDestination | Elsewhere

  /** Where a suggestion goes before anyone is asked: the focused input,
      else the origin when it is blank, else the destination when it is
      blank; `trimmed` says whether blank means empty after trimming. */
  datatype Target = ToOrigin | ToDestination | Ask

  function SuggestionTarget(f: Form, focus: Focus, trimmed: bool): (r: Target)
    ensures focus == OnOrigin ==> r == ToOrigin
    ensures focus == OnDestination ==> r == ToDestination
    ensures focus == Elsewhere ==>
      var blankO := if trimmed then Trim(f.origin) == "" else f.origin == "";
      var blankD := if trimmed then Trim(f.destination) == "" else f.destination == "";
      (r == ToOrigin <==> blankO) && (r == ToDestination <==> !blankO && blankD) && (r == Ask <==> !blankO && !blankD)
  {
    match focus
    case OnOrigin => ToOrigin
    case OnDestination => ToDestination
    case Elsewhere =>
      if (if trimmed then Trim(f.origin) == "" else f.origin == "") then ToOrigin
      else if (if trimmed then Trim(f.destination) == "" else f.destination == "") then ToDestination
      else Ask
  }

  function Place(f: Form, t: Target, text: string): (r: Form)
    ensures t == ToOrigin ==> r == f.(origin := text)
    ensures t == ToDestination ==> r == f.(destination := text)
    ensures t == Ask ==> r == f
  {
    match t
    case ToOrigin => f.(origin := text)
    case ToDestination => f.(destination := text)
    case Ask => f
  }

  /** The text an input shows after being given a possibly missing value. */
  function InputText(v: Option<string>): string {
    match v
    case Some(s) => s
    case None => "undefined"
  }

  /** Where the component's `handleSuggestionClick` puts the text: the
      target input; when both are filled, the prompt's answer `1` picks the
      origin and `2` the destination, anything else neither. */
  function ComponentFill(f: Form, focus: Focus, text: string, answer: Option<string>): (r: Form)
    ensures SuggestionTarget(f, focus, true) != Ask ==> r == Place(f, SuggestionTarget(f, focus, true), text)
    ensures SuggestionTarget(f, focus, true) == Ask ==>
      r == (if answer == Some("1") then f.(origin := text) else if answer == Some("2") then f.(destination := text) else f)
  {
    var t := SuggestionTarget(f, focus, true);
    if t != Ask then Place(f, t, text)
    else if answer == Some("1") then f.(origin := text)
    else if answer == Some("2") then f.(destination := text)
    else f
  }

  /** The whole click: the fill, then a save in every case. */
  function ComponentSuggestion(s: Store, f: Form, focus: Focus, title: Option<string>, airport: string, code: string,
                               answer: Option<string>, kind: string, nowIso: string): (r: (Form, Store))
    ensures r.0 == ComponentFill(f, focus, InputText(SuggestionText(title, airport, code)), answer)
    ensures r.1 == SaveRoute(s, r.0.origin, r.0.destination, kind, nowIso)
  {
    var g := ComponentFill(f, focus, InputText(SuggestionText(title, airport, code)), answer);
    (g, SaveRoute(s, g.origin, g.destination, kind, nowIso))
  }

  /** A suggestion fills an empty form's origin first and its destination
      next, so two suggestions with nothing focused give a full route. */
  lemma TwoSuggestionsFillForm(a: string, b: string)
    requires Trim(a) != ""
    ensures ComponentFill(ComponentFill(Form("", ""), Elsewhere, a, None), Elsewhere, b, None) == Form(a, b)
  {
    TrimEmptyIff("");
    assert SuggestionTarget(Form("", ""), Elsewhere, true) == ToOrigin;
    assert SuggestionTarget(Form(a, ""), Elsewhere, true) == ToDestination;
  }

  /** A page's state: the inputs, its own copy of the route (`routeData`)
      and the last stamp it recorded. */
  datatype PageState = PageState(form: Form, data: Form, timestamp: Option<string>)

  /** The pages' `saveRouteData()`: the trimmed inputs, the state's
      timestamp and a `savedAt` stamp, under both keys of the page's kind. */
  function SavePage(s: Store, p: PageState, k: Kind, nowIso: string): (r: Store)
    ensures var rec := Record(Trim(p.form.origin), Trim(p.form.destination), p.timestamp, Some(nowIso));
      LocalKey(k) in r.local && r.local[LocalKey(k)] == rec
      && SessionKey(k) in r.session && r.session[SessionKey(k)] == rec
  {
    Put(s, k, Record(Trim(p.form.origin), Trim(p.form.destination), p.timestamp, Some(nowIso)))
  }

  /** The saved route comes from the inputs: the state's own copy of the
      route never reaches storage. */
  lemma SavePageIgnoresData(s: Store, p: PageState, d: Form, k: Kind, nowIso: string)
    ensures SavePage(s, p.(data := d), k, nowIso) == SavePage(s, p, k, nowIso)
  {
  }

  /** `timestamp || savedAt` over optional texts. */
  function OrText(a: Option<string>, b: Option<string>): (r: Option<string>)
    ensures a.Some? && a.value != "" ==> r == a
    ensures !(a.Some? && a.value != "") ==> r == b
  {
    if a.Some? && a.value != "" then a else b
  }

  /** The pages' `loadSavedRoute()`: the inputs as `LoadInto`, the state's
      route copied from the record, and its timestamp taken from the
      record's `timestamp`, else its `savedAt`. */
  function LoadPage(p: PageState, s: Store, k: Kind): (r: PageState)
    ensures r.form == LoadInto(p.form, s, k)
    ensures LoadEntry(s, k).Some? && LoadEntry(s, k).value.Record? ==>
      var rec := LoadEntry(s, k).value;
      r.data == Form(rec.origin, rec.destination) && r.timestamp == OrText(rec.timestamp, rec.savedAt)
    ensures !(LoadEntry(s, k).Some? && LoadEntry(s, k).value.Record?) ==> r == p
  {
    match LoadEntry(s, k)
    case Some(Record(o, d, ts, at)) => PageState(LoadInto(p.form, s, k), Form(o, d), OrText(ts, at))
    case _ => p
  }

  /** A page that saves a valid route and loads it again shows the trimmed
      route, keeps its stamp when it had one and takes the save time when it
      had none. */
  lemma SavePageThenLoad(s: Store, p: PageState, start: PageState, k: Kind, nowIso: string)
    requires ValidRoute(p.form.origin, p.form.destination)
    ensures var q := LoadPage(start, SavePage(s, p, k, nowIso), k);
      q.form == Form(Trim(p.form.origin), Trim(p.form.destination)) && q.data == q.form
      && q.timestamp == (if p.timestamp.Some? && p.timestamp.value != "" then p.timestamp else Some(nowIso))
  {
  }

  /** The pages' `handleSwap`: the inputs change places, the state's route
      becomes the swapped raw values, and the form is saved. */
  function SwapPage(s: Store, p: PageState, k: Kind, nowIso: string): (r: (PageState, Store))
    ensures r.0.form.origin == p.form.destination && r.0.form.destination == p.form.origin
    ensures r.0.data == r.0.form && r.0.timestamp == p.timestamp
    ensures r.1 == SavePage(s, r.0, k, nowIso)
  {
    var q := p.(form := Swap(p.form), data := Swap(p.form));
    (q, SavePage(s, q, k, nowIso))
  }

  /** Two swaps restore the inputs and leave the state's route equal to
      them; the saved route is then the one before the swaps. */
  lemma SwapPageTwice(s: Store, p: PageState, k: Kind, t1: string, t2: string)
    ensures var (q, s1) := SwapPage(s, p, k, t1);
      var (q2, s2) := SwapPage(s1, q, k, t2);
      q2.form == p.form && q2.data == p.form
      && s2 == SavePage(s1, p, k, t2)
  {
    SwapProperties(p.form);
  }

  /** A popular-route button: its `data-origin` and `data-destination`
      attributes, if any, and the texts of its spans that are not icons. */
  datatype Popular = Popular(dataOrigin: Option<string>, dataDestination: Option<string>, spans: seq<string>)

  /** The pair the traveler page reads from a button, before trimming: both
      attributes when both are non-empty, else the first and last span,
      trimmed, when there are two; nothing when a part is still empty. */
  function TravelerPopularPair(b: Popular): (r: Option<(string, string)>)
    ensures r.Some? ==> r.value.0 != "" && r.value.1 != ""
    ensures b.dataOrigin.Some? && b.dataOrigin.value != "" && b.dataDestination.Some? && b.dataDestination.value != "" ==>
      r == Some((b.dataOrigin.value, b.dataDestination.value))
    ensures (!(b.dataOrigin.Some? && b.dataOrigin.value != "" && b.dataDestination.Some? && b.dataDestination.value != "")
             && |b.spans| >= 2)
            ==> (r.Some? <==> Trim(b.spans[0]) != "" && Trim(b.spans[|b.spans| - 1]) != "")
                && (r.Some? ==> r.value == (Trim(b.spans[0]), Trim(b.spans[|b.spans| - 1])))
    ensures (!(b.dataOrigin.Some? && b.dataOrigin.value != "" && b.dataDestination.Some? && b.dataDestination.value != "")
             && |b.spans| < 2)
            ==> r.None?
  {
    var o := if b.dataOrigin.Some? then b.dataOrigin.value else "";
    var d := if b.dataDestination.Some? then b.dataDestination.value else "";
    if o != "" && d != "" then Some((o, d))
    else if |b.spans| >= 2 then
      var o2 := Trim(b.spans[0]);
      var d2 := Trim(b.spans[|b.spans| - 1]);
      if o2 != "" && d2 != "" then Some((o2, d2)) else None
    else None
  }

  /** The traveler page's `handlePopularRoute`: with a pair, the inputs and
      the state's route become the trimmed pair, stamped and saved; without
      one nothing happens. */
  function TravelerPopular(s: Store, p: PageState, b: Popular, nowIso: string): (r: (PageState, Store))
    ensures TravelerPopularPair(b).None? ==> r == (p, s)
    ensures TravelerPopularPair(b).Some? ==>
      var pair := TravelerPopularPair(b).value;
      r.0.form == Form(Trim(pair.0), Trim(pair.1)) && r.0.data == r.0.form && r.0.timestamp == Some(nowIso)
      && r.1 == SavePage(s, r.0, TravelerRoute, nowIso)
  {
    match TravelerPopularPair(b)
    case None => (p, s)
    case Some((o, d)) =>
      var f := Form(Trim(o), Trim(d));
      var q := PageState(f, f, Some(nowIso));
      (q, SavePage(s, q, TravelerRoute, nowIso))
  }

  /** The cargo page's `handlePopularRoute`: with at least two spans the
      inputs and the state's route become the first and last span, trimmed,
      and are stamped and saved; with fewer nothing happens. */
  function CargoPopular(s: Store, p: PageState, b: Popular, nowIso: string): (r: (PageState, Store))
    ensures |b.spans| < 2 ==> r == (p, s)
    ensures |b.spans| >= 2 ==>
      r.0.form == Form(Trim(b.spans[0]), Trim(b.spans[|b.spans| - 1])) && r.0.data == r.0.form
      && r.0.timestamp == Some(nowIso)
      && r.1 == SavePage(s, r.0, CargoRoute, nowIso)
  {
    if |b.spans| < 2 then (p, s)
    else
      var f := Form(Trim(b.spans[0]), Trim(b.spans[|b.spans| - 1]));
      var q := PageState(f, f, Some(nowIso));
      (q, SavePage(s, q, CargoRoute, nowIso))
  }

  /** The component's popular-route buttons: with at least two spans the
      inputs become the first and last span, trimmed, and are saved as a
      cargo route; otherwise nothing happens. */
  function ComponentPopular(s: Store, f: Form, spans: seq<string>, nowIso: string): (r: (Form, Store))
    ensures |spans| < 2 ==> r == (f, s)
    ensures |spans| >= 2 ==>
      r.0 == Form(Trim(spans[0]), Trim(spans[|spans| - 1]))
      && r.1 == SaveRoute(s, r.0.origin, r.0.destination, "cargo", nowIso)
  {
    if |spans| < 2 then (f, s)
    else
      var g := Form(Trim(spans[0]), Trim(spans[|spans| - 1]));
      (g, SaveRoute(s, g.origin, g.destination, "cargo", nowIso))
  }

  /** A traveler page that takes a popular route whose ends do not trim to
      nothing and later loads its saved route shows that route again, with
      the same stamp. */
  lemma TravelerPopularThenLoad(s: Store, p: PageState, b: Popular, start: PageState, nowIso: string)
    requires TravelerPopularPair(b).Some?
    requires Trim(TravelerPopularPair(b).value.0) != "" && Trim(TravelerPopularPair(b).value.1) != ""
    ensures var r := TravelerPopular(s, p, b, nowIso);
      LoadPage(start, r.1, TravelerRoute) == r.0
  {
    var pair := TravelerPopularPair(b).value;
    TrimIdempotent(pair.0);
    TrimIdempotent(pair.1);
  }

  /** The same for the cargo page: the first and last span, once saved, are
      what a later load shows. */
  lemma CargoPopularThenLoad(s: Store, p: PageState, b: Popular, start: PageState, nowIso: string)
    requires |b.spans| >= 2 && Trim(b.spans[0]) != "" && Trim(b.spans[|b.spans| - 1]) != ""
    ensures var r := CargoPopular(s, p, b, nowIso);
      LoadPage(start, r.1, CargoRoute) == r.0
  {
    TrimIdempotent(b.spans[0]);
    TrimIdempotent(b.spans[|b.spans| - 1]);
  }

  /** The component's popular route, once saved, is what the cargo page
      loads into its inputs. */
  lemma ComponentPopularThenLoad(s: Store, f: Form, spans: seq<string>, start: Form, nowIso: string)
    requires |spans| >= 2 && Trim(spans[0]) != "" && Trim(spans[|spans| - 1]) != ""
    ensures var r := ComponentPopular(s, f, spans, nowIso);
      LoadInto(start, r.1, CargoRoute) == r.0
  {
    TrimIdempotent(spans[0]);
    TrimIdempotent(spans[|spans| - 1]);
  }

  /** The component's swap button: the inputs change places and are saved
      as a cargo route. */
  function ComponentSwap(s: Store, f: Form, nowIso: string): (r: (Form, Store))
    ensures r.0 == Swap(f)
    ensures r.1 == SaveRoute(s, f.destination, f.origin, "cargo", nowIso)
  {
    (Swap(f), SaveRoute(s, f.destination, f.origin, "cargo", nowIso))
  }

  /** Where a page's suggestion goes once the target is known; `Ask` leaves
      the form alone. */
  function PlacePage(p: PageState, t: Target, text: string, nowIso: string): (r: PageState)
    ensures r.form == Place(p.form, t, text) && r.data == Place(p.data, t, text) && r.timestamp == Some(nowIso)
  {
    PageState(Place(p.form, t, text), Place(p.data, t, text), Some(nowIso))
  }

  /** The traveler page's `handleSuggestionClick` (`title` is the trimmed
      title text): nothing without a title; otherwise the text goes to the
      target input, and when both are filled the confirm dialog picks the
      origin (OK) or the destination. The stamp and the save follow. */
  function TravelerSuggestion(s: Store, p: PageState, focus: Focus, title: string, airport: string, code: string,
                              confirmOrigin: bool, nowIso: string): (r: (PageState, Store))
    ensures title == "" ==> r == (p, s)
    ensures title != "" ==>
      var text := if airport != "" && code != "" then airport + " (" + code + ")" else title;
      var t := SuggestionTarget(p.form, focus, true);
      r.0 == PlacePage(p, if t != Ask then t else if confirmOrigin then ToOrigin else ToDestination, text, nowIso)
      && r.1 == SavePage(s, r.0, TravelerRoute, nowIso)
  {
    if title == "" then (p, s)
    else
      var text := SuggestionText(Some(title), airport, code).value;
      var t := SuggestionTarget(p.form, focus, true);
      var q := PlacePage(p, if t != Ask then t else if confirmOrigin then ToOrigin else ToDestination, text, nowIso);
      (q, SavePage(s, q, TravelerRoute, nowIso))
  }

  /** The cargo page's `handleSuggestionClick` (`title` trimmed): nothing
      without a title; otherwise the title goes to the focused input, else
      to an input whose raw value is empty, else nowhere. The stamp and the
      save happen in every case with a title. */
  function CargoSuggestion(s: Store, p: PageState, focus: Focus, title: string, nowIso: string): (r: (PageState, Store))
    ensures title == "" ==> r == (p, s)
    ensures title != "" ==>
      r.0 == PlacePage(p, SuggestionTarget(p.form, focus, false), title, nowIso)
      && r.1 == SavePage(s, r.0, CargoRoute, nowIso)
  {
    if title == "" then (p, s)
    else
      var q := PlacePage(p, SuggestionTarget(p.form, focus, false), title, nowIso);
      (q, SavePage(s, q, CargoRoute, nowIso))
  }

  /** A cargo suggestion never overwrites a filled form unless an input has
      the focus; an input of blanks counts as filled there, while the
      traveler page fills it. */
  lemma CargoSuggestionKeepsFilledForm(s: Store, p: PageState, title: string, nowIso: string)
    requires p.form.origin != "" && p.form.destination != ""
    ensures CargoSuggestion(s, p, Elsewhere, title, nowIso).0.form == p.form
  {
  }

  /** An origin of one blank, with the focus elsewhere: the cargo page
      leaves it, since only the empty string counts as empty there, while
      the traveler page trims it and fills in the suggestion. */
  lemma BlankOriginDiffers(s: Store, p: PageState, title: string, nowIso: string)
    requires p.form.origin == " " && p.form.destination != "" && title != ""
    ensures CargoSuggestion(s, p, Elsewhere, title, nowIso).0.form.origin == " "
    ensures TravelerSuggestion(s, p, Elsewhere, title, "", "", true, nowIso).0.form.origin == title
  {
    assert AllSpace(" ") by { assert IsJsSpace(" "[0]); }
    TrimEmptyIff(" ");
  }

  /** Where a submit goes. */
  datatype Submitted = Stay | Go(route: string)

  /** The pages' submit (`handleSubmit`, `handleConfirm`): an invalid route
      does nothing (the traveler page's check is the later, silent one); a
      valid one puts the trimmed inputs in the state's route with a fresh
      stamp, saves, and moves on. */
  function Submit(s: Store, p: PageState, k: Kind, nowIso: string): (r: (PageState, Store, Submitted))
    ensures !ValidRoute(p.form.origin, p.form.destination) ==> r == (p, s, Stay)
    ensures ValidRoute(p.form.origin, p.form.destination) ==>
      r.0 == PageState(p.form, Form(Trim(p.form.origin), Trim(p.form.destination)), Some(nowIso))
      && r.1 == SavePage(s, r.0, k, nowIso)
      && r.2 == Go(if k == TravelerRoute then "traveler-flight-date" else "registered-cargo")
  {
    if !ValidRoute(p.form.origin, p.form.destination) then (p, s, Stay)
    else
      var q := PageState(p.form, Form(Trim(p.form.origin), Trim(p.form.destination)), Some(nowIso));
      (q, SavePage(s, q, k, nowIso), Go(if k == TravelerRoute then "traveler-flight-date" else "registered-cargo"))
  }

  /** A submitted route reads back, on any page state, as the trimmed
      route with the submit's stamp. */
  lemma SubmitThenLoad(s: Store, p: PageState, k: Kind, nowIso: string, start: PageState)
    requires ValidRoute(p.form.origin, p.form.destination)
    ensures var (q, s2, _) := Submit(s, p, k, nowIso);
      LoadPage(start, s2, k) == PageState(q.data, q.data, Some(nowIso))
  {
  }
}

=== FILE: server.dfy ===
/** The upload relay: one route that checks who is uploading and forwards
    the file to a Telegram chat. The Mini App's `initData` is checked as
    section "Validating data received via the Mini App" of the Telegram Bot
    API describes: all parameters but `hash`, sorted by name, as
    `name=value` lines, signed with a key derived from the bot token. The
    signature itself is the parameter `sign`, query-string parsing is
    `parseQuery` and `JSON.parse` is `parseJson` (`None` when it throws);
    the call to Telegram is `send` (`None` when the request fails). The
    environment is the record `Config`, where an unset variable is `""`. */
module Server {
  import opened Wrappers
  import opened Text
  import opened Lists
  import opened Js

  /** `URLSearchParams` entries, in order. */
  type Params = seq<(string, string)>

  /** `params.get(k)`: the first value under `k`. */
  function GetParam(ps: Params, k: string): (r: Option<string>)
    ensures r.None? <==> forall i :: 0 <= i < |ps| ==> ps[i].0 != k
    ensures r.Some? ==> exists i :: 0 <= i < |ps| && ps[i] == (k, r.value)
    decreases |ps|
  {
    if |ps| == 0 then None
    else if ps[0].0 == k then Some(ps[0].1)
    else
      assert forall i :: 1 <= i < |ps| ==> ps[i] == ps[1..][i - 1];
      GetParam(ps[1..], k)
  }

  /** `params.delete(k)`: every entry under `k` goes, the others stay in
      order. */
  function DeleteParam(ps: Params, k: string): (r: Params)
    ensures forall i :: 0 <= i < |r| ==> r[i].0 != k
    ensures forall i :: 0 <= i < |ps| && ps[i].0 != k ==> ps[i] in r
    ensures multiset(r) <= multiset(ps)
  {
    Filter(ps, (e: (string, string)) => e.0 != k)
  }

  /** Deleting a name leaves every other name's value as it was. */
  lemma {:induction false} DeleteKeepsOthers(ps: Params, k: string, other: string)
    requires other != k
    ensures GetParam(DeleteParam(ps, k), other) == GetParam(ps, other)
    ensures GetParam(DeleteParam(ps, k), k).None?
    decreases |ps|
  {
    if |ps| > 0 {
      DeleteKeepsOthers(ps[1..], k, other);
      DeleteUnfold(ps, k);
    }
  }

  /** Code-unit order on strings, which is the order `localeCompare` gives
      for the ASCII parameter names the Mini App sends. */
  predicate LexLe(a: string, b: string)
    decreases |a|
  {
    |a| == 0 || (|b| > 0 && (a[0] < b[0] || (a[0] == b[0] && LexLe(a[1..], b[1..]))))
  }

  lemma {:induction false} LexTotal(a: string, b: string)
    ensures LexLe(a, b) || LexLe(b, a)
    decreases |a|
  {
    if |a| > 0 && |b| > 0 && a[0] == b[0] {
      LexTotal(a[1..], b[1..]);
    }
  }

  lemma {:induction false} LexTransitive(a: string, b: string, c: string)
    requires LexLe(a, b) && LexLe(b, c)
    ensures LexLe(a, c)
    decreases |a|
  {
    if |a| > 0 && a[0] == b[0] && b[0] == c[0] {
      LexTransitive(a[1..], b[1..], c[1..]);
    }
  }

  lemma {:induction false} LexAntisymmetric(a: string, b: string)
    requires LexLe(a, b) && LexLe(b, a)
    ensures a == b
    decreases |a|
  {
    if |a| > 0 {
      LexAntisymmetric(a[1..], b[1..]);
      assert a == [a[0]] + a[1..] && b == [b[0]] + b[1..];
    }
  }

  /** The comparator of the sort: entries by name. */
  function KeyLe(): (le: ((string, string), (string, string)) -> bool)
    ensures forall x, y :: le(x, y) == LexLe(x.0, y.0)
  {
    (x: (string, string), y: (string, string)) => LexLe(x.0, y.0)
  }

  lemma KeyLeTotalPreorder()
    ensures TotalPreorder(KeyLe())
  {
    forall a: (string, string), b: (string, string) ensures KeyLe()(a, b) || KeyLe()(b, a) {
      LexTotal(a.0, b.0);
    }
    forall a: (string, string), b: (string, string), c: (string, string) | KeyLe()(a, b) && KeyLe()(b, c)
      ensures KeyLe()(a, c)
    {
      LexTransitive(a.0, b.0, c.0);
    }
  }

  /** The parameters other than `hash`, sorted by name. */
  function CheckEntries(ps: Params): (r: Params)
    ensures multiset(r) == multiset(DeleteParam(ps, "hash"))
    ensures forall i :: 0 <= i < |r| ==> r[i].0 != "hash"
  {
    var r := SortBy(DeleteParam(ps, "hash"), KeyLe());
    assert forall i :: 0 <= i < |r| ==> r[i].0 != "hash" by {
      forall i | 0 <= i < |r| ensures r[i].0 != "hash" {
        assert r[i] in multiset(r);
      }
    }
    r
  }

  /** The check entries are in name order. */
  lemma CheckEntriesSorted(ps: Params)
    ensures forall i, j :: 0 <= i < j < |CheckEntries(ps)| ==> LexLe(CheckEntries(ps)[i].0, CheckEntries(ps)[j].0)
  {
    KeyLeTotalPreorder();
    SortBySorted(DeleteParam(ps, "hash"), KeyLe());
  }

  /** The line `name=value` of one entry. */
  function Line(e: (string, string)): string {
    e.0 + "=" + e.1
  }

  /** The data-check string: `name=value` lines of the check entries, in
      name order, joined by line breaks. */
  function DataCheckString(ps: Params): (r: string)
    ensures CheckEntries(ps) == [] ==> r == ""
    ensures |CheckEntries(ps)| == 1 ==> r == CheckEntries(ps)[0].0 + "=" + CheckEntries(ps)[0].1
  {
    var e := CheckEntries(ps);
    Join(seq(|e|, i requires 0 <= i < |e| => Line(e[i])), "\n")
  }

  /** Read back line by line, the data-check string is the `name=value`
      line of each check entry, in name order, when no name or value holds
      a line break. */
  lemma DataCheckLines(ps: Params)
    requires |CheckEntries(ps)| >= 1
    requires forall i :: 0 <= i < |CheckEntries(ps)| ==> '\n' !in CheckEntries(ps)[i].0 && '\n' !in CheckEntries(ps)[i].1
    ensures var e := CheckEntries(ps);
      var lines := Split(DataCheckString(ps), "\n");
      |lines| == |e| && forall i :: 0 <= i < |e| ==> lines[i] == e[i].0 + "=" + e[i].1
  {
    var e := CheckEntries(ps);
    var parts := seq(|e|, i requires 0 <= i < |e| => Line(e[i]));
    assert DataCheckString(ps) == Join(parts, "\n");
    assert forall i :: 0 <= i < |parts| ==> '\n' !in parts[i] by {
      forall i | 0 <= i < |parts| ensures '\n' !in parts[i] {
        assert parts[i] == e[i].0 + "=" + e[i].1;
      }
    }
    assert "\n" == ['\n'];
    JoinSplit(parts, '\n');
  }

  predicate DistinctNames(ps: Params) {
    forall i, j :: 0 <= i < j < |ps| ==> ps[i].0 != ps[j].0
  }

  /** Two name-sorted lists with the same entries and no name twice are the
      same list. */
  lemma {:induction false} SortedUnique(a: Params, b: Params)
    requires multiset(a) == multiset(b) && DistinctNames(a)
    requires forall i, j :: 0 <= i < j < |a| ==> LexLe(a[i].0, a[j].0)
    requires forall i, j :: 0 <= i < j < |b| ==> LexLe(b[i].0, b[j].0)
    ensures a == b
    decreases |a|
  {
    if |a| == 0 {
      assert |b| == |multiset(b)| == 0;
    } else {
      assert |b| == |multiset(b)| > 0;
      assert a[0] in multiset(b) && b[0] in multiset(a);
      var j :| 0 <= j < |b| && b[j] == a[0];
      var i :| 0 <= i < |a| && a[i] == b[0];
      assert LexLe(b[0].0, a[0].0) by {
        if j > 0 { } else { LexTotal(b[0].0, a[0].0); }
      }
      assert LexLe(a[0].0, b[0].0) by {
        if i > 0 { } else { LexTotal(a[0].0, b[0].0); }
      }
      LexAntisymmetric(a[0].0, b[0].0);
      assert a[i].0 == a[0].0;
      assert i == 0;
      assert b[0] == a[0];
      CancelHead(a, b);
      SortedUnique(a[1..], b[1..]);
    }
  }

  /** Equal multisets with equal first elements have equal rests. */
  lemma CancelHead(a: Params, b: Params)
    requires |a| > 0 && |b| > 0 && a[0] == b[0] && multiset(a) == multiset(b)
    ensures multiset(a[1..]) == multiset(b[1..])
  {
    assert a == [a[0]] + a[1..] && b == [b[0]] + b[1..];
    assert multiset(a) == multiset{a[0]} + multiset(a[1..]);
    assert multiset(b) == multiset{a[0]} + multiset(b[1..]);
    forall e ensures multiset(a[1..])[e] == multiset(b[1..])[e] {
      assert multiset(a)[e] == multiset{a[0]}[e] + multiset(a[1..])[e];
      assert multiset(b)[e] == multiset{a[0]}[e] + multiset(b[1..])[e];
    }
  }

  /** An entry at two places is counted twice. */
  lemma TwoCopies(r: Params, i: nat, j: nat)
    requires i < j < |r| && r[i] == r[j]
    ensures multiset(r)[r[i]] >= 2
  {
    assert r == r[..i] + [r[i]] + r[i + 1..j] + [r[j]] + r[j + 1..];
  }

  /** Fewer entries, in any order, still have no name twice. */
  lemma SubDistinct(a: Params, b: Params)
    requires multiset(b) <= multiset(a) && DistinctNames(a)
    ensures DistinctNames(b)
  {
    forall i, j | 0 <= i < j < |b| ensures b[i].0 != b[j].0 {
      if b[i].0 == b[j].0 {
        assert b[i] in multiset(a) && b[j] in multiset(a);
        var x :| 0 <= x < |a| && a[x] == b[i];
        var y :| 0 <= y < |a| && a[y] == b[j];
        assert x == y;
        TwoCopies(b, i, j);
        DistinctCount(a, x);
        assert false;
      }
    }
  }

  /** With no name twice, an entry occurs once. */
  lemma {:induction false} DistinctCount(ps: Params, a: nat)
    requires DistinctNames(ps) && a < |ps|
    ensures multiset(ps)[ps[a]] == 1
    decreases |ps|
  {
    assert ps == [ps[0]] + ps[1..];
    assert DistinctNames(ps[1..]);
    if a == 0 {
      assert ps[0] !in ps[1..];
    } else {
      DistinctCount(ps[1..], a - 1);
      assert ps[1..][a - 1] == ps[a];
    }
  }

  /** When no name repeats, the data-check string does not depend on the
      order the parameters came in. */
  lemma OrderIndependent(ps: Params, qs: Params)
    requires multiset(ps) == multiset(qs) && DistinctNames(ps)
    ensures DataCheckString(ps) == DataCheckString(qs)
  {
    CheckEntriesSorted(ps);
    CheckEntriesSorted(qs);
    DeleteEqual(ps, qs, "hash");
    var a := CheckEntries(ps);
    SubDistinct(ps, DeleteParam(ps, "hash"));
    SubDistinct(DeleteParam(ps, "hash"), a);
    SortedUnique(a, CheckEntries(qs));
  }

  /** Deletion depends only on which entries there are. */
  lemma DeleteEqual(ps: Params, qs: Params, k: string)
    requires multiset(ps) == multiset(qs)
    ensures multiset(DeleteParam(ps, k)) == multiset(DeleteParam(qs, k))
  {
    DeleteMultiset(ps, k);
    DeleteMultiset(qs, k);
  }

  /** How often an entry survives deletion: as often as before, or never. */
  lemma {:induction false} DeleteMultiset(ps: Params, k: string)
    ensures forall e :: multiset(DeleteParam(ps, k))[e] == (if e.0 != k then multiset(ps)[e] else 0)
    decreases |ps|
  {
    if |ps| > 0 {
      var tail := ps[1..];
      DeleteMultiset(tail, k);
      DeleteUnfold(ps, k);
      var head: Params := if ps[0].0 != k then [ps[0]] else [];
      assert multiset(DeleteParam(ps, k)) == multiset(head) + multiset(DeleteParam(tail, k));
      assert multiset(ps) == multiset{ps[0]} + multiset(tail) by {
        assert ps == [ps[0]] + tail;
      }
    }
  }

  /** The value of an entry that is deleted does not matter. */
  lemma {:induction false} DeleteIgnoresValue(ps: Params, k: string, i: nat, v: string)
    requires i < |ps| && ps[i].0 == k
    ensures DeleteParam(ps[i := (k, v)], k) == DeleteParam(ps, k)
    decreases |ps|
  {
    var qs := ps[i := (k, v)];
    if i == 0 {
      assert qs[1..] == ps[1..];
    } else {
      assert qs[1..] == ps[1..][i - 1 := (k, v)];
      DeleteIgnoresValue(ps[1..], k, i - 1, v);
    }
    DeleteUnfold(ps, k);
    DeleteUnfold(qs, k);
  }

  /** One step of `DeleteParam`. */
  lemma DeleteUnfold(ps: Params, k: string)
    requires |ps| > 0
    ensures DeleteParam(ps, k) == (if ps[0].0 != k then [ps[0]] else []) + DeleteParam(ps[1..], k)
  {
    assert ps == [ps[0]] + ps[1..];
  }

  /** The hash is not part of what it signs: changing it leaves the
      data-check string as it was. */
  lemma HashNotSigned(ps: Params, i: nat, v: string)
    requires i < |ps| && ps[i].0 == "hash"
    ensures DataCheckString(ps[i := ("hash", v)]) == DataCheckString(ps)
  {
    DeleteIgnoresValue(ps, "hash", i, v);
  }

  /** What the check concludes. `Crashed` is the exception
      `timingSafeEqual` raises for a hash of another length than the
      computed one. */
  datatype Verification = Verified(user: Value) | Rejected(error: string) | Crashed

  /** `verifyTelegramWebAppInitData(initData, botToken)`. */
  function Verify(initData: string, botToken: string, parseQuery: string -> Params,
                  sign: (string, string) -> string, parseJson: string -> Option<Value>): (r: Verification)
    ensures initData == "" || botToken == "" ==> r == Rejected("Missing initData or bot token")
    ensures initData != "" && botToken != "" ==>
      var hash := GetParam(parseQuery(initData), "hash");
      (hash.None? || hash.value == "" ==> r == Rejected("Missing hash in initData"))
      && (hash.Some? && hash.value != "" ==>
            var expected := sign(botToken, DataCheckString(parseQuery(initData)));
            (|expected| != |hash.value| ==> r.Crashed?)
            && (|expected| == |hash.value| && expected != hash.value ==> r == Rejected("Invalid initData hash"))
            && (expected == hash.value ==> r.Verified?))
    ensures r.Verified? ==> r.user == VerifiedUserOf(parseQuery(initData), parseJson)
  {
    if initData == "" || botToken == "" then Rejected("Missing initData or bot token")
    else
      var ps := parseQuery(initData);
      var hash := GetParam(ps, "hash");
      if hash.None? || hash.value == "" then Rejected("Missing hash in initData")
      else
        var expected := sign(botToken, DataCheckString(ps));
        if |expected| != |hash.value| then Crashed
        else if expected != hash.value then Rejected("Invalid initData hash")
        else
          Verified(VerifiedUserOf(ps, parseJson))
  }

  /** A verified user is what the `user` parameter holds, or `null`. */
  lemma VerifiedUser(initData: string, botToken: string, parseQuery: string -> Params,
                     sign: (string, string) -> string, parseJson: string -> Option<Value>)
    ensures var r := Verify(initData, botToken, parseQuery, sign, parseJson);
      var u := GetParam(parseQuery(initData), "user");
      r.Verified? ==>
        (u.Some? && u.value != "" && parseJson(u.value).Some? ==> r.user == parseJson(u.value).value)
        && (u.None? || u.value == "" || parseJson(u.value).None? ==> r.user == Null)
  {
    DeleteKeepsOthers(parseQuery(initData), "hash", "user");
  }

  /** The user part of a successful check. */
  function VerifiedUserOf(ps: Params, parseJson: string -> Option<Value>): Value {
    var userRaw := GetParam(DeleteParam(ps, "hash"), "user");
    if userRaw.Some? && userRaw.value != "" then parseJson(userRaw.value).GetOr(Null) else Null
  }

  /** `pickSendMethod(mimeType)`. */
  function PickSendMethod(mimeType: Option<string>): (r: string)
    ensures r == "sendPhoto" <==> mimeType.Some? && "image/" <= mimeType.value
    ensures r == "sendPhoto" || r == "sendDocument"
  {
    if mimeType.Some? && "image/" <= mimeType.value then "sendPhoto" else "sendDocument"
  }

  datatype Config = Config(botToken: string, targetChatId: string)

  /** The uploaded file as the form parser hands it over. */
  datatype UploadedFile = UploadedFile(mimetype: Option<string>, originalName: string, handle: nat)

  /** The text fields of the form; `None` is a field that was not sent. */
  datatype Fields = Fields(initData: Option<string>, kind: Option<string>, caption: Option<string>)

  /** The request to Telegram: the method, the chat, the caption, the form
      field that carries the file, the file name and the file. */
  datatype TelegramCall = TelegramCall(sendMethod: string, chatId: Value, caption: string, field: string, fileName: string, file: nat)

  datatype TelegramAnswer = TelegramAnswer(ok: bool, status: nat, body: Option<Value>)

  /** The route's answer: a status with an error, or Telegram's result. */
  datatype Reply = Failure(status: nat, error: Value) | Success(result: Prop)

  /** `x || d` on an optional text field. */
  function TextOr(x: Option<string>, d: string): (r: string)
    ensures x.Some? && x.value != "" ==> r == x.value
    ensures !(x.Some? && x.value != "") ==> r == d
  {
    if x.Some? && x.value != "" then x.value else d
  }

  /** The chat to send to: the configured one, or the verified user's id. */
  datatype Chat = ChatOf(id: Value) | Refused(reply: Reply)

  function ResolveChat(config: Config, initData: string, parseQuery: string -> Params,
                       sign: (string, string) -> string, parseJson: string -> Option<Value>): (r: Chat)
    ensures config.targetChatId != "" ==> r == ChatOf(Str(config.targetChatId))
    ensures config.targetChatId == "" ==>
      var v := Verify(initData, config.botToken, parseQuery, sign, parseJson);
      (v.Crashed? ==> r == Refused(Failure(500, Str("Internal error"))))
      && (v.Rejected? ==> r == Refused(Failure(401, Str(v.error))))
      && (v.Verified? && !IsTruthy(Field(v.user, "id")) ==> r == Refused(Failure(401, Str("Missing user in initData"))))
      && (v.Verified? && IsTruthy(Field(v.user, "id")) ==> r == ChatOf(Field(v.user, "id").value))
  {
    if config.targetChatId != "" then ChatOf(Str(config.targetChatId))
    else match Verify(initData, config.botToken, parseQuery, sign, parseJson)
      case Crashed => Refused(Failure(500, Str("Internal error")))
      case Rejected(e) => Refused(Failure(401, Str(e)))
      case Verified(user) =>
        var id := Field(user, "id");
        if IsTruthy(id) then ChatOf(id.value) else Refused(Failure(401, Str("Missing user in initData")))
  }

  /** `user?.id`. */
  function Field(v: Value, k: string): (r: Prop)
    ensures r.Some? <==> v.Obj? && k in v.fields
  {
    match v
    case Obj(m) => Get(m, k)
    case _ => None
  }

  /** Telegram's answer turned into the route's reply. */
  function Relay(answer: TelegramAnswer): (r: Reply)
    ensures answer.ok && IsTruthy(BodyField(answer.body, "ok")) ==> r == Success(BodyField(answer.body, "result"))
    ensures !(answer.ok && IsTruthy(BodyField(answer.body, "ok"))) ==>
      r == Failure(502, Or(BodyField(answer.body, "description"), Str("Telegram API error (" + NatText(answer.status) + ")")))
  {
    if answer.ok && IsTruthy(BodyField(answer.body, "ok")) then Success(BodyField(answer.body, "result"))
    else Failure(502, Or(BodyField(answer.body, "description"), Str("Telegram API error (" + NatText(answer.status) + ")")))
  }

  function BodyField(body: Option<Value>, k: string): Prop {
    match body
    case Some(v) => Field(v, k)
    case None => None
  }

  /** The call made for a file to a chat. */
  function CallFor(file: UploadedFile, chat: Value, caption: string): (c: TelegramCall)
    ensures c.sendMethod == PickSendMethod(file.mimetype)
    ensures c.field == "photo" <==> c.sendMethod == "sendPhoto"
    ensures c.field == "photo" || c.field == "document"
    ensures file.originalName != "" ==> c.fileName == file.originalName
    ensures file.originalName == "" ==> c.fileName == c.field
  {
    var m := PickSendMethod(file.mimetype);
    var field := if m == "sendPhoto" then "photo" else "document";
    TelegramCall(m, chat, caption, field, if file.originalName != "" then file.originalName else field, file.handle)
  }

  /** `POST /api/telegram/upload`: a missing bot token is a server error
      before anything else; then a missing file is a bad request; then the
      chat is settled, which may refuse; then the file goes to Telegram. */
  function Handle(config: Config, file: Option<UploadedFile>, fields: Fields, parseQuery: string -> Params,
                  sign: (string, string) -> string, parseJson: string -> Option<Value>,
                  send: TelegramCall -> Option<TelegramAnswer>): (r: (Option<TelegramCall>, Reply))
    ensures config.botToken == "" ==> r == (None, Failure(500, Str("Server not configured")))
    ensures config.botToken != "" && file.None? ==> r == (None, Failure(400, Str("Missing file")))
    ensures r.0.Some? ==> config.botToken != "" && file.Some?
    ensures var chat := ResolveChat(config, TextOr(fields.initData, ""), parseQuery, sign, parseJson);
      config.botToken != "" && file.Some? ==>
        (r.0.Some? <==> chat.ChatOf?)
        && (chat.Refused? ==> r == (None, chat.reply))
        && (chat.ChatOf? ==> r.0.Some? && r.0.value.chatId == chat.id)
    ensures r.0.Some? ==>
      var kind := TextOr(fields.kind, "upload");
      r.0.value == CallFor(file.value, r.0.value.chatId, TextOr(fields.caption, kind))
      && (send(r.0.value).None? ==> r.1 == Failure(500, Str("Internal error")))
      && (send(r.0.value).Some? ==> r.1 == Relay(send(r.0.value).value))
  {
    if config.botToken == "" then (None, Failure(500, Str("Server not configured")))
    else if file.None? then (None, Failure(400, Str("Missing file")))
    else
      var initData := TextOr(fields.initData, "");
      var kind := TextOr(fields.kind, "upload");
      var caption := TextOr(fields.caption, kind);
      match ResolveChat(config, initData, parseQuery, sign, parseJson)
      case Refused(reply) => (None, reply)
      case ChatOf(chat) =>
        var call := CallFor(file.value, chat, caption);
        match send(call)
        case None => (Some(call), Failure(500, Str("Internal error")))
        case Some(answer) => (Some(call), Relay(answer))
  }

  /** With a target chat configured nothing about the sender is checked:
      the outcome is the same whatever `initData` says. */
  lemma TargetChatSkipsVerification(config: Config, file: Option<UploadedFile>, fields: Fields, other: Option<string>,
                                    parseQuery: string -> Params, sign: (string, string) -> string,
                                    parseJson: string -> Option<Value>, send: TelegramCall -> Option<TelegramAnswer>)
    requires config.targetChatId != ""
    ensures Handle(config, file, fields, parseQuery, sign, parseJson, send)
         == Handle(config, file, fields.(initData := other), parseQuery, sign, parseJson, send)
    ensures var r := Handle(config, file, fields, parseQuery, sign, parseJson, send);
      r.0.Some? ==> r.0.value.chatId == Str(config.targetChatId)
  {
  }

  /** Without a target chat, a sender that does not pass the check reaches
      nobody: the reply is 401 (or 500 for a hash of the wrong length) and
      Telegram is not called. */
  lemma UnverifiedNeverSends(config: Config, file: UploadedFile, fields: Fields, parseQuery: string -> Params,
                             sign: (string, string) -> string, parseJson: string -> Option<Value>,
                             send: TelegramCall -> Option<TelegramAnswer>)
    requires config.botToken != "" && config.targetChatId == ""
    requires !Verify(TextOr(fields.initData, ""), config.botToken, parseQuery, sign, parseJson).Verified?
    ensures var r := Handle(config, Some(file), fields, parseQuery, sign, parseJson, send);
      r.0.None? && r.1.Failure? && (r.1.status == 401 || r.1.status == 500)
  {
  }

  /** The defaults of the form: no kind is `upload`, and no caption is the
      kind. */
  lemma FieldDefaults(config: Config, file: UploadedFile, parseQuery: string -> Params,
                      sign: (string, string) -> string, parseJson: string -> Option<Value>,
                      send: TelegramCall -> Option<TelegramAnswer>)
    requires config.botToken != "" && config.targetChatId != ""
    ensures var r := Handle(config, Some(file), Fields(None, None, None), parseQuery, sign, parseJson, send);
      r.0.Some? && r.0.value.caption == "upload"
  {
  }
}

=== FILE: sliders.dfy ===
/** The cargo data controls of `initCargoData`: the same category buttons
    as the category page, but loaded from and saved to local storage only;
    a weight slider; and a value slider with minus and plus buttons that
    step within the slider's range. Slider values are stored as text under
    `cargoWeight` and `cargoValue` in both storages. Numbers are the
    integers the sliders use. */
module Sliders {
  import opened Wrappers
  import opened Js
  import CargoCategories

  /** The category selection at start-up: the local entry only, with a
      missing entry read as the empty array. */
  function LoadLocal(local: Stored<int>): (r: seq<int>)
    ensures CargoCategories.Distinct(r)
    ensures r == CargoCategories.Load(CargoCategories.Store(local, Absent))
  {
    CargoCategories.Loaded(local)
  }

  /** A category click: the selection is toggled and written to local
      storage; the session entry is left as it was. */
  function Click(sel: seq<int>, s: CargoCategories.Store, i: int): (r: (seq<int>, CargoCategories.Store, string))
    ensures r.0 == CargoCategories.Toggle(sel, i)
    ensures r.1 == s.(local := Items(r.0))
    ensures r.2 == CargoCategories.ContinueLabel(|r.0|)
  {
    var t := CargoCategories.Toggle(sel, i);
    (t, s.(local := Items(t)), CargoCategories.ContinueLabel(|t|))
  }

  /** A click here is seen by this control's next load, but the category
      page reads the session entry first and so still sees what was there. */
  lemma ClickSeenLocallyOnly(sel: seq<int>, s: CargoCategories.Store, i: int)
    requires CargoCategories.Distinct(sel)
    ensures var (t, s2, _) := Click(sel, s, i);
      LoadLocal(s2.local) == t
      && (!s.session.Absent? ==> CargoCategories.Load(s2) == CargoCategories.Load(s))
  {
  }

  /** A slider's saved text: the session text when it is non-empty, else the
      local one; `None` when neither is. */
  function SavedText(session: Option<string>, local: Option<string>): (r: Option<string>)
    ensures r.Some? ==> r.value != ""
    ensures session.Some? && session.value != "" ==> r == session
    ensures !(session.Some? && session.value != "") ==> r == (if local.Some? && local.value != "" then local else None)
  {
    if session.Some? && session.value != "" then session
    else if local.Some? && local.value != "" then local
    else None
  }

  /** A slider's state: its range and step, and its value. */
  datatype Slider = Slider(min: int, max: int, step: int, value: int)

  /** The minus button: one step down, but never below the minimum. */
  function Minus(s: Slider): (r: Slider)
    ensures r.min == s.min && r.max == s.max && r.step == s.step
    ensures r.value >= s.min
    ensures s.value - s.step >= s.min ==> r.value == s.value - s.step
    ensures s.value - s.step < s.min ==> r.value == s.min
  {
    s.(value := if s.value - s.step >= s.min then s.value - s.step else s.min)
  }

  /** The plus button: one step up, but never above the maximum. */
  function Plus(s: Slider): (r: Slider)
    ensures r.min == s.min && r.max == s.max && r.step == s.step
    ensures r.value <= s.max
    ensures s.value + s.step <= s.max ==> r.value == s.value + s.step
    ensures s.value + s.step > s.max ==> r.value == s.max
  {
    s.(value := if s.value + s.step <= s.max then s.value + s.step else s.max)
  }

  /** Plus then minus (and minus then plus) gives back the value when no
      step is cut short by the range. */
  lemma PlusMinusInverse(s: Slider)
    ensures s.value >= s.min && s.value + s.step <= s.max ==> Minus(Plus(s)) == s
    ensures s.value <= s.max && s.value - s.step >= s.min ==> Plus(Minus(s)) == s
  {
  }

  /** With a non-negative step both buttons keep an in-range value in
      range. */
  lemma StepsStayInRange(s: Slider)
    requires s.min <= s.value <= s.max && s.step >= 0
    ensures s.min <= Minus(s).value <= s.max
    ensures s.min <= Plus(s).value <= s.max
  {
  }

  /** Both storages after a value change: the value's text under the key in
      each. */
  datatype TextStore = TextStore(local: map<string, string>, session: map<string, string>)

  function StoreValue(t: TextStore, key: string, text: string): (r: TextStore)
    ensures key in r.local && r.local[key] == text && key in r.session && r.session[key] == text
    ensures forall k :: k != key ==> (k in r.local <==> k in t.local) && (k in r.session <==> k in t.session)
  {
    TextStore(t.local[key := text], t.session[key := text])
  }

  function Lookup(m: map<string, string>, key: string): Option<string> {
    if key in m then Some(m[key]) else None
  }

  /** A value stored by a button or the slider is what the next load reads,
      as long as its text is not empty. */
  lemma StoreThenLoad(t: TextStore, key: string, text: string)
    requires text != ""
    ensures var t2 := StoreValue(t, key, text);
      SavedText(Lookup(t2.session, key), Lookup(t2.local, key)) == Some(text)
  {
  }
}

=== FILE: telegram_upload.dfy ===
/** The browser side of a media upload: the argument checks, the choice of
    the upload address, the `initData` sent along, and the reading of the
    answer. The page globals (the two address overrides, the location and
    Telegram's `initData`) are the record `Env`; the network is the
    parameter `post`, which answers a request with a response. */
module TelegramUpload {
  import opened Wrappers
  import opened Text
  import opened Js

  const UploadPath := "/api/telegram/upload"

  /** `s.replace(/\/+$/, '')`: `s` without its trailing slashes. */
  function StripTrailingSlashes(s: string): (r: string)
    ensures r <= s
    ensures |r| > 0 ==> r[|r| - 1] != '/'
    ensures forall i :: |r| <= i < |s| ==> s[i] == '/'
    decreases |s|
  {
    if |s| > 0 && s[|s| - 1] == '/' then StripTrailingSlashes(s[..|s| - 1]) else s
  }

  /** The page's location. */
  datatype Location = Location(protocol: string, hostname: string, port: string)

  /** The globals the upload reads: `__TELEGRAM_UPLOAD_URL__`,
      `__TELEGRAM_UPLOAD_BASE__`, `location` and Telegram's `initData`. */
  datatype Env = Env(urlOverride: Prop, baseOverride: Prop, location: Option<Location>, telegramInitData: Option<string>)

  /** The override used: the first truthy of the two globals. */
  function Override(env: Env): (r: Prop)
    ensures IsTruthy(env.urlOverride) ==> r == env.urlOverride
    ensures !IsTruthy(env.urlOverride) ==> r == env.baseOverride
  {
    OrProp(env.urlOverride, env.baseOverride)
  }

  /** A local development server on port 5500. */
  predicate LiveServer(loc: Option<Location>) {
    loc.Some? && loc.value.hostname != ""
    && (loc.value.hostname == "127.0.0.1" || loc.value.hostname == "localhost")
    && loc.value.port == "5500"
  }

  /** `resolveUploadUrl()`: a non-blank string override, trimmed, with the
      upload path added unless it already ends with it; else the upload
      proxy on port 8787 when the page is served on port 5500 of this
      machine; else the same-origin path. */
  function ResolveUploadUrl(env: Env): (r: string)
    ensures EndsWith(r, UploadPath)
    ensures var o := Override(env);
      (o.Some? && o.value.Str? && Trim(o.value.s) != "" ==>
         (EndsWith(Trim(o.value.s), UploadPath) ==> r == Trim(o.value.s))
         && (!EndsWith(Trim(o.value.s), UploadPath) ==> r == StripTrailingSlashes(Trim(o.value.s)) + UploadPath))
      && (!(o.Some? && o.value.Str? && Trim(o.value.s) != "") ==>
         (LiveServer(env.location) ==>
            r == env.location.value.protocol + "//" + env.location.value.hostname + ":8787" + UploadPath)
         && (!LiveServer(env.location) ==> r == UploadPath))
  {
    var o := Override(env);
    if o.Some? && o.value.Str? && Trim(o.value.s) != "" then
      var t := Trim(o.value.s);
      if EndsWith(t, UploadPath) then t else StripTrailingSlashes(t) + UploadPath
    else if LiveServer(env.location) then
      env.location.value.protocol + "//" + env.location.value.hostname + ":8787" + UploadPath
    else UploadPath
  }

  /** A blank address override is passed over without falling back to the
      other one: a blank `__TELEGRAM_UPLOAD_URL__` hides any
      `__TELEGRAM_UPLOAD_BASE__`, which an unset one would have let
      through. */
  lemma {:induction false} BlankUrlHidesBase(env: Env, base: string)
    requires env.urlOverride == Some(Str(" ")) && env.baseOverride == Some(Str(base)) && Trim(base) != ""
    requires !LiveServer(env.location)
    ensures ResolveUploadUrl(env) == UploadPath
    ensures Override(env) == Some(Str(" ")) && Override(env.(urlOverride := None)) == Some(Str(base))
  {
    var o := Override(env);
    assert o == Some(Str(" "));
    BlankIsBlank();
    assert !(o.Some? && o.value.Str? && Trim(o.value.s) != "");
  }

  lemma BlankIsBlank()
    ensures Trim(" ") == ""
  {
    assert IsJsSpace(' ') && AllSpace(" ");
    TrimEmptyIff(" ");
  }

  /** An override that names the path already is left alone, apart from
      trimming; adding the path to one that does not is undone by taking it
      off again. */
  lemma {:induction false} OverridePath(env: Env, url: string)
    requires env.urlOverride == Some(Str(url)) && Trim(url) != ""
    ensures var t := Trim(url);
      var r := ResolveUploadUrl(env);
      (EndsWith(t, UploadPath) ==> r == t)
      && (!EndsWith(t, UploadPath) ==> r[..|r| - |UploadPath|] == StripTrailingSlashes(t) && StripTrailingSlashes(t) <= t)
  {
    assert url != "";
    assert Override(env) == Some(Str(url));
    var t := Trim(url);
    if !EndsWith(t, UploadPath) {
      var a := StripTrailingSlashes(t);
      assert ResolveUploadUrl(env) == a + UploadPath;
      assert (a + UploadPath)[..|a|] == a;
    }
  }

  /** `initData ?? (Telegram initData when truthy) ?? ''`: an explicit value
      wins even when it is empty; `None` stands for `null` and `undefined`. */
  function InitDataSent(initData: Option<string>, env: Env): (r: string)
    ensures initData.Some? ==> r == initData.value
    ensures initData.None? && env.telegramInitData.Some? ==> r == env.telegramInitData.value
    ensures initData.None? && env.telegramInitData.None? ==> r == ""
  {
    if initData.Some? then initData.value
    else if env.telegramInitData.Some? && env.telegramInitData.value != "" then env.telegramInitData.value
    else ""
  }

  /** The file to upload; its contents are opaque. */
  datatype File = File(name: string, handle: nat)

  /** The request sent: the address and the form fields. The caption field
      is left out when the caption is empty or missing. */
  datatype Request = Request(url: string, initData: string, kind: string, caption: Option<string>, fileName: string, file: nat)

  /** The server's answer: its `ok` flag, its status, and its body, `None`
      when the body is not JSON. */
  datatype Response = Response(ok: bool, status: nat, body: Option<Value>)

  /** How the call ends: with the parsed body, or with an error carrying a
      message. */
  datatype Result = Done(data: Value) | Error(message: Value)

  /** `data?.k` for a body that may be missing or not an object. */
  function BodyField(body: Option<Value>, k: string): (r: Prop)
    ensures r.Some? ==> body.Some? && body.value.Obj? && k in body.value.fields
  {
    match body
    case Some(Obj(m)) => Get(m, k)
    case _ => None
  }

  /** The error message: the body's `error`, else its `description`, else
      a message with the status. */
  function ErrorMessage(res: Response): (r: Value)
    ensures IsTruthy(BodyField(res.body, "error")) ==> r == BodyField(res.body, "error").value
    ensures !IsTruthy(BodyField(res.body, "error")) && IsTruthy(BodyField(res.body, "description")) ==>
      r == BodyField(res.body, "description").value
    ensures !IsTruthy(BodyField(res.body, "error")) && !IsTruthy(BodyField(res.body, "description")) ==>
      r == Str("Upload failed (" + NatText(res.status) + ")")
    ensures Truthy(r)
  {
    Or(BodyField(res.body, "error"), Or(BodyField(res.body, "description"), Str("Upload failed (" + NatText(res.status) + ")")))
  }

  /** `uploadTelegramMedia(...)`: a missing file or kind is an error before
      anything is sent; else one request goes out and the answer is the body
      when both the status and the body say so, else an error. */
  function Upload(kind: Option<string>, file: Option<File>, caption: Option<string>, initData: Option<string>,
                  env: Env, post: Request -> Response): (r: (Option<Request>, Result))
    ensures file.None? ==> r == (None, Error(Str("Missing file")))
    ensures file.Some? && (kind.None? || kind.value == "") ==> r == (None, Error(Str("Missing kind")))
    ensures file.Some? && kind.Some? && kind.value != "" ==>
      r.0.Some? && r.0.value.url == ResolveUploadUrl(env) && r.0.value.kind == kind.value
      && r.0.value.initData == InitDataSent(initData, env)
      && (r.0.value.caption.Some? <==> caption.Some? && caption.value != "")
      && r.0.value.fileName == (if file.value.name != "" then file.value.name else "upload")
    ensures r.0.Some? ==>
      var res := post(r.0.value);
      (res.ok && IsTruthy(BodyField(res.body, "ok")) ==> r.1 == Done(res.body.value))
      && (!(res.ok && IsTruthy(BodyField(res.body, "ok"))) ==> r.1 == Error(ErrorMessage(res)))
  {
    if file.None? then (None, Error(Str("Missing file")))
    else if kind.None? || kind.value == "" then (None, Error(Str("Missing kind")))
    else
      var req := Request(ResolveUploadUrl(env), InitDataSent(initData, env), kind.value,
                         if caption.Some? && caption.value != "" then caption else None,
                         if file.value.name != "" then file.value.name else "upload", file.value.handle);
      var res := post(req);
      if res.ok && IsTruthy(BodyField(res.body, "ok")) then (Some(req), Done(res.body.value))
      else (Some(req), Error(ErrorMessage(res)))
  }

  /** The answer of a server that refuses with status 200 and no reason. */
  const RefusedAt200 := Response(true, 200, Some(Obj(map["ok" := Bool(false)])))

  /** A successful HTTP status is not enough: a body without a truthy `ok`
      is an error, and without `error` or `description` its message names
      the status. */
  lemma {:induction false} OkStatusNeedsOkBody(kind: string, file: File, env: Env, post: Request -> Response)
    requires kind != ""
    requires forall q :: post(q) == RefusedAt200
    ensures Upload(Some(kind), Some(file), None, None, env, post).1 == Error(Str("Upload failed (200)"))
  {
    RefusedAt200Message();
    var r := Upload(Some(kind), Some(file), None, None, env, post);
    assert post(r.0.value) == RefusedAt200;
  }

  lemma RefusedAt200Message()
    ensures !IsTruthy(BodyField(RefusedAt200.body, "ok"))
    ensures ErrorMessage(RefusedAt200) == Str("Upload failed (200)")
  {
    var res := RefusedAt200;
    assert BodyField(res.body, "ok") == Some(Bool(false));
    assert BodyField(res.body, "error").None? && BodyField(res.body, "description").None?;
    assert NatText(2) == "2";
    assert NatText(20) == "20";
    assert NatText(200) == "200";
  }
}

=== FILE: text.dfy ===
/** String operations of the JavaScript runtime that the application relies
    on: `trim`, ASCII `toLowerCase`, `includes`, `indexOf`, `endsWith`,
    `split`, `replace` with a string pattern, and decimal rendering and
    parsing of non-negative integers. Strings are sequences of characters;
    JavaScript's UTF-16 code units are not modelled. */
module Text {
  import opened Wrappers

  /** The characters `String.prototype.trim` removes: the WhiteSpace and
      LineTerminator productions of section 12.2 and 12.3 of ECMA-262. */
  predicate IsJsSpace(c: char) {
    c == ' ' || c == '\t' || c == '\n' || c == '\r' || c == '\U{000B}' || c == '\U{000C}'
    || c == '\U{00A0}' || c == '\U{FEFF}' || c == '\U{1680}'
    || ('\U{2000}' <= c <= '\U{200A}')
    || c == '\U{2028}' || c == '\U{2029}' || c == '\U{202F}' || c == '\U{205F}' || c == '\U{3000}'
  }

  predicate AllSpace(s: string) {
    forall i :: 0 <= i < |s| ==> IsJsSpace(s[i])
  }

  predicate IsAsciiDigit(c: char) { '0' <= c <= '9' }

  predicate IsAsciiUpper(c: char) { 'A' <= c <= 'Z' }

  predicate AllDigits(s: string) {
    forall i :: 0 <= i < |s| ==> IsAsciiDigit(s[i])
  }

  /** Where the white space that starts at index `i` of `s` ends. */
  function LeadingEnd(s: string, i: nat): (k: nat)
    requires i <= |s|
    ensures i <= k <= |s|
    ensures forall j :: i <= j < k ==> IsJsSpace(s[j])
    ensures k < |s| ==> !IsJsSpace(s[k])
    decreases |s| - i
  {
    if i < |s| && IsJsSpace(s[i]) then LeadingEnd(s, i + 1) else i
  }

  /** Where the white space that ends at index `hi` of `s` starts, looking
      no further back than `lo`. */
  function TrailingStart(s: string, lo: nat, hi: nat): (e: nat)
    requires lo <= hi <= |s|
    ensures lo <= e <= hi
    ensures forall j :: e <= j < hi ==> IsJsSpace(s[j])
    ensures e > lo ==> !IsJsSpace(s[e - 1])
    decreases hi
  {
    if hi > lo && IsJsSpace(s[hi - 1]) then TrailingStart(s, lo, hi - 1) else hi
  }

  /** Where `s.trim()` starts: the length of the leading white space. */
  function TrimOffset(s: string): (k: nat)
    ensures k <= |s| && AllSpace(s[..k])
    ensures k < |s| ==> !IsJsSpace(s[k])
  {
    LeadingEnd(s, 0)
  }

  /** `s.trim()`: the piece of `s` after the leading white space, neither end
      of which is white space, with only white space cut off after it. */
  function Trim(s: string): (r: string)
    ensures TrimOffset(s) + |r| <= |s|
    ensures r == s[TrimOffset(s)..TrimOffset(s) + |r|]
    ensures AllSpace(s[TrimOffset(s) + |r|..])
    ensures |r| > 0 ==> !IsJsSpace(r[0]) && !IsJsSpace(r[|r| - 1])
    ensures r == "" ==> TrimOffset(s) == |s|
  {
    var k := TrimOffset(s);
    s[k..TrailingStart(s, k, |s|)]
  }

  /** `s.trim() === ''` exactly when every character of `s` is white space. */
  lemma {:induction false} TrimEmptyIff(s: string)
    ensures Trim(s) == "" <==> AllSpace(s)
  {
    var r := Trim(s);
    var i := TrimOffset(s);
    if r == "" {
      assert s[..i] == s;
    } else {
      assert r[0] == s[i];
    }
  }

  /** A string that neither starts nor ends with white space is its own
      trim. */
  lemma TrimUnchanged(s: string)
    requires |s| > 0 ==> !IsJsSpace(s[0]) && !IsJsSpace(s[|s| - 1])
    ensures Trim(s) == s
  {
    assert TrimOffset(s) == 0;
    assert TrailingStart(s, 0, |s|) == |s|;
  }

  /** Trimming an already trimmed string changes nothing. */
  lemma {:induction false} TrimIdempotent(s: string)
    ensures Trim(Trim(s)) == Trim(s)
  {
    TrimUnchanged(Trim(s));
  }

  /** ASCII-only `toLowerCase`: the application only lower-cases Latin
      labels and Persian text, which has no case. */
  function LowerChar(c: char): char {
    if 'A' <= c <= 'Z' then (c as int + 32) as char else c
  }

  function ToLower(s: string): (r: string)
    ensures |r| == |s|
    ensures forall i :: 0 <= i < |s| ==> r[i] == LowerChar(s[i])
  {
    seq(|s|, i requires 0 <= i < |s| => LowerChar(s[i]))
  }

  /** Lower-casing twice is lower-casing once. */
  lemma LowerIdempotent(s: string)
    ensures ToLower(ToLower(s)) == ToLower(s)
  {
  }

  /** `q` occurs in `s` at position `i`. */
  ghost predicate OccursAt(s: string, q: string, i: int) {
    0 <= i && i + |q| <= |s| && s[i..i + |q|] == q
  }

  /** `s.indexOf(q)`, with `None` standing for -1. */
  function IndexOf(s: string, q: string): (r: Option<nat>)
    ensures r.Some? ==> OccursAt(s, q, r.value)
    ensures r.Some? ==> forall j :: 0 <= j < r.value ==> !OccursAt(s, q, j)
    ensures r.None? ==> forall j :: !OccursAt(s, q, j)
    decreases |s|
  {
    if q <= s then Some(0)
    else if |s| == 0 then None
    else match IndexOf(s[1..], q)
      case None =>
        assert forall j :: OccursAt(s, q, j) && j > 0 ==> OccursAt(s[1..], q, j - 1);
        None
      case Some(k) =>
        assert OccursAt(s[1..], q, k);
        assert forall j :: 0 < j <= k && OccursAt(s, q, j) ==> OccursAt(s[1..], q, j - 1);
        Some(k + 1)
  }

  /** `s.includes(q)`. */
  predicate Contains(s: string, q: string) {
    IndexOf(s, q).Some?
  }

  /** `includes` means "occurs somewhere". */
  lemma ContainsIff(s: string, q: string)
    ensures Contains(s, q) <==> exists i :: OccursAt(s, q, i)
  {
  }

  /** `s.endsWith(suf)`. */
  predicate EndsWith(s: string, suf: string) {
    |suf| <= |s| && s[|s| - |suf|..] == suf
  }

  /** `s.replace(/c/g, '')`: `s` with every `c` dropped, the other
      characters kept in order. */
  function Remove(s: string, c: char): (r: string)
    ensures |r| <= |s|
    ensures forall i :: 0 <= i < |r| ==> r[i] != c
    ensures (forall i :: 0 <= i < |s| ==> s[i] != c) ==> r == s
    ensures forall i :: 0 <= i < |r| ==> r[i] in s
  {
    if |s| == 0 then ""
    else if s[0] == c then Remove(s[1..], c)
    else [s[0]] + Remove(s[1..], c)
  }

  /** Dropping a character distributes over concatenation. */
  lemma {:induction false} RemoveAppend(a: string, b: string, c: char)
    ensures Remove(a + b, c) == Remove(a, c) + Remove(b, c)
    decreases |a|
  {
    if |a| > 0 {
      RemoveAppend(a[1..], b, c);
      assert (a + b)[1..] == a[1..] + b;
      assert (a + b)[0] == a[0];
    } else {
      assert a + b == b;
    }
  }

  /** `s.replace(pat, rep)` with a string pattern: only the first occurrence
      is replaced. */
  function ReplaceFirst(s: string, pat: string, rep: string): (r: string)
    ensures IndexOf(s, pat).None? ==> r == s
    ensures IndexOf(s, pat).Some? ==>
      var i := IndexOf(s, pat).value;
      |r| == |s| - |pat| + |rep| &&
      r[..i] == s[..i] && r[i..i + |rep|] == rep && r[i + |rep|..] == s[i + |pat|..]
  {
    match IndexOf(s, pat)
    case None => s
    case Some(i) => s[..i] + rep + s[i + |pat|..]
  }

  /** `s.split(sep)` for a non-empty separator: the pieces between the
      occurrences of `sep`, scanning from the left. */
  function Split(s: string, sep: string): (r: seq<string>)
    requires |sep| > 0
    ensures |r| >= 1
    ensures IndexOf(s, sep).None? <==> r == [s]
    decreases |s|
  {
    match IndexOf(s, sep)
    case None => [s]
    case Some(i) => [s[..i]] + Split(s[i + |sep|..], sep)
  }

  /** Joining the pieces of a split with the separator gives back the
      original string. */
  lemma {:induction false} SplitJoin(s: string, sep: string)
    requires |sep| > 0
    ensures Join(Split(s, sep), sep) == s
    decreases |s|
  {
    match IndexOf(s, sep)
    case None =>
    case Some(i) =>
      var rest := s[i + |sep|..];
      var parts := Split(rest, sep);
      calc {
        Join(Split(s, sep), sep);
        Join([s[..i]] + parts, sep);
        { JoinCons(s[..i], parts, sep); }
        s[..i] + sep + Join(parts, sep);
        { SplitJoin(rest, sep); }
        s[..i] + sep + rest;
        { SliceAround(s, i, sep); }
        s;
      }
  }

  /** Splitting the join of pieces on a one-character separator that none
      of them contains gives the pieces back. */
  lemma {:induction false} JoinSplit(parts: seq<string>, c: char)
    requires |parts| >= 1
    requires forall i :: 0 <= i < |parts| ==> c !in parts[i]
    ensures Split(Join(parts, [c]), [c]) == parts
    decreases |parts|
  {
    var a := parts[0];
    if |parts| == 1 {
      OccursCharAt(a, c);
      assert IndexOf(a, [c]).None?;
    } else {
      var b := Join(parts[1..], [c]);
      var s := a + [c] + b;
      assert Join(parts, [c]) == s;
      assert s[|a|..|a| + 1] == [c];
      assert OccursAt(s, [c], |a|);
      OccursCharAt(s, c);
      var k := IndexOf(s, [c]).value;
      assert forall j :: 0 <= j < |a| ==> s[j] == a[j] && a[j] != c;
      assert k == |a|;
      assert s[..|a|] == a && s[|a| + 1..] == b;
      JoinSplit(parts[1..], c);
      assert parts == [a] + parts[1..];
    }
  }

  /** Where a one-character string occurs, that character stands. */
  lemma OccursCharAt(s: string, c: char)
    ensures forall j :: OccursAt(s, [c], j) ==> s[j] == c
  {
    forall j | OccursAt(s, [c], j) ensures s[j] == c {
      assert s[j..j + 1][0] == s[j];
    }
  }

  /** A string with exactly one occurrence of the separator splits into
      the parts before and after it. */
  lemma SplitOnce(a: string, b: string, sep: string)
    requires |sep| > 0
    requires forall j :: OccursAt(a + sep + b, sep, j) ==> j == |a|
    ensures Split(a + sep + b, sep) == [a, b]
  {
    var s := a + sep + b;
    assert s[|a|..|a| + |sep|] == sep;
    assert OccursAt(s, sep, |a|);
    assert IndexOf(s, sep) == Some(|a|);
    assert s[..|a|] == a && s[|a| + |sep|..] == b;
    forall j | OccursAt(b, sep, j)
      ensures false
    {
      assert s[|a| + |sep| + j..|a| + |sep| + j + |sep|] == b[j..j + |sep|];
      assert OccursAt(s, sep, |a| + |sep| + j);
    }
    assert IndexOf(b, sep).None?;
  }

  /** A string is the part before an occurrence, the occurrence, and the
      part after it. */
  lemma SliceAround(s: string, i: nat, q: string)
    requires OccursAt(s, q, i)
    ensures s[..i] + q + s[i + |q|..] == s
  {
    assert s == s[..i] + s[i..i + |q|] + s[i + |q|..];
  }

  /** Joining a piece in front of at least one other puts the separator
      between it and the rest. */
  lemma JoinCons(a: string, parts: seq<string>, sep: string)
    requires |parts| >= 1
    ensures Join([a] + parts, sep) == a + sep + Join(parts, sep)
  {
    assert ([a] + parts)[1..] == parts;
  }

  /** `parts.join(sep)`. */
  function Join(parts: seq<string>, sep: string): string {
    if |parts| == 0 then ""
    else if |parts| == 1 then parts[0]
    else parts[0] + sep + Join(parts[1..], sep)
  }

  function DigitChar(d: nat): char
    requires d < 10
  {
    "0123456789"[d]
  }

  /** `String(n)` for a non-negative integer: its decimal digits with no
      leading zero. */
  function NatText(n: nat): (r: string)
    ensures |r| >= 1 && AllDigits(r)
    ensures |r| > 1 ==> r[0] != '0'
    decreases n
  {
    if n < 10 then [DigitChar(n)] else NatText(n / 10) + [DigitChar(n % 10)]
  }

  /** The number a string of decimal digits denotes. */
  function DigitsValue(s: string): nat
    requires AllDigits(s)
  {
    if |s| == 0 then 0
    else DigitsValue(s[..|s| - 1]) * 10 + (s[|s| - 1] as int - '0' as int)
  }

  /** Reading back the decimal text of a number gives the number. */
  lemma {:induction false} NatTextRoundTrip(n: nat)
    ensures DigitsValue(NatText(n)) == n
    decreases n
  {
    if n >= 10 {
      NatTextRoundTrip(n / 10);
      var t := NatText(n);
      assert t[..|t| - 1] == NatText(n / 10);
    }
  }

  /** `String(i)` for any integer. */
  function IntText(i: int): string {
    if i < 0 then "-" + NatText(-i) else NatText(i)
  }
}

=== FILE: traveler_listings.dfy ===
/** Travelers' published trips, kept newest first in `localStorage` under
    `traveler_listings`. A new listing replaces any earlier one with the
    same route, date and time instead of being rejected. `uuid` stands for
    `crypto.randomUUID()`, `nowIso` for the current ISO timestamp and
    `numText` for JavaScript's rendering of a number inside a template
    string. A missing `listing` argument behaves as the empty object. */
module TravelerListings {
  import opened Wrappers
  import opened Js
  import opened Lists
  import Airport

  const DefaultCapacity := "فضای کافی"
  const DefaultImage := "asset/images/logo.jpg"
  const DefaultRating := 4.8

  datatype Event = ListingsUpdated

  /** The record `addTravelerListing` builds; every field but `createdAt`
      holds whatever JSON value the caller's listing supplied or its
      default. */
  datatype Listing = Listing(
    id: Value, createdAt: string, origin: Value, destination: Value,
    originCode: Value, destinationCode: Value, dateISO: Value, time: Value, duration: Value,
    capacityLabel: Value, profileImage: Value, rating: Value, completedDeliveries: Value, verified: Value)

  /** The stored JSON object for a listing. */
  function ToObject(n: Listing): (o: Object)
    ensures Get(o, "originCode") == Some(n.originCode) && Get(o, "destinationCode") == Some(n.destinationCode)
    ensures Get(o, "dateISO") == Some(n.dateISO) && Get(o, "time") == Some(n.time)
  {
    map[
      "id" := n.id, "createdAt" := Str(n.createdAt), "origin" := n.origin, "destination" := n.destination,
      "duration" := n.duration, "capacityLabel" := n.capacityLabel, "profileImage" := n.profileImage,
      "rating" := n.rating, "completedDeliveries" := n.completedDeliveries, "verified" := n.verified
    ]["originCode" := n.originCode]["destinationCode" := n.destinationCode]["dateISO" := n.dateISO]["time" := n.time]
  }

  /** `getTravelerListings()`: the stored array; a missing entry, text that
      does not parse, `null` and any non-array value all give `[]`. */
  function GetTravelerListings(slot: Stored<Object>): (r: seq<Object>)
    ensures slot.Items? ==> r == slot.items
    ensures !slot.Items? ==> r == []
  {
    match slot
    case Items(xs) => xs
    case _ => []
  }

  /** `explicit || extractAirportCode(text) || ''`. */
  function CodeFor(explicit: Prop, text: Prop): (r: Value)
    ensures IsTruthy(explicit) ==> r == explicit.value
    ensures !IsTruthy(explicit) ==> r == Str(Airport.ExtractOrEmpty(text))
  {
    if IsTruthy(explicit) then explicit.value
    else match Airport.ExtractOrNull(text)
      case Some(c) => Str(c)
      case None => Str("")
  }

  /** The record `addTravelerListing` stores and returns: `||` defaults for
      the text fields, `??` defaults for rating, deliveries and the verified
      flag, and airport codes taken from the place names when not given. */
  function Normalize(l: Object, uuid: string, nowIso: string): (n: Listing)
    ensures n.id == Or(Get(l, "id"), Str(uuid)) && n.createdAt == nowIso
    ensures n.originCode == CodeFor(Get(l, "originCode"), Get(l, "origin"))
    ensures n.destinationCode == CodeFor(Get(l, "destinationCode"), Get(l, "destination"))
    ensures Truthy(n.originCode) || n.originCode == Str("")
    ensures Truthy(n.destinationCode) || n.destinationCode == Str("")
    ensures Truthy(n.dateISO) || n.dateISO == Null
    ensures Truthy(n.time) || n.time == Null
    ensures IsTruthy(Get(l, "origin")) ==> n.origin == l["origin"]
    ensures !IsTruthy(Get(l, "origin")) ==> n.origin == Str("")
    ensures IsTruthy(Get(l, "destination")) ==> n.destination == l["destination"]
    ensures !IsTruthy(Get(l, "destination")) ==> n.destination == Str("")
    ensures IsTruthy(Get(l, "capacityLabel")) ==> n.capacityLabel == l["capacityLabel"]
    ensures !IsTruthy(Get(l, "capacityLabel")) ==> n.capacityLabel == Str(DefaultCapacity)
    ensures IsTruthy(Get(l, "profileImage")) ==> n.profileImage == l["profileImage"]
    ensures !IsTruthy(Get(l, "profileImage")) ==> n.profileImage == Str(DefaultImage)
    ensures !Nullish(Get(l, "rating")) ==> n.rating == l["rating"]
    ensures Nullish(Get(l, "rating")) ==> n.rating == Num(DefaultRating)
    ensures !Nullish(Get(l, "completedDeliveries")) ==> n.completedDeliveries == l["completedDeliveries"]
    ensures Nullish(Get(l, "completedDeliveries")) ==> n.completedDeliveries == Num(0.0)
    ensures !Nullish(Get(l, "verified")) ==> n.verified == l["verified"]
    ensures Nullish(Get(l, "verified")) ==> n.verified == Bool(true)
  {
    Listing(
      id := Or(Get(l, "id"), Str(uuid)),
      createdAt := nowIso,
      origin := Or(Get(l, "origin"), Str("")),
      destination := Or(Get(l, "destination"), Str("")),
      originCode := CodeFor(Get(l, "originCode"), Get(l, "origin")),
      destinationCode := CodeFor(Get(l, "destinationCode"), Get(l, "destination")),
      dateISO := Or(Get(l, "dateISO"), Null),
      time := Or(Get(l, "time"), Null),
      duration := Or(Get(l, "duration"), Null),
      capacityLabel := Or(Get(l, "capacityLabel"), Str(DefaultCapacity)),
      profileImage := Or(Get(l, "profileImage"), Str(DefaultImage)),
      rating := Coalesce(Get(l, "rating"), Num(DefaultRating)),
      completedDeliveries := Coalesce(Get(l, "completedDeliveries"), Num(0.0)),
      verified := Coalesce(Get(l, "verified"), Bool(true)))
  }

  /** The key a stored listing is compared by: origin code, destination
      code, date and time, each `''` when falsy, joined with `|`. */
  function Key(o: Object, numText: real -> string): string {
    TemplateText(Some(Or(Get(o, "originCode"), Str(""))), numText) + "|"
    + TemplateText(Some(Or(Get(o, "destinationCode"), Str(""))), numText) + "|"
    + TemplateText(Some(Or(Get(o, "dateISO"), Str(""))), numText) + "|"
    + TemplateText(Some(Or(Get(o, "time"), Str(""))), numText)
  }

  /** The key computed from the new record, written the way the store
      writes it: the codes are interpolated without a fallback. */
  function DedupeKey(n: Listing, numText: real -> string): string {
    TemplateText(Some(n.originCode), numText) + "|"
    + TemplateText(Some(n.destinationCode), numText) + "|"
    + TemplateText(Some(Or(Some(n.dateISO), Str(""))), numText) + "|"
    + TemplateText(Some(Or(Some(n.time), Str(""))), numText)
  }

  /** For a normalized record the two ways of writing the key agree, and
      the key depends on the caller's listing only, not on the clock or the
      generated id. */
  lemma DedupeKeyOfNormalized(l: Object, uuid: string, nowIso: string, uuid2: string, nowIso2: string, numText: real -> string)
    ensures DedupeKey(Normalize(l, uuid, nowIso), numText) == Key(ToObject(Normalize(l, uuid, nowIso)), numText)
    ensures DedupeKey(Normalize(l, uuid, nowIso), numText) == DedupeKey(Normalize(l, uuid2, nowIso2), numText)
  {
  }

  /** The test that keeps a stored listing: its key is not `k`. */
  function OtherKey(k: string, numText: real -> string): Object -> bool {
    o => Key(o, numText) != k
  }

  /** `addTravelerListing(listing)`: drops every stored listing with the new
      record's key, puts the new record first and returns it. */
  function AddTravelerListing(slot: Stored<Object>, l: Object, uuid: string, nowIso: string, numText: real -> string): (r: (Stored<Object>, Listing, seq<Event>))
    ensures r.1 == Normalize(l, uuid, nowIso)
    ensures r.0.Items? && |r.0.items| >= 1 && r.0.items[0] == ToObject(r.1)
    ensures forall i :: 1 <= i < |r.0.items| ==> Key(r.0.items[i], numText) != Key(r.0.items[0], numText)
    ensures var before := GetTravelerListings(slot);
      forall i :: 0 <= i < |before| && Key(before[i], numText) != Key(r.0.items[0], numText) ==> before[i] in r.0.items
    ensures var before := GetTravelerListings(slot);
      |r.0.items| == 1 + |before| - Count(before, o => Key(o, numText) == Key(r.0.items[0], numText))
    ensures var before := GetTravelerListings(slot);
      r.0.items[1..] == Filter(before, OtherKey(Key(r.0.items[0], numText), numText))
      && SubseqOf(r.0.items[1..], before)
    ensures r.2 == [ListingsUpdated]
  {
    var existing := GetTravelerListings(slot);
    var n := Normalize(l, uuid, nowIso);
    var k := DedupeKey(n, numText);
    DedupeKeyOfNormalized(l, uuid, nowIso, uuid, nowIso, numText);
    var kept := Filter(existing, OtherKey(k, numText));
    FilterCount(existing, OtherKey(k, numText));
    CountComplement(existing, OtherKey(k, numText), o => Key(o, numText) == k);
    PrependFiltered(ToObject(n), existing, OtherKey(k, numText));
    (Items([ToObject(n)] + kept), n, [ListingsUpdated])
  }

  /** Elements either pass a test or its negation. */
  lemma {:induction false} CountComplement<T>(s: seq<T>, p: T -> bool, q: T -> bool)
    requires forall x :: p(x) <==> !q(x)
    ensures Count(s, p) + Count(s, q) == |s|
  {
    if |s| > 0 {
      CountComplement(s[1..], p, q);
    }
  }

  /** Publishing the same listing again, at any later time, replaces the
      earlier record: the list keeps one entry for the key, the new one
      first, followed by exactly the entries the first call kept. */
  lemma {:induction false} RepublishReplaces(slot: Stored<Object>, l: Object, uuid: string, nowIso: string, uuid2: string, nowIso2: string, numText: real -> string)
    ensures var r1 := AddTravelerListing(slot, l, uuid, nowIso, numText);
      var r2 := AddTravelerListing(r1.0, l, uuid2, nowIso2, numText);
      r2.0.items == [ToObject(Normalize(l, uuid2, nowIso2))] + r1.0.items[1..]
  {
    var existing := GetTravelerListings(slot);
    var n1 := Normalize(l, uuid, nowIso);
    var n2 := Normalize(l, uuid2, nowIso2);
    DedupeKeyOfNormalized(l, uuid, nowIso, uuid2, nowIso2, numText);
    DedupeKeyOfNormalized(l, uuid2, nowIso2, uuid, nowIso, numText);
    var k := DedupeKey(n1, numText);
    var p := OtherKey(k, numText);
    var kept := Filter(existing, p);
    var r1 := AddTravelerListing(slot, l, uuid, nowIso, numText);
    assert r1.0.items == [ToObject(n1)] + kept;
    assert r1.0.items[1..] == kept;
    FilterConcat([ToObject(n1)], kept, p);
    FilterIdempotent(existing, p);
    assert Filter([ToObject(n1)], p) == [];
    assert Filter(r1.0.items, p) == kept;
  }

  /** `??` keeps falsy values the caller gave — a rating of 0, no completed
      deliveries, `verified: false` — while `||` replaces an empty label or
      image path with the default. */
  lemma DefaultsKeepFalsy(l: Object, uuid: string, nowIso: string)
    requires Get(l, "rating") == Some(Num(0.0)) && Get(l, "completedDeliveries") == Some(Num(0.0))
    requires Get(l, "verified") == Some(Bool(false))
    requires Get(l, "capacityLabel") == Some(Str("")) && Get(l, "profileImage") == Some(Str(""))
    ensures var n := Normalize(l, uuid, nowIso);
      n.rating == Num(0.0) && n.completedDeliveries == Num(0.0) && n.verified == Bool(false)
      && n.capacityLabel == Str(DefaultCapacity) && n.profileImage == Str(DefaultImage)
  {
  }
}

=== FILE: trips.dfy ===
/** The trip list kept in `localStorage` under `my_trips`: trips the user
    registered and flights or cargo they submitted. Saving a single trip is
    an upsert by id; adding always appends. `uuid` stands for
    `crypto.randomUUID()`, `now` for `Date.now()` and `nowIso` for the
    current ISO timestamp. */
module Trips {
  import opened Wrappers
  import opened Js
  import opened Lists

  /** The entry after a call and what the call gave back. */
  datatype Step<R> = Step(slot: Stored<Object>, result: Outcome<R>)

  /** The argument of `saveTrip`: one trip or a whole array. */
  datatype TripArg = One(trip: Object) | Many(trips: seq<Object>)

  /** `loadTrips()`: `JSON.parse(entry || '[]')`. A missing entry, text
      that does not parse and `null` (whose `length` throws inside the
      `try`) give `[]`; any other non-array value is passed on and the array
      methods applied to it later throw. */
  function LoadTrips(slot: Stored<Object>): (r: Reading<Object>)
    ensures r.NotAList? <==> slot.FalsyJson? || slot.OtherJson?
    ensures slot.Items? ==> r == List(slot.items)
  {
    match slot
    case Items(xs) => List(xs)
    case FalsyJson => NotAList
    case OtherJson => NotAList
    case _ => List([])
  }

  /** `saveTrips(trips)`: writes the array; write failures are not
      modelled, so it reports `true`. */
  function SaveTrips(trips: seq<Object>): (r: Step<bool>)
    ensures LoadTrips(r.slot) == List(trips) && r.result == Returned(true)
  {
    Step(Items(trips), Returned(true))
  }

  /** The record `saveTrip` appends for a trip it has not seen. */
  function NewTrip(trip: Object, uuid: string, nowIso: string): (r: Object)
    ensures r.Keys == trip.Keys + {"id", "createdAt"}
    ensures r["id"] == Or(Get(trip, "id"), Str(uuid)) && r["createdAt"] == Str(nowIso)
    ensures forall k :: k in trip && k != "id" && k != "createdAt" ==> r[k] == trip[k]
  {
    trip["id" := Or(Get(trip, "id"), Str(uuid))]["createdAt" := Str(nowIso)]
  }

  /** `saveTrip(tripOrTrips)`: an array replaces the whole list; a single
      trip is merged into the first stored trip with the same id, or
      appended with an id and a creation stamp. */
  function SaveTrip(slot: Stored<Object>, arg: TripArg, uuid: string, nowIso: string): (r: Step<bool>)
    ensures arg.Many? ==> r == SaveTrips(arg.trips)
    ensures arg.One? ==> (r.result.Threw? <==> LoadTrips(slot).NotAList?)
    ensures arg.One? && LoadTrips(slot).List? ==>
      var before := LoadTrips(slot).items;
      var k := FindIndex(before, t => HasId(t, Get(arg.trip, "id")));
      r.result == Returned(true)
      && (k >= 0 ==> r.slot == Items(before[k := before[k] + arg.trip]))
      && (k == -1 ==> r.slot == Items(before + [NewTrip(arg.trip, uuid, nowIso)]))
    ensures r.result.Threw? ==> r.slot == slot
  {
    match arg
    case Many(trips) => SaveTrips(trips)
    case One(trip) =>
      match LoadTrips(slot)
      case NotAList => Step(slot, Threw)
      case List(trips) =>
        var k := FindIndex(trips, t => HasId(t, Get(trip, "id")));
        if k != -1 then SaveTrips(trips[k := trips[k] + trip])
        else SaveTrips(trips + [NewTrip(trip, uuid, nowIso)])
  }

  /** The test `removeTrip` keeps a trip by: its id is not `tripId`. */
  function OtherId(tripId: Prop): Object -> bool {
    t => !HasId(t, tripId)
  }

  /** `removeTrip(tripId)`: drops every trip with that id; `true` exactly
      when the list got shorter, and then the kept trips, in their order,
      are saved. */
  function RemoveTrip(slot: Stored<Object>, tripId: Prop): (r: Step<bool>)
    ensures r.result.Threw? <==> LoadTrips(slot).NotAList?
    ensures r.result == Returned(true) <==>
      LoadTrips(slot).List?
      && exists i :: 0 <= i < |LoadTrips(slot).items| && HasId(LoadTrips(slot).items[i], tripId)
    ensures r.result == Returned(true) ==>
      var before := LoadTrips(slot).items;
      r.slot.Items? && |r.slot.items| < |before|
      && (forall i :: 0 <= i < |r.slot.items| ==> !HasId(r.slot.items[i], tripId))
      && (forall i :: 0 <= i < |before| && !HasId(before[i], tripId) ==> before[i] in r.slot.items)
      && r.slot.items == Filter(before, OtherId(tripId))
      && SubseqOf(r.slot.items, before)
    ensures r.result != Returned(true) ==> r.slot == slot
  {
    match LoadTrips(slot)
    case NotAList => Step(slot, Threw)
    case List(trips) =>
      var kept := Filter(trips, OtherId(tripId));
      FilterShorterIff(trips, OtherId(tripId));
      assert SubseqOf(kept, trips) by {
        FilterSubseq(trips, OtherId(tripId));
      }
      if |kept| < |trips| then Step(Items(kept), Returned(true))
      else Step(slot, Returned(false))
  }

  /** The record `addTrip` appends: the caller's properties with an id, a
      creation stamp, a submission stamp and the status `submitted`. The
      two stamps come from two reads of the clock. */
  function SubmittedTrip(trip: Object, now: int, createdIso: string, submittedIso: string): (r: Object)
    ensures r.Keys == trip.Keys + {"id", "createdAt", "status", "submittedDate"}
    ensures r["createdAt"] == Str(createdIso) && r["submittedDate"] == Str(submittedIso)
    ensures r["status"] == Str("submitted")
    ensures r["id"] == Or(Get(trip, "id"), Num(now as real))
    ensures forall k :: k in trip && k !in {"id", "createdAt", "status", "submittedDate"} ==> k in r && r[k] == trip[k]
  {
    trip["id" := Or(Get(trip, "id"), Num(now as real))]["createdAt" := Str(createdIso)]
      ["status" := Str("submitted")]["submittedDate" := Str(submittedIso)]
  }

  /** `addTrip(trip)`: appends without any duplicate check and returns the
      stored record. */
  function AddTrip(slot: Stored<Object>, trip: Object, now: int, createdIso: string, submittedIso: string): (r: Step<Object>)
    ensures r.result.Threw? <==> LoadTrips(slot).NotAList?
    ensures r.result.Returned? ==>
      r.slot == Items(LoadTrips(slot).items + [r.result.value])
      && r.result.value == SubmittedTrip(trip, now, createdIso, submittedIso)
    ensures r.result.Threw? ==> r.slot == slot
  {
    match LoadTrips(slot)
    case NotAList => Step(slot, Threw)
    case List(trips) =>
      var rec := SubmittedTrip(trip, now, createdIso, submittedIso);
      Step(Items(trips + [rec]), Returned(rec))
  }

  /** `updateTripStatus(tripId, status)`: sets the status and `updatedAt` of
      the first trip with that id; the other trips and the other properties
      are untouched. */
  function UpdateTripStatus(slot: Stored<Object>, tripId: Prop, status: Value, nowIso: string): (r: Step<bool>)
    ensures r.result.Threw? <==> LoadTrips(slot).NotAList?
    ensures r.result == Returned(true) <==>
      LoadTrips(slot).List?
      && exists i :: 0 <= i < |LoadTrips(slot).items| && HasId(LoadTrips(slot).items[i], tripId)
    ensures r.result == Returned(true) ==>
      var before := LoadTrips(slot).items;
      var k := FindIndex(before, t => HasId(t, tripId));
      r.slot.Items? && |r.slot.items| == |before|
      && (forall j :: 0 <= j < |before| && j != k ==> r.slot.items[j] == before[j])
      && r.slot.items[k].Keys == before[k].Keys + {"status", "updatedAt"}
      && r.slot.items[k]["status"] == status && r.slot.items[k]["updatedAt"] == Str(nowIso)
      && (forall f :: f in before[k] && f != "status" && f != "updatedAt" ==> f in r.slot.items[k] && r.slot.items[k][f] == before[k][f])
    ensures r.result != Returned(true) ==> r.slot == slot
  {
    match LoadTrips(slot)
    case NotAList => Step(slot, Threw)
    case List(trips) =>
      var k := FindIndex(trips, t => HasId(t, tripId));
      if k != -1 then
        Step(Items(trips[k := trips[k]["status" := status]["updatedAt" := Str(nowIso)]]), Returned(true))
      else Step(slot, Returned(false))
  }

  /** `clearTrips()`: removes the entry, after which the list reads empty. */
  function ClearTrips(): (r: Stored<Object>)
    ensures LoadTrips(r) == List([])
  {
    Absent
  }

  /** After saving a trip that has a truthy id, the first stored trip with
      that id carries every property of the saved trip except the creation
      stamp, which only a new trip receives. */
  lemma {:induction false} SaveTripThenFind(slot: Stored<Object>, trip: Object, uuid: string, nowIso: string)
    requires LoadTrips(slot).List?
    requires IsTruthy(Get(trip, "id")) && Primitive(Get(trip, "id"))
    ensures var after := LoadTrips(SaveTrip(slot, One(trip), uuid, nowIso).slot).items;
      var k := FindIndex(after, t => HasId(t, Get(trip, "id")));
      0 <= k < |after|
      && forall f :: f in trip && f != "createdAt" ==> f in after[k] && after[k][f] == trip[f]
  {
    var before := LoadTrips(slot).items;
    var id := Get(trip, "id");
    var p := t => HasId(t, id);
    var k := FindIndex(before, p);
    var after := LoadTrips(SaveTrip(slot, One(trip), uuid, nowIso).slot).items;
    if k >= 0 {
      assert after == before[k := before[k] + trip];
      assert Get(after[k], "id") == id;
      assert p(after[k]);
      assert forall j :: 0 <= j < k ==> after[j] == before[j];
      assert FindIndex(after, p) == k;
    } else {
      var rec := NewTrip(trip, uuid, nowIso);
      assert after == before + [rec];
      assert Get(rec, "id") == id;
      assert p(after[|before|]);
      assert forall j :: 0 <= j < |before| ==> after[j] == before[j];
      assert FindIndex(after, p) == |before|;
    }
  }

  /** Saving the same trip twice leaves the list as saving it once, when the
      trip has a truthy primitive id and carries no creation stamp of its
      own. */
  lemma {:induction false} SaveTripIdempotent(slot: Stored<Object>, trip: Object, uuid: string, nowIso: string, uuid2: string, nowIso2: string)
    requires LoadTrips(slot).List?
    requires IsTruthy(Get(trip, "id")) && Primitive(Get(trip, "id")) && "createdAt" !in trip
    ensures var r1 := SaveTrip(slot, One(trip), uuid, nowIso);
      SaveTrip(r1.slot, One(trip), uuid2, nowIso2).slot == r1.slot
  {
    var before := LoadTrips(slot).items;
    var id := Get(trip, "id");
    var p := t => HasId(t, id);
    var k := FindIndex(before, p);
    var r1 := SaveTrip(slot, One(trip), uuid, nowIso);
    var after := r1.slot.items;
    SaveTripThenFind(slot, trip, uuid, nowIso);
    var k2 := FindIndex(after, p);
    assert after[k2] + trip == after[k2];
    assert after[k2 := after[k2] + trip] == after;
  }

  /** `addTrip` does not deduplicate: adding the same trip twice stores two
      records. */
  lemma AddTripTwiceAppendsTwice(slot: Stored<Object>, trip: Object, now: int, createdIso: string, submittedIso: string)
    requires LoadTrips(slot).List?
    ensures var r1 := AddTrip(slot, trip, now, createdIso, submittedIso);
      var r2 := AddTrip(r1.slot, trip, now, createdIso, submittedIso);
      |LoadTrips(r2.slot).items| == |LoadTrips(slot).items| + 2
  {
  }

  /** Removing a trip just added, by the id it was stored with, gives back
      the trips there were before, when none of them had that id. */
  lemma {:induction false} AddTripThenRemove(slot: Stored<Object>, trip: Object, now: int, createdIso: string, submittedIso: string)
    requires LoadTrips(slot).List?
    requires Primitive(Some(Or(Get(trip, "id"), Num(now as real))))
    requires forall i :: 0 <= i < |LoadTrips(slot).items| ==>
      !HasId(LoadTrips(slot).items[i], Some(Or(Get(trip, "id"), Num(now as real))))
    ensures var add := AddTrip(slot, trip, now, createdIso, submittedIso);
      var rm := RemoveTrip(add.slot, Get(add.result.value, "id"));
      rm.result == Returned(true) && LoadTrips(rm.slot) == LoadTrips(slot)
  {
    var before := LoadTrips(slot).items;
    var add := AddTrip(slot, trip, now, createdIso, submittedIso);
    var rec := add.result.value;
    var id := Get(rec, "id");
    assert id == Some(Or(Get(trip, "id"), Num(now as real)));
    var p := OtherId(id);
    assert !p(rec);
    FilterConcat(before, [rec], p);
    assert Filter([rec], p) == [] by {
      FilterUnfold([rec], p);
    }
    assert Filter(before, p) == before by {
      FilterShorterIff(before, p);
    }
    assert LoadTrips(add.slot).items == before + [rec];
    assert HasId(LoadTrips(add.slot).items[|before|], id);
  }
}

=== FILE: wrappers.dfy ===
/** The optional-value datatype the rest of the model uses for JavaScript's
    `null`/`undefined` results and for absent storage entries. */
module Wrappers {

  datatype Option<+T> = None | Some(value: T) {

    /** The wrapped value, or `default` when there is none. */
    function GetOr(default: T): T {
      match this
      case Some(v) => v
      case None => default
    }
  }
}
